=== FILE: README.md ===
# MemeDesk core, modelled in Dafny

MemeDesk is a trading-journal dashboard for memecoins. A React/Next front end sits over a FastAPI/Postgres back end that records:

- coins (address and chain);
- trades opened and closed on them;
- influencer tips and the accounts that posted them;
- bubble-map rows (cluster and "other" holder shares) and intuition scores.

Token metadata is looked up on Dexscreener.

This project models the logic under the page markup and the SQL. It uses pure functions over immutable data. Network answers, database tables, clocks and identifiers are inputs.

## Layout

One module per source component:

| module | file | what it models |
|---|---|---|
| `Wrappers`, `Http`, `Text`, `Lists`, `Sorting` | `wrappers.dfy`, `text.dfy`, `lists.dfy`, `sorting.dfy` | `Option`/`Result`, the HTTP error, and string helpers: ASCII `lower`, JavaScript's `trim`, Python's `strip`, `int()` and `str()`. Also filters, dedup, and a stable insertion sort |
| `Store`, `Schemas` | `store.dfy`, `schemas.dfy` | Tables as sequences of rows; the (address, chain) key and the chain-resolution rule; SET/append semantics for owned rows; the request bodies' field bounds |
| `Base64Url`, `AdminAuth` | `base64url.dfy`, `admin_auth.dfy` | Unpadded base64url encoding and the lenient decoder Python applies to it; admin tokens (create, verify, bearer/cookie credential); the login decision |
| `TokenMeta`, `LegacyTokenMeta`, `DexPairs` | `token_meta.dfy`, `legacy_token_meta.dfy`, `dex_pairs.dfy` | The TTL cache, the per-chain retry classifier, first-chain and pair selection, and the earliest launch time; the legacy single-attempt version |
| `Wizard`, `BubblesApi`, `LegacyBubbles`, `CoinsApi`, `TradesApi`, `TipsApi`, `Keyset`, `ServerMain` | `wizard.dfy`, `bubbles_api.dfy`, `legacy_bubbles.dfy`, `coins_api.dfy`, `trades_api.dfy`, `tips_api.dfy`, `keyset.dfy`, `server_main.dfy` | The back-end endpoints as state transitions over the tables; keyset cursors and pages; refresh interval, key checks, error envelopes and request ids |
| `ApiClient`, `WarmupRoute` | `api_client.dfy`, `warmup_route.dfy` | The client's warmup-then-retry-once rule and request building; the warmup relay route |
| `DexChain`, `DexLookup`, `LogoPass`, `LogoCache` | `dex_chain.dfy`, `dex_lookup.dfy`, `logo_pass.dfy`, `logo_cache.dfy` | The chain-alias map and Dexscreener URLs; the logo lookup's entry choice; the logo-resolution pass (candidates, in-flight set, cancel flag, merge policy) and its instances |
| `Dashboard`, `TipsPage`, `TradesPage`, `CoinsPage`, `BubblesPage`, `Paging`, `CoinSummary` | `dashboard.dfy`, `tips_page.dfy`, `trades_page.dfy`, `coins_page.dfy`, `bubbles_page.dfy`, `paging.dfy`, `coin_summary.dfy` | The page logic: digit grouping, the bubble editor, latest-request-wins metadata fetch, submit validation, filters and sort, load-more, the summary maps |

### Abstract inputs

Abstract inputs are passed as parameters:

- **Time.** Timestamps are integers. The database clock is `now`. The monotonic clock is a `real`.
- **ISO dates.** Parse and print are functions `parseIso`/`printIso`. Their round trip is a precondition where it is needed.
- **Identifiers.** `uuid4().hex[:8]` is `hex8`, and serial ids are `newId`.
- **Crypto and JSON.** HMAC-SHA256 and JSON are function parameters.
- **Database.** A failed INSERT is an optional error text.
- **Network.** Each chain's answer to its k-th attempt is `respond(chain, k)`. A lookup's outcome per key is an input sequence.

Rows of a table keep insertion order, so "newest first" is the table reversed.

## Model

| member | source | states |
|---|---|---|
| Base64Url.Encode | backend/server/auth.py:15-16 | the unpadded base64url text of n bytes has (4n+2)/3 characters, every one from the URL-safe alphabet |
| Base64Url.EncodeHasNoPaddingOrDot | backend/server/auth.py:15-16 | the encoding holds no `=` and no `.` |
| Base64Url.PadLength | backend/server/auth.py:20 | the padding count is below 4 and brings the length to a multiple of 4 |
| Base64Url.Padding | backend/server/auth.py:20 | the appended `=` characters bring the length to a multiple of 4 |
| Base64Url.TableValue | backend/server/auth.py:21 | after `-` and `_` are read as `+` and `/`, both spellings of 62 and 63 decode, every other alphabet character keeps its value, and `=` is never data |
| Base64Url.Scan | backend/server/auth.py:21 | the lenient decoder (`urlsafe_b64decode` without validation) only appends to what it has emitted; at the end of the text it fails exactly when a group is left open |
| Base64Url.Decode | backend/server/auth.py:19-21 | text with a non-ASCII character is refused (the ValueError the token check catches); the empty text is no bytes |
| Base64Url.ScanEncoding | backend/server/auth.py:15-21 | the padded encoding of any bytes scans to exactly those bytes after whatever came before |
| Base64Url.DecodeEncode | backend/server/auth.py:15-21 | decoding the encoding of any byte string gives it back |
| Base64Url.DecodePaddedEncoding | backend/server/auth.py:19-21 | the encoding with its `=` padding left in place decodes to the same bytes |
| Base64Url.ScanSkips | backend/server/auth.py:21 | characters outside the decoding table, other than `=`, are passed over without changing the result |
| Base64Url.PaddedGroupExample | backend/server/auth.py:19-21 | `QQ==` decodes to the single byte 65 |
| Base64Url.StrayCharacterExample | backend/server/auth.py:19-21 | `QUJD!` decodes to the bytes of `ABC`: the stray character is skipped |
| Base64Url.StandardAlphabetExample | backend/server/auth.py:19-21 | `+/+/` and `-_-_` decode to the same three bytes |
| Base64Url.ExtraCharacterExample | backend/server/auth.py:19-21 | `QUJDR`, one data character past a multiple of four, is refused |
| AdminAuth.Sign | backend/server/auth.py:24-26 | the signature is base64url text, so it has no `.` |
| AdminAuth.CreateToken | backend/server/auth.py:29-36 | a missing or empty secret is the 500 admin_token_secret_missing; otherwise the token is the encoded `{sub, iat: now, exp: now + TTL}` claims, one dot, and the signature of the encoded claims |
| AdminAuth.TwoParts | backend/server/auth.py:42-45 | splitting at `.` succeeds exactly when the token holds one dot, and the two parts join back to the token |
| AdminAuth.TwoPartsOfJoin | backend/server/auth.py:36-45 | two dot-free parts joined by a dot split back into those parts |
| AdminAuth.VerifyToken | backend/server/auth.py:39-56 | a missing secret is the 500; a part count other than two is 401 invalid_token; an admitted token has a matching signature, and its first part's decoded payload is the object returned, with an int exp not before now; an ASCII two-part token whose signature does not match is 401 invalid_token, and so is a correctly signed one whose payload does not decode; a correctly signed ASCII token whose payload is an object is admitted or refused as expired by its exp alone; every refusal is one of the three errors |
| AdminAuth.PaddedPayload | backend/server/auth.py:19-21 | a first part that keeps its `=` padding reads the same payload as the unpadded one |
| AdminAuth.FreshTokenVerifies | backend/server/auth.py:29-56 | with JSON and UTF-8 round-tripping, a token made at `now` is admitted at every instant up to now + TTL (exp = now included) and refused as token_expired after it |
| AdminAuth.Credential | backend/server/auth.py:59-65 | a header starting with "bearer " in any case gives its trimmed remainder when that is non-empty; a bearer header whose remainder trims to nothing, a header with another scheme, or no header gives the admin_token cookie |
| AdminAuth.BearerAnyCase | backend/server/auth.py:62 | the scheme name is matched without regard to letter case |
| AdminAuth.BearerCredential | backend/server/auth.py:62-63 | "Bearer " followed by a trimmed non-empty token yields exactly that token |
| AdminAuth.RequireAdmin | backend/server/auth.py:59-68 | no credential is 401 admin_required; otherwise the verdict is that of verifying the credential |
| AdminAuth.Login | backend/server/routers/auth.py:13-20 | a missing ADMIN_PASSWORD is 500 admin_password_missing, a different password 401 invalid_password, and success carries the created token and expires_in = TTL; neither failure creates a token |
| AdminAuth.TokenIsStripped | backend/server/auth.py:63 | a token made of alphabet characters and a dot is unchanged by `strip()` |
| AdminAuth.LoginTokenAdmits | backend/server/routers/auth.py:19-20 | a token from a successful login, sent as a bearer header, is admitted by `require_admin` |
| ApiClient.ApiBase | frontend/src/lib/api.ts:1-2 | the base is never empty: the configured value when it is non-empty, otherwise `http://127.0.0.1:8000` |
| ApiClient.Attempt | frontend/src/lib/api.ts:54-67 | a non-2xx response throws `Error` with the body text, and an attempt succeeds exactly when a 2xx response's body parses |
| ApiClient.WithWarmupRetry | frontend/src/lib/api.ts:69-77 | a first success, or a first failure that is not retryable, ends the call after one request; a retryable failure is followed by one warmup and one more request whose result is the call's result |
| ApiClient.AtMostOneRetry | frontend/src/lib/api.ts:26-34 | every call makes one or two requests and at most one warmup, and a warmup sits only between the two requests, after a retryable first failure |
| ApiClient.SecondFailurePropagates | frontend/src/lib/api.ts:29-31 | when the retry fails too, its error is the call's error, after exactly three events |
| ApiClient.HttpErrorsRetriedOnlyOnFetchText | frontend/src/lib/api.ts:13-22 | a non-2xx first answer is retried exactly when its body text contains "Failed to fetch"; a parsed 2xx first answer is returned with no warmup |
| ApiClient.GetRequest | frontend/src/lib/api.ts:21 | `apiGet` sends a GET to base + path, with no body and no headers, and bypasses the HTTP cache |
| ApiClient.JsonRequest | frontend/src/lib/api.ts:53-64 | the verb defaults to GET; a body is sent exactly when the verb is neither GET nor HEAD and one is given, and then it is the stringified body; the only header is the JSON content type, never Authorization; no cache mode is set |
| WarmupRoute.StripTrailingSlashes | frontend/src/app/api/warmup/route.ts:18 | the result is a prefix of the input, what was removed is all slashes, and the result does not end in a slash |
| WarmupRoute.StripTrailingSlashesUnique | frontend/src/app/api/warmup/route.ts:18 | a slash-free-ended text followed by any run of slashes strips to that text |
| WarmupRoute.StripTrailingSlashesIdempotent | frontend/src/app/api/warmup/route.ts:18 | stripping twice is stripping once |
| WarmupRoute.Warmup | frontend/src/app/api/warmup/route.ts:3-43 | no base URL is the 500 `missing NEXT_PUBLIC_API_URL` with no backend call; otherwise one call to the stripped base + `/warmup` carrying `x-warmup-key` exactly when the key is non-empty; an answer is relayed with its status, body and content type (default application/json), except that a 204, 205 or 304 makes the response constructor throw and so ends as a 502 carrying that error's text; an abort is 502 "timeout" and any other throw 502 with its text |
| WarmupRoute.TrailingSlashesDoNotMatter | frontend/src/app/api/warmup/route.ts:18 | adding slashes to the end of the base does not change the URL called |
| LogoPass.Candidacy | frontend/src/hooks/useDexLogos.ts:37-47 | an item becomes a candidate keyed by its lower-cased address and carrying its trimmed chain, both non-empty, only when the key is neither cached nor in flight; a refused item has an empty key or chain, or a cached or in-flight key |
| LogoPass.Cap | frontend/src/hooks/useDexLogos.ts:52 | a pass admits at least one candidate, and exactly `limit` when limit ≥ 1: the check follows the push |
| LogoPass.Collect | frontend/src/hooks/useDexLogos.ts:34-53 | the scan extends what it has collected with keys that are distinct, non-empty, not cached and not in flight, and stops at the cap |
| LogoPass.CollectIsFirstDistinct | frontend/src/hooks/useDexLogos.ts:37-53 | the scan collects exactly the first cap-many distinct keys among the eligible items, each with its first eligible occurrence, in item order |
| LogoPass.CandidateChainTrimmed | frontend/src/hooks/useDexLogos.ts:42 | every candidate's chain is its own trim |
| LogoPass.Merge | frontend/src/hooks/useDexLogos.ts:61-63 | one lookup's update never removes a key and never touches another key; it writes only when not cancelled and a non-empty URL came back; under the guarded merge an existing entry stays, and under the unguarded merge it is replaced |
| LogoPass.Resolve | frontend/src/hooks/useDexLogos.ts:55-69 | lookups run once each in candidate order, every candidate's key leaves the in-flight set afterwards whether the lookup returned or threw, and no cache key is lost |
| LogoPass.ResolveInflight | frontend/src/hooks/useDexLogos.ts:56-67 | while a candidate's lookup is pending, the in-flight set is the starting set plus exactly that key |
| LogoPass.ResolveKeepsEntries | frontend/src/hooks/useDexLogos.ts:62 | under the guarded merge an existing entry keeps its value through the whole loop |
| LogoPass.ResolveWritesOnlyFound | frontend/src/hooks/useDexLogos.ts:60-63 | an entry that is new or changed after the loop came from a candidate of that key, looked up before cancellation, that returned a non-empty URL equal to the entry |
| LogoPass.ResolveUntouched | frontend/src/hooks/useDexLogos.ts:55-69 | a key that is no candidate's key is present and valued exactly as before |
| LogoPass.ResolveOutcome | frontend/src/hooks/useDexLogos.ts:59-66 | an uncached candidate's key gets the URL when its lookup, made before cancellation, found one; a thrown or empty lookup leaves the key as it was, so it stays eligible on a later pass |
| LogoPass.CancelledResolveWritesNothing | frontend/src/hooks/useDexLogos.ts:61-75 | once the cancel flag is set, no lookup of the pass writes to the cache |
| LogoPass.PoliciesAgreeOnFreshKeys | frontend/src/app/tips/page.tsx:399-402 | on candidates whose keys are all uncached, the guarded and the unguarded merge give the same pass |
| LogoPass.OverwriteReplacesEntry | frontend/src/app/tips/page.tsx:399-402 | the unguarded merge replaces an existing entry where the guarded one keeps it |
| LogoPass.Pass | frontend/src/hooks/useDexLogos.ts:33-70 | a whole pass makes at most cap-many lookups, never removes a cache key, and leaves the in-flight set as it found it |
| LogoPass.PassLookups | frontend/src/hooks/useDexLogos.ts:37-60 | the lookups of a pass are exactly the first cap-many distinct eligible candidates, in item order |
| LogoPass.PassKeepsEntries | frontend/src/hooks/useDexLogos.ts:62 | an entry present before a pass has the same value after it |
| LogoPass.PassQueries | frontend/src/hooks/useDexLogos.ts:38-50 | the keys looked up are pairwise distinct, and each is non-empty, uncached and not in flight at the start of the pass, with a non-empty trimmed chain |
| LogoPass.UseDexLogosPass | frontend/src/hooks/useDexLogos.ts:13-80 | with the default limit a pass makes at most 40 lookups; existing entries keep their values and the in-flight set is restored |
| LogoPass.ScanItems | frontend/src/hooks/useLogoCache.ts:15-20 | each row becomes one item, in row order, carrying the address and chain the page derives for it |
| LogoCache.RowItems | frontend/src/hooks/useLogoCache.ts:15-20 | each row becomes the item of its address and own chain, one for one |
| LogoCache.UseLogoCachePass | frontend/src/hooks/useLogoCache.ts:4-56 | at most 40 lookups per pass, each of a distinct, non-empty, uncached key not in flight with a non-empty trimmed chain; existing entries keep their values and the in-flight set is restored |
| DexLookup.PickIndex | frontend/src/services/dexscreener.ts:21-24 | the picked entry is the first whose base address matches ignoring case, or entry 0 when none matches |
| DexLookup.ImageOf | frontend/src/services/dexscreener.ts:26-28 | an image is returned exactly when `imageUrl` is present and not blank, and it is the trimmed URL |
| DexLookup.FetchDexLogo | frontend/src/services/dexscreener.ts:3-29 | an unmapped chain returns null with no request; otherwise exactly one request to `tokens/v1/<slug>/<address>`; a network failure or a malformed body on a 2xx throws; a non-2xx status, a body that is not an array or an empty array returns null; a non-empty array returns the picked entry's trimmed image URL; a returned URL is non-empty and trimmed |
| DexLookup.Outcome | frontend/src/services/dexscreener.ts:11-28 | one response decides the lookup: it throws exactly on a network failure or a malformed 2xx body, is null on a non-2xx status, a non-array or an empty array, and otherwise returns the picked entry's image |
| DexLookup.MatchingEntryWins | frontend/src/services/dexscreener.ts:21-28 | for a 2xx array response where entry k is the first whose address matches, case ignored, the result is entry k's image |
| DexLookup.ViaSlug | frontend/src/services/dexscreener.ts:7-10 | a chain with a DexScreener slug is looked up exactly as that slug is |
| DexLookup.FirstEntryFallback | frontend/src/services/dexscreener.ts:23-24 | for a non-empty 2xx array response where no entry matches, the result is entry 0's image |
| DexChain.Lookup | frontend/src/utils/dex.ts:4-26 | a name is found exactly when it is in the table, and then the result is its slug in the table |
| DexChain.DexChainIdFor | frontend/src/utils/dex.ts:1-27 | a slug is returned exactly when the lower-cased input is one of the alias names, and it is one of the slugs |
| DexChain.AliasCount | frontend/src/utils/dex.ts:4-24 | the table has 19 distinct alias names |
| DexChain.SlugCount | frontend/src/utils/dex.ts:4-24 | the aliases map onto 12 distinct slugs, every slug reached |
| DexChain.SlugIsOwnAlias | frontend/src/utils/dex.ts:4-24 | every slug is also an alias of itself |
| DexChain.LookupFinds | frontend/src/utils/dex.ts:4-26 | every alias looks up to the slug written beside it |
| DexChain.SomeAliases | frontend/src/utils/dex.ts:5-20 | eth→ethereum (in any case), sol→solana, matic→polygon, ftm→fantom, op→optimism |
| DexChain.NoSlugForEmpty | frontend/src/utils/dex.ts:2-26 | null and "" have no slug |
| DexChain.LeadingSpaceNoSlug | frontend/src/utils/dex.ts:2 | the input is not trimmed: a leading space gives no slug |
| DexChain.DexChainIdIdempotent | frontend/src/utils/dex.ts:4-26 | applying the map to a slug it returned gives that slug again |
| DexChain.DexChainIdCaseInsensitive | frontend/src/utils/dex.ts:2 | the result depends only on the lower-cased input |
| DexChain.EncodeUriComponent | frontend/src/utils/dex.ts:31-32 | the encoding holds only unreserved characters and `%`, and text of unreserved characters is left as it is |
| DexChain.EncodeDecodeRoundTrip | frontend/src/utils/dex.ts:31-32 | percent-decoding the encoding gives the text back |
| DexChain.EncodeInjective | frontend/src/utils/dex.ts:31-32 | two texts with the same encoding are equal |
| DexChain.DexUrlFor | frontend/src/utils/dex.ts:29-34 | a mapped chain gives `https://dexscreener.com/<slug>/<ca>` with the address unencoded; otherwise the search URL with the address percent-encoded |
| DexChain.DexUrlRecoversAddress | frontend/src/utils/dex.ts:29-34 | the address can be read back from either form of the URL: a token-page link ends with it, and decoding what follows the search prefix gives it back |
| Dashboard.OnlyDigits | frontend/src/app/page.tsx:102-104 | the result is all decimal digits and no longer than the input |
| Dashboard.OnlyDigitsKeepsDigitStrings | frontend/src/app/page.tsx:102-104 | a string of digits is kept whole |
| Dashboard.OnlyDigitsConcat | frontend/src/app/page.tsx:102-104 | the digits of a concatenation are the digits of each part, in order |
| Dashboard.OnlyDigitsNone | frontend/src/app/page.tsx:102-104 | a string with no digit gives "" |
| Dashboard.FmtDots | frontend/src/app/page.tsx:106-110 | the output is "" exactly when the input has no digit |
| Dashboard.FmtDotsDigits | frontend/src/app/page.tsx:106-110 | removing the dots from the output gives the input's digits, and a non-empty output neither starts nor ends with a dot |
| Dashboard.InsertDotsSplit | frontend/src/app/page.tsx:109 | a dot precedes the last group of three digits, and the digits before it are grouped the same way |
| Dashboard.InsertDotsGroupsThrees | frontend/src/app/page.tsx:109 | the grouping equals an independent right-to-left grouping in threes |
| Dashboard.ShortNoDots | frontend/src/app/page.tsx:109 | three digits or fewer get no dot |
| Dashboard.NumFromDots | frontend/src/app/page.tsx:112-117 | no digits gives null; a value is the (non-negative) number the digits spell |
| Dashboard.NumFromDotsRoundTrip | frontend/src/app/page.tsx:106-117 | reading back a formatted value gives what reading the original gives |
| Dashboard.NumFromDotsDefined | frontend/src/app/page.tsx:112-117 | input with digits whose value is a finite double reads as that value |
| Dashboard.WithoutRank | frontend/src/app/page.tsx:255-259 | the rows kept are exactly those of another rank, each as many times as it occurred |
| Dashboard.AddRow | frontend/src/app/page.tsx:251-275 | a missing or non-positive rank, or a missing or negative pct, leaves the list unchanged; otherwise the result is sorted by rank and holds, with their multiplicities, exactly the rows of other ranks plus the new row once, so unique ranks stay unique |
| Dashboard.StartFetch | frontend/src/app/page.tsx:480-492 | a blank input starts nothing; otherwise the input is trimmed, the request counter goes up by one, loading starts, the error clears, and the request is for the lower-cased, encoded address |
| Dashboard.Complete | frontend/src/app/page.tsx:498-528 | a completion that is not the latest changes nothing; the latest one stops loading and sets either the metadata and name fields or the error |
| Dashboard.EditCa | frontend/src/app/page.tsx:886-897 | editing the address bumps the counter, stops loading and clears the metadata and manual fields |
| Dashboard.StaleCompletionIgnored | frontend/src/app/page.tsx:500-527 | an older request's completion leaves the form as it is |
| Dashboard.LatestFetchWins | frontend/src/app/page.tsx:489-527 | of two requests, the second one's result ends on screen whichever completes first |
| Dashboard.EditInvalidatesFetch | frontend/src/app/page.tsx:887-897 | after an edit, the pending request's completion is ignored and loading is off |
| Dashboard.DraftOf | frontend/src/app/page.tsx:531-539 | the draft's address is the trimmed, lower-cased input, the chain is never empty, and a name is trimmed and non-empty |
| Dashboard.NullIfEmpty | frontend/src/app/page.tsx:534-535 | "" becomes null and any other text is kept |
| Dashboard.SubmitDex | frontend/src/app/page.tsx:556-573 | a request goes to `/wizard/dex_add` exactly when the address is non-empty and the entry mcap reads as a positive number; an empty address is the "CA boş olamaz" error |
| Dashboard.SubmitInfluencer | frontend/src/app/page.tsx:594-605 | a request goes to `/wizard/influencer_add` exactly when the address, the trimmed handle and the post date are non-empty and the post mcap is positive; otherwise an error and no request |
| Dashboard.SubmitClose | frontend/src/app/page.tsx:634-642 | without a trade id nothing happens; a request goes to `/trades/close` exactly when the exit mcap is positive |
| Dashboard.FormattingKeepsSubmit | frontend/src/app/page.tsx:556-559 | formatting the mcap field with dots does not change the submit decision |
| Dashboard.Sanitize | frontend/src/app/page.tsx:791 | the result holds only `[A-Za-z0-9_-]`, is no longer than the input, and is empty only for empty input |
| Dashboard.SanitizeSafe | frontend/src/app/page.tsx:791 | safe text is left as it is |
| Dashboard.SanitizeIdempotent | frontend/src/app/page.tsx:791 | sanitising twice is sanitising once |
| Dashboard.SanitizeRunsCollapse | frontend/src/app/page.tsx:791 | a run of unsafe characters becomes a single `_` |
| Dashboard.SnapshotFilename | frontend/src/app/page.tsx:791-792 | a blank address gives `snapshot.json`; otherwise `snapshot_<s>.json` with s the sanitised trimmed address |
| Dashboard.CoinChain | frontend/src/app/page.tsx:686-702 | the chain found is that of a coin with exactly this address; no such coin gives none |
| Dashboard.Preview | frontend/src/app/page.tsx:663-668 | the preview is the first three rows, or all when fewer |
| Dashboard.TradeItems | frontend/src/app/page.tsx:683-687 | a trade's chain is its own when present, else the first coin with its address |
| Dashboard.TipItems | frontend/src/app/page.tsx:699-703 | a tip's chain comes from the coins only |
| Dashboard.DashboardLogoPass | frontend/src/app/page.tsx:663-722 | at most 3 trades and 3 tips are scanned, so at most 6 lookups, of distinct, non-empty, uncached keys not in flight; existing entries keep their values and the in-flight set is restored |
| Dashboard.TipChainFromCoinsOnly | frontend/src/app/page.tsx:699-703 | a tip whose address has no coin is skipped even when the tip carries a chain |
| Dashboard.UncoveredTipNoCandidate | frontend/src/app/page.tsx:699-703 | a tip whose address has no coin row yields no lookup candidate |
| TipsPage.ToggleSort | frontend/src/app/tips/page.tsx:305-312 | the chosen key becomes the sort key; a new key starts descending and the current key flips direction |
| TipsPage.ToggleTwice | frontend/src/app/tips/page.tsx:305-312 | toggling the current key twice restores the direction |
| Wrappers.MapGet | frontend/src/app/tips/page.tsx:332 | a lookup finds a value exactly when the key is in the map, and it is that key's value |
| TipsPage.GetNum | frontend/src/app/tips/page.tsx:340-341 | a missing number sorts as minus infinity, and only a missing one does |
| TipsPage.TipLe | frontend/src/app/tips/page.tsx:343-362 | the comparator orders by the lower-cased coin name or by the chosen number, and descending is the reversed comparison |
| TipsPage.TipLeTotal | frontend/src/app/tips/page.tsx:343-362 | for every key and direction the comparator is a total preorder, so the sort is well defined |
| TipsPage.Filtered | frontend/src/app/tips/page.tsx:325-366 | the result is a permutation of the tips that pass the platform filter and the search, sorted by the comparator, and tips the comparator ranks level keep their loaded order |
| Sorting.InsertClass | frontend/src/app/tips/page.tsx:343-363 | inserting an element puts it ahead of every element the order ranks level with it |
| Sorting.SortByStable | frontend/src/app/tips/page.tsx:343-363 | the sort is stable: within every class of level elements the output keeps the input order |
| TipsPage.NullsLastDescending | frontend/src/app/tips/page.tsx:340-362 | sorted descending by peak, every tip with a peak comes before every tip without one |
| TipsPage.StrLeTotal | frontend/src/app/tips/page.tsx:349 | the string order standing in for the collation is a total preorder |
| TipsPage.Platforms | frontend/src/app/tips/page.tsx:299-303 | the list holds every tip's platform and nothing else, strictly ascending, so without repeats |
| TipsPage.UpdateBodyOf | frontend/src/app/tips/page.tsx:430-450 | a non-blank peak that is not a finite number >= 0 is the "Peak MCAP geçersiz." error, and with an acceptable peak such a trough is the "Trough MCAP geçersiz." error; when both are blank or acceptable and at least one field is given, a body is sent, holding peak and trough exactly when non-blank and rug_flag exactly when "0" or "1"; nothing given is the "En az 1 alan gir." error |
| TipsPage.LoadMorePath | frontend/src/app/tips/page.tsx:276-278 | the next-page request carries the encoded cursor, plus the trimmed search only when it is non-blank |
| TipsPage.LogoItems | frontend/src/app/tips/page.tsx:377-381 | a tip's chain is its own when present, else the summary map's chain for its lower-cased address |
| TipsPage.TipsLogoPass | frontend/src/app/tips/page.tsx:368-415 | the unguarded pass makes at most 40 lookups, restores the in-flight set, keeps existing entries, and equals the guarded pass, since no candidate is cached when it starts |
| TradesPage.Filtered | frontend/src/app/trades/page.tsx:350-366 | the result holds exactly the loaded trades in scope (open meaning no exit time) whose lower-cased name, symbol, address and trade id text contains the trimmed lower-cased search; scope all with a blank search gives every trade |
| TradesPage.FilteredConcat | frontend/src/app/trades/page.tsx:352 | filtering distributes over concatenation, so the loaded order of the trades is kept |
| TradesPage.FilteredOne | frontend/src/app/trades/page.tsx:352-365 | a single trade is kept exactly when it is in scope and matches the search |
| TradesPage.MatchesTradeId | frontend/src/app/trades/page.tsx:362-363 | a trade whose id contains the search term passes it |
| TradesPage.LocalCountsAddUp | frontend/src/app/trades/page.tsx:416-423 | the local open count plus the local closed count is the number of loaded trades |
| TradesPage.DisplayCounts | frontend/src/app/trades/page.tsx:424-426 | each displayed count is the server's when present, else the local one, and without server counts open + closed = total |
| TradesPage.RoundJs | frontend/src/app/trades/page.tsx:432 | the rounded value is within one half of the input, halves rounding up |
| TradesPage.ExitPrefill | frontend/src/app/trades/page.tsx:430-434 | the prefill is "" exactly when there is no entry mcap, and otherwise reads back as the rounded entry mcap |
| TradesPage.OpenCloseModal | frontend/src/app/trades/page.tsx:428-437 | the close form takes the trade id, the prefilled exit mcap and an empty reason |
| TradesPage.TrimmedOrNull | frontend/src/app/trades/page.tsx:461 | a blank reason is sent as null, any other as its trim |
| TradesPage.SubmitExit | frontend/src/app/trades/page.tsx:446-490 | without a trade id nothing happens; a request is sent exactly when the exit mcap is a finite positive number, else the error and no request |
| TradesPage.SubmitClose | frontend/src/app/trades/page.tsx:446-462 | a close is posted to `/trades/<encoded id>/close` exactly when the exit mcap is positive |
| TradesPage.SubmitEdit | frontend/src/app/trades/page.tsx:476-491 | an edit is sent to `/trades/<encoded id>` exactly when the exit mcap is positive |
| TradesPage.PrefillCloses | frontend/src/app/trades/page.tsx:428-462 | a close form opened on a trade with an entry mcap of at least 0.5 submits the rounded entry mcap |
| TradesPage.LoadMorePath | frontend/src/app/trades/page.tsx:325-327 | the next-page request carries the scope and the encoded cursor, plus the encoded trimmed search only when it is non-blank |
| TradesPage.EncodedParamClosed | frontend/src/app/trades/page.tsx:325-327 | an encoded parameter holds no `&`, `=` or `#`, so it cannot break the query string |
| TradesPage.LogoItems | frontend/src/app/trades/page.tsx:376-380 | a trade's chain is its own when present, else the summary map's chain |
| TradesPage.TradesLogoPass | frontend/src/app/trades/page.tsx:368-414 | at most 40 lookups, of non-empty, uncached keys not in flight; existing entries keep their values and the in-flight set is restored |
| TradesPage.RowChainWins | frontend/src/app/trades/page.tsx:380 | a trade's own chain wins over the map |
| CoinsPage.Filtered | frontend/src/app/coins/page.tsx:185-195 | a blank query returns the list unchanged; otherwise exactly the coins whose lower-cased address, name or symbol contains the query |
| CoinsPage.FilteredConcat | frontend/src/app/coins/page.tsx:188-194 | filtering distributes over concatenation, so the order of the coins is kept |
| CoinsPage.OwnAddressMatches | frontend/src/app/coins/page.tsx:188-194 | searching for a coin's own address finds it |
| CoinsPage.LogoItems | frontend/src/app/coins/page.tsx:205-210 | each coin is scanned with its address and its own chain |
| CoinsPage.CoinsLogoPass | frontend/src/app/coins/page.tsx:197-236 | at most 40 lookups, of non-empty, uncached keys not in flight; existing entries keep their values and the in-flight set is restored |
| CoinsPage.EvictLogo | frontend/src/app/coins/page.tsx:387-393 | an image error removes exactly that key and leaves every other entry as it was |
| CoinsPage.EvictedKeyEligible | frontend/src/app/coins/page.tsx:387-393 | an evicted coin with a chain is a candidate again on the next pass |
| CoinsPage.DeleteCoin | frontend/src/app/coins/page.tsx:283-292 | a request to `/coins/<encoded address>` is made exactly when the user confirms |
| BubblesPage.MaxRank | frontend/src/app/bubbles/page.tsx:19 | the maximum is one of the ranks and no rank exceeds it |
| BubblesPage.NextRank | frontend/src/app/bubbles/page.tsx:17-20 | an empty list gives 1; otherwise some rank + 1, above every rank |
| BubblesPage.AddBlank | frontend/src/app/bubbles/page.tsx:73-78 | adding a row keeps the list and appends a row with pct 0 whose rank is above all others |
| BubblesPage.AddBlankKeepsUnique | frontend/src/app/bubbles/page.tsx:73-78 | adding a row keeps ranks unique |
| BubblesPage.SortedView | frontend/src/app/bubbles/page.tsx:31-38 | the table shows a permutation of the rows sorted by rank |
| BubblesPage.SetField | frontend/src/app/bubbles/page.tsx:92-98 | setting a field changes only that field |
| BubblesPage.UpdateRowAsWritten | frontend/src/app/bubbles/page.tsx:80-102 | a NaN input changes nothing; otherwise only the named field of the element at the index in the unsorted array changes |
| BubblesPage.RemoveRowAsWritten | frontend/src/app/bubbles/page.tsx:104-107 | removing takes out exactly the element at the index of the unsorted array |
| BubblesPage.UpdateShown | frontend/src/app/bubbles/page.tsx:193-209 | the edit lands on the row shown at that index of the sorted table |
| BubblesPage.RemoveShown | frontend/src/app/bubbles/page.tsx:193-214 | the removal takes out the row shown at that index of the sorted table |
| BubblesPage.AsWrittenAgreesWhenSorted | frontend/src/app/bubbles/page.tsx:193-212 | when the array is already in rank order, editing and removing by index act on the row shown |
| BubblesPage.AsWrittenEditsWrongRow | frontend/src/app/bubbles/page.tsx:193-212 | with rows of rank 2 then 1, editing or removing the first row shown (rank 1) changes the rank-2 row instead |
| BubblesPage.CheckDup | frontend/src/app/bubbles/page.tsx:116-123 | the check reports a duplicate exactly when two rows share a rank |
| BubblesPage.Save | frontend/src/app/bubbles/page.tsx:109-132 | no active coin, then a repeated rank in either list, is an error before any request; otherwise the request holds the active address and both lists in their current order |
| BubblesPage.Refresh | frontend/src/app/bubbles/page.tsx:40-71 | a context failure sets the error and keeps the rows; no active coin empties both lists; rows shown are the snapshot's only when it is for the active coin |
| Paging.CursorOf | frontend/src/app/tips/page.tsx:281 | an empty next cursor is stored as none |
| Paging.StartLoadMore | frontend/src/app/tips/page.tsx:271-274 | without a cursor or while loading nothing happens; otherwise loading starts, the error clears and the cursor is requested |
| Paging.FinishLoadMore | frontend/src/app/tips/page.tsx:275-287 | loading stops; a page is appended after the items already loaded and its cursor and counts replace the old ones; a failure keeps the items and sets the error |
| Paging.NoOverlappingLoads | frontend/src/app/trades/page.tsx:320-322 | a second load-more while one is pending requests nothing |
| Paging.TwoPagesAppend | frontend/src/app/trades/page.tsx:320-333 | two loads in a row request the first and then the returned cursor, and the items are the old ones followed by both pages |
| CoinSummary.Offers | frontend/src/hooks/useListWithCoinSummary.ts:56-59 | each summary row offers its lower-cased address and its trimmed symbol or chain |
| CoinSummary.Fold | frontend/src/hooks/useListWithCoinSummary.ts:61-64 | every key of the map and every value is non-empty |
| CoinSummary.FoldHas | frontend/src/hooks/useListWithCoinSummary.ts:61-64 | a key is in the map exactly when some row writes it |
| CoinSummary.FoldLastWins | frontend/src/hooks/useListWithCoinSummary.ts:63-64 | the value kept for a key is that of the last row writing it |
| CoinSummary.BuildMap | frontend/src/hooks/useListWithCoinSummary.ts:53-65 | every key is a non-empty address and every value a non-empty trimmed symbol or chain |
| CoinSummary.BuildMapLastWins | frontend/src/hooks/useListWithCoinSummary.ts:56-65 | a key is present exactly when some row gives it, and holds the last such row's value |
| CoinSummary.BuildMapKeysLower | frontend/src/hooks/useListWithCoinSummary.ts:57 | every key is lower-case |
| CoinSummary.Refresh | frontend/src/hooks/useListWithCoinSummary.ts:34-75 | loading ends on every path; a list failure sets the error and keeps the data; a summary failure alone keeps both maps and raises no error; otherwise the data and both maps are replaced |
| TokenMeta.CacheGet | backend/server/routers/dexscreener.py:36-44 | a hit needs the key with an expiry strictly after now and returns its value with the cache unchanged; a miss leaves the key absent (an expired entry is dropped); other keys are untouched |
| TokenMeta.CacheSet | backend/server/routers/dexscreener.py:27-54 | the key now holds the value with expiry now + 300 seconds; every other key is untouched |
| TokenMeta.CacheWindow | backend/server/routers/dexscreener.py:27-54 | a value set at time t is read back exactly while the clock is below t + 300, and is gone afterwards |
| TokenMeta.CacheSetIsolated | backend/server/routers/dexscreener.py:36-54 | setting one key does not change what a read of any other key returns |
| TokenMeta.CacheTestTimings | backend/tests/test_dexscreener_cache.py:15-30 | the cache test's timeline, applied to the server router's cache (the test patches `routes_dexscreener`, which has no cache):  a value is read at the moment it was set and is gone after the time-to-live has passed |
| TokenMeta.OnOk | backend/server/routers/dexscreener.py:73-82 | a 200 with unparsable JSON is the invalid_json error; a non-empty list holding objects is a find with exactly those objects; anything else is not_found |
| TokenMeta.Final | backend/server/routers/dexscreener.py:84-92 | a non-retryable answer: 404 is not_found, any other non-200 status is the HTTP-status error, whose text is "http_" followed by the code |
| TokenMeta.UnknownTextIsFallback | backend/server/routers/dexscreener.py:70-97 | of the error texts a chain check can report (request_failed, invalid_json, http_ and a code, unknown), only the fallback reads "unknown" |
| TokenMeta.CheckFrom | backend/server/routers/dexscreener.py:65-97 | from attempt k, at most 3 - k attempts are made and, when k is below 3, at least one; the result is for the chain checked |
| TokenMeta.Sleeps | backend/server/routers/dexscreener.py:94-96 | a loop of n attempts pauses n - 1 times, after each attempt but the last, the j-th pause being 0.3 * 2^j seconds |
| TokenMeta.CheckFromOutcome | backend/server/routers/dexscreener.py:65-97 | every attempt before the last was retryable (a raised request or a status in 429/500/502/503/504); a non-retryable last answer decides the result, and a retryable one means all retries were used and the last error is reported |
| TokenMeta.CheckChain | backend/server/routers/dexscreener.py:60-97 | one chain check: 1 to 3 attempts, backoff sleeps of 0.3, 0.6 seconds between them, the outcome as the first non-retryable answer or the last error after the third retryable one |
| TokenMeta.NeverUnknown | backend/server/routers/dexscreener.py:97 | the fallback error text "unknown" is never reported, because every retryable answer records an error |
| TokenMeta.FirstFound | backend/server/routers/dexscreener.py:121-125 | the index of the first chain result that is a find, or none exactly when no result is a find |
| TokenMeta.ScanChains | backend/server/routers/dexscreener.py:113-115 | one check per supported chain, in the list's order, each seeing only its own chain's answers |
| TokenMeta.FailedFilter | backend/server/routers/dexscreener.py:127 | keeping the failed results of a scan gives exactly its failures, in chain order |
| TokenMeta.AfterScan | backend/server/routers/dexscreener.py:117-171 | success only when some chain found pairs: then the metadata of the first such chain, which is cached, unless reading its base token raises (a pair before any match whose base token is not an object), which is the unhandled 500 with nothing cached; otherwise nothing is cached, and the error is 502 carrying exactly the failed checks, in chain order, when any failed, else 404 only when every chain said not found |
| TokenMeta.TokenMetaCall | backend/server/routers/dexscreener.py:100-171 | an address shorter than 3 is rejected; a live cache entry for the lower-cased address is returned without scanning; otherwise the scan's outcome |
| TokenMeta.FirstChainInOrderWins | backend/server/routers/dexscreener.py:121-125 | a scanned answer names the first supported chain, in list order, whose check found pairs |
| TokenMeta.CheckChainFoundNonEmpty | backend/server/routers/dexscreener.py:78-81 | a chain check that finds something always carries at least one pair |
| TokenMeta.ScanResultServedFromCache | backend/server/routers/dexscreener.py:106-109 | within 300 seconds of a successful scan, a repeated request for the same address gets the same answer from the cache without scanning, whatever the network would now say |
| LegacyTokenMeta.CheckChain | backend/routes_dexscreener.py:29-43 | a chain is found only on a 200 whose body is a non-empty list holding objects, and then carries exactly those objects; every other answer, including a failed request, is none |
| LegacyTokenMeta.FirstSome | backend/routes_dexscreener.py:62-65 | the index of the first chain that found pairs, or none exactly when none did |
| LegacyTokenMeta.LegacyScan | backend/routes_dexscreener.py:54-56 | one single-attempt check per supported chain, in order |
| LegacyTokenMeta.LegacyTokenMeta | backend/routes_dexscreener.py:45-99 | a short address is 422; otherwise success only when some chain found pairs, with the metadata of the first such chain, or Starlette's plain 500 when reading its base token raises; no chain with pairs is the 404 |
| LegacyTokenMeta.CleanChainAgrees | backend/routes_dexscreener.py:29-43 | when a chain's first answer is a clean 404 or a 200 with a list, the single-attempt check and the retrying check find the same pairs |
| LegacyTokenMeta.FirstAgrees | backend/routes_dexscreener.py:62-65 | two scans that agree chain by chain on finding something pick the same first chain |
| LegacyTokenMeta.AgreesOnCleanAnswers | backend/routes_dexscreener.py:45-99 | when every chain answers cleanly, the legacy endpoint and the current one without a cache give the same metadata, or both fail, and one raises on a base token exactly when the other does |
| DexPairs.DictPairs | backend/server/routers/dexscreener.py:79 | keeps exactly the objects of the list, in order, and is empty only when no item is an object |
| DexPairs.ChoosePair | backend/server/routers/dexscreener.py:141-149 | the first pair whose base token address, lower-cased, equals the address; the first pair when none matches; none (the scan raises) exactly when a pair whose base token is present but not an object, such as null, comes before any match |
| DexPairs.CreatedMs | backend/server/routers/dexscreener.py:157-159 | a creation time counts only when it is a positive number, truncated to an integer |
| DexPairs.CreatedList | backend/server/routers/dexscreener.py:155-159 | exactly the usable creation times of the pairs |
| DexPairs.MinOf | backend/server/routers/dexscreener.py:161 | the minimum: a member no greater than any element |
| DexPairs.LaunchMs | backend/server/routers/dexscreener.py:155-161 | the earliest usable creation time among the pairs, or none exactly when no pair has one |
| DexPairs.MetaFrom | backend/server/routers/dexscreener.py:141-169 | none (the request raises) exactly when the pair scan raises; otherwise the name and symbol come from the chosen pair's base token, the launch time is the earliest creation time in ISO form when there is one, and the pair count and chain are reported |
| DexPairs.MatchingPairWins | backend/server/routers/dexscreener.py:142-146 | a matching pair at the head is the one chosen |
| DexPairs.NonObjectHeadRaises | backend/server/routers/dexscreener.py:142-153 | a head pair whose base token is null or another non-object makes both the scan and the metadata raise |
| ServerMain.ParseRefreshInterval | backend/server/main.py:29-53 | a setting that `int()` refuses gives 600; an integer gives itself, clamped below at 0 |
| ServerMain.SeparatorSettingFallsBack | backend/server/main.py:49-53 | a setting "5" followed by the separator U+001C is refused by `int()`, so the interval is 600 |
| ServerMain.NonAsciiSpaceSettingReads | backend/server/main.py:49-53 | a setting "5" followed by U+0085 is read as 5, that character being whitespace to `int()` |
| ServerMain.RefreshIntervalRoundTrip | backend/server/main.py:49-53 | an integer written out in decimal parses back to itself, or to 0 when negative |
| ServerMain.DefaultIntervalIs600 | backend/server/main.py:29 | with no setting the interval is 600 seconds |
| ServerMain.RefreshRuns | backend/server/main.py:88-95 | a non-positive interval runs nothing; otherwise the loop refreshes once per wait until the first wait that sees the stop signal |
| ServerMain.StartsRefreshThread | backend/server/main.py:185-186 | the refresh thread starts exactly when the parsed interval is non-zero, and when it does not, no refresh would ever run |
| ServerMain.KeyCheck | backend/server/main.py:158-175 | the 401 happens exactly when a non-empty key is configured and the header differs from it |
| ServerMain.KeyCheckAcceptsKey | backend/server/main.py:161-174 | the configured key is always accepted, and with no key configured every request passes |
| ServerMain.RefreshAccountsSummary | backend/server/main.py:56-85 | the refresh succeeds exactly when the advisory lock is taken and the view exists; a held lock is 409 refresh_in_progress, a missing view 404 |
| ServerMain.RefreshEndpoint | backend/server/main.py:172-180 | a bad key is 401; otherwise success exactly when the refresh succeeds, and failures carry 404 or 409 |
| ServerMain.RequestId | backend/server/main.py:100 | a non-empty x-request-id header is used as given; otherwise the generated id |
| ServerMain.ErrorResponseFor | backend/server/main.py:117-156 | an HTTP error keeps its status and detail under code http_error; a validation failure is 422 with the error list; anything else is 500 internal_error; the request id is in the payload and echoed as a header only when non-empty |
| ServerMain.ErrorCarriesRequestId | backend/server/main.py:98-156 | every error response carries the request id the middleware chose, in the body and the header, and it is the client's own when one was sent |
| Wizard.MergeSourceType | backend/server/routers/wizard.py:60-65 | no prior source type takes the new one, the same one stays, and two different ones become "both" |
| Wizard.MergeIsUnion | backend/server/routers/wizard.py:60-65 | over dex/influencer/both, merging a source is the union of the kinds of source seen |
| Wizard.MergeIdempotent | backend/server/routers/wizard.py:60-65 | merging the same source a second time changes nothing |
| Wizard.BothAbsorbs | backend/server/routers/wizard.py:60-65 | a coin marked "both" stays "both" whatever is added |
| Wizard.NormalizeChain | backend/server/routers/wizard.py:86-89 | the chain is stripped of Python whitespace (the separators U+001C to U+001F included) and lower-cased, and an empty or "unknown" chain becomes "solana"; the result is never empty or "unknown" |
| Wizard.NormalizeChainIdempotent | backend/server/routers/wizard.py:86-89 | normalising a normalised chain gives it back |
| Wizard.UpsertCoin | backend/server/routers/wizard.py:75-129 | a new (address, chain) key is appended with name defaulting to "Unknown" and the new source type; an existing key keeps its place and takes each non-empty new name, symbol and launch time over the old, with the merged source type; every other row is untouched and keys stay unique |
| Wizard.UpsertIdempotent | backend/server/routers/wizard.py:75-129 | upserting the same coin twice leaves the table as one upsert left it |
| Wizard.SetBubbles | backend/server/routers/wizard.py:132-182 | the item's cluster and other rows become exactly the payload's; scores and every other item's rows are untouched |
| Wizard.InsertScore | backend/server/routers/wizard.py:151-197 | no score leaves everything alone; a score is appended to the item's scores only |
| Wizard.DexAddCall | backend/server/routers/wizard.py:200-251 | a refused admin check (auth.py:39-68) answers with its own error and one that raises answers 500 "internal_error"; an admitted call with a body outside the declared bounds is 422; on success the coin is upserted as "dex", one open trade "trade_" + the 8 hex digits is appended on the upserted coin's chain, its bubbles are exactly the payload's and its score is added when given |
| Wizard.UpsertAccount | backend/server/routers/wizard.py:271-280 | an existing (platform, handle) keeps the table and returns its id; otherwise a new account with the new id is appended; either way the returned id names an account with that platform and handle |
| Wizard.InfluencerAddCall | backend/server/routers/wizard.py:254-310 | a refused admin check (auth.py:39-68) answers with its own error and one that raises answers 500 "internal_error"; an admitted call with a body outside the bounds is 422; on success the coin is upserted as "influencer", the account upserted, one tip appended on the coin's chain for that account, its bubbles set to the payload's, and the scores are unchanged without a score and otherwise gain exactly that score as the new tip's last row |
| Store.ResolveChain | backend/server/routers/coins.py:110-143 | a named chain resolves exactly when that (address, chain) exists, else 404; with no chain, a single row on the address gives its chain, no row is 404 and rows on two chains are 409 |
| Store.ConflictMeansTwoChains | backend/server/routers/coins.py:129-142 | with unique keys, the 409 means the address really is on two different chains |
| Store.ResolvedChainResolves | backend/server/routers/coins.py:112-143 | naming the chain a bare lookup found resolves to the same chain |
| Store.FindCoin | backend/server/routers/coins.py:116-127 | the index of the row with that address and chain, or none exactly when no row has the key |
| Store.DropOwner | backend/server/routers/coins.py:230-234 | deleting a key's rows leaves none for it and every other key's rows as they were |
| Store.ReplaceRows | backend/server/routers/bubbles.py:39-53 | delete-then-insert: the key's rows become exactly the new ones, in order, and other keys are untouched |
| Store.ReplaceRowsIdempotent | backend/server/routers/bubbles.py:39-53 | setting the same rows twice is the same as setting them once |
| Store.AppendRows | backend/server/routers/wizard.py:139-148 | inserting rows for a key appends them after its existing rows and touches no other key |
| Store.HasDuplicateRank | backend/server/routers/bubbles.py:11-16 | true exactly when two rows share a rank |
| Store.ByRank | backend/server/routers/bubbles.py:87-97 | the same rows, as a multiset, in ascending rank order |
| Store.AddExtras | backend/routes_tips.py:103-122 | bubbles and a score given with a new item are appended to that item's rows; nothing is written for what is absent, and no other item changes |
| Store.DropExtras | backend/server/routers/trades.py:441-444 | deleting an item removes all its cluster, other and score rows and no one else's |
| Schemas.RugFlagAsWrittenAcceptsOutOfRange | backend/schemas_tips.py:41-44 | the tip update as declared lets a rug flag of -1 or 2 through, which the schema tests expect to be refused |
| Schemas.RugFlagBound | backend/tests/test_schemas.py:16-24 | the corrected tip update accepts exactly what the declared one does, and a present rug flag only when it is 0 or 1 |
| Schemas.Rejected | backend/server/main.py:132-140 | a body is refused exactly when it breaks a declared bound, always with 422 |
| Schemas.ListedBubbles | backend/server/routers/trades.py:346-393 | an item's bubbles are none exactly when it has no cluster or other rows; otherwise both lists hold exactly its rows, each in ascending rank order |
| Schemas.LatestScore | backend/server/routers/trades.py:375-385 | an item's score is none exactly when it has no score rows; otherwise the most recently inserted one |
| Schemas.TradeCloseTradeIdOptional | backend/tests/test_schemas.py:26-30 | a close body without trade id is valid and one with a 1-character trade id is not |
| Schemas.TradeOpenChainOptional | backend/tests/test_schemas.py:32-34 | an open body is valid with or without a chain |
| Schemas.TipUpdateRugFlagValid | backend/tests/test_schemas.py:16-18 | rug flags 0 and 1 are accepted |
| Keyset.ParseCursor | backend/server/routers/trades.py:18-29 | a cursor without a comma is refused, and every refusal is the same 422 "Invalid cursor" |
| Keyset.ParsedCursorParam | backend/server/routers/trades.py:18-29 | a non-empty cursor parameter that parses to a key asks for the rows after that key |
| Keyset.ParseAtFirstComma | backend/server/routers/trades.py:19-22 | only the first comma splits; the timestamp half is everything before it and the id half may hold more commas |
| Keyset.CursorParam | backend/server/routers/trades.py:265-268 | an absent or empty cursor means the first page; any other is parsed, and a bad one is the 422 |
| Keyset.CursorRoundTrip | backend/server/routers/trades.py:18-29 | a cursor written for a row with a timestamp parses back to that row's (timestamp, id) key |
| Keyset.FormattedCursorParam | backend/server/routers/trades.py:18-29 | a printed cursor, sent back as the cursor parameter, selects the rows below its key |
| Keyset.MissingTimestampCursorRefused | backend/server/routers/trades.py:416-419 | a cursor written for a row with no timestamp has an empty first half and is refused when sent back |
| Keyset.ReplaceCharConcat | backend/server/routers/trades.py:23 | replacing a character is done piecewise over a concatenation |
| Keyset.ZuluSuffix | backend/server/routers/trades.py:22-23 | a timestamp ending in "Z" parses exactly as the same timestamp ending in "+00:00" |
| Keyset.NextCursor | backend/server/routers/trades.py:415-419 | a next cursor is given exactly when the page is full |
| Keyset.NextCursorParam | backend/server/routers/trades.py:415-419 | sending the next cursor back selects the rows after the page's last row |
| Keyset.Needle | backend/server/routers/trades.py:270-272 | a search term applies exactly when q is given and non-empty |
| Keyset.PageOf | backend/server/routers/trades.py:290-311 | at most limit rows, each from the table, meeting the filters and strictly below the cursor, newest (timestamp, id) first |
| Keyset.PageOfComplete | backend/server/routers/trades.py:290-311 | an eligible row left off the page means the page is full and its last row is not older than the left-off row |
| Keyset.NextPageOlder | backend/server/routers/trades.py:290-311 | every row of the page after a full page is strictly older than every row of the page before it |
| Keyset.NothingSkipped | backend/server/routers/trades.py:290-311 | with distinct keys, an eligible row missing from a full page is still eligible after the next cursor, so following cursors skips nothing |
| BubblesApi.SetBubbles | backend/server/routers/bubbles.py:8-63 | a row with a rank below 1 or a negative pct, then repeated cluster ranks, then repeated other ranks, then a missing address are each refused 422; the chain rule then settles the key; on success the key's rows are exactly the payload's, the coins and every other key's rows unchanged, and the counts reported |
| BubblesApi.GetBubbles | backend/server/routers/bubbles.py:66-99 | a short address is 422; the chain rule's errors pass through; on success the reply names the resolved key and holds exactly its rows, each list in ascending rank order |
| BubblesApi.GetAfterSet | backend/server/routers/bubbles.py:8-99 | reading back a successful set returns the same chain and exactly the rows that were set |
| LegacyBubbles.SetBubbles | backend/routes_bubbles.py:8-47 | a row with a rank below 1 or a negative pct, then repeated ranks, then a missing address, are refused 422, an address with no coin 404; otherwise the address's rows become exactly the payload's and nothing else changes |
| LegacyBubbles.GetBubbles | backend/routes_bubbles.py:50-71 | a short address is 422 and an unknown one 404; otherwise the address's rows, each list in ascending rank order |
| LegacyBubbles.AddressIsCaseSensitive | backend/routes_bubbles.py:50-57 | the legacy read does not lower-case: an upper-case address is not found when the table stores lower-case ones |
| CoinsApi.AddCoin | backend/server/routers/coins.py:8-45 | succeeds exactly when the insert does; an error naming a coins key is 409 "Coin already exists", any other reaches the client as 500; success appends the row with the address lower-cased and the chain as sent |
| CoinsApi.DuplicateKeyIsConflict | backend/server/routers/coins.py:31-34 | Postgres's unique-violation message for the (chain, address) key becomes the 409 |
| CoinsApi.GetCoin | backend/server/routers/coins.py:108-153 | follows the chain rule for the lower-cased address and chain, and on success returns a stored row with that address and the resolved chain |
| CoinsApi.GetAfterAdd | backend/server/routers/coins.py:108-153 | a coin added under a new address is what a read of the address without a chain returns |
| CoinsApi.ListCoins | backend/server/routers/coins.py:156-205 | refused 422 outside the query bounds; every row returned is stored and matches the address and chain filters; with an address every matching row is returned whatever the limit; without one the matching rows newest first, as many as the limit allows, so every matching row left out is older than every row returned |
| CoinsApi.Newest | backend/server/routers/coins.py:156-205 | the rows on the chain read from the newest backwards, exactly `limit` of them when there are that many, each stored and on the chain |
| CoinsApi.NewestFirst | backend/server/routers/coins.py:180-191 | without an address the newest row on the chain heads the list |
| CoinsApi.DeleteCoin | backend/server/routers/coins.py:208-244 | follows the chain rule; on success the key's coin row and metrics are gone, and every other coin row and every other key's metrics stay |
| CoinsApi.MixedCaseChainNotFound | backend/server/routers/coins.py:112-127 | the chain is stored as sent but read lower-cased, so a coin added on "Solana" is not found under that chain |
| TradesApi.OpenTrade | backend/server/routers/trades.py:32-103 | a body outside the bounds is 422; the chain rule's 404/409 pass through; on success one open trade "trade_" + the 8 hex digits is appended on the resolved chain of an existing coin, the coins are unchanged, and bubbles and a score are added for the new trade only when sent |
| TradesApi.CloseTrade | backend/server/routers/trades.py:106-133 | a body id that differs from the path's is 422 "Trade ID mismatch"; otherwise success exactly when an open trade has the id, else 404 "Open trade not found"; only open trades with that id get the exit time, exit mcap and reason, and none stays open |
| TradesApi.CloseOnce | backend/server/routers/trades.py:113-130 | closing an already closed trade is the 404 |
| TradesApi.OpenedTradeCloses | backend/server/routers/trades.py:32-133 | a trade just opened can be closed by its returned trade id |
| TradesApi.UpdateTrade | backend/server/routers/trades.py:454-490 | an update with no fields is 422 "No fields to update"; otherwise success exactly when the trade exists, else 404; every field sent replaces the stored one and the rest of that trade, and every other trade, is unchanged |
| TradesApi.UpdateIdempotent | backend/server/routers/trades.py:454-490 | applying the same update twice gives the same table as once |
| TradesApi.DeleteTrade | backend/server/routers/trades.py:430-451 | success exactly when the trade exists, else 404; afterwards no trade has the id, every other trade remains, the trade's bubbles and scores are gone and other trades' are untouched |
| TradesApi.DeleteOnce | backend/server/routers/trades.py:430-451 | deleting the same trade a second time is the 404 |
| TradesApi.DeleteUndoesOpen | backend/server/routers/trades.py:430-451 | when an open succeeds, deleting the trade it returned succeeds and gives back the trades table as it was |
| TradesApi.Counts | backend/server/routers/trades.py:314-339 | the total is the open count plus the closed count |
| TradesApi.ItemOf | backend/server/routers/trades.py:386-413 | an item carries its trade row, and bubbles exactly when the trade has cluster or other rows |
| TradesApi.Listing | backend/server/routers/trades.py:290-427 | a valid query's page holds at most limit stored trades that meet the filters, scope and cursor, newest (entry time, id) first, each with its bubbles exactly when it has rows; a next cursor exactly when the page is full, printed from the last row's key; total equals open plus closed |
| TradesApi.ListTradesPaged | backend/server/routers/trades.py:252-288 | a limit outside 1..500, a bad cursor, then an unknown scope are each 422; a valid query gets the listing below its cursor |
| TradesApi.ListedRowsArePage | backend/server/routers/trades.py:290-311 | the listed trades are the keyset page of the matching trades below the cursor, and the next cursor is the page's |
| Store.AccountAt | backend/routes_tips.py:39-46 | the index of the account with that platform and handle, or none exactly when there is none |
| TipsApi.AddAccount | backend/routes_tips.py:33-54 | a body with an empty platform or handle is 422; an existing (platform, handle) returns its account and leaves the table alone; otherwise one account with the new id is appended |
| TipsApi.AddAccountIdempotent | backend/routes_tips.py:39-46 | when adding an account succeeds, adding the same account again returns the same account and table |
| TipsApi.AddTip | backend/routes_tips.py:76-127 | a body outside the bounds is 422; an address no coin has is 404 "Coin not found", then an unknown account 404 "Account not found"; otherwise one tip is appended with no chain or outcome, and its bubbles and score rows are added only when sent |
| TipsApi.TipAt | backend/routes_tips.py:155-159 | the first position of a tip with that id, or none exactly when there is none |
| TipsApi.UpdateTipAsWritten | backend/routes_tips.py:129-175 | as written: an update with no fields is 422, an unknown tip 404, and otherwise every tip sharing the target tip's address is patched |
| TipsApi.UpdateTipAsWrittenTouchesSiblings | backend/routes_tips.py:155-175 | two tips on one address: updating one also rewrites the other |
| TipsApi.UpdateTip | backend/routes_tips.py:129-175 | corrected: an update with no fields is 422, an unknown tip 404; otherwise only the tips with that id change, each sent field replacing the stored one and a rug flag stored as a boolean |
| TipsApi.UpdateTipAgreesWhenAlone | backend/routes_tips.py:155-175 | when the tip is the only one on its address, the code as written and the corrected update agree |
| TipsApi.DeleteTip | backend/routes_tips.py:426-445 | success exactly when the tip exists, else 404; afterwards no tip has the id, every other tip remains, its bubbles and scores are gone and other tips' untouched |
| TipsApi.DeleteUndoesAdd | backend/routes_tips.py:426-445 | when adding a tip under a fresh id succeeds, deleting it gives back the tips table as it was |
| TipsApi.CoinOn | backend/routes_tips.py:297-298 | a coin row on the address when some chain has one, none exactly when no coin has it |
| TipsApi.AccountOf | backend/routes_tips.py:88-90 | the account with that id, or none exactly when it does not exist |
| TipsApi.ItemOf | backend/routes_tips.py:384-415 | an item carries its tip row, and bubbles exactly when the tip has cluster or other rows |
| TipsApi.ListTipsPaged | backend/routes_tips.py:278-297 | a limit outside 1..500 or a bad cursor is 422; a valid query gets the listing below its cursor |
| TipsApi.Listing | backend/routes_tips.py:299-424 | a page holds at most limit stored tips that match the address as sent and the search and lie below the cursor, newest (post time, tip id) first, with bubbles exactly when they have rows; a next cursor exactly when the page is full, printed from the last tip's key |
| TipsApi.ListedRowsArePage | backend/routes_tips.py:299-325 | the listed tips are the keyset page of the matching tips below the cursor, and the next cursor is the page's |
| Text.Lower | backend/server/routers/trades.py:261-264 | str.lower on ASCII: same length, each letter A-Z mapped to a-z and every other character kept |
| Text.LowerIdempotent | backend/server/routers/coins.py:111-113 | lower-casing twice is lower-casing once |
| Text.Trim | frontend/src/app/tips/page.tsx:151 | JavaScript's `trim`: no leading or trailing whitespace of JavaScript's table (which includes U+FEFF but not U+001C to U+001F) is left, and the result is empty exactly when the text was all such whitespace |
| Text.Strip | backend/server/routers/trades.py:22 | Python's `str.strip`: no leading or trailing character that `str.isspace` accepts (U+001C to U+001F and U+0085 included) is left, and the result is empty exactly when the text was all such whitespace |
| Text.StripRemovesSeparator | backend/server/routers/wizard.py:87 | `strip()` removes a trailing U+001F |
| Text.TrimKeepsSeparator | frontend/src/app/tips/page.tsx:151 | JavaScript's `trim` keeps a trailing U+001F |
| Text.ParsedHasDigit | backend/server/main.py:51 | text that `int()` accepts holds a digit |
| Text.SeparatorRefusesInt | backend/server/routers/trades.py:26 | `int()` refuses text holding any of U+001C to U+001F, even at its ends, because it skips only the whitespace other than those four |
| Text.NonAsciiSpaceSkipped | backend/server/main.py:51 | `int()` skips a trailing U+0085 |
| Text.TrailingIntSpaceSkipped | backend/server/routers/trades.py:26 | whitespace that `int()` skips after a run of digits does not change what it reads |
| Text.IntRoundTrip | backend/server/routers/trades.py:26 | an id written in decimal is read back by int() as the same integer |

## Left out

- Rendering: markup, styling, modals and the loading screen are left out, as are the overlay, sidebar and layout components and the scoring and snapshot pages. They only call the API and draw the answer.
- Real I/O: `fetch`, `httpx`, the Postgres pool, `db.py` and the `app.py` wiring. Answers and row sets are inputs, and the tables are sequences of rows.
- SQL-only routers: `snapshot.py`, `routes_snapshot.py`, `routes_coins.py`, `routes_scoring.py`, `routes_context.py`, `server/routers/scoring.py` and `server/routers/context.py`. Their only logic is the chain rule, which `Store.ResolveChain` models.
- Aggregates: the `coins_summary` last-activity aggregate and the accounts win-rate view are SQL aggregates and are not modelled.
- Non-paged listings: `list_trades`, `list_tips` and `list_accounts` repeat the filters of the paged listings without a cursor.
- Missing schema files: `server/schemas/coins.py`, `server/schemas/bubbles.py` and `server/schemas/trades.py` are not part of this model.
  - The bounds of the server's trade bodies are taken from `schemas_trades.py`.
  - The `add_coin` body has only its defaults (chain and source type always present), with no length bounds.
  - The server's `BubblesSet` body is taken to be the one in `schemas_bubbles.py` plus an optional chain. Its rows carry the `BubbleRow` bounds (rank > 0, pct >= 0), and `BubblesApi.SetBubbles` checks them.
- Redundant declarations: `types.ts`, `schemas_scoring.py`, `schemas_coins.py` and `server/schemas/context.py` only repeat bounds already taken from `schemas_trades.py`.
- Concurrency: `asyncio.gather` is a list of per-chain results in the supported-chains order. `asyncio.Lock` is left out, as are the refresh thread's scheduling, the Postgres advisory lock (an input to `ServerMain.RefreshAccountsSummary`) and the interleavings of overlapping React effects beyond one pass's cancel flag.
- Timers: the client's abort timer and its clearing are left out. So is the length of the backoff sleeps: `TokenMeta.CheckChain` records the durations it would sleep but does not sleep.
- Floats, dates and locale: `Number()`, `Math.round`, `toFixed`, `Intl.NumberFormat`, `localeCompare` and the Turkish date formatters are out. Python's `datetime` parsing and printing are the `parseIso`/`printIso` parameters. Market caps are `real`, and the pnl, gain, drop and effect percentages computed by the views are not modelled.
- Non-finite numbers: NaN and Infinity are an explicit "not a number" case, not IEEE arithmetic.
- DexPairs.CreatedMs: a `pairCreatedAt` of `Infinity` (which Python's `json` accepts) makes `int()` raise OverflowError, a 500; the model counts it as no creation time.
- Text: case mapping is ASCII-only (Python's and JavaScript's Unicode case tables are out). Whitespace follows each language's table: JavaScript's for `trim`, `str.isspace` for `strip`, and for `int()` that table without U+001C to U+001F. `int()` on non-ASCII decimal digits (such as U+0665) is not modelled: such text is refused. CPython's limit of 4300 digits on `int()` is not modelled either: longer digit strings are read. Strings compare character by character, which differs from JavaScript's UTF-16 code-unit order only above U+FFFF. The ILIKE search treats `%` and `_` in the search text as ordinary characters.
- Foreign primitives: HMAC-SHA256, `json.dumps`/`json.loads`, UTF-8, `uuid4`, the clipboard and the DOM are parameters.
- JavaScript maps hold only their own keys, so inherited object-prototype keys (such as `constructor`) are not modelled.
- Cache modes: the DexScreener logo lookup asks for `cache: "force-cache"`, and the browser's HTTP cache is not modelled, so `DexLookup.FetchDexLogo` assumes every request reaches the client. Only `apiGet`'s `no-store` is recorded, on `ApiClient.GetRequest`.
- Python versions: `Base64Url.Scan` follows the non-strict `binascii.a2b_base64` of CPython, where a `=` that completes a group ends decoding; other interpreters are not modelled.
- The logo service imported by `useLogoCache.ts` is not part of this model; its lookup is a parameter of `LogoCache.UseLogoCachePass`.
- Accounts table: `_accounts_table` picks `accounts` or `social_accounts`, and `add_account` writes `accounts` while `add_tip` checks `social_accounts`. The model has a single accounts table.
- The tips listing joins coins on the address alone, so a tip whose address is on two chains is listed once per coin row. `TipsApi.CoinOn` takes the first coin row, so that duplication is not modelled.
- Deleting a coin relies on foreign-key cascades for its trades, tips, bubbles and scores. `CoinsApi.DeleteCoin` models only the metrics rows and the coin row that the handler deletes itself.
- `list_coins` with an address has no ORDER BY. The model returns table order.
- `add_coin` stores the chain exactly as sent while every read lower-cases it (see `CoinsApi.MixedCaseChainNotFound`). The source's body schema is missing, so whether it lower-cases the chain is unknown, and this is not claimed as a finding.
- TipsApi.Listing: the total count is only bounded by the number of tips. Its exact value is the count of tips matching the address and search over the left join, and that value is not stated.
- TradesApi.Counts: states only that the total is the open count plus the closed count. Which trades are counted (those with a coin row, through the inner join, matching address, chain and search whatever the scope and cursor) is left to its definition.
- TokenMeta.AfterScan: success is no longer promised whenever some chain found pairs. A pair before any match whose base token is present but not an object makes the handler raise, and that is the 500 `TokenMeta.Crashed`; the traceback itself is not modelled.
- LegacyTokenMeta.LegacyTokenMeta: its error statuses are 404, 422 and also 500, for the same raising base token. The legacy app's plain-text 500 page is modelled only by its status and text.
- DexPairs.ChoosePair: returns no index, rather than always an index, when the scan raises on a non-object base token; `DexPairs.MetaFrom` follows it.
- WarmupRoute.Warmup: only a status outside 204, 205 and 304 is relayed. For those three the text of the response constructor's error is a parameter, since it depends on the runtime.
- TokenMeta.CheckChain: the outcome of each attempt is an input, so a request that raises and a JSON body that fails to parse are modelled as attempt outcomes rather than exceptions.

## Findings

| source | as written | input that shows it | evidently intended | confidence | as-written member | corrected member |
|---|---|---|---|---|---|---|
| backend/routes_tips.py:155-175 | `update_tip` looks up the tip's address and then updates `WHERE ca = <that address>` | two tips on address "abc"; PATCH the second with a new peak | only the tip named in the path changes | high (not executed) | TipsApi.UpdateTipAsWrittenTouchesSiblings | TipsApi.UpdateTip |
| backend/schemas_tips.py:44 | `rug_flag: Optional[int]` has no bound | `TipUpdate(rug_flag=-1)` and `TipUpdate(rug_flag=2)` validate, but the tests expect a validation error | `rug_flag` is 0 or 1 when present | high (not executed) | Schemas.RugFlagAsWrittenAcceptsOutOfRange | Schemas.RugFlagBound |
| frontend/src/app/bubbles/page.tsx:193-212 | the table lists a rank-sorted copy but passes its indices to `updateRow`/`removeRow`, which index the unsorted array | clusters [rank 2, rank 1]; editing or deleting the first row shown (rank 1) | the row the user acted on changes | high (not executed) | BubblesPage.AsWrittenEditsWrongRow | BubblesPage.UpdateShown |

=== FILE: admin_auth.dfy ===
/**
  The admin token: `base64url(json(claims)) "." base64url(hmac(secret, first part))`, its
  verification, the `require_admin` dependency and the `/auth/login` endpoint.

  HMAC-SHA256, JSON and UTF-8 are not modelled; they are passed in as `Primitives`, and the
  facts the proofs need about them (JSON and UTF-8 read back what they wrote) are stated as
  `RoundTrips`.
 */
module AdminAuth {
  import opened Wrappers
  import opened Text
  import opened Http
  import opened Base64Url

  /** `ADMIN_TOKEN_TTL_SECONDS` when unset. */
  const DefaultTtl := 10800

  /** The signed claims: `{"sub": "admin", "iat": now, "exp": now + TTL}`. */
  datatype Claims = Claims(sub: string, iat: int, exp: int)

  /** What `payload.get("exp")` can see; Python counts a bool as an int. */
  datatype JsonValue = JInt(i: int) | JBool(b: bool) | JOther

  /** A parsed payload: an object (with its `exp` member, if any), or some other JSON value. */
  datatype JsonDoc = Object(exp: Option<JsonValue>) | NonObject

  /**
    The primitives the module leaves abstract: `mac` is the HMAC-SHA256 digest of a message
    under a secret, `dumps` is compact `json.dumps`, `loads` is `json.loads` (`None` is a
    decode error), `utf8` encodes text and `fromUtf8` is `bytes.decode("utf-8")` (`None` is
    a decode error).
   */
  datatype Primitives = Primitives(mac: (string, string) -> seq<byte>, dumps: Claims -> string,
                                   loads: string -> Option<JsonDoc>, utf8: string -> seq<byte>,
                                   fromUtf8: seq<byte> -> Option<string>)

  ghost predicate RoundTrips(p: Primitives) {
    && (forall c :: p.loads(p.dumps(c)) == Some(Object(Some(JInt(c.exp)))))
    && (forall t :: p.fromUtf8(p.utf8(t)) == Some(t))
  }

  /** `_sign`: the base64url of the HMAC of the encoded payload. */
  function Sign(payloadB64: string, secret: string, p: Primitives): (r: string)
    ensures forall i :: 0 <= i < |r| ==> InAlphabet(r[i])
    ensures '.' !in r
  {
    EncodeHasNoPaddingOrDot(p.mac(secret, payloadB64));
    Encode(p.mac(secret, payloadB64))
  }

  function SecretMissing(): HttpError {
    HttpError(500, "admin_token_secret_missing")
  }

  function InvalidToken(): HttpError {
    HttpError(401, "invalid_token")
  }

  function TokenExpired(): HttpError {
    HttpError(401, "token_expired")
  }

  /** `create_admin_token`: fails without a secret; otherwise payload, a dot, and signature. */
  function CreateToken(secret: Option<string>, ttl: int, now: int, p: Primitives): (r: Result<string, HttpError>)
    ensures secret.None? || secret.value == "" ==> r == Err(SecretMissing())
    ensures secret.Some? && secret.value != "" ==> r.Ok?
    ensures r.Ok? ==> exists a, b :: (r.value == a + "." + b && '.' !in a && '.' !in b
      && a == Encode(p.utf8(p.dumps(Claims("admin", now, now + ttl)))) && b == Sign(a, secret.value, p))
  {
    if secret.None? || secret.value == "" then Err(SecretMissing())
    else
      var a := Encode(p.utf8(p.dumps(Claims("admin", now, now + ttl))));
      EncodeHasNoPaddingOrDot(p.utf8(p.dumps(Claims("admin", now, now + ttl))));
      var b := Sign(a, secret.value, p);
      Ok(a + "." + b)
  }

  /** `token.split(".")` when it yields exactly two parts. */
  function TwoParts(token: string): (r: Option<(string, string)>)
    ensures r.Some? ==> token == r.value.0 + "." + r.value.1 && '.' !in r.value.0 && '.' !in r.value.1
    ensures r.None? ==> '.' !in token || exists i, j :: 0 <= i < j < |token| && token[i] == '.' && token[j] == '.'
  {
    match SplitFirst(token, '.')
    case None => None
    case Some((a, b)) =>
      if '.' in b then
        var k :| 0 <= k < |b| && b[k] == '.';
        assert token[|a|] == '.' && token[|a| + 1 + k] == '.';
        None
      else Some((a, b))
  }

  /** Joining two dot-free parts with a dot and splitting again gives the parts back. */
  lemma TwoPartsOfJoin(a: string, b: string)
    requires '.' !in a && '.' !in b
    ensures TwoParts(a + "." + b) == Some((a, b))
  {
    var t := a + "." + b;
    var (x, y) := SplitFirst(t, '.').value;
    assert x == t[..|a|] == a;
    assert y == t[|a| + 1..] == b;
  }

  /** What verification ends with; `Crashed` is an exception no handler maps (a 500). */
  datatype Verdict = Admitted(doc: JsonDoc) | Refused(error: HttpError) | Crashed

  /** Text that Python can encode as ASCII. */
  predicate AsciiText(s: string) {
    forall i :: 0 <= i < |s| ==> IsAscii(s[i])
  }

  /** `exp` passes when it is an int (bools included) not before `now`. */
  predicate ExpiryOk(exp: Option<JsonValue>, now: int) {
    match exp
    case Some(JInt(i)) => i >= now
    case Some(JBool(b)) => (if b then 1 else 0) >= now
    case _ => false
  }

  /**
    `verify_admin_token`: the secret, then the two-part shape, then the signature (signing
    encodes the first part as ASCII and comparing needs ASCII text; other text makes either
    raise), then the decode chain, then the expiry. A decoded payload that is not an object
    has no `.get` and raises.
   */
  function VerifyToken(token: string, secret: Option<string>, now: int, p: Primitives): (r: Verdict)
    ensures secret.None? || secret.value == "" ==> r == Refused(SecretMissing())
    ensures secret.Some? && secret.value != "" && TwoParts(token).None? ==> r == Refused(InvalidToken())
    ensures r.Admitted? ==>
      (TwoParts(token).Some? && secret.Some?
       && TwoParts(token).value.1 == Sign(TwoParts(token).value.0, secret.value, p)
       && Payload(TwoParts(token).value.0, p) == Some(r.doc)
       && r.doc.Object? && ExpiryOk(r.doc.exp, now))
    ensures r.Refused? ==> r.error in {SecretMissing(), InvalidToken(), TokenExpired()}
    ensures secret.Some? && secret.value != "" && TwoParts(token).Some?
      && AsciiText(TwoParts(token).value.0) && AsciiText(TwoParts(token).value.1)
      && TwoParts(token).value.1 != Sign(TwoParts(token).value.0, secret.value, p)
      ==> r == Refused(InvalidToken())
    ensures secret.Some? && secret.value != "" && TwoParts(token).Some?
      && AsciiText(TwoParts(token).value.0)
      && TwoParts(token).value.1 == Sign(TwoParts(token).value.0, secret.value, p)
      && Payload(TwoParts(token).value.0, p).None?
      ==> r == Refused(InvalidToken())
    ensures secret.Some? && secret.value != "" && TwoParts(token).Some?
      && TwoParts(token).value.1 == Sign(TwoParts(token).value.0, secret.value, p)
      && AsciiText(TwoParts(token).value.0)
      && Payload(TwoParts(token).value.0, p).Some?
      && Payload(TwoParts(token).value.0, p).value.Object?
      ==> r == (if ExpiryOk(Payload(TwoParts(token).value.0, p).value.exp, now)
                then Admitted(Payload(TwoParts(token).value.0, p).value) else Refused(TokenExpired()))
  {
    if secret.None? || secret.value == "" then Refused(SecretMissing())
    else match TwoParts(token)
      case None => Refused(InvalidToken())
      case Some((payloadB64, sig)) =>
        if !AsciiText(payloadB64) then Crashed
        else
          var expected := Sign(payloadB64, secret.value, p);
          if !AsciiText(sig) then Crashed
          else if sig != expected then Refused(InvalidToken())
          else match Payload(payloadB64, p)
            case None => Refused(InvalidToken())
            case Some(NonObject) => Crashed
            case Some(Object(exp)) =>
              if !ExpiryOk(exp, now) then Refused(TokenExpired()) else Admitted(Object(exp))
  }

  /**
    The decode chain of the first part: base64url, then UTF-8, then JSON; `None` when any
    step fails.
   */
  function Payload(payloadB64: string, p: Primitives): (r: Option<JsonDoc>)
    ensures Decode(payloadB64).None? ==> r.None?
    ensures Decode(payloadB64).Some? && p.fromUtf8(Decode(payloadB64).value).None? ==> r.None?
    ensures Decode(payloadB64).Some? && p.fromUtf8(Decode(payloadB64).value).Some? ==>
      r == p.loads(p.fromUtf8(Decode(payloadB64).value).value)
  {
    match Decode(payloadB64)
    case None => None
    case Some(bytes) =>
      match p.fromUtf8(bytes)
      case None => None
      case Some(text) => p.loads(text)
  }

  /** The first part of a token made for `claims` reads back as an object with their expiry. */
  lemma PayloadOfClaims(claims: Claims, p: Primitives)
    requires RoundTrips(p)
    ensures Payload(Encode(p.utf8(p.dumps(claims))), p) == Some(Object(Some(JInt(claims.exp))))
  {
    DecodeEncode(p.utf8(p.dumps(claims)));
    assert p.fromUtf8(p.utf8(p.dumps(claims))) == Some(p.dumps(claims));
    assert p.loads(p.dumps(claims)) == Some(Object(Some(JInt(claims.exp))));
  }

  /** A first part that keeps its `=` padding reads the same payload as the unpadded one. */
  lemma PaddedPayload(bytes: seq<byte>, p: Primitives)
    ensures Payload(Encode(bytes) + Padding(|Encode(bytes)|), p) == Payload(Encode(bytes), p)
  {
    DecodePaddedEncoding(bytes);
    DecodeEncode(bytes);
  }

  /**
    With the same secret, a token made at `now` with lifetime `ttl` is accepted exactly up to
    and including `now + ttl`, and refused as expired afterwards.
   */
  lemma FreshTokenVerifies(secret: string, ttl: int, now: int, later: int, p: Primitives)
    requires secret != "" && RoundTrips(p)
    ensures var t := CreateToken(Some(secret), ttl, now, p).value;
      && (later <= now + ttl ==> VerifyToken(t, Some(secret), later, p) == Admitted(Object(Some(JInt(now + ttl)))))
      && (later > now + ttl ==> VerifyToken(t, Some(secret), later, p) == Refused(TokenExpired()))
  {
    var claims := Claims("admin", now, now + ttl);
    var a := Encode(p.utf8(p.dumps(claims)));
    EncodeHasNoPaddingOrDot(p.utf8(p.dumps(claims)));
    var b := Sign(a, secret, p);
    assert CreateToken(Some(secret), ttl, now, p).value == a + "." + b;
    PayloadOfClaims(claims, p);
    AlphabetIsAscii(a);
    SignedTokenVerdict(a, secret, later, p, Some(JInt(now + ttl)));
    if later <= now + ttl {
      assert ExpiryOk(Some(JInt(now + ttl)), later);
    } else {
      assert !ExpiryOk(Some(JInt(now + ttl)), later);
    }
  }

  /** A correctly signed token's verdict rests on its payload's expiry alone. */
  lemma SignedTokenVerdict(a: string, secret: string, now: int, p: Primitives, exp: Option<JsonValue>)
    requires secret != "" && '.' !in a && Payload(a, p) == Some(Object(exp))
    requires forall i :: 0 <= i < |a| ==> IsAscii(a[i])
    ensures VerifyToken(a + "." + Sign(a, secret, p), Some(secret), now, p)
      == (if ExpiryOk(exp, now) then Admitted(Object(exp)) else Refused(TokenExpired()))
  {
    var b := Sign(a, secret, p);
    TwoPartsOfJoin(a, b);
    AlphabetIsAscii(b);
  }

  // ---------------------------------------------------------------------------
  // require_admin

  /**
    The credential `require_admin` uses: the rest of an `Authorization` header that starts
    with "bearer " in any letter case, trimmed; when that is absent or empty, the
    `admin_token` cookie.
   */
  function Credential(authorization: Option<string>, cookie: Option<string>): (r: Option<string>)
    ensures (authorization.Some? && IsPrefix("bearer ", Lower(authorization.value))
             && Strip(authorization.value[7..]) != "") ==> r == Some(Strip(authorization.value[7..]))
    ensures (authorization.None? || !IsPrefix("bearer ", Lower(authorization.value))) ==> r == cookie
    ensures (authorization.Some? && IsPrefix("bearer ", Lower(authorization.value))
             && Strip(authorization.value[7..]) == "") ==> r == cookie
  {
    var bearer :=
      if authorization.Some? && IsPrefix("bearer ", Lower(authorization.value))
      then Some(Strip(authorization.value[7..])) else None;
    if bearer.Some? && bearer.value != "" then bearer else cookie
  }

  /** The scheme name matches in any letter case. */
  lemma BearerAnyCase(scheme: string, rest: string, cookie: Option<string>)
    requires |scheme| == 7 && Lower(scheme) == "bearer "
    ensures Credential(Some(scheme + rest), cookie) == Credential(Some("bearer " + rest), cookie)
  {
    var h := scheme + rest;
    assert Lower(h)[..7] == Lower(scheme);
    assert h[7..] == rest;
    var g := "bearer " + rest;
    assert Lower(g)[..7] == "bearer ";
    assert g[7..] == rest;
  }

  /** Any seven-character scheme that lower-cases to "bearer " hands over the rest as the token. */
  lemma SchemeCredential(h: string, t: string, cookie: Option<string>)
    requires |h| == 7 && Lower(h) == "bearer " && t != "" && Stripped(t)
    ensures Credential(Some(h + t), cookie) == Some(t)
  {
    var s := h + t;
    assert IsPrefix("bearer ", Lower(s)) by {
      LowerConcat(h, t);
      PrefixOfJoin("bearer ", Lower(t));
    }
    assert s[7..] == t;
  }

  lemma PrefixOfJoin(p: string, x: string)
    ensures IsPrefix(p, p + x)
  {
    assert (p + x)[..|p|] == p;
  }

  lemma BearerLowered()
    ensures Lower("Bearer ") == "bearer "
  {
  }

  /** A bearer header with a non-empty, already trimmed token yields exactly that token. */
  lemma BearerCredential(t: string, cookie: Option<string>)
    requires t != "" && Stripped(t)
    ensures Credential(Some("Bearer " + t), cookie) == Some(t)
  {
    BearerLowered();
    SchemeCredential("Bearer ", t, cookie);
  }

  /** `require_admin`: no credential at all is 401 admin_required; otherwise verification decides. */
  function RequireAdmin(authorization: Option<string>, cookie: Option<string>, secret: Option<string>,
                        now: int, p: Primitives): (r: Verdict)
    ensures var c := Credential(authorization, cookie);
      && (c.None? || c.value == "" ==> r == Refused(HttpError(401, "admin_required")))
      && (c.Some? && c.value != "" ==> r == VerifyToken(c.value, secret, now, p))
  {
    var c := Credential(authorization, cookie);
    if c.None? || c.value == "" then Refused(HttpError(401, "admin_required"))
    else VerifyToken(c.value, secret, now, p)
  }

  // ---------------------------------------------------------------------------
  // /auth/login

  datatype LoginOk = LoginOk(token: string, expiresIn: int)

  /**
    `login`: no configured password is 500, a different password is 401, and only then is a
    token made; the reply carries the token and its lifetime.
   */
  function Login(adminPassword: Option<string>, password: string, secret: Option<string>, ttl: int,
                 now: int, p: Primitives): (r: Result<LoginOk, HttpError>)
    ensures adminPassword.None? || adminPassword.value == "" ==> r == Err(HttpError(500, "admin_password_missing"))
    ensures adminPassword.Some? && adminPassword.value != "" && password != adminPassword.value ==>
      r == Err(HttpError(401, "invalid_password"))
    ensures r.Ok? ==>
      (adminPassword == Some(password) && r.value.expiresIn == ttl
       && Ok(r.value.token) == CreateToken(secret, ttl, now, p))
  {
    if adminPassword.None? || adminPassword.value == "" then Err(HttpError(500, "admin_password_missing"))
    else if password != adminPassword.value then Err(HttpError(401, "invalid_password"))
    else match CreateToken(secret, ttl, now, p)
      case Err(e) => Err(e)
      case Ok(t) => Ok(LoginOk(t, ttl))
  }

  /** Alphabet characters are not whitespace, so a token is its own trim. */
  lemma TokenIsStripped(a: string, b: string)
    requires forall i :: 0 <= i < |a| ==> InAlphabet(a[i])
    requires forall i :: 0 <= i < |b| ==> InAlphabet(b[i])
    ensures Strip(a + "." + b) == a + "." + b
  {
    var t := a + "." + b;
    assert t[0] == '.' || t[0] == a[0];
    assert t[|t| - 1] == '.' || t[|t| - 1] == b[|b| - 1];
    StripNoop(t);
  }

  /** A trimmed token that verifies, sent as a bearer header, is admitted. */
  lemma BearerAdmits(t: string, secret: string, now: int, p: Primitives)
    requires t != "" && Stripped(t)
    ensures VerifyToken(t, Some(secret), now, p).Admitted? ==>
      RequireAdmin(Some("Bearer " + t), None, Some(secret), now, p).Admitted?
  {
    BearerCredential(t, None);
  }

  /** A token from a successful login is accepted by `require_admin` as a bearer credential. */
  lemma LoginTokenAdmits(adminPassword: string, secret: string, ttl: int, now: int, p: Primitives)
    requires adminPassword != "" && secret != "" && ttl >= 0 && RoundTrips(p)
    ensures var r := Login(Some(adminPassword), adminPassword, Some(secret), ttl, now, p);
      r.Ok? && RequireAdmin(Some("Bearer " + r.value.token), None, Some(secret), now, p).Admitted?
  {
    var claims := Claims("admin", now, now + ttl);
    var a := Encode(p.utf8(p.dumps(claims)));
    var b := Sign(a, secret, p);
    var t := a + "." + b;
    assert CreateToken(Some(secret), ttl, now, p) == Ok(t);
    assert Login(Some(adminPassword), adminPassword, Some(secret), ttl, now, p) == Ok(LoginOk(t, ttl));
    FreshTokenVerifies(secret, ttl, now, now, p);
    TokenIsStripped(a, b);
    BearerAdmits(t, secret, now, p);
  }
}

=== FILE: api_client.dfy ===
/**
  The browser-side API client: the base URL, the "cold backend" classification, and the
  request / warmup / retry sequence of `apiGet` and `apiJson`. Each `fetch` is an abstract
  outcome supplied per attempt.
 */
module ApiClient {
  import opened Wrappers
  import opened Text

  const DefaultBase := "http://127.0.0.1:8000"

  /** `NEXT_PUBLIC_API_URL || "http://127.0.0.1:8000"`: an unset or empty value falls back. */
  function ApiBase(env: Option<string>): (r: string)
    ensures r != ""
    ensures env.Some? && env.value != "" ==> r == env.value
    ensures env.None? || env.value == "" ==> r == DefaultBase
  {
    if env.Some? && env.value != "" then env.value else DefaultBase
  }

  /** A thrown JavaScript value: a `TypeError`, another `Error` (named), or a non-Error value. */
  datatype Thrown = TypeError(message: string) | OtherError(name: string, message: string) | NonError(text: string)

  /** `shouldRetryWarmup`: the error looks like an unreachable (cold) backend. */
  predicate ShouldRetryWarmup(e: Thrown) {
    match e
    case TypeError(_) => true
    case OtherError(_, msg) => Contains(msg, "Failed to fetch")
    case NonError(_) => false
  }

  /** What `fetch` does for one attempt: it rejects, or a response arrives. */
  datatype FetchOutcome<T> =
    | Rejected(error: Thrown)
    /** `ok` is a 2xx status; `json` is the parsed body, or the error `res.json()` throws. */
    | Responded(ok: bool, text: string, json: Result<T, Thrown>)

  /** The inner `request()`: a non-2xx response throws `Error(body text)`. */
  function Attempt<T>(f: FetchOutcome<T>): (r: Result<T, Thrown>)
    ensures f.Responded? && !f.ok ==> r == Err(OtherError("Error", f.text))
    ensures r.Ok? <==> f.Responded? && f.ok && f.json.Ok?
  {
    match f
    case Rejected(e) => Err(e)
    case Responded(ok, text, json) => if !ok then Err(OtherError("Error", text)) else json
  }

  /** The calls a client call makes, in order. */
  datatype Event = Request(attempt: nat) | Warmup

  datatype Call<T> = Call(events: seq<Event>, result: Result<T, Thrown>)

  /**
    `apiGet` / `apiJson` after the request is built: one attempt; on a retryable failure one
    warmup (whose own outcome is ignored: `warmupBackend` catches everything) and one more
    attempt, whose outcome is final. `fetch(n)` is the outcome of attempt `n`.
   */
  function WithWarmupRetry<T>(fetch: nat -> FetchOutcome<T>): (r: Call<T>)
    ensures Attempt(fetch(0)).Ok? ==> r == Call([Request(0)], Attempt(fetch(0)))
    ensures Attempt(fetch(0)).Err? && !ShouldRetryWarmup(Attempt(fetch(0)).error) ==>
      r == Call([Request(0)], Attempt(fetch(0)))
    ensures Attempt(fetch(0)).Err? && ShouldRetryWarmup(Attempt(fetch(0)).error) ==>
      r == Call([Request(0), Warmup, Request(1)], Attempt(fetch(1)))
  {
    var first := Attempt(fetch(0));
    if first.Ok? || !ShouldRetryWarmup(first.error) then Call([Request(0)], first)
    else Call([Request(0), Warmup, Request(1)], Attempt(fetch(1)))
  }

  function CountRequests(events: seq<Event>): nat {
    if |events| == 0 then 0 else (if events[0].Request? then 1 else 0) + CountRequests(events[1..])
  }

  function CountWarmups(events: seq<Event>): nat {
    if |events| == 0 then 0 else (if events[0].Warmup? then 1 else 0) + CountWarmups(events[1..])
  }

  /**
    At most two attempts and one warmup per call; a warmup sits only between two attempts, and
    only after a first failure that looked like a cold backend.
   */
  lemma {:induction false} AtMostOneRetry<T>(fetch: nat -> FetchOutcome<T>)
    ensures var c := WithWarmupRetry(fetch);
      && 1 <= CountRequests(c.events) <= 2 && CountWarmups(c.events) <= 1
      && c.events[0] == Request(0)
      && (forall i :: 0 <= i < |c.events| && c.events[i] == Warmup ==>
            0 < i < |c.events| - 1 && c.events[i - 1].Request? && c.events[i + 1].Request?
            && Attempt(fetch(0)).Err? && ShouldRetryWarmup(Attempt(fetch(0)).error))
  {
    var c := WithWarmupRetry(fetch);
    if |c.events| == 1 {
      assert CountRequests(c.events) == 1 + CountRequests([]);
      assert CountWarmups(c.events) == CountWarmups([]);
    } else {
      assert c.events == [Request(0), Warmup, Request(1)];
      assert c.events[1..] == [Warmup, Request(1)] && c.events[2..] == [Request(1)];
      assert c.events[1..][1..] == [Request(1)];
      assert CountRequests(c.events) == 2;
      assert CountWarmups(c.events) == 1;
    }
  }

  /** When every attempt fails like a cold backend, the second failure comes back as it is. */
  lemma SecondFailurePropagates<T>(fetch: nat -> FetchOutcome<T>)
    requires fetch(0).Rejected? && fetch(0).error.TypeError?
    requires fetch(1).Rejected?
    ensures WithWarmupRetry(fetch).result == Err(fetch(1).error)
    ensures |WithWarmupRetry(fetch).events| == 3
  {
  }

  /**
    A non-2xx answer is retried only when its body text mentions "Failed to fetch"; a first
    success never triggers the warmup.
   */
  lemma HttpErrorsRetriedOnlyOnFetchText<T>(fetch: nat -> FetchOutcome<T>)
    ensures fetch(0).Responded? && !fetch(0).ok ==>
      (|WithWarmupRetry(fetch).events| == 3 <==> Contains(fetch(0).text, "Failed to fetch"))
    ensures fetch(0).Responded? && fetch(0).ok && fetch(0).json.Ok? ==>
      WithWarmupRetry(fetch) == Call([Request(0)], Ok(fetch(0).json.value))
  {
  }

  // ---------------------------------------------------------------------------
  // Request shapes

  datatype Method = GET | HEAD | POST | PATCH | PUT | DELETE

  /**
    What reaches `fetch`: method, URL, headers as (name, value) pairs, the body, and whether
    the request asks for `cache: "no-store"` (bypassing the browser's HTTP cache).
   */
  datatype RequestInit = RequestInit(verb: Method, url: string, headers: seq<(string, string)>,
                                     body: Option<string>, noStore: bool)

  /** `apiGet`: a plain GET of base + path that bypasses the cache; no headers, no body. */
  function GetRequest(base: string, path: string): (r: RequestInit)
    ensures r.verb == GET && r.url == base + path && r.body.None? && r.headers == []
    ensures r.noStore
  {
    RequestInit(GET, base + path, [], None, true)
  }

  /**
    `apiJson`: the method (`verb`) defaults to GET; GET and HEAD never carry a body; other methods carry
    the JSON text of the body only when one is given. The only header is the JSON content type,
    and no cache mode is set.
   */
  function JsonRequest<B>(base: string, path: string, verb: Option<Method>, body: Option<B>,
                          stringify: B -> string): (r: RequestInit)
    ensures verb.None? ==> r.verb == GET
    ensures verb.Some? ==> r.verb == verb.value
    ensures r.url == base + path
    ensures r.body.Some? <==> r.verb != GET && r.verb != HEAD && body.Some?
    ensures r.body.Some? ==> r.body.value == stringify(body.value)
    ensures r.headers == [("Content-Type", "application/json")]
    ensures forall i :: 0 <= i < |r.headers| ==> r.headers[i].0 != "Authorization"
    ensures !r.noStore
  {
    var m := verb.GetOr(GET);
    var b := if m == GET || m == HEAD then None
             else if body.Some? then Some(stringify(body.value)) else None;
    RequestInit(m, base + path, [("Content-Type", "application/json")], b, false)
  }
}

=== FILE: base64url.dfy ===
/**
  Base64 with the URL- and filename-safe alphabet (section 5 of RFC 4648), with the `=`
  padding left off on encoding and restored before decoding, as the admin token uses it.
 */
module Base64Url {
  import opened Wrappers

  newtype byte = x: int | 0 <= x < 256

  /** The 64 characters: `A`-`Z`, `a`-`z`, `0`-`9`, `-`, `_`. */
  function CharOf(v: nat): (c: char)
    requires v < 64
  {
    if v < 26 then ('A' as int + v) as char
    else if v < 52 then ('a' as int + (v - 26)) as char
    else if v < 62 then ('0' as int + (v - 52)) as char
    else if v == 62 then '-'
    else '_'
  }

  /** The value of an alphabet character; `None` for any other character. */
  function ValueOf(c: char): (r: Option<nat>)
    ensures r.Some? ==> r.value < 64 && CharOf(r.value) == c
  {
    if 'A' <= c <= 'Z' then Some(c as int - 'A' as int)
    else if 'a' <= c <= 'z' then Some(c as int - 'a' as int + 26)
    else if '0' <= c <= '9' then Some(c as int - '0' as int + 52)
    else if c == '-' then Some(62)
    else if c == '_' then Some(63)
    else None
  }

  predicate InAlphabet(c: char) {
    ValueOf(c).Some?
  }

  lemma ValueOfCharOf(v: nat)
    requires v < 64
    ensures ValueOf(CharOf(v)) == Some(v)
  {
  }

  function C(v: nat): (c: char)
    requires v < 64
    ensures InAlphabet(c) && ValueOf(c).value == v
  {
    ValueOfCharOf(v);
    CharOf(v)
  }

  /** `_b64url_encode`: three bytes to four characters; a last group of 1 or 2 bytes gives 2 or 3. */
  function Encode(b: seq<byte>): (r: string)
    ensures |r| == (4 * |b| + 2) / 3
    ensures forall i :: 0 <= i < |r| ==> InAlphabet(r[i])
    decreases |b|
  {
    if |b| == 0 then ""
    else
      var b0 := b[0] as nat;
      if |b| == 1 then [C(b0 / 4), C((b0 % 4) * 16)]
      else
        var b1 := b[1] as nat;
        if |b| == 2 then [C(b0 / 4), C((b0 % 4) * 16 + b1 / 16), C((b1 % 16) * 4)]
        else
          Quad(b0, b1, b[2] as nat) + Encode(b[3..])
  }

  /** The four characters of a full group of three bytes. */
  function Quad(b0: nat, b1: nat, b2: nat): (r: string)
    requires b0 < 256 && b1 < 256 && b2 < 256
    ensures |r| == 4 && forall i :: 0 <= i < 4 ==> InAlphabet(r[i])
  {
    [C(b0 / 4), C((b0 % 4) * 16 + b1 / 16), C((b1 % 16) * 4 + b2 / 64), C(b2 % 64)]
  }

  /** The encoding never holds the padding character, nor the `.` the token uses as separator. */
  lemma EncodeHasNoPaddingOrDot(b: seq<byte>)
    ensures '=' !in Encode(b) && '.' !in Encode(b)
  {
  }

  /** `-len(data) % 4`: how many `=` complete the last group. */
  function PadLength(n: nat): (r: nat)
    ensures r < 4 && (n + r) % 4 == 0
  {
    (0 - n as int) % 4
  }

  predicate IsAscii(c: char) {
    c as int < 128
  }

  /** `"=" * (-len(data) % 4)`. */
  function Padding(n: nat): (r: string)
    ensures |r| == PadLength(n) && (n + |r|) % 4 == 0
    ensures forall i :: 0 <= i < |r| ==> r[i] == '='
  {
    seq(PadLength(n), _ => '=')
  }

  /**
    The value of a character in the standard decoding table, once `urlsafe_b64decode` has
    turned `-` and `_` into `+` and `/`: both spellings of 62 and of 63 are read.
   */
  function TableValue(c: char): (r: Option<nat>)
    ensures r.Some? ==> r.value < 64 && c != '='
    ensures InAlphabet(c) ==> r == ValueOf(c)
    ensures c == '+' ==> r == Some(62)
    ensures c == '/' ==> r == Some(63)
  {
    if c == '+' then Some(62) else if c == '/' then Some(63) else ValueOf(c)
  }

  /** The bits a reader keeps between characters: none at the start of a group, 6, 4 or 2 after. */
  predicate Fits(pos: nat, left: nat) {
    pos < 4 && left < (if pos == 1 then 64 else if pos == 2 then 16 else if pos == 3 then 4 else 1)
  }

  /**
    `binascii.a2b_base64` in its lenient mode, from group position `pos` with the bits `left`
    held back, `pads` padding characters seen since the last data character, and the bytes
    `out` emitted so far. Characters outside the table are skipped; a `=` at position 2 or 3
    that completes the group stops the scan without error; at the end of the text a group
    left open is an error.
   */
  function Scan(s: string, pos: nat, left: nat, pads: nat, out: seq<byte>): (r: Option<seq<byte>>)
    requires Fits(pos, left)
    ensures r.Some? ==> |out| <= |r.value| && r.value[..|out|] == out
    ensures s == [] ==> (r.Some? <==> pos == 0)
    decreases |s|
  {
    if s == [] then (if pos == 0 then Some(out) else None)
    else if s[0] == '=' then
      if pos >= 2 && pos + pads + 1 >= 4 then Some(out)
      else Scan(s[1..], pos, left, if pos >= 2 then pads + 1 else pads, out)
    else match TableValue(s[0])
      case None => Scan(s[1..], pos, left, pads, out)
      case Some(v) =>
        if pos == 0 then Scan(s[1..], 1, v, 0, out)
        else if pos == 1 then Scan(s[1..], 2, v % 16, 0, out + [(left * 4 + v / 16) as byte])
        else if pos == 2 then Scan(s[1..], 3, v % 4, 0, out + [(left * 16 + v / 4) as byte])
        else Scan(s[1..], 0, 0, 0, out + [(left * 64 + v) as byte])
  }

  /**
    `_b64url_decode`: the text with `=` appended up to a multiple of four, then
    `urlsafe_b64decode`. Text that is not ASCII is refused before decoding starts; then the
    lenient scan decides.
   */
  function Decode(s: string): (r: Option<seq<byte>>)
    ensures (exists i :: 0 <= i < |s| && !IsAscii(s[i])) ==> r.None?
    ensures s == [] ==> r == Some([])
  {
    if exists i :: 0 <= i < |s| && !IsAscii(s[i]) then None
    else Scan(s + Padding(|s|), 0, 0, 0, [])
  }

  /** The byte of a last group of two characters; the low four bits of the second are unused. */
  function UnpackOne(v0: nat, v1: nat): (r: seq<byte>)
    requires v0 < 64 && v1 < 64
    ensures |r| == 1
  {
    [(v0 * 4 + v1 / 16) as byte]
  }

  /** The two bytes of a last group of three characters; the low two bits of the third are unused. */
  function UnpackTwo(v0: nat, v1: nat, v2: nat): (r: seq<byte>)
    requires v0 < 64 && v1 < 64 && v2 < 64
    ensures |r| == 2
  {
    [(v0 * 4 + v1 / 16) as byte, ((v1 % 16) * 16 + v2 / 4) as byte]
  }

  /** The three bytes of a full group of four character values. */
  function Unpack(v0: nat, v1: nat, v2: nat, v3: nat): (r: seq<byte>)
    requires v0 < 64 && v1 < 64 && v2 < 64 && v3 < 64
    ensures |r| == 3
  {
    [(v0 * 4 + v1 / 16) as byte, ((v1 % 16) * 16 + v2 / 4) as byte, ((v2 % 4) * 64 + v3) as byte]
  }

  lemma GroupOfOne(b0: nat)
    requires b0 < 256
    ensures (b0 / 4) * 4 + ((b0 % 4) * 16) / 16 == b0
  {
  }

  lemma GroupOfTwo(b0: nat, b1: nat)
    requires b0 < 256 && b1 < 256
    ensures var v1 := (b0 % 4) * 16 + b1 / 16;
      (b0 / 4) * 4 + v1 / 16 == b0 && (v1 % 16) * 16 + ((b1 % 16) * 4) / 4 == b1
  {
    var v1 := (b0 % 4) * 16 + b1 / 16;
    assert v1 / 16 == b0 % 4 && v1 % 16 == b1 / 16;
  }

  lemma GroupOfThree(b0: nat, b1: nat, b2: nat)
    requires b0 < 256 && b1 < 256 && b2 < 256
    ensures var v1 := (b0 % 4) * 16 + b1 / 16;
      var v2 := (b1 % 16) * 4 + b2 / 64;
      (b0 / 4) * 4 + v1 / 16 == b0 && (v1 % 16) * 16 + v2 / 4 == b1 && (v2 % 4) * 64 + b2 % 64 == b2
  {
    var v1 := (b0 % 4) * 16 + b1 / 16;
    var v2 := (b1 % 16) * 4 + b2 / 64;
    assert v1 / 16 == b0 % 4 && v1 % 16 == b1 / 16;
    assert v2 / 4 == b1 % 16 && v2 % 4 == b2 / 64;
  }


  /** The characters of a last group of two bytes decode to the group. */
  lemma TwoBytes(b: seq<byte>)
    requires |b| == 2
    ensures var b0, b1 := b[0] as nat, b[1] as nat;
      UnpackTwo(b0 / 4, (b0 % 4) * 16 + b1 / 16, (b1 % 16) * 4) == b
  {
    GroupOfTwo(b[0] as nat, b[1] as nat);
  }

  /** The characters of a three-byte group decode to the group. */
  lemma ThreeBytes(b: seq<byte>)
    requires |b| >= 3
    ensures var b0, b1, b2 := b[0] as nat, b[1] as nat, b[2] as nat;
      var v0, v1, v2, v3 := b0 / 4, (b0 % 4) * 16 + b1 / 16, (b1 % 16) * 4 + b2 / 64, b2 % 64;
      Unpack(v0, v1, v2, v3) == b[..3]
  {
    GroupOfThree(b[0] as nat, b[1] as nat, b[2] as nat);
  }

  /** The first character of a text and the rest of it. */
  lemma Uncons(c: char, t: string)
    ensures ([c] + t)[0] == c && ([c] + t)[1..] == t
  {
  }

  /** A data character at the start of a group is held back whole. */
  lemma ScanOpen(c: char, v: nat, t: string, out: seq<byte>)
    requires v < 64 && TableValue(c) == Some(v)
    ensures Scan([c] + t, 0, 0, 0, out) == Scan(t, 1, v, 0, out)
  {
    Uncons(c, t);
  }

  /** A data character after a group's first emits the byte that joins its bits with the held ones. */
  lemma ScanSecond(c: char, v: nat, t: string, left: nat, out: seq<byte>)
    requires v < 64 && TableValue(c) == Some(v) && left < 64
    ensures Scan([c] + t, 1, left, 0, out) == Scan(t, 2, v % 16, 0, out + [(left * 4 + v / 16) as byte])
  {
    Uncons(c, t);
  }

  lemma ScanThird(c: char, v: nat, t: string, left: nat, out: seq<byte>)
    requires v < 64 && TableValue(c) == Some(v) && left < 16
    ensures Scan([c] + t, 2, left, 0, out) == Scan(t, 3, v % 4, 0, out + [(left * 16 + v / 4) as byte])
  {
    Uncons(c, t);
  }

  lemma ScanFourth(c: char, v: nat, t: string, left: nat, out: seq<byte>)
    requires v < 64 && TableValue(c) == Some(v) && left < 4
    ensures Scan([c] + t, 3, left, 0, out) == Scan(t, 0, 0, 0, out + [(left * 64 + v) as byte])
  {
    Uncons(c, t);
  }

  /** The first two data characters of a group emit its first byte. */
  lemma ScanFirstPair(c0: char, c1: char, v0: nat, v1: nat, u: string, out: seq<byte>)
    requires v0 < 64 && v1 < 64 && TableValue(c0) == Some(v0) && TableValue(c1) == Some(v1)
    ensures Scan([c0, c1] + u, 0, 0, 0, out) == Scan(u, 2, v1 % 16, 0, out + [(v0 * 4 + v1 / 16) as byte])
  {
    var t1 := [c1] + u;
    assert [c0, c1] + u == [c0] + t1;
    ScanOpen(c0, v0, t1, out);
    ScanSecond(c1, v1, u, v0, out);
  }

  /** The last two data characters of a group emit its other two bytes and close it. */
  lemma ScanLastPair(c2: char, c3: char, v2: nat, v3: nat, left: nat, t: string, out: seq<byte>)
    requires v2 < 64 && v3 < 64 && TableValue(c2) == Some(v2) && TableValue(c3) == Some(v3) && left < 16
    ensures Scan([c2, c3] + t, 2, left, 0, out)
      == Scan(t, 0, 0, 0, out + [(left * 16 + v2 / 4) as byte] + [((v2 % 4) * 64 + v3) as byte])
  {
    var t3 := [c3] + t;
    assert [c2, c3] + t == [c2] + t3;
    ScanThird(c2, v2, t3, left, out);
    ScanFourth(c3, v3, t, v2 % 4, out + [(left * 16 + v2 / 4) as byte]);
  }

  /** Four data characters read from the start of a group emit their three bytes and close it. */
  lemma ScanGroup(c0: char, c1: char, c2: char, c3: char, v0: nat, v1: nat, v2: nat, v3: nat,
                  t: string, out: seq<byte>)
    requires v0 < 64 && v1 < 64 && v2 < 64 && v3 < 64
    requires TableValue(c0) == Some(v0) && TableValue(c1) == Some(v1)
    requires TableValue(c2) == Some(v2) && TableValue(c3) == Some(v3)
    ensures Scan([c0, c1, c2, c3] + t, 0, 0, 0, out) == Scan(t, 0, 0, 0, out + Unpack(v0, v1, v2, v3))
  {
    var u := [c2, c3] + t;
    var o1 := out + [(v0 * 4 + v1 / 16) as byte];
    assert [c0, c1, c2, c3] + t == [c0, c1] + u;
    ScanFirstPair(c0, c1, v0, v1, u, out);
    ScanLastPair(c2, c3, v2, v3, v1 % 16, t, o1);
    UnpackBytewise(v0, v1, v2, v3, out);
  }

  /** A group's three bytes, appended one at a time. */
  lemma UnpackBytewise(v0: nat, v1: nat, v2: nat, v3: nat, out: seq<byte>)
    requires v0 < 64 && v1 < 64 && v2 < 64 && v3 < 64
    ensures out + [(v0 * 4 + v1 / 16) as byte] + [((v1 % 16) * 16 + v2 / 4) as byte] + [((v2 % 4) * 64 + v3) as byte]
      == out + Unpack(v0, v1, v2, v3)
  {
  }

  /** Four alphabet characters read from the start of a group emit their three bytes and close it. */
  lemma ScanFour(v0: nat, v1: nat, v2: nat, v3: nat, t: string, out: seq<byte>)
    requires v0 < 64 && v1 < 64 && v2 < 64 && v3 < 64
    ensures Scan([C(v0), C(v1), C(v2), C(v3)] + t, 0, 0, 0, out)
      == Scan(t, 0, 0, 0, out + Unpack(v0, v1, v2, v3))
  {
    ScanGroup(C(v0), C(v1), C(v2), C(v3), v0, v1, v2, v3, t, out);
  }

  /** Two alphabet characters and `==` end the text with one byte. */
  lemma ScanLastOne(v0: nat, v1: nat, out: seq<byte>)
    requires v0 < 64 && v1 < 64
    ensures Scan([C(v0), C(v1)] + "==", 0, 0, 0, out) == Some(out + UnpackOne(v0, v1))
  {
    var x0 := (v0 * 4 + v1 / 16) as byte;
    assert [C(v0), C(v1)] + "==" == [C(v0)] + ([C(v1)] + "==");
    ScanOpen(C(v0), v0, [C(v1)] + "==", out);
    ScanSecond(C(v1), v1, "==", v0, out);
    assert "=="[1..] == "=";
    assert Scan("==", 2, v1 % 16, 0, out + [x0]) == Scan("=", 2, v1 % 16, 1, out + [x0]);
  }

  /** Three alphabet characters and `=` end the text with two bytes. */
  lemma ScanLastTwo(v0: nat, v1: nat, v2: nat, out: seq<byte>)
    requires v0 < 64 && v1 < 64 && v2 < 64
    ensures Scan([C(v0), C(v1), C(v2)] + "=", 0, 0, 0, out) == Some(out + UnpackTwo(v0, v1, v2))
  {
    var x0 := (v0 * 4 + v1 / 16) as byte;
    var x1 := ((v1 % 16) * 16 + v2 / 4) as byte;
    assert [C(v0), C(v1), C(v2)] + "=" == [C(v0)] + ([C(v1)] + ([C(v2)] + "="));
    ScanOpen(C(v0), v0, [C(v1)] + ([C(v2)] + "="), out);
    ScanSecond(C(v1), v1, [C(v2)] + "=", v0, out);
    ScanThird(C(v2), v2, "=", v1 % 16, out + [x0]);
    assert out + [x0] + [x1] == out + UnpackTwo(v0, v1, v2);
  }

  /** The padded encoding of one or two bytes scans to those bytes. */
  lemma ScanShortEncoding(b: seq<byte>, out: seq<byte>)
    requires 1 <= |b| <= 2
    ensures Scan(Encode(b) + Padding(|Encode(b)|), 0, 0, 0, out) == Some(out + b)
  {
    var e := Encode(b);
    var b0 := b[0] as nat;
    if |b| == 1 {
      assert e + Padding(|e|) == [C(b0 / 4), C((b0 % 4) * 16)] + "==";
      ScanLastOne(b0 / 4, (b0 % 4) * 16, out);
      GroupOfOne(b0);
      assert UnpackOne(b0 / 4, (b0 % 4) * 16) == b;
    } else {
      var b1 := b[1] as nat;
      assert e + Padding(|e|) == [C(b0 / 4), C((b0 % 4) * 16 + b1 / 16), C((b1 % 16) * 4)] + "=";
      ScanLastTwo(b0 / 4, (b0 % 4) * 16 + b1 / 16, (b1 % 16) * 4, out);
      TwoBytes(b);
    }
  }

  /** The padded encoding of three or more bytes is the first group's characters ahead of the rest's. */
  lemma EncodingSplits(b: seq<byte>)
    requires |b| >= 3
    ensures var rest := Encode(b[3..]);
      Encode(b) + Padding(|Encode(b)|) == Quad(b[0] as nat, b[1] as nat, b[2] as nat) + (rest + Padding(|rest|))
  {
    var q := Quad(b[0] as nat, b[1] as nat, b[2] as nat);
    var rest := Encode(b[3..]);
    var e := Encode(b);
    assert e == q + rest;
    assert |e| == |rest| + 4;
    PadAfterGroup(|rest|);
    assert e + Padding(|e|) == (q + rest) + Padding(|rest|);
  }

  /** Four more characters need the same padding. */
  lemma PadAfterGroup(n: nat)
    ensures Padding(n + 4) == Padding(n)
  {
    assert PadLength(n + 4) == PadLength(n);
  }

  /** The padded encoding of any bytes scans to those bytes, after whatever was emitted before. */
  lemma {:induction false} ScanEncoding(b: seq<byte>, out: seq<byte>)
    ensures Scan(Encode(b) + Padding(|Encode(b)|), 0, 0, 0, out) == Some(out + b)
    decreases |b|
  {
    if |b| == 0 {
      assert Encode(b) + Padding(0) == [];
      assert out + b == out;
    } else if |b| <= 2 {
      ScanShortEncoding(b, out);
    } else {
      var b0, b1, b2 := b[0] as nat, b[1] as nat, b[2] as nat;
      var v0, v1, v2, v3 := b0 / 4, (b0 % 4) * 16 + b1 / 16, (b1 % 16) * 4 + b2 / 64, b2 % 64;
      var rest := Encode(b[3..]);
      var tail := rest + Padding(|rest|);
      calc {
        Scan(Encode(b) + Padding(|Encode(b)|), 0, 0, 0, out);
        { EncodingSplits(b); }
        Scan(Quad(b0, b1, b2) + tail, 0, 0, 0, out);
        { assert Quad(b0, b1, b2) == [C(v0), C(v1), C(v2), C(v3)]; }
        Scan([C(v0), C(v1), C(v2), C(v3)] + tail, 0, 0, 0, out);
        { ScanFour(v0, v1, v2, v3, tail, out); ThreeBytes(b); }
        Scan(tail, 0, 0, 0, out + b[..3]);
        { ScanEncoding(b[3..], out + b[..3]); }
        Some(out + b[..3] + b[3..]);
        { assert out + b[..3] + b[3..] == out + b; }
        Some(out + b);
      }
    }
  }

  /** Alphabet characters are ASCII. */
  lemma AlphabetIsAscii(s: string)
    requires forall i :: 0 <= i < |s| ==> InAlphabet(s[i])
    ensures !exists i :: 0 <= i < |s| && !IsAscii(s[i])
  {
  }

  /** An ASCII text goes straight to the scan, padded. */
  lemma DecodeAscii(s: string)
    requires forall i :: 0 <= i < |s| ==> IsAscii(s[i])
    ensures Decode(s) == Scan(s + Padding(|s|), 0, 0, 0, [])
  {
  }

  /** Decoding an encoding gives the bytes back. */
  lemma DecodeEncode(b: seq<byte>)
    ensures Decode(Encode(b)) == Some(b)
  {
    AlphabetIsAscii(Encode(b));
    DecodeAscii(Encode(b));
    ScanEncoding(b, []);
  }

  /** The padded encoding is ASCII throughout and already a multiple of four long. */
  lemma PaddedEncodingShape(b: seq<byte>)
    ensures var e := Encode(b); var s := e + Padding(|e|);
      (forall i :: 0 <= i < |s| ==> IsAscii(s[i])) && Padding(|s|) == []
  {
    PaddedAlphabetShape(Encode(b));
  }

  /** Alphabet text with its padding added is ASCII throughout and a multiple of four long. */
  lemma PaddedAlphabetShape(e: string)
    requires forall i :: 0 <= i < |e| ==> InAlphabet(e[i])
    ensures var s := e + Padding(|e|);
      (forall i :: 0 <= i < |s| ==> IsAscii(s[i])) && Padding(|s|) == []
  {
    var p := Padding(|e|);
    var s := e + p;
    forall i | 0 <= i < |s|
      ensures IsAscii(s[i])
    {
      if i < |e| {
        assert s[i] == e[i];
        AlphabetCharIsAscii(e[i]);
      } else {
        assert s[i] == p[i - |e|] == '=';
      }
    }
    assert |s| % 4 == 0;
  }

  lemma AlphabetCharIsAscii(c: char)
    requires InAlphabet(c)
    ensures IsAscii(c)
  {
  }

  /** The encoding with its `=` padding still in place decodes to the same bytes. */
  lemma DecodePaddedEncoding(b: seq<byte>)
    ensures Decode(Encode(b) + Padding(|Encode(b)|)) == Some(b)
  {
    var e := Encode(b);
    var s := e + Padding(|e|);
    PaddedEncodingShape(b);
    calc {
      Decode(s);
      { DecodeAscii(s); }
      Scan(s + Padding(|s|), 0, 0, 0, []);
      { assert s + Padding(|s|) == s; }
      Scan(s, 0, 0, 0, []);
      { ScanEncoding(b, []); }
      Some(b);
    }
  }

  /** ASCII characters outside the decoding table, other than `=`, are passed over. */
  lemma {:induction false} ScanSkips(junk: string, t: string, pos: nat, left: nat, pads: nat, out: seq<byte>)
    requires Fits(pos, left)
    requires forall i :: 0 <= i < |junk| ==> junk[i] != '=' && TableValue(junk[i]).None?
    ensures Scan(junk + t, pos, left, pads, out) == Scan(t, pos, left, pads, out)
    decreases |junk|
  {
    if junk != [] {
      var s := junk + t;
      assert junk[0] != '=' && TableValue(junk[0]).None?;
      assert s != [] && s[0] == junk[0];
      assert s[1..] == junk[1..] + t;
      assert Scan(s, pos, left, pads, out) == Scan(s[1..], pos, left, pads, out);
      ScanSkips(junk[1..], t, pos, left, pads, out);
    } else {
      assert junk + t == t;
    }
  }

  /** A padded last group is read: `QQ==` is the single byte `A`. */
  lemma PaddedGroupExample()
    ensures Decode("QQ==") == Some([65])
  {
    assert "QQ==" + Padding(4) == [C(16), C(16)] + "==";
    ScanLastOne(16, 16, []);
  }

  /** A character outside the table is skipped: `QUJD!` is `ABC`. */
  lemma StrayCharacterExample()
    ensures Decode("QUJD!") == Some([65, 66, 67])
  {
    assert "QUJD!" + Padding(5) == [C(16), C(20), C(9), C(3)] + ("!" + "===");
    ScanFour(16, 20, 9, 3, "!" + "===", []);
    ScanSkips("!", "===", 0, 0, 0, [65, 66, 67]);
    var eq := "===";
    assert eq[1..] == "==" && eq[1..][1..] == "=" && eq[1..][1..][1..] == [];
  }

  /** The standard alphabet's `+` and `/` read as `-` and `_`. */
  lemma StandardAlphabetExample()
    ensures Decode("+/+/") == Some([251, 255, 191])
    ensures Decode("-_-_") == Some([251, 255, 191])
  {
    assert "+/+/" + Padding(4) == ['+', '/', '+', '/'] + [];
    ScanGroup('+', '/', '+', '/', 62, 63, 62, 63, [], []);
    assert "-_-_" + Padding(4) == ['-', '_', '-', '_'] + [];
    ScanGroup('-', '_', '-', '_', 62, 63, 62, 63, [], []);
  }

  /** A data character beyond a multiple of four is refused: `QUJDR` does not decode. */
  lemma ExtraCharacterExample()
    ensures Decode("QUJDR") == None
  {
    assert "QUJDR" + Padding(5) == [C(16), C(20), C(9), C(3)] + ([C(17)] + "===");
    ScanFour(16, 20, 9, 3, [C(17)] + "===", []);
    ScanOpen(C(17), 17, "===", [65, 66, 67]);
    var eq := "===";
    assert eq[1..] == "==" && eq[1..][1..] == "=" && eq[1..][1..][1..] == [];
  }
}

=== FILE: bubbles_api.dfy ===
/**
  The API's `/bubbles` endpoints: replace the cluster and "other" rows of one coin, keyed by
  address and chain, and read them back ordered by rank.
 */
module BubblesApi {
  import opened Wrappers
  import opened Text
  import opened Http
  import opened Store
  import Schemas

  /** A coin's key in the bubble tables: (address, chain). */
  type CoinKey = (string, string)

  /** The coins table and the two bubble tables. */
  datatype Db = Db(coins: seq<CoinRow>, clusters: seq<Owned<CoinKey, BubbleRow>>,
                   others: seq<Owned<CoinKey, BubbleRow>>)

  /** `BubblesSet`: the address and chain are optional in the body. */
  datatype BubblesSet = BubblesSet(ca: Option<string>, chain: Option<string>, clusters: seq<BubbleRow>,
                                   others: seq<BubbleRow>)

  /** Every row of the body meets `BubbleRow`'s bounds (rank > 0, pct >= 0); otherwise the body is a 422. */
  predicate ValidRows(p: BubblesSet) {
    Schemas.ValidBubbles(Schemas.BubblesData(p.clusters, p.others))
  }

  datatype SetReply = SetReply(ca: string, chain: string, clustersCount: nat, othersCount: nat)

  /**
    `set_bubbles`: a row out of bounds is refused by the body's validation, then repeated
    ranks in either list are refused before anything is read; then the
    address is required, the chain is settled, and the coin's rows in both tables become
    exactly the payload's, leaving every other coin's rows as they were.
   */
  function SetBubbles(db: Db, p: BubblesSet): (r: Result<(Db, SetReply), HttpError>)
    ensures !ValidRows(p) ==> r == Err(HttpError(422, "validation failed"))
    ensures ValidRows(p) && HasDuplicateRank(p.clusters) ==> r == Err(HttpError(422, "Duplicate cluster ranks in input"))
    ensures ValidRows(p) && !HasDuplicateRank(p.clusters) && HasDuplicateRank(p.others) ==>
      r == Err(HttpError(422, "Duplicate other ranks in input"))
    ensures r.Ok? ==> ValidRows(p) && DistinctRanks(p.clusters) && DistinctRanks(p.others) && p.ca.Some? && p.ca.value != ""
    ensures ValidRows(p) && DistinctRanks(p.clusters) && DistinctRanks(p.others) && (p.ca.None? || p.ca.value == "") ==>
      r == Err(HttpError(422, "ca is required"))
    ensures ValidRows(p) && DistinctRanks(p.clusters) && DistinctRanks(p.others) && p.ca.Some? && p.ca.value != "" ==>
      var res := ResolveChain(db.coins, Lower(p.ca.value), LowerOpt(p.chain));
      (res.Err? ==> r == Err(res.error))
      && (res.Ok? ==> r.Ok? && r.value.1 == SetReply(Lower(p.ca.value), res.value, |p.clusters|, |p.others|))
    ensures r.Ok? ==> var key := (r.value.1.ca, r.value.1.chain);
      var d := r.value.0;
      d.coins == db.coins
      && RowsOf(d.clusters, key) == p.clusters && RowsOf(d.others, key) == p.others
      && (forall k :: k != key ==> RowsOf(d.clusters, k) == RowsOf(db.clusters, k))
      && (forall k :: k != key ==> RowsOf(d.others, k) == RowsOf(db.others, k))
  {
    if !ValidRows(p) then Err(HttpError(422, "validation failed"))
    else if HasDuplicateRank(p.clusters) then Err(HttpError(422, "Duplicate cluster ranks in input"))
    else if HasDuplicateRank(p.others) then Err(HttpError(422, "Duplicate other ranks in input"))
    else if p.ca.None? || p.ca.value == "" then Err(HttpError(422, "ca is required"))
    else
      var ca := Lower(p.ca.value);
      match ResolveChain(db.coins, ca, LowerOpt(p.chain))
      case Err(e) => Err(e)
      case Ok(chain) =>
        var key := (ca, chain);
        var d := Db(db.coins, ReplaceRows(db.clusters, key, p.clusters), ReplaceRows(db.others, key, p.others));
        Ok((d, SetReply(ca, chain, |p.clusters|, |p.others|)))
  }

  datatype GetReply = GetReply(ca: string, chain: string, clusters: seq<BubbleRow>, others: seq<BubbleRow>)

  /** `get_bubbles`: the same chain rule, then the coin's rows of each table ascending by rank. */
  function GetBubbles(db: Db, ca: string, chain: Option<string>): (r: Result<GetReply, HttpError>)
    ensures |ca| < 3 ==> r.Err? && r.error.status == 422
    ensures |ca| >= 3 && ResolveChain(db.coins, Lower(ca), LowerOpt(chain)).Err? ==>
      r == Err(ResolveChain(db.coins, Lower(ca), LowerOpt(chain)).error)
    ensures r.Ok? ==> (|ca| >= 3 && r.value.ca == Lower(ca)
      && ResolveChain(db.coins, Lower(ca), LowerOpt(chain)) == Ok(r.value.chain))
    ensures r.Ok? ==> var key := (r.value.ca, r.value.chain);
      multiset(r.value.clusters) == multiset(RowsOf(db.clusters, key))
      && multiset(r.value.others) == multiset(RowsOf(db.others, key))
      && (forall i, j :: 0 <= i < j < |r.value.clusters| ==> r.value.clusters[i].rank <= r.value.clusters[j].rank)
      && (forall i, j :: 0 <= i < j < |r.value.others| ==> r.value.others[i].rank <= r.value.others[j].rank)
  {
    if |ca| < 3 then Err(HttpError(422, "validation failed"))
    else
      var caL := Lower(ca);
      match ResolveChain(db.coins, caL, LowerOpt(chain))
      case Err(e) => Err(e)
      case Ok(c) =>
        Ok(GetReply(caL, c, ByRank(RowsOf(db.clusters, (caL, c))), ByRank(RowsOf(db.others, (caL, c)))))
  }

  /**
    Reading back what was just set, with the same address and chain, gives the payload's rows
    (as ranked lists) and the chain the set settled on.
   */
  lemma GetAfterSet(db: Db, p: BubblesSet)
    requires p.ca.Some? && |p.ca.value| >= 3
    ensures var r := SetBubbles(db, p);
      r.Ok? ==>
      var (d, reply) := r.value;
      var g := GetBubbles(d, p.ca.value, p.chain);
      g.Ok? && g.value.chain == reply.chain
      && multiset(g.value.clusters) == multiset(p.clusters) && multiset(g.value.others) == multiset(p.others)
  {
  }
}

=== FILE: bubbles_page.dfy ===
/**
  The bubbles editor page: two lists of (rank, pct) rows for the active coin, shown sorted by
  rank, edited row by row, checked for duplicate ranks and saved as a whole.
 */
module BubblesPage {
  import opened Wrappers
  import opened Sorting
  import Dashboard

  type Row = Dashboard.BubbleRow

  // ---------------------------------------------------------------------------
  // nextRank / addClusterRow / addOtherRow

  /** The largest rank of a non-empty list. */
  function MaxRank(rows: seq<Row>): (m: real)
    requires |rows| > 0
    ensures forall i :: 0 <= i < |rows| ==> rows[i].rank <= m
    ensures exists i :: 0 <= i < |rows| && rows[i].rank == m
  {
    if |rows| == 1 then rows[0].rank
    else
      var m := MaxRank(rows[1..]);
      assert forall i :: 1 <= i < |rows| ==> rows[i] == rows[1..][i - 1];
      if rows[0].rank >= m then rows[0].rank else m
  }

  /** `nextRank`: 1 for an empty list, otherwise one more than the largest rank. */
  function NextRank(rows: seq<Row>): (r: real)
    ensures |rows| == 0 ==> r == 1.0
    ensures forall i :: 0 <= i < |rows| ==> rows[i].rank < r
    ensures |rows| > 0 ==> exists i :: 0 <= i < |rows| && rows[i].rank + 1.0 == r
  {
    if |rows| == 0 then 1.0 else MaxRank(rows) + 1.0
  }

  /** The "+ row" buttons: a row with the next rank and pct 0 at the end of the list. */
  function AddBlank(rows: seq<Row>): (r: seq<Row>)
    ensures |r| == |rows| + 1 && r[..|rows|] == rows
    ensures r[|rows|].pct == 0.0
    ensures forall i :: 0 <= i < |rows| ==> rows[i].rank < r[|rows|].rank
  {
    rows + [Dashboard.BubbleRow(NextRank(rows), 0.0)]
  }

  /** Adding a blank row never introduces a duplicate rank. */
  lemma AddBlankKeepsUnique(rows: seq<Row>)
    requires Dashboard.UniqueRanks(rows)
    ensures Dashboard.UniqueRanks(AddBlank(rows))
  {
    var r := AddBlank(rows);
    forall i, j | 0 <= i < j < |r|
      ensures r[i].rank != r[j].rank
    {
      if j < |rows| {
        assert r[i] == rows[i] && r[j] == rows[j];
      } else {
        assert r[i] == rows[i];
      }
    }
  }

  // ---------------------------------------------------------------------------
  // The sorted view and the row edits

  /** `clustersSorted` / `othersSorted`: a stable copy sorted by ascending rank. */
  function SortedView(rows: seq<Row>): (r: seq<Row>)
    ensures |r| == |rows| && multiset(r) == multiset(rows)
    ensures forall i, j :: 0 <= i < j < |r| ==> r[i].rank <= r[j].rank
  {
    Dashboard.RankLeTotal();
    SortBy(rows, Dashboard.RankLe())
  }

  datatype Field = RankField | PctField

  function SetField(row: Row, field: Field, num: real): (r: Row)
    ensures field == RankField ==> r.rank == num && r.pct == row.pct
    ensures field == PctField ==> r.pct == num && r.rank == row.rank
  {
    match field
    case RankField => row.(rank := num)
    case PctField => row.(pct := num)
  }

  /** Replacing one position of a sequence swaps one occurrence in its multiset. */
  lemma {:induction false} UpdateMultiset(s: seq<Row>, i: nat, y: Row)
    requires i < |s|
    ensures multiset(s[i := y]) == multiset(s) - multiset{s[i]} + multiset{y}
  {
    assert s == s[..i] + [s[i]] + s[i + 1..];
    assert s[i := y] == s[..i] + [y] + s[i + 1..];
  }

  /** Dropping one position of a sequence drops one occurrence from its multiset. */
  lemma {:induction false} RemoveMultiset(s: seq<Row>, i: nat)
    requires i < |s|
    ensures multiset(s[..i] + s[i + 1..]) == multiset(s) - multiset{s[i]}
  {
    assert s == s[..i] + [s[i]] + s[i + 1..];
  }

  /**
    `updateRow` as written: `Number(value)` (`None` for NaN) is stored into the given field of
    the row at `idx` of the stored, unsorted list. The page passes the index of the row in the
    sorted view.
   */
  function UpdateRowAsWritten(rows: seq<Row>, idx: nat, field: Field, value: string,
                              number: string -> Option<real>): (r: seq<Row>)
    requires idx < |rows|
    ensures number(value).None? ==> r == rows
    ensures number(value).Some? ==>
      |r| == |rows| && r[idx] == SetField(rows[idx], field, number(value).value)
      && forall i :: 0 <= i < |rows| && i != idx ==> r[i] == rows[i]
  {
    if number(value).None? then rows else rows[idx := SetField(rows[idx], field, number(value).value)]
  }

  /** `removeRow` as written: drops position `idx` of the stored, unsorted list. */
  function RemoveRowAsWritten(rows: seq<Row>, idx: nat): (r: seq<Row>)
    requires idx < |rows|
    ensures multiset(r) == multiset(rows) - multiset{rows[idx]}
  {
    RemoveMultiset(rows, idx);
    rows[..idx] + rows[idx + 1..]
  }

  /**
    The intended edit: the row the user sees at position `idx` of the sorted view is the one
    that changes, and nothing else does. The stored list becomes the sorted view.
   */
  function UpdateShown(rows: seq<Row>, idx: nat, field: Field, value: string,
                       number: string -> Option<real>): (r: seq<Row>)
    requires idx < |rows|
    ensures number(value).None? ==> r == rows
    ensures number(value).Some? ==>
      multiset(r) == multiset(rows) - multiset{SortedView(rows)[idx]}
                     + multiset{SetField(SortedView(rows)[idx], field, number(value).value)}
  {
    if number(value).None? then rows
    else
      var v := SortedView(rows);
      var row := SetField(v[idx], field, number(value).value);
      UpdateMultiset(v, idx, row);
      v[idx := row]
  }

  /** The intended removal: exactly the row shown at `idx` goes. */
  function RemoveShown(rows: seq<Row>, idx: nat): (r: seq<Row>)
    requires idx < |rows|
    ensures multiset(r) == multiset(rows) - multiset{SortedView(rows)[idx]}
  {
    var v := SortedView(rows);
    RemoveMultiset(v, idx);
    v[..idx] + v[idx + 1..]
  }

  /** While the stored list is already in rank order the written code does what is intended. */
  lemma AsWrittenAgreesWhenSorted(rows: seq<Row>, idx: nat, field: Field, value: string,
                                  number: string -> Option<real>)
    requires idx < |rows|
    requires forall i, j :: 0 <= i < j < |rows| ==> rows[i].rank <= rows[j].rank
    ensures UpdateRowAsWritten(rows, idx, field, value, number) == UpdateShown(rows, idx, field, value, number)
    ensures RemoveRowAsWritten(rows, idx) == RemoveShown(rows, idx)
  {
    Dashboard.RankLeTotal();
    SortBySortedNoop(rows, Dashboard.RankLe());
  }

  /**
    Once the stored order differs from the shown order, the written code edits the wrong row:
    with ranks stored as 2, 1 the first shown row is rank 1, yet setting its pct to 5 changes
    the rank-2 row, and its delete button deletes the rank-2 row.
   */
  lemma AsWrittenEditsWrongRow(number: string -> Option<real>, value: string)
    requires number(value) == Some(5.0)
    ensures var rows := [Dashboard.BubbleRow(2.0, 0.0), Dashboard.BubbleRow(1.0, 0.0)];
      && SortedView(rows)[0] == Dashboard.BubbleRow(1.0, 0.0)
      && UpdateRowAsWritten(rows, 0, PctField, value, number)
         == [Dashboard.BubbleRow(2.0, 5.0), Dashboard.BubbleRow(1.0, 0.0)]
      && Dashboard.BubbleRow(1.0, 5.0) in UpdateShown(rows, 0, PctField, value, number)
      && RemoveRowAsWritten(rows, 0) == [Dashboard.BubbleRow(1.0, 0.0)]
      && RemoveShown(rows, 0) == [Dashboard.BubbleRow(2.0, 0.0)]
  {
    var rows := [Dashboard.BubbleRow(2.0, 0.0), Dashboard.BubbleRow(1.0, 0.0)];
    Dashboard.RankLeTotal();
    assert rows[1..] == [Dashboard.BubbleRow(1.0, 0.0)];
    assert SortBy(rows[1..], Dashboard.RankLe()) == [Dashboard.BubbleRow(1.0, 0.0)];
    assert SortedView(rows) == [Dashboard.BubbleRow(1.0, 0.0), Dashboard.BubbleRow(2.0, 0.0)];
    var u := UpdateShown(rows, 0, PctField, value, number);
    assert multiset(u)[Dashboard.BubbleRow(1.0, 5.0)] == 1;
  }

  // ---------------------------------------------------------------------------
  // save

  /**
    `checkDup`: walks the rows with a set of the ranks seen so far and reports the first
    repeat; it finds one exactly when the ranks are not all distinct.
   */
  method CheckDup(rows: seq<Row>) returns (dup: bool)
    ensures dup <==> !Dashboard.UniqueRanks(rows)
  {
    var seen: set<real> := {};
    var i := 0;
    while i < |rows|
      invariant 0 <= i <= |rows|
      invariant forall x :: x in seen <==> exists k :: 0 <= k < i && rows[k].rank == x
      invariant Dashboard.UniqueRanks(rows[..i])
    {
      if rows[i].rank in seen {
        var k :| 0 <= k < i && rows[k].rank == rows[i].rank;
        return true;
      }
      seen := seen + {rows[i].rank};
      assert forall a, b :: 0 <= a < b < i + 1 ==> rows[..i + 1][a] == rows[a] && rows[..i + 1][b] == rows[b];
      i := i + 1;
    }
    assert rows[..i] == rows;
    return false;
  }

  /** What `save` posts to `/bubbles/set`: the whole set of rows for the coin. */
  datatype SetRequest = SetRequest(ca: string, clusters: seq<Row>, others: seq<Row>)

  /**
    `save`: no active coin is an error, a repeated rank in either list is an error (the
    database keeps ranks unique), and otherwise both lists go out as they are stored.
   */
  method Save(activeCa: Option<string>, clusters: seq<Row>, others: seq<Row>)
    returns (r: Result<SetRequest, string>)
    ensures (activeCa.None? || activeCa.value == "") ==>
      r == Err("Active coin not set. Go Coins and set active.")
    ensures activeCa.Some? && activeCa.value != "" ==>
      (r.Err? <==> !Dashboard.UniqueRanks(clusters) || !Dashboard.UniqueRanks(others))
    ensures r.Err? && activeCa.Some? && activeCa.value != "" ==>
      r.error == "Duplicate rank var. Rank'ları benzersiz yap."
    ensures r.Ok? ==> r.value == SetRequest(activeCa.value, clusters, others)
  {
    if activeCa.None? || activeCa.value == "" {
      return Err("Active coin not set. Go Coins and set active.");
    }
    var d1 := CheckDup(clusters);
    var d2 := false;
    if !d1 {
      d2 := CheckDup(others);
    }
    if d1 || d2 {
      return Err("Duplicate rank var. Rank'ları benzersiz yap.");
    }
    return Ok(SetRequest(activeCa.value, clusters, others));
  }

  // ---------------------------------------------------------------------------
  // refresh

  /** The `bubbles` part of `/assistant_snapshot`; either list may be absent. */
  datatype Snapshot = Snapshot(ca: string, clusters: Option<seq<Row>>, others: Option<seq<Row>>)

  datatype PageState = PageState(activeCa: Option<string>, clusters: seq<Row>, others: seq<Row>,
                                 error: Option<string>)

  /**
    `refresh`: reads `/context`, and for a set active coin the snapshot's bubbles, which are
    used only when they belong to that coin. A failed request shows its message; what was
    set before the failure stays set.
   */
  function Refresh(s: PageState, ctx: Result<Option<string>, string>,
                   snap: Result<Option<Snapshot>, string>): (r: PageState)
    ensures ctx.Err? ==> r == s.(error := Some(ctx.error))
    ensures ctx.Ok? ==> r.activeCa == ctx.value
    ensures ctx.Ok? && (ctx.value.None? || ctx.value.value == "") ==>
      r.clusters == [] && r.others == [] && r.error.None?
    ensures ctx.Ok? && ctx.value.Some? && ctx.value.value != "" && snap.Err? ==>
      r.clusters == s.clusters && r.others == s.others && r.error == Some(snap.error)
    ensures ctx.Ok? && snap.Ok? ==> r.error.None?
    ensures ctx.Ok? && snap.Ok? && (r.clusters != [] || r.others != []) ==>
      snap.value.Some? && ctx.value == Some(snap.value.value.ca)
  {
    match ctx
    case Err(m) => s.(error := Some(m))
    case Ok(active) =>
      var s1 := s.(activeCa := active, error := None);
      if active.None? || active.value == "" then s1.(clusters := [], others := [])
      else match snap
        case Err(m) => s1.(error := Some(m))
        case Ok(b) =>
          if b.Some? && b.value.ca == active.value
          then s1.(clusters := b.value.clusters.GetOr([]), others := b.value.others.GetOr([]))
          else s1.(clusters := [], others := [])
  }
}

=== FILE: coin_summary.dfy ===
/**
  `useListWithCoinSummary`: a list and the coin summaries are fetched side by side, and the
  summaries become two lookup maps keyed by lower-cased address, one for symbols and one for
  chains. The tips page builds the same maps in its own refresh.
 */
module CoinSummary {
  import opened Wrappers
  import opened Text

  /** One row of `/coins/summary`; each field may be null. */
  datatype SummaryRow = SummaryRow(ca: Option<string>, symbol: Option<string>, chain: Option<string>)

  /** `(x || "")`: null and "" both become "". */
  function OrEmpty(x: Option<string>): string {
    x.GetOr("")
  }

  /** The map key of a row: its lower-cased address, "" when missing. */
  function RowKey(row: SummaryRow): string {
    Lower(OrEmpty(row.ca))
  }

  /** Which field of a row a map is built from. */
  datatype Field = Symbol | Chain

  function Value(row: SummaryRow, f: Field): string {
    Trim(OrEmpty(if f == Symbol then row.symbol else row.chain))
  }

  /** The (key, value) a row offers for field `f`. */
  function Offer(row: SummaryRow, f: Field): (string, string) {
    (RowKey(row), Value(row, f))
  }

  function Offers(rows: seq<SummaryRow>, f: Field): (r: seq<(string, string)>)
    ensures |r| == |rows| && forall i :: 0 <= i < |rows| ==> r[i] == Offer(rows[i], f)
  {
    seq(|rows|, i requires 0 <= i < |rows| => Offer(rows[i], f))
  }

  /**
    A map built from offers in order: an offer with a non-empty key and a non-empty value is
    written, replacing what an earlier offer wrote.
   */
  function Fold(offers: seq<(string, string)>): (m: map<string, string>)
    ensures forall k :: k in m ==> k != "" && m[k] != ""
    decreases |offers|
  {
    if |offers| == 0 then map[]
    else
      var prev := Fold(offers[..|offers| - 1]);
      var last := offers[|offers| - 1];
      if last.0 != "" && last.1 != "" then prev[last.0 := last.1] else prev
  }

  /** Every value in the map is one some offer carries. */
  lemma {:induction false} FoldValues(offers: seq<(string, string)>, k: string)
    requires k in Fold(offers)
    ensures exists i :: 0 <= i < |offers| && offers[i].1 == Fold(offers)[k]
    decreases |offers|
  {
    var n := |offers| - 1;
    var init := offers[..n];
    var last := offers[n];
    if !(last.0 == k && last.0 != "" && last.1 != "") {
      FoldValues(init, k);
      var i :| 0 <= i < |init| && init[i].1 == Fold(init)[k];
      assert offers[i] == init[i];
    }
  }

  /** Offer `i` writes key `k`. */
  predicate Writes(offers: seq<(string, string)>, i: int, k: string)
    requires 0 <= i < |offers|
  {
    offers[i].0 == k && k != "" && offers[i].1 != ""
  }

  /** A key is present exactly when some offer writes it. */
  lemma {:induction false} FoldHas(offers: seq<(string, string)>, k: string)
    ensures k in Fold(offers) <==> exists i :: 0 <= i < |offers| && Writes(offers, i, k)
    decreases |offers|
  {
    if |offers| > 0 {
      var n := |offers| - 1;
      var init := offers[..n];
      FoldHas(init, k);
      assert forall i :: 0 <= i < n ==> init[i] == offers[i];
      if Writes(offers, n, k) {
        assert k in Fold(offers);
      } else {
        assert k in Fold(offers) <==> k in Fold(init);
        assert forall i :: 0 <= i < n ==> (Writes(init, i, k) <==> Writes(offers, i, k));
      }
    }
  }

  /** The value of a key is that of the LAST offer that writes it. */
  lemma {:induction false} FoldLastWins(offers: seq<(string, string)>, k: string, i: nat)
    requires i < |offers| && Writes(offers, i, k)
    requires forall j :: i < j < |offers| ==> !Writes(offers, j, k)
    ensures k in Fold(offers) && Fold(offers)[k] == offers[i].1
    decreases |offers|
  {
    var n := |offers| - 1;
    if i < n {
      var init := offers[..n];
      assert init[i] == offers[i];
      forall j | i < j < |init|
        ensures !Writes(init, j, k)
      {
        assert init[j] == offers[j];
        assert !Writes(offers, j, k);
      }
      FoldLastWins(init, k, i);
      assert !Writes(offers, n, k);
    }
  }

  /** One of the two maps built from the summary rows. */
  function BuildMap(rows: seq<SummaryRow>, f: Field): (m: map<string, string>)
    ensures forall k :: k in m ==> k != "" && m[k] != "" && Trim(m[k]) == m[k]
  {
    var offers := Offers(rows, f);
    assert forall k :: k in Fold(offers) ==> Trim(Fold(offers)[k]) == Fold(offers)[k] by {
      forall k | k in Fold(offers)
        ensures Trim(Fold(offers)[k]) == Fold(offers)[k]
      {
        FoldValues(offers, k);
        var i :| 0 <= i < |offers| && offers[i].1 == Fold(offers)[k];
        TrimNoop(Trim(OrEmpty(if f == Symbol then rows[i].symbol else rows[i].chain)));
      }
    }
    Fold(Offers(rows, f))
  }

  /** The symbol map and the chain map. */
  function SummaryMaps(rows: seq<SummaryRow>): (map<string, string>, map<string, string>) {
    (BuildMap(rows, Symbol), BuildMap(rows, Chain))
  }

  /** Row `i` supplies a value of field `f` for key `k`. */
  predicate Gives(rows: seq<SummaryRow>, i: int, k: string, f: Field)
    requires 0 <= i < |rows|
  {
    RowKey(rows[i]) == k && k != "" && Value(rows[i], f) != ""
  }

  /**
    A key is present exactly when some row with that lower-cased address has a non-blank
    value, and its value is the trimmed field of the LAST such row.
   */
  lemma BuildMapLastWins(rows: seq<SummaryRow>, f: Field, k: string)
    ensures k in BuildMap(rows, f) <==> exists i :: 0 <= i < |rows| && Gives(rows, i, k, f)
    ensures forall i :: 0 <= i < |rows| && Gives(rows, i, k, f) && (forall j :: i < j < |rows| ==> !Gives(rows, j, k, f)) ==>
      k in BuildMap(rows, f) && BuildMap(rows, f)[k] == Value(rows[i], f)
  {
    var offers := Offers(rows, f);
    FoldHas(offers, k);
    assert forall i :: 0 <= i < |rows| ==> (Gives(rows, i, k, f) <==> Writes(offers, i, k));
    forall i | 0 <= i < |rows| && Gives(rows, i, k, f) && (forall j :: i < j < |rows| ==> !Gives(rows, j, k, f))
      ensures k in BuildMap(rows, f) && BuildMap(rows, f)[k] == Value(rows[i], f)
    {
      forall j | i < j < |offers|
        ensures !Writes(offers, j, k)
      {
        assert !Gives(rows, j, k, f);
      }
      FoldLastWins(offers, k, i);
    }
  }

  /** Keys are lower-case: looking up an address in any case finds the same entry. */
  lemma BuildMapKeysLower(rows: seq<SummaryRow>, f: Field, k: string)
    ensures k in BuildMap(rows, f) ==> Lower(k) == k
  {
    if k !in BuildMap(rows, f) { return; }
    BuildMapLastWins(rows, f, k);
    var i :| 0 <= i < |rows| && Gives(rows, i, k, f);
    LowerIdempotent(OrEmpty(rows[i].ca));
  }

  /** The state `refresh` maintains. */
  datatype ListState<T> = ListState(data: seq<T>, loading: bool, error: Option<string>,
                                    symbols: map<string, string>, chains: map<string, string>)

  /**
    One `refresh` with the two settled results. A failed list request shows its error and
    leaves everything else as it was, maps included; a failed summary request keeps the old
    maps but still takes the new list. Loading always ends.
   */
  function Refresh<T>(s: ListState<T>, list: Result<seq<T>, string>,
                      summary: Result<seq<SummaryRow>, string>): (r: ListState<T>)
    ensures !r.loading
    ensures list.Err? ==> r == s.(loading := false, error := Some(list.error))
    ensures list.Ok? ==> r.data == list.value && r.error.None?
    ensures list.Ok? && summary.Err? ==> r.symbols == s.symbols && r.chains == s.chains
    ensures list.Ok? && summary.Ok? ==> r.symbols == BuildMap(summary.value, Symbol) && r.chains == BuildMap(summary.value, Chain)
  {
    match list
    case Err(msg) => s.(loading := false, error := Some(msg))
    case Ok(items) =>
      match summary
      case Err(_) => s.(data := items, loading := false, error := None)
      case Ok(rows) =>
        s.(data := items, loading := false, error := None, symbols := BuildMap(rows, Symbol),
           chains := BuildMap(rows, Chain))
  }
}

=== FILE: coins_api.dfy ===
/**
  The API's `/coins` endpoints: add a coin, read one by address with the chain rule, list
  coins, and delete one coin with its account metrics.

  The table keeps rows in insertion order, so `ORDER BY created_ts DESC` is the reverse of
  the table. The database's answer to an INSERT is the parameter `dbError`: `None` when the row
  went in, else the error's text.
 */
module CoinsApi {
  import opened Wrappers
  import opened Text
  import opened Http
  import opened Lists
  import opened Store

  /** `CoinCreate`: the chain and source type have defaults, so they are always present. */
  datatype CoinCreate = CoinCreate(ca: string, name: string, symbol: Option<string>, chain: string,
                                   launchTs: Option<int>, sourceType: string)

  /** The coins and the per-account metrics kept for each (address, chain). */
  datatype CoinsDb = CoinsDb(coins: seq<CoinRow>, metrics: seq<Owned<(string, string), int>>)

  // ---------------------------------------------------------------------------
  // Add

  /** The error names a key of the coins table: the conflict that becomes a 409. */
  predicate NamesCoinKey(e: string) {
    Contains(e, "coins_ca_key") || Contains(e, "coins_pkey") || Contains(e, "uq_coins_chain_ca")
  }

  const CoinExists := HttpError(409, "Coin already exists")

  /** Any other database error is re-raised and reaches the client as the 500 envelope. */
  const Internal := HttpError(500, "internal_error")

  /**
    `add_coin`: the address is lower-cased (the chain is stored as sent). A key conflict is
    a 409, any other failure propagates, and otherwise the new row is appended.
   */
  function AddCoin(db: CoinsDb, p: CoinCreate, dbError: Option<string>): (r: Result<(CoinsDb, CoinRow), HttpError>)
    ensures r.Ok? <==> dbError.None?
    ensures dbError.Some? && NamesCoinKey(dbError.value) ==> r == Err(CoinExists)
    ensures dbError.Some? && !NamesCoinKey(dbError.value) ==> r == Err(Internal)
    ensures r.Ok? ==> var (d, row) := r.value;
      row == CoinRow(Lower(p.ca), p.chain, Some(p.name), p.symbol, p.launchTs, Some(p.sourceType))
      && d.coins == db.coins + [row] && d.metrics == db.metrics
  {
    match dbError
    case Some(e) => if NamesCoinKey(e) then Err(CoinExists) else Err(Internal)
    case None =>
      var row := CoinRow(Lower(p.ca), p.chain, Some(p.name), p.symbol, p.launchTs, Some(p.sourceType));
      Ok((CoinsDb(db.coins + [row], db.metrics), row))
  }

  /** Postgres's unique-violation text for the (chain, address) key is mapped to the 409. */
  lemma DuplicateKeyIsConflict(detail: string)
    ensures AddCoin(CoinsDb([], []), CoinCreate("abc", "n", None, "solana", None, "trades"),
                    Some("duplicate key value violates unique constraint \"" + "uq_coins_chain_ca" + "\"" + detail))
            == Err(CoinExists)
  {
    ContainsInfix("duplicate key value violates unique constraint \"", "uq_coins_chain_ca", "\"" + detail);
    assert "duplicate key value violates unique constraint \"" + "uq_coins_chain_ca" + "\"" + detail
        == "duplicate key value violates unique constraint \"" + "uq_coins_chain_ca" + ("\"" + detail);
  }

  // ---------------------------------------------------------------------------
  // Get

  /**
    `get_coin`: the address and chain are lower-cased, the chain is settled by the 404/409
    rule, and the row with that key is returned.
   */
  function GetCoin(db: CoinsDb, ca: string, chain: Option<string>): (r: Result<CoinRow, HttpError>)
    ensures var res := ResolveChain(db.coins, Lower(ca), LowerOpt(chain));
      (r.Ok? <==> res.Ok?) && (res.Err? ==> r == Err(res.error))
      && (r.Ok? ==> r.value in db.coins && r.value.ca == Lower(ca) && r.value.chain == res.value)
  {
    match ResolveChain(db.coins, Lower(ca), LowerOpt(chain))
    case Err(e) => Err(e)
    case Ok(c) =>
      var i := FindCoin(db.coins, Lower(ca), c).value;
      Ok(db.coins[i])
  }

  /** A coin just added, under an address no row had, is what a bare read of that address returns. */
  lemma GetAfterAdd(db: CoinsDb, p: CoinCreate)
    requires forall i :: 0 <= i < |db.coins| ==> db.coins[i].ca != Lower(p.ca)
    ensures var (d, row) := AddCoin(db, p, None).value;
      GetCoin(d, p.ca, None) == Ok(row)
  {
    var (d, row) := AddCoin(db, p, None).value;
    assert d.coins[|db.coins|] == row;
    var k := FindCoin(d.coins, Lower(p.ca), p.chain).value;
    assert k == |db.coins|;
  }

  // ---------------------------------------------------------------------------
  // List

  /** The query parameters of `GET /coins`. */
  datatype ListQuery = ListQuery(limit: int, ca: Option<string>, chain: Option<string>)

  predicate ValidListQuery(q: ListQuery) {
    1 <= q.limit <= 2000 && (q.ca.Some? ==> |q.ca.value| >= 3) && (q.chain.Some? ==> |q.chain.value| >= 2)
  }

  function Reverse<T>(s: seq<T>): (r: seq<T>)
    ensures |r| == |s|
    ensures forall i :: 0 <= i < |s| ==> r[i] == s[|s| - 1 - i]
  {
    if |s| == 0 then [] else Reverse(s[1..]) + [s[0]]
  }

  /** `WHERE chain = %s` when a chain is given. */
  function OnChain(chain: Option<string>): (p: CoinRow -> bool)
    ensures forall c :: p(c) <==> chain.None? || c.chain == chain.value
  {
    (c: CoinRow) => chain.None? || c.chain == chain.value
  }

  /** `WHERE ca = %s [AND chain = %s]`. */
  function OnAddress(ca: string, chain: Option<string>): (p: CoinRow -> bool)
    ensures forall c :: p(c) <==> c.ca == ca && OnChain(chain)(c)
  {
    (c: CoinRow) => c.ca == ca && OnChain(chain)(c)
  }

  /**
    `list_coins`: with an address, every row on it (and on the chain, if one is given),
    whatever the limit; without one, the newest `limit` rows, on the chain if one is given.
    Rows are added in creation order, so "newest first" is the matching rows from the end of
    the table backwards, and every matching row left out is older than every row returned.
   */
  function ListCoins(db: CoinsDb, q: ListQuery): (r: Result<seq<CoinRow>, HttpError>)
    ensures r.Ok? <==> ValidListQuery(q)
    ensures r.Err? ==> r.error.status == 422
    ensures r.Ok? ==> forall i :: 0 <= i < |r.value| ==>
      (r.value[i] in db.coins
       && (q.ca.Some? ==> r.value[i].ca == Lower(q.ca.value))
       && (q.chain.Some? ==> r.value[i].chain == Lower(q.chain.value)))
    ensures r.Ok? && q.ca.Some? ==> forall i ::
      (0 <= i < |db.coins| && db.coins[i].ca == Lower(q.ca.value)
       && (q.chain.None? || db.coins[i].chain == Lower(q.chain.value))) ==> db.coins[i] in r.value
    ensures r.Ok? && q.ca.None? ==>
      var m := Filter(db.coins, OnChain(LowerOpt(q.chain)));
      && |r.value| == (if |m| <= q.limit then |m| else q.limit)
      && (forall i :: 0 <= i < |r.value| ==> r.value[i] == m[|m| - 1 - i])
  {
    if !ValidListQuery(q) then Err(HttpError(422, "validation failed"))
    else if q.ca.Some? then Ok(Filter(db.coins, OnAddress(Lower(q.ca.value), LowerOpt(q.chain))))
    else Ok(Newest(db.coins, LowerOpt(q.chain), q.limit))
  }

  /** The newest `limit` rows on the chain, newest first: the matches read from the end backwards. */
  function Newest(coins: seq<CoinRow>, chain: Option<string>, limit: int): (r: seq<CoinRow>)
    requires limit >= 0
    ensures forall i :: 0 <= i < |r| ==> r[i] in coins && OnChain(chain)(r[i])
    ensures var m := Filter(coins, OnChain(chain));
      && |r| == (if |m| <= limit then |m| else limit)
      && (forall i :: 0 <= i < |r| ==> r[i] == m[|m| - 1 - i])
  {
    Latest(Filter(coins, OnChain(chain)), limit)
  }

  /** The last `limit` elements, last first. */
  function Latest<T>(m: seq<T>, limit: int): (r: seq<T>)
    requires limit >= 0
    ensures |r| == (if |m| <= limit then |m| else limit)
    ensures forall i :: 0 <= i < |r| ==> r[i] == m[|m| - 1 - i]
  {
    var newest := Reverse(m);
    if |newest| <= limit then newest else newest[..limit]
  }

  /** With an address the limit plays no part. */
  lemma AddressListIgnoresLimit(db: CoinsDb, ca: string, chain: Option<string>, m: int, n: int)
    requires ValidListQuery(ListQuery(m, Some(ca), chain)) && ValidListQuery(ListQuery(n, Some(ca), chain))
    ensures ListCoins(db, ListQuery(m, Some(ca), chain)) == ListCoins(db, ListQuery(n, Some(ca), chain))
  {
  }

  /**
    Without an address the list is the newest rows first: the last row added on the chain
    heads it.
   */
  lemma NewestFirst(db: CoinsDb, row: CoinRow, q: ListQuery)
    requires ValidListQuery(q) && q.ca.None?
    requires q.chain.None? || row.chain == Lower(q.chain.value)
    ensures var r := ListCoins(CoinsDb(db.coins + [row], db.metrics), q).value;
      |r| > 0 && r[0] == row
  {
    var d := CoinsDb(db.coins + [row], db.metrics);
    var newest := Reverse(Filter(d.coins, OnChain(LowerOpt(q.chain))));
    LastMatchHeads(db.coins, row, OnChain(LowerOpt(q.chain)));
    assert ListCoins(d, q).value == Newest(d.coins, LowerOpt(q.chain), q.limit);
  }

  /** A matching row appended last is the first of the reversed matches. */
  lemma LastMatchHeads(coins: seq<CoinRow>, row: CoinRow, p: CoinRow -> bool)
    requires p(row)
    ensures var n := Reverse(Filter(coins + [row], p)); |n| > 0 && n[0] == row
  {
    var f := Filter(coins + [row], p);
    assert f == Filter(coins, p) + [row] by {
      FilterConcat(coins, [row], p);
      assert Filter([row], p) == [row];
    }
    assert Reverse(f)[0] == f[|f| - 1];
  }

  // ---------------------------------------------------------------------------
  // Delete

  /**
    `delete_coin`: the chain rule settles the key, then the key's metrics rows and its coin
    row go; rows of every other key, on this address or any other, stay.
   */
  function DeleteCoin(db: CoinsDb, ca: string, chain: Option<string>): (r: Result<(CoinsDb, string), HttpError>)
    ensures var res := ResolveChain(db.coins, Lower(ca), LowerOpt(chain));
      (r.Ok? <==> res.Ok?) && (res.Err? ==> r == Err(res.error)) && (r.Ok? ==> r.value.1 == res.value)
    ensures r.Ok? ==> var (d, c) := r.value; var key := (Lower(ca), c);
      !HasKey(d.coins, key.0, key.1)
      && (forall i :: 0 <= i < |db.coins| && (db.coins[i].ca, db.coins[i].chain) != key ==> db.coins[i] in d.coins)
      && (forall i :: 0 <= i < |d.coins| ==> d.coins[i] in db.coins)
      && RowsOf(d.metrics, key) == []
      && (forall k :: k != key ==> RowsOf(d.metrics, k) == RowsOf(db.metrics, k))
  {
    var caL := Lower(ca);
    match ResolveChain(db.coins, caL, LowerOpt(chain))
    case Err(e) => Err(e)
    case Ok(c) =>
      var coins := Filter(db.coins, (row: CoinRow) => !(row.ca == caL && row.chain == c));
      Ok((CoinsDb(coins, DropOwner(db.metrics, (caL, c))), c))
  }

  /** After a delete naming the chain, reading the same address and chain is the 404. */
  lemma GetAfterDelete(db: CoinsDb, ca: string, chain: string)
    requires chain != ""
    ensures var r := DeleteCoin(db, ca, Some(chain));
      r.Ok? ==> GetCoin(r.value.0, ca, Some(chain)) == Err(HttpError(404, "Coin not found"))
  {
  }

  /**
    The chain is stored as sent but looked up lower-cased: a coin added on "Solana" is not
    found when that chain is named.
   */
  lemma MixedCaseChainNotFound(p: CoinCreate)
    requires p.chain == "Solana"
    ensures var d := AddCoin(CoinsDb([], []), p, None).value.0;
      GetCoin(d, p.ca, Some(p.chain)) == Err(HttpError(404, "Coin not found"))
  {
    var d := AddCoin(CoinsDb([], []), p, None).value.0;
    assert Lower("Solana") == "solana";
    assert !HasKey(d.coins, Lower(p.ca), "solana");
  }
}

=== FILE: coins_page.dfy ===
/**
  The coins page: the search filter, the logo pass over the filtered coins, dropping a logo
  that failed to load, and the confirmation in front of a delete.
 */
module CoinsPage {
  import opened Wrappers
  import opened Text
  import opened Lists
  import opened DexChain
  import opened DexLookup
  import opened LogoPass

  /** A coin summary row with the fields the page reads. */
  datatype CoinRow = CoinRow(ca: string, name: string, symbol: Option<string>, chain: Option<string>)

  /** The address, the name or the symbol (`|| ""`), lower-cased, contains the query. */
  predicate Matches(c: CoinRow, s: string) {
    Contains(Lower(c.ca), s) || Contains(Lower(c.name), s) || Contains(Lower(c.symbol.GetOr("")), s)
  }

  /** The trimmed, lower-cased query. */
  function Needle(q: string): string {
    Lower(Trim(q))
  }

  /**
    `filtered`: a blank query shows the list as it is; otherwise the coins that match the
    trimmed, lower-cased query, in list order.
   */
  function Filtered(coins: seq<CoinRow>, q: string): (r: seq<CoinRow>)
    ensures Needle(q) == "" ==> r == coins
    ensures Needle(q) != "" ==> forall i :: 0 <= i < |r| ==> r[i] in coins && Matches(r[i], Needle(q))
    ensures Needle(q) != "" ==> forall i :: 0 <= i < |coins| && Matches(coins[i], Needle(q)) ==> coins[i] in r
  {
    var s := Needle(q);
    if s == "" then coins else Filter(coins, (c: CoinRow) => Matches(c, s))
  }

  /** The filter keeps the list order: filtering a concatenation concatenates the filtered parts. */
  lemma FilteredConcat(a: seq<CoinRow>, b: seq<CoinRow>, q: string)
    ensures Filtered(a + b, q) == Filtered(a, q) + Filtered(b, q)
  {
    if Needle(q) != "" {
      FilterConcat(a, b, (c: CoinRow) => Matches(c, Needle(q)));
    }
  }

  /** Every coin matches a query taken from its own (trimmed) address. */
  lemma OwnAddressMatches(c: CoinRow)
    requires c.ca != "" && Trimmed(c.ca)
    ensures Filtered([c], c.ca) == [c]
  {
    TrimNoop(c.ca);
    ContainsAt(Lower(c.ca), Lower(c.ca));
    assert OccursAt(Lower(c.ca), Lower(c.ca), 0);
    assert Matches(c, Needle(c.ca));
  }

  /** Each coin is scanned with its address and its own chain only. */
  function LogoItems(coins: seq<CoinRow>): (r: seq<Item>)
    ensures |r| == |coins|
    ensures forall i :: 0 <= i < |coins| ==> r[i] == Item(Some(coins[i].ca), coins[i].chain)
  {
    ScanItems(coins, (c: CoinRow) => Some(c.ca), (c: CoinRow) => c.chain)
  }

  /** The page's logo pass: the coin's own chain only, cap 40, keep-existing merge. */
  function CoinsLogoPass(filtered: seq<CoinRow>, cache: LogoMap, inflight: set<string>,
                         lookup: Candidate -> Lookup, cancelAt: nat): (r: PassResult)
    ensures |r.steps| <= 40 && r.inflight == inflight
    ensures forall k :: Has(cache, k) ==> k in r.cache && r.cache[k] == cache[k]
    ensures forall j :: 0 <= j < |r.steps| ==>
      KeyOf(r.steps[j].query) != "" && !Has(cache, KeyOf(r.steps[j].query)) && KeyOf(r.steps[j].query) !in inflight
  {
    var items := LogoItems(filtered);
    PassQueries(items, cache, inflight, 40, lookup, cancelAt, KeepExisting);
    forall k | Has(cache, k)
      ensures var r := Pass(items, cache, inflight, 40, lookup, cancelAt, KeepExisting);
        k in r.cache && r.cache[k] == cache[k]
    {
      PassKeepsEntries(items, cache, inflight, 40, lookup, cancelAt, KeepExisting, k);
    }
    Pass(items, cache, inflight, 40, lookup, cancelAt, KeepExisting)
  }

  /** An image that fails to load drops exactly its own cache entry. */
  function EvictLogo(cache: LogoMap, key: string): (r: LogoMap)
    ensures key !in r
    ensures forall k :: k != key ==> (k in r <==> k in cache) && (k in r ==> r[k] == cache[k])
  {
    cache - {key}
  }

  /** After an eviction the coin is again a candidate for the next pass, unless in flight. */
  lemma EvictedKeyEligible(cache: LogoMap, c: CoinRow, inflight: set<string>)
    requires Lower(c.ca) != "" && c.chain.Some? && !Blank(c.chain.value) && Lower(c.ca) !in inflight
    ensures Candidacy(Item(Some(c.ca), c.chain), EvictLogo(cache, Lower(c.ca)), inflight).Some?
  {
  }

  /** `deleteCoin`: a request only after the user confirms. */
  function DeleteCoin(ca: string, confirmed: bool): (r: Option<string>)
    ensures r.Some? <==> confirmed
    ensures r.Some? ==> r.value == "/coins/" + EncodeUriComponent(ca)
  {
    if confirmed then Some("/coins/" + EncodeUriComponent(ca)) else None
  }
}

=== FILE: dashboard.dfy ===
/**
  The dashboard page's logic: digit-grouped number input, the bubble-row editor, the
  latest-request-wins metadata fetch, the logo pass over the previews, the snapshot file name
  and the validation in front of each submit.
 */
module Dashboard {
  import opened Wrappers
  import opened Text
  import opened Sorting
  import opened Lists
  import opened DexChain
  import opened DexLookup
  import opened LogoPass

  // ---------------------------------------------------------------------------
  // Digit grouping: onlyDigits, fmtDots, numFromDots

  /** `v.replace(/[^\d]/g, "")`: the decimal digits of `v`, in order. */
  function OnlyDigits(v: string): (r: string)
    ensures AllDigits(r) && |r| <= |v|
    decreases |v|
  {
    if |v| == 0 then ""
    else (if IsDigit(v[0]) then [v[0]] else "") + OnlyDigits(v[1..])
  }

  lemma {:induction false} OnlyDigitsKeepsDigitStrings(v: string)
    requires AllDigits(v)
    ensures OnlyDigits(v) == v
    decreases |v|
  {
    if |v| > 0 {
      OnlyDigitsKeepsDigitStrings(v[1..]);
    }
  }

  lemma {:induction false} OnlyDigitsConcat(a: string, b: string)
    ensures OnlyDigits(a + b) == OnlyDigits(a) + OnlyDigits(b)
    decreases |a|
  {
    if |a| > 0 {
      assert (a + b)[1..] == a[1..] + b;
      OnlyDigitsConcat(a[1..], b);
    } else {
      assert a + b == b;
    }
  }

  lemma {:induction false} OnlyDigitsNone(v: string)
    requires forall i :: 0 <= i < |v| ==> !IsDigit(v[i])
    ensures OnlyDigits(v) == ""
    decreases |v|
  {
    if |v| > 0 {
      OnlyDigitsNone(v[1..]);
    }
  }

  /** The regular expression `\B(?=(\d{3})+(?!\d))` on a digit string: a dot after each digit
      that is followed by a positive multiple of three digits. */
  function InsertDots(d: string): (r: string)
    decreases |d|
  {
    if |d| == 0 then ""
    else [d[0]] + (if |d| - 1 > 0 && (|d| - 1) % 3 == 0 then "." else "") + InsertDots(d[1..])
  }

  /** `fmtDots(v)`: "" when `v` has no digit, otherwise its digits grouped by dots. */
  function FmtDots(v: string): (r: string)
    ensures r == "" <==> OnlyDigits(v) == ""
  {
    var d := OnlyDigits(v);
    if d == "" then "" else InsertDots(d)
  }

  /** Removes the dots: the inverse of the grouping. */
  function StripDots(s: string): string
    decreases |s|
  {
    if |s| == 0 then "" else (if s[0] == '.' then "" else [s[0]]) + StripDots(s[1..])
  }

  lemma {:induction false} StripInsertDots(d: string)
    requires AllDigits(d)
    ensures StripDots(InsertDots(d)) == d
    ensures OnlyDigits(InsertDots(d)) == OnlyDigits(d)
    ensures |InsertDots(d)| > 0 ==> InsertDots(d)[0] != '.' && InsertDots(d)[|InsertDots(d)| - 1] != '.'
    decreases |d|
  {
    if |d| > 0 {
      StripInsertDots(d[1..]);
      var dot: string := if |d| - 1 > 0 && (|d| - 1) % 3 == 0 then "." else "";
      var rest := InsertDots(d[1..]);
      StripDotsConcat([d[0]] + dot, rest);
      StripDotsConcat([d[0]], dot);
      assert StripDots([d[0]]) == [d[0]];
      OnlyDigitsConcat([d[0]] + dot, rest);
      OnlyDigitsConcat([d[0]], dot);
      OnlyDigitsConcat([d[0]], d[1..]);
      assert d == [d[0]] + d[1..];
      if dot == "." {
        assert |d[1..]| > 0;
      }
    }
  }

  lemma {:induction false} StripDotsConcat(a: string, b: string)
    ensures StripDots(a + b) == StripDots(a) + StripDots(b)
    decreases |a|
  {
    if |a| > 0 {
      assert (a + b)[1..] == a[1..] + b;
      StripDotsConcat(a[1..], b);
    } else {
      assert a + b == b;
    }
  }

  /** Removing the dots from `fmtDots(v)` gives back exactly the digits of `v`. */
  lemma FmtDotsDigits(v: string)
    ensures StripDots(FmtDots(v)) == OnlyDigits(v)
    ensures OnlyDigits(FmtDots(v)) == OnlyDigits(v)
    ensures FmtDots(v) != "" ==> FmtDots(v)[0] != '.' && FmtDots(v)[|FmtDots(v)| - 1] != '.'
  {
    StripInsertDots(OnlyDigits(v));
    OnlyDigitsKeepsDigitStrings(OnlyDigits(v));
  }

  /** Groups of three counted from the right: an independent description of the grouping. */
  function GroupThrees(d: string): string
    decreases |d|
  {
    if |d| <= 3 then d else GroupThrees(d[..|d| - 3]) + "." + d[|d| - 3..]
  }

  lemma ShortNoDots(d: string)
    requires |d| <= 3
    ensures InsertDots(d) == d
  {
    if |d| > 0 {
      assert d == [d[0]] + d[1..];
      if |d| > 1 {
        assert d[1..] == [d[1]] + d[2..];
        if |d| > 2 {
          assert d[2..] == [d[2]];
        }
      }
    }
  }

  lemma {:induction false} InsertDotsSplit(d: string)
    requires |d| > 3
    ensures InsertDots(d) == InsertDots(d[..|d| - 3]) + "." + d[|d| - 3..]
    decreases |d|
  {
    var n := |d|;
    if n == 4 {
      ShortNoDots(d[1..]);
      ShortNoDots(d[..1]);
      assert d[1..] == d[n - 3..];
    } else {
      InsertDotsSplit(d[1..]);
      assert d[1..][..|d[1..]| - 3] == d[1..n - 3];
      assert d[1..][|d[1..]| - 3..] == d[n - 3..];
      var p := d[..n - 3];
      assert p[1..] == d[1..n - 3];
      assert (n - 1) % 3 == (|p| - 1) % 3;
    }
  }

  /** The dot positions of `fmtDots` are those of grouping by three from the right. */
  lemma {:induction false} InsertDotsGroupsThrees(d: string)
    ensures InsertDots(d) == GroupThrees(d)
    decreases |d|
  {
    if |d| <= 3 {
      ShortNoDots(d);
    } else {
      InsertDotsSplit(d);
      InsertDotsGroupsThrees(d[..|d| - 3]);
    }
  }

  /** The largest decimal value `Number()` does not round to infinity, plus one. */
  function Pow2(n: nat): nat {
    if n == 0 then 1 else 2 * Pow2(n - 1)
  }

  const InfinityThreshold: int := Pow2(1024) - Pow2(970)

  /**
    `numFromDots(v)`: null when `v` has no digit; otherwise the value of its digits, or null
    when that value is too large to be a finite double.
   */
  function NumFromDots(v: string): (r: Option<int>)
    ensures OnlyDigits(v) == "" ==> r.None?
    ensures r.Some? ==> r.value >= 0 && r.value == DigitsValue(OnlyDigits(v))
  {
    var d := OnlyDigits(v);
    if d == "" then None
    else
      var n := DigitsValue(d);
      if n < InfinityThreshold then Some(n) else None
  }

  /** Formatting then parsing gives what parsing the raw input gives. */
  lemma NumFromDotsRoundTrip(v: string)
    ensures NumFromDots(FmtDots(v)) == NumFromDots(v)
  {
    FmtDotsDigits(v);
  }

  /** A digit string of moderate length always parses. */
  lemma NumFromDotsDefined(v: string)
    ensures OnlyDigits(v) != "" && DigitsValue(OnlyDigits(v)) < InfinityThreshold ==>
      NumFromDots(v) == Some(DigitsValue(OnlyDigits(v)))
  {
  }

  // ---------------------------------------------------------------------------
  // Bubble editor: addCluster / addOther

  datatype BubbleRow = BubbleRow(rank: real, pct: real)

  function RankLe(): (BubbleRow, BubbleRow) -> bool {
    (a: BubbleRow, b: BubbleRow) => a.rank <= b.rank
  }

  lemma RankLeTotal()
    ensures TotalPreorder(RankLe())
  {
  }

  predicate UniqueRanks(rows: seq<BubbleRow>) {
    forall i, j :: 0 <= i < j < |rows| ==> rows[i].rank != rows[j].rank
  }

  function WithoutRank(rows: seq<BubbleRow>, rank: real): (r: seq<BubbleRow>)
    ensures forall i :: 0 <= i < |r| ==> r[i].rank != rank
    ensures forall x :: x in r <==> x in rows && x.rank != rank
    ensures multiset(r) <= multiset(rows)
    ensures forall x :: multiset(r)[x] == if x.rank == rank then 0 else multiset(rows)[x]
    decreases |rows|
  {
    if |rows| == 0 then []
    else
      var rest := WithoutRank(rows[1..], rank);
      assert rows == [rows[0]] + rows[1..];
      if rows[0].rank == rank then rest else [rows[0]] + rest
  }

  /**
    `addCluster` / `addOther` with the parsed inputs (null when empty or not a finite number).
    A missing or non-positive rank, or a missing or negative pct, leaves the list unchanged.
    Otherwise any row with that rank is replaced by the new row and the list is sorted by rank.
   */
  function AddRow(rows: seq<BubbleRow>, rank: Option<real>, pct: Option<real>): (r: seq<BubbleRow>)
    ensures rank.None? || rank.value <= 0.0 || pct.None? || pct.value < 0.0 ==> r == rows
    ensures !(rank.None? || rank.value <= 0.0 || pct.None? || pct.value < 0.0) ==>
      && BubbleRow(rank.value, pct.value) in r
      && (forall i, j :: 0 <= i < j < |r| ==> r[i].rank <= r[j].rank)
      && (forall x :: x in r && x.rank == rank.value ==> x == BubbleRow(rank.value, pct.value))
      && (forall x :: x in rows && x.rank != rank.value ==> x in r)
      && (forall x :: x in r ==> x in rows || x == BubbleRow(rank.value, pct.value))
      && (UniqueRanks(rows) ==> UniqueRanks(r))
      && multiset(r) == multiset(WithoutRank(rows, rank.value)) + multiset{BubbleRow(rank.value, pct.value)}
  {
    if rank.None? || rank.value <= 0.0 || pct.None? || pct.value < 0.0 then rows
    else
      var row := BubbleRow(rank.value, pct.value);
      var kept := WithoutRank(rows, rank.value);
      RankLeTotal();
      var r := SortBy(kept + [row], RankLe());
      SameElements(r, kept + [row]);
      UniqueAfterAdd(rows, kept, row, r);
      r
  }

  lemma UniqueAfterAdd(rows: seq<BubbleRow>, kept: seq<BubbleRow>, row: BubbleRow, r: seq<BubbleRow>)
    requires multiset(kept) <= multiset(rows)
    requires forall i :: 0 <= i < |kept| ==> kept[i].rank != row.rank
    requires multiset(r) == multiset(kept + [row])
    ensures UniqueRanks(rows) ==> UniqueRanks(r)
  {
    if !UniqueRanks(rows) { return; }
    UniqueSub(rows, kept);
    var all := kept + [row];
    assert UniqueRanks(all);
    UniquePerm(all, r);
  }

  /** Unique ranks survive taking a sub-multiset. */
  lemma UniqueSub(rows: seq<BubbleRow>, kept: seq<BubbleRow>)
    requires UniqueRanks(rows) && multiset(kept) <= multiset(rows)
    ensures UniqueRanks(kept)
  {
    forall i, j | 0 <= i < j < |kept|
      ensures kept[i].rank != kept[j].rank
    {
      if kept[i].rank == kept[j].rank {
        assert kept[i] in multiset(kept) && kept[j] in multiset(kept);
        assert kept[i] in multiset(rows) && kept[j] in multiset(rows);
        SameRankSameRow(rows, kept[i], kept[j]);
        if kept[i] == kept[j] {
          CountTwo(kept, i, j);
          CountAtMostOne(rows, kept[i]);
        }
      }
    }
  }

  lemma SameRankSameRow(rows: seq<BubbleRow>, a: BubbleRow, b: BubbleRow)
    requires UniqueRanks(rows) && a in rows && b in rows && a.rank == b.rank
    ensures a == b
  {
  }

  lemma {:induction false} CountAtMostOne(rows: seq<BubbleRow>, x: BubbleRow)
    requires UniqueRanks(rows)
    ensures multiset(rows)[x] <= 1
    decreases |rows|
  {
    if |rows| > 0 {
      var rest := rows[1..];
      assert rows == [rows[0]] + rest;
      assert UniqueRanks(rest) by {
        forall i, j | 0 <= i < j < |rest|
          ensures rest[i].rank != rest[j].rank
        {
          assert rest[i] == rows[i + 1] && rest[j] == rows[j + 1];
        }
      }
      CountAtMostOne(rest, x);
      if rows[0] == x {
        assert forall k :: 0 <= k < |rest| ==> rest[k] != x by {
          forall k | 0 <= k < |rest|
            ensures rest[k] != x
          {
            assert rest[k] == rows[k + 1] && rows[0].rank != rows[k + 1].rank;
          }
        }
        assert x !in multiset(rest);
      }
    }
  }

  /** Unique ranks are a property of the multiset of rows, so a permutation keeps them. */
  lemma UniquePerm(a: seq<BubbleRow>, b: seq<BubbleRow>)
    requires UniqueRanks(a) && multiset(a) == multiset(b)
    ensures UniqueRanks(b)
  {
    UniqueSub(a, b);
  }

  // ---------------------------------------------------------------------------
  // Latest-request-wins metadata fetch

  /** The token metadata the backend returns, reduced to what the form reads. */
  datatype TokenMeta = TokenMeta(name: Option<string>, symbol: Option<string>, chain: Option<string>,
                                 launchTs: Option<string>)

  /**
    The form state around the address input: the input text, the request counter, the
    loading flag, the error banner, the metadata and the three manual fields.
   */
  datatype MetaForm = MetaForm(caInput: string, counter: nat, loading: bool, error: Option<string>,
                               meta: Option<TokenMeta>, name: string, symbol: string, launch: string)

  /** A request issued by `fetchMeta`: its id and its path. */
  datatype MetaRequest = MetaRequest(id: nat, path: string)

  const MetaPath := "/dexscreener/token_meta?ca="

  /**
    The synchronous part of `fetchMeta`: the raw address is the override, else the live input
    value, else the state's input, trimmed. A blank address does nothing; otherwise the input
    is synchronised, the counter advances and a request for the lower-cased address is issued.
   */
  function StartFetch(s: MetaForm, override: Option<string>, liveInput: Option<string>): (r: (MetaForm, Option<MetaRequest>))
    ensures var raw := Trim(override.GetOr(liveInput.GetOr(s.caInput)));
      && (raw == "" ==> r == (s, None))
      && (raw != "" ==>
            && r.1 == Some(MetaRequest(s.counter + 1, MetaPath + EncodeUriComponent(Lower(raw))))
            && r.0 == s.(caInput := raw, counter := s.counter + 1, loading := true, error := None))
  {
    var raw := Trim(override.GetOr(liveInput.GetOr(s.caInput)));
    if raw == "" then (s, None)
    else
      var id := s.counter + 1;
      (s.(caInput := raw, counter := id, loading := true, error := None),
       Some(MetaRequest(id, MetaPath + EncodeUriComponent(Lower(raw)))))
  }

  /**
    The manual launch field: the local `YYYY-MM-DDTHH:MM` form of `launch_ts` when it is a
    truthy, parseable date, else "". Date parsing and the local time zone are the parameter.
   */
  function LaunchField(ts: Option<string>, localStamp: string -> Option<string>): string {
    if ts.Some? && ts.value != "" then localStamp(ts.value).GetOr("") else ""
  }

  /**
    The completion of request `id`: ignored entirely unless `id` is still the latest; on success
    the metadata and manual fields are replaced, on failure the error is shown, and in both
    cases loading stops.
   */
  function Complete(s: MetaForm, id: nat, outcome: Result<TokenMeta, string>,
                    localStamp: string -> Option<string>): (r: MetaForm)
    ensures id != s.counter ==> r == s
    ensures id == s.counter ==> !r.loading && r.caInput == s.caInput && r.counter == s.counter
    ensures id == s.counter && outcome.Ok? ==>
      && r.meta == Some(outcome.value) && r.error == s.error
      && r.name == outcome.value.name.GetOr("") && r.symbol == outcome.value.symbol.GetOr("")
    ensures id == s.counter && outcome.Err? ==>
      r.error == Some(outcome.error) && r.meta == s.meta && r.name == s.name && r.symbol == s.symbol
  {
    if id != s.counter then s
    else
      match outcome
      case Ok(m) =>
        s.(meta := Some(m), name := m.name.GetOr(""), symbol := m.symbol.GetOr(""),
           launch := LaunchField(m.launchTs, localStamp), loading := false)
      case Err(msg) => s.(error := Some(msg), loading := false)
  }

  /** Typing in the address input: every pending request becomes stale and the form is cleared. */
  function EditCa(s: MetaForm, v: string): (r: MetaForm)
    ensures r.caInput == v && r.counter > s.counter
    ensures !r.loading && r.meta.None? && r.name == "" && r.symbol == "" && r.launch == ""
    ensures r.error == s.error
  {
    s.(caInput := v, counter := s.counter + 1, loading := false, meta := None, name := "", symbol := "",
       launch := "")
  }

  /** A completion for an older request changes nothing, whatever it carries. */
  lemma StaleCompletionIgnored(s: MetaForm, id: nat, outcome: Result<TokenMeta, string>,
                               localStamp: string -> Option<string>)
    requires id < s.counter
    ensures Complete(s, id, outcome, localStamp) == s
  {
  }

  /**
    Two fetches started back to back and answered in either order: the form ends up showing
    the second answer, and the first answer never reaches it.
   */
  lemma LatestFetchWins(s: MetaForm, a: string, b: string, first: Result<TokenMeta, string>,
                        second: TokenMeta, localStamp: string -> Option<string>, secondFirst: bool)
    requires !Blank(a) && !Blank(b)
    ensures
      var (s1, q1) := StartFetch(s, Some(a), None);
      var (s2, q2) := StartFetch(s1, Some(b), None);
      q1.Some? && q2.Some? && q1.value.id < q2.value.id &&
      var done := if secondFirst
        then Complete(Complete(s2, q2.value.id, Ok(second), localStamp), q1.value.id, first, localStamp)
        else Complete(Complete(s2, q1.value.id, first, localStamp), q2.value.id, Ok(second), localStamp);
      done.meta == Some(second) && !done.loading && done.caInput == Trim(b) && done.error.None?
  {
  }

  /** Editing the input after a fetch started makes its completion a no-op. */
  lemma EditInvalidatesFetch(s: MetaForm, a: string, v: string, outcome: Result<TokenMeta, string>,
                             localStamp: string -> Option<string>)
    requires !Blank(a)
    ensures
      var (s1, q) := StartFetch(s, Some(a), None);
      var s2 := EditCa(s1, v);
      q.Some? && Complete(s2, q.value.id, outcome, localStamp) == s2 && !s2.loading
  {
  }

  /**
    The coin part of every dashboard submit: the lower-cased trimmed address, the trimmed
    manual name and symbol or null, and the metadata chain or "unknown".
   */
  datatype CoinDraft = CoinDraft(ca: string, name: Option<string>, symbol: Option<string>, chain: string)

  function NullIfEmpty(v: string): (r: Option<string>)
    ensures r.None? <==> v == ""
    ensures r.Some? ==> r.value == v
  {
    if v == "" then None else Some(v)
  }

  function DraftOf(s: MetaForm): (r: CoinDraft)
    ensures r.ca == Lower(Trim(s.caInput))
    ensures r.chain != ""
    ensures r.name.Some? ==> r.name.value != "" && Trimmed(r.name.value)
  {
    var name := Trim(s.name);
    assert Trimmed(name);
    var chain := if s.meta.Some? && s.meta.value.chain.Some? && s.meta.value.chain.value != ""
                 then s.meta.value.chain.value else "unknown";
    CoinDraft(Lower(Trim(s.caInput)), NullIfEmpty(name), NullIfEmpty(Trim(s.symbol)), chain)
  }

  // ---------------------------------------------------------------------------
  // Submit validation

  /** What a submit does before any request: report an error, stop silently, or send. */
  datatype Submit = Rejected(message: string) | Ignored | Send(path: string, mcap: int)

  /** `!entry || entry <= 0` on the parsed amount: missing, zero or negative is rejected. */
  predicate PositiveAmount(v: Option<int>) {
    v.Some? && v.value > 0
  }

  function SubmitDex(ca: string, entryMcap: string): (r: Submit)
    ensures r.Send? <==> ca != "" && PositiveAmount(NumFromDots(entryMcap))
    ensures r.Send? ==> r.path == "/wizard/dex_add" && r.mcap == NumFromDots(entryMcap).value
    ensures ca == "" ==> r == Rejected("CA boş olamaz")
  {
    if ca == "" then Rejected("CA boş olamaz")
    else
      var entry := NumFromDots(entryMcap);
      if !PositiveAmount(entry) then Rejected("Entry MCAP zorunlu")
      else Send("/wizard/dex_add", entry.value)
  }

  function SubmitInfluencer(ca: string, handle: string, postMcap: string, postTs: string): (r: Submit)
    ensures r.Send? <==> ca != "" && Trim(handle) != "" && PositiveAmount(NumFromDots(postMcap)) && postTs != ""
    ensures r.Send? ==> r.path == "/wizard/influencer_add" && r.mcap == NumFromDots(postMcap).value
    ensures !r.Send? ==> r.Rejected?
  {
    if ca == "" then Rejected("CA boş olamaz")
    else if Trim(handle) == "" then Rejected("Handle zorunlu")
    else
      var pm := NumFromDots(postMcap);
      if !PositiveAmount(pm) then Rejected("Post MCAP zorunlu")
      else if postTs == "" then Rejected("Post tarihi zorunlu")
      else Send("/wizard/influencer_add", pm.value)
  }

  function SubmitClose(tradeId: Option<string>, exitMcap: string): (r: Submit)
    ensures tradeId.None? || tradeId.value == "" ==> r == Ignored
    ensures r.Send? <==> tradeId.Some? && tradeId.value != "" && PositiveAmount(NumFromDots(exitMcap))
    ensures r.Send? ==> r.path == "/trades/close" && r.mcap == NumFromDots(exitMcap).value
  {
    if tradeId.None? || tradeId.value == "" then Ignored
    else
      var ex := NumFromDots(exitMcap);
      if !PositiveAmount(ex) then Rejected("Exit MCAP zorunlu") else Send("/trades/close", ex.value)
  }

  /** Formatting the amount field never changes whether a submit is accepted. */
  lemma FormattingKeepsSubmit(ca: string, entryMcap: string)
    ensures SubmitDex(ca, FmtDots(entryMcap)) == SubmitDex(ca, entryMcap)
  {
    NumFromDotsRoundTrip(entryMcap);
  }

  // ---------------------------------------------------------------------------
  // Snapshot file name

  predicate SafeChar(c: char) {
    ('a' <= c <= 'z') || ('A' <= c <= 'Z') || ('0' <= c <= '9') || c == '_' || c == '-'
  }

  /** `s.replace(/[^a-zA-Z0-9_-]+/g, "_")`: each maximal run of other characters becomes one `_`. */
  function Sanitize(s: string): (r: string)
    ensures forall i :: 0 <= i < |r| ==> SafeChar(r[i])
    ensures |r| <= |s|
    ensures r == "" <==> s == ""
    decreases |s|
  {
    if |s| == 0 then ""
    else if SafeChar(s[0]) then [s[0]] + Sanitize(s[1..])
    else "_" + Sanitize(SkipUnsafe(s[1..]))
  }

  /** Drops the leading run of characters outside the safe set. */
  function SkipUnsafe(s: string): (r: string)
    ensures |r| <= |s| && (|r| > 0 ==> SafeChar(r[0]))
    ensures r == s[|s| - |r|..]
    decreases |s|
  {
    if |s| == 0 || SafeChar(s[0]) then s else SkipUnsafe(s[1..])
  }

  /** Strings made of safe characters are left alone. */
  lemma {:induction false} SanitizeSafe(s: string)
    requires forall i :: 0 <= i < |s| ==> SafeChar(s[i])
    ensures Sanitize(s) == s
    decreases |s|
  {
    if |s| > 0 {
      SanitizeSafe(s[1..]);
    }
  }

  /** Sanitising twice is sanitising once. */
  lemma SanitizeIdempotent(s: string)
    ensures Sanitize(Sanitize(s)) == Sanitize(s)
  {
    SanitizeSafe(Sanitize(s));
  }

  /** No two underscores produced from unsafe runs are adjacent to each other. */
  lemma {:induction false} SanitizeRunsCollapse(s: string)
    requires |s| >= 2 && !SafeChar(s[0]) && !SafeChar(s[1])
    ensures Sanitize(s) == Sanitize(s[1..])
  {
    assert SkipUnsafe(s[1..]) == SkipUnsafe(s[2..]);
    assert s[1..][1..] == s[2..];
  }

  function SnapshotFilename(snapshotCa: string): (r: string)
    ensures Trim(snapshotCa) == "" ==> r == "snapshot.json"
    ensures Trim(snapshotCa) != "" ==>
      && |r| > |"snapshot_.json"|
      && r == "snapshot_" + r[9..|r| - 5] + ".json"
      && (forall i :: 9 <= i < |r| - 5 ==> SafeChar(r[i]))
      && r[9..|r| - 5] == Sanitize(Trim(snapshotCa))
  {
    var safe := Sanitize(Trim(snapshotCa));
    if safe == "" then "snapshot.json"
    else
      var r := "snapshot_" + safe + ".json";
      assert r[9..|r| - 5] == safe;
      r
  }

  // ---------------------------------------------------------------------------
  // The dashboard's logo pass

  /** A preview row: an open trade or a tip, with the fields the pass reads. */
  datatype PreviewRow = PreviewRow(ca: Option<string>, chain: Option<string>)

  /** A coin summary: its address and chain. */
  datatype CoinRow = CoinRow(ca: string, chain: Option<string>)

  /** `coins.find(x => x.ca === t.ca)?.chain`: the chain of the first coin with the identical address. */
  function CoinChain(coins: seq<CoinRow>, ca: Option<string>): (r: Option<string>)
    ensures r.Some? ==> exists i :: 0 <= i < |coins| && Some(coins[i].ca) == ca && coins[i].chain == r
    ensures (forall i :: 0 <= i < |coins| ==> Some(coins[i].ca) != ca) ==> r.None?
    decreases |coins|
  {
    if |coins| == 0 then None
    else if Some(coins[0].ca) == ca then coins[0].chain
    else CoinChain(coins[1..], ca)
  }

  function Preview<T>(s: seq<T>): (r: seq<T>)
    ensures |r| <= 3 && |r| <= |s| && r == s[..|r|]
  {
    if |s| <= 3 then s else s[..3]
  }

  /** Open trades take their own chain when present, else the coin's. */
  function TradeItems(trades: seq<PreviewRow>, coins: seq<CoinRow>): (r: seq<Item>)
    ensures |r| == |trades|
    ensures forall i :: 0 <= i < |trades| ==>
      r[i].ca == trades[i].ca
      && r[i].chain == (if trades[i].chain.Some? then trades[i].chain else CoinChain(coins, trades[i].ca))
  {
    ScanItems(trades, (t: PreviewRow) => t.ca,
              (t: PreviewRow) => if t.chain.Some? then t.chain else CoinChain(coins, t.ca))
  }

  /** Tips take the coin's chain only. */
  function TipItems(tips: seq<PreviewRow>, coins: seq<CoinRow>): (r: seq<Item>)
    ensures |r| == |tips|
    ensures forall i :: 0 <= i < |tips| ==> r[i].ca == tips[i].ca && r[i].chain == CoinChain(coins, tips[i].ca)
  {
    ScanItems(tips, (t: PreviewRow) => t.ca, (t: PreviewRow) => CoinChain(coins, t.ca))
  }

  /**
    The dashboard pass: the first three open trades and then the first three tips are scanned
    with one shared `seen` set and the cap of 40, and the candidates are resolved with the
    keep-existing merge.
   */
  function DashboardLogoPass(openTrades: seq<PreviewRow>, tips: seq<PreviewRow>, coins: seq<CoinRow>,
                             cache: LogoMap, inflight: set<string>, lookup: Candidate -> Lookup,
                             cancelAt: nat): (r: PassResult)
    ensures |r.steps| <= |Preview(openTrades)| + |Preview(tips)| <= 6
    ensures r.inflight == inflight
    ensures forall k :: Has(cache, k) ==> k in r.cache && r.cache[k] == cache[k]
    ensures forall i, j :: 0 <= i < j < |r.steps| ==> KeyOf(r.steps[i].query) != KeyOf(r.steps[j].query)
    ensures forall j :: 0 <= j < |r.steps| ==>
      var c := r.steps[j].query;
      KeyOf(c) != "" && c.chain != "" && !Has(cache, KeyOf(c)) && KeyOf(c) !in inflight
  {
    var cands := DashboardCandidates(openTrades, tips, coins, cache, inflight);
    var r := Resolve(cands, 0, cache, inflight, lookup, cancelAt, KeepExisting);
    assert inflight - Keys(cands) == inflight;
    forall k | Has(cache, k)
      ensures k in r.cache && r.cache[k] == cache[k]
    {
      ResolveKeepsEntries(cands, 0, cache, inflight, lookup, cancelAt, k);
    }
    r
  }

  /** The candidates of the dashboard pass: the previewed trades' and then the tips'. */
  function DashboardCandidates(openTrades: seq<PreviewRow>, tips: seq<PreviewRow>, coins: seq<CoinRow>,
                               cache: LogoMap, inflight: set<string>): (cands: seq<Candidate>)
    ensures |cands| <= |Preview(openTrades)| + |Preview(tips)|
    ensures DistinctKeys(cands)
    ensures forall j :: 0 <= j < |cands| ==>
      KeyOf(cands[j]) != "" && cands[j].chain != "" && !Has(cache, KeyOf(cands[j])) && KeyOf(cands[j]) !in inflight
  {
    var tradeItems := TradeItems(Preview(openTrades), coins);
    var tipItems := TipItems(Preview(tips), coins);
    var first := Collect(tradeItems, cache, inflight, 40, []);
    assert DistinctKeys(first);
    var cands := Collect(tipItems, cache, inflight, 40, first);
    forall j | 0 <= j < |first|
      ensures cands[j] == first[j]
    {
      assert cands[..|first|][j] == cands[j];
    }
    cands
  }

  /** A tip's own chain plays no part: only the coin summary supplies it. */
  lemma TipChainFromCoinsOnly(tip: PreviewRow, coins: seq<CoinRow>, cache: LogoMap, inflight: set<string>,
                              lookup: Candidate -> Lookup, cancelAt: nat)
    requires tip.ca.Some? && Lower(tip.ca.value) != "" && tip.chain.Some? && !Blank(tip.chain.value)
    requires forall i :: 0 <= i < |coins| ==> coins[i].ca != tip.ca.value
    ensures DashboardLogoPass([], [tip], coins, cache, inflight, lookup, cancelAt).steps == []
  {
    UncoveredTipNoCandidate(tip, coins, cache, inflight);
  }

  /** A tip whose address has no coin row yields no candidate. */
  lemma UncoveredTipNoCandidate(tip: PreviewRow, coins: seq<CoinRow>, cache: LogoMap, inflight: set<string>)
    requires forall i :: 0 <= i < |coins| ==> Some(coins[i].ca) != tip.ca
    ensures DashboardCandidates([], [tip], coins, cache, inflight) == []
  {
    assert Preview([tip]) == [tip];
    var items := TipItems([tip], coins);
    assert items[0].chain.None?;
    TrimEmpty();
    assert Candidacy(items[0], cache, inflight).None?;
    assert items[1..] == [];
    assert Collect(items, cache, inflight, 40, []) == Collect(items[1..], cache, inflight, 40, []);
  }

}

=== FILE: dex_chain.dfy ===
/**
  The frontend's chain-alias table (`dexChainIdFor`) and DexScreener page links (`dexUrlFor`),
  with `encodeURIComponent` for the search link.
 */
module DexChain {
  import opened Wrappers
  import opened Text

  /**
    The alias table of `dexChainIdFor`: lower-case chain names and the DexScreener chain slug
    each stands for, listed in alphabetical order of the name.
   */
  const AliasTable: seq<(string, string)> := [
    ("arb", "arbitrum"),
    ("arbitrum", "arbitrum"),
    ("avalanche", "avalanche"),
    ("avax", "avalanche"),
    ("base", "base"),
    ("blast", "blast"),
    ("bsc", "bsc"),
    ("cronos", "cronos"),
    ("eth", "ethereum"),
    ("ethereum", "ethereum"),
    ("fantom", "fantom"),
    ("ftm", "fantom"),
    ("linea", "linea"),
    ("matic", "polygon"),
    ("op", "optimism"),
    ("optimism", "optimism"),
    ("polygon", "polygon"),
    ("sol", "solana"),
    ("solana", "solana")
  ]

  const AliasNames: seq<string> := [
    "arb", "arbitrum", "avalanche", "avax", "base", "blast", "bsc", "cronos", "eth", "ethereum",
    "fantom", "ftm", "linea", "matic", "op", "optimism", "polygon", "sol", "solana"
  ]

  lemma AliasNamesOfTable()
    ensures Names(AliasTable) == AliasNames
  {
  }

  /** The slugs, in alphabetical order. */
  const SlugList: seq<string> := [
    "arbitrum", "avalanche", "base", "blast", "bsc", "cronos",
    "ethereum", "fantom", "linea", "optimism", "polygon", "solana"
  ]

  function Names(table: seq<(string, string)>): (r: seq<string>)
    ensures |r| == |table|
    ensures forall i :: 0 <= i < |table| ==> r[i] == table[i].0
  {
    seq(|table|, i requires 0 <= i < |table| => table[i].0)
  }

  /** The slug of the first entry named `c`. */
  function Lookup(table: seq<(string, string)>, c: string): (r: Option<string>)
    ensures r.Some? <==> c in Names(table)
    ensures r.Some? ==> exists i :: 0 <= i < |table| && table[i] == (c, r.value)
  {
    if |table| == 0 then None
    else if table[0].0 == c then Some(table[0].1)
    else
      var r := Lookup(table[1..], c);
      assert Names(table) == [table[0].0] + Names(table[1..]);
      if r.Some? then
        var i :| 0 <= i < |table[1..]| && table[1..][i] == (c, r.value);
        assert table[i + 1] == (c, r.value);
        r
      else r
  }

  /**
    `dexChainIdFor(chain)`: the input lower-cased (not trimmed) and looked up in the alias
    table; `null`, `undefined` and "" give no slug.
   */
  function DexChainIdFor(chain: Option<string>): (r: Option<string>)
    ensures r.Some? <==> Lower(chain.GetOr("")) in Names(AliasTable)
    ensures r.Some? ==> r.value in SlugList
  {
    var c := Lower(chain.GetOr(""));
    var r := Lookup(AliasTable, c);
    if r.Some? then
      var i :| 0 <= i < |AliasTable| && AliasTable[i] == (c, r.value);
      AliasSlugsListed();
      r
    else r
  }

  // Distinctness of the table's names, through their strict alphabetical order.

  predicate LexLess(a: string, b: string)
    decreases |a|
  {
    if |a| == 0 then |b| > 0
    else |b| > 0 && (a[0] < b[0] || (a[0] == b[0] && LexLess(a[1..], b[1..])))
  }

  lemma {:induction false} LexLessTrans(a: string, b: string, c: string)
    requires LexLess(a, b) && LexLess(b, c)
    ensures LexLess(a, c)
    decreases |a|
  {
    if |a| > 0 && a[0] == b[0] && b[0] == c[0] {
      LexLessTrans(a[1..], b[1..], c[1..]);
    }
  }

  lemma {:induction false} LexLessIrreflexive(a: string)
    ensures !LexLess(a, a)
    decreases |a|
  {
    if |a| > 0 {
      LexLessIrreflexive(a[1..]);
    }
  }

  predicate StrictlyAscending(xs: seq<string>) {
    forall i :: 0 <= i < |xs| - 1 ==> LexLess(xs[i], xs[i + 1])
  }

  lemma {:induction false} AscendingDistinct(xs: seq<string>)
    requires StrictlyAscending(xs)
    ensures forall i, j :: 0 <= i < j < |xs| ==> xs[i] != xs[j]
  {
    forall i, j | 0 <= i < j < |xs|
      ensures xs[i] != xs[j]
    {
      AscendingLess(xs, i, j);
      LexLessIrreflexive(xs[i]);
    }
  }

  lemma {:induction false} AscendingLess(xs: seq<string>, i: nat, j: nat)
    requires StrictlyAscending(xs) && i < j < |xs|
    ensures LexLess(xs[i], xs[j])
    decreases j - i
  {
    if j > i + 1 {
      AscendingLess(xs, i + 1, j);
      LexLessTrans(xs[i], xs[i + 1], xs[j]);
    }
  }

  lemma AliasNamesAscendingHead()
    ensures forall i :: 0 <= i < 6 ==> LexLess(AliasNames[i], AliasNames[i + 1])
  {
    assert LexLess("arb", "arbitrum") && LexLess("arbitrum", "avalanche") && LexLess("avalanche", "avax");
    assert LexLess("avax", "base") && LexLess("base", "blast") && LexLess("blast", "bsc");
  }

  lemma AliasNamesAscendingMiddle()
    ensures forall i :: 6 <= i < 12 ==> LexLess(AliasNames[i], AliasNames[i + 1])
  {
    assert LexLess("bsc", "cronos") && LexLess("cronos", "eth") && LexLess("eth", "ethereum");
    assert LexLess("ethereum", "fantom") && LexLess("fantom", "ftm") && LexLess("ftm", "linea");
  }

  lemma AliasNamesAscendingTail()
    ensures forall i :: 12 <= i < 18 ==> LexLess(AliasNames[i], AliasNames[i + 1])
  {
    assert LexLess("linea", "matic") && LexLess("matic", "op") && LexLess("op", "optimism");
    assert LexLess("optimism", "polygon") && LexLess("polygon", "sol") && LexLess("sol", "solana");
  }

  /** The table lists 19 distinct names. */
  lemma AliasCount()
    ensures |AliasNames| == 19
    ensures forall i, j :: 0 <= i < j < 19 ==> AliasNames[i] != AliasNames[j]
  {
    AliasNamesAscendingHead();
    AliasNamesAscendingMiddle();
    AliasNamesAscendingTail();
    assert StrictlyAscending(AliasNames);
    AscendingDistinct(AliasNames);
  }

  lemma SlugListAscending()
    ensures StrictlyAscending(SlugList)
  {
    assert LexLess("arbitrum", "avalanche") && LexLess("avalanche", "base") && LexLess("base", "blast");
    assert LexLess("blast", "bsc") && LexLess("bsc", "cronos") && LexLess("cronos", "ethereum");
    assert LexLess("ethereum", "fantom") && LexLess("fantom", "linea") && LexLess("linea", "optimism");
    assert LexLess("optimism", "polygon") && LexLess("polygon", "solana");
  }

  /** Every slug the table gives is one of the 12. */
  lemma AliasSlugsListed()
    ensures forall i :: 0 <= i < |AliasTable| ==> AliasTable[i].1 in SlugList
  {
    forall i | 0 <= i < |AliasTable|
      ensures AliasTable[i].1 in SlugList
    {
      var k := [0, 0, 1, 1, 2, 3, 4, 5, 6, 6, 7, 7, 8, 10, 9, 9, 10, 11, 11][i];
      assert SlugList[k] == AliasTable[i].1;
    }
  }

  /** The names map onto exactly 12 distinct slugs. */
  lemma SlugCount()
    ensures |SlugList| == 12
    ensures forall i, j :: 0 <= i < j < 12 ==> SlugList[i] != SlugList[j]
    ensures forall i :: 0 <= i < |AliasTable| ==> AliasTable[i].1 in SlugList
    ensures forall s :: s in SlugList ==> exists i :: 0 <= i < |AliasTable| && AliasTable[i].1 == s
  {
    SlugListAscending();
    AscendingDistinct(SlugList);
    AliasSlugsListed();
    forall s | s in SlugList
      ensures exists i :: 0 <= i < |AliasTable| && AliasTable[i].1 == s
    {
      SlugIsOwnAlias(s);
    }
  }

  /** Every slug is also one of the names, standing for itself. */
  lemma SlugIsOwnAlias(s: string)
    requires s in SlugList
    ensures exists i :: 0 <= i < |AliasTable| && AliasTable[i] == (s, s)
  {
    var k :| 0 <= k < |SlugList| && SlugList[k] == s;
    var i := [1, 2, 4, 5, 6, 7, 9, 10, 12, 15, 16, 18][k];
    assert AliasTable[i] == (s, s);
  }

  /** The first entry named `c` is the only one: the table's names are distinct. */
  lemma LookupFinds(i: nat)
    requires i < |AliasTable|
    ensures Lookup(AliasTable, AliasTable[i].0) == Some(AliasTable[i].1)
  {
    AliasCount();
    AliasNamesOfTable();
    LookupDistinct(AliasTable, i);
  }

  lemma {:induction false} LookupDistinct(table: seq<(string, string)>, i: nat)
    requires i < |table|
    requires forall a, b :: 0 <= a < b < |table| ==> table[a].0 != table[b].0
    ensures Lookup(table, table[i].0) == Some(table[i].1)
  {
    if i > 0 {
      assert table[0].0 != table[i].0;
      assert table[1..][i - 1] == table[i];
      LookupDistinct(table[1..], i - 1);
    }
  }

  /** A chain whose lower-cased form is a name of the table maps to that name's slug. */
  lemma AliasOf(c: string, i: nat)
    requires i < |AliasTable| && Lower(c) == AliasTable[i].0
    ensures DexChainIdFor(Some(c)) == Some(AliasTable[i].1)
  {
    LookupFinds(i);
  }

  /** The aliases the wallet and coin forms send most: "ETH" in any case, "sol", "matic", "ftm", "op". */
  lemma SomeAliases()
    ensures DexChainIdFor(Some("ETH")) == Some("ethereum")
    ensures DexChainIdFor(Some("sol")) == Some("solana")
    ensures DexChainIdFor(Some("matic")) == Some("polygon")
    ensures DexChainIdFor(Some("ftm")) == Some("fantom")
    ensures DexChainIdFor(Some("op")) == Some("optimism")
  {
    EthAlias();
    LowerAlias("sol", 17);
    LowerAlias("matic", 13);
    LowerAlias("ftm", 11);
    LowerAlias("op", 14);
  }

  lemma EthAlias()
    ensures DexChainIdFor(Some("ETH")) == Some("ethereum")
  {
    assert Lower("ETH") == "eth";
    AliasOf("ETH", 8);
  }

  /** A name already in lower case finds its own entry. */
  lemma LowerAlias(c: string, i: nat)
    requires i < |AliasTable| && c == AliasTable[i].0
    ensures DexChainIdFor(Some(c)) == Some(AliasTable[i].1)
  {
    AliasNamesLowerCase();
    LowerOfLowerCase(c);
    AliasOf(c, i);
  }

  lemma NamesStartWithLetter()
    ensures forall i :: 0 <= i < |AliasTable| ==> |AliasTable[i].0| > 0 && 'a' <= AliasTable[i].0[0] <= 'z'
  {
  }

  /** `null`, `undefined` and "" map to no slug. */
  lemma NoSlugForEmpty()
    ensures DexChainIdFor(None) == None
    ensures DexChainIdFor(Some("")) == None
  {
    NamesStartWithLetter();
    assert Lower("") == "";
  }

  /** The input is not trimmed: a chain name with leading whitespace maps to no slug. */
  lemma LeadingSpaceNoSlug(c: string)
    requires |c| > 0 && IsSpace(c[0])
    ensures DexChainIdFor(Some(c)) == None
  {
    NamesStartWithLetter();
    assert Lower(c)[0] == c[0];
  }

  lemma AliasNamesLowerCase()
    ensures forall i, k :: 0 <= i < |AliasTable| && 0 <= k < |AliasTable[i].0| ==> !IsUpper(AliasTable[i].0[k])
  {
  }

  /** Mapping a slug again gives the same slug. */
  lemma DexChainIdIdempotent(chain: Option<string>)
    ensures DexChainIdFor(chain).Some? ==> DexChainIdFor(DexChainIdFor(chain)) == DexChainIdFor(chain)
  {
    var r := DexChainIdFor(chain);
    if r.Some? {
      var s := r.value;
      SlugIsOwnAlias(s);
      var i :| 0 <= i < |AliasTable| && AliasTable[i] == (s, s);
      LowerAlias(s, i);
    }
  }

  /** A string that has no upper-case letter is its own lower-case form. */
  lemma LowerOfLowerCase(s: string)
    requires forall i :: 0 <= i < |s| ==> !IsUpper(s[i])
    ensures Lower(s) == s
  {
  }

  /** The lookup ignores letter case. */
  lemma DexChainIdCaseInsensitive(c: string)
    ensures DexChainIdFor(Some(c)) == DexChainIdFor(Some(Lower(c)))
  {
    LowerIdempotent(c);
  }

  // ---------------------------------------------------------------------------
  // encodeURIComponent

  /** Characters `encodeURIComponent` leaves as they are. */
  predicate Unreserved(c: char) {
    || ('A' <= c <= 'Z') || ('a' <= c <= 'z') || ('0' <= c <= '9')
    || c == '-' || c == '_' || c == '.' || c == '!' || c == '~'
    || c == '*' || c == '\'' || c == '(' || c == ')'
  }

  type Byte = b: int | 0 <= b < 256

  /** The UTF-8 encoding of one Unicode scalar value. */
  function Utf8(c: char): (r: seq<Byte>)
    ensures 1 <= |r| <= 4
  {
    var v := c as int;
    if v < 0x80 then [v]
    else if v < 0x800 then [0xC0 + v / 64, 0x80 + v % 64]
    else if v < 0x1_0000 then [0xE0 + v / 4096, 0x80 + v / 64 % 64, 0x80 + v % 64]
    else [0xF0 + v / 262144, 0x80 + v / 4096 % 64, 0x80 + v / 64 % 64, 0x80 + v % 64]
  }

  const HexDigits: string := "0123456789ABCDEF"

  /** `%XX` with upper-case hex digits. */
  function PercentByte(b: Byte): (r: string)
    ensures |r| == 3 && r[0] == '%'
  {
    ['%', HexDigits[b / 16], HexDigits[b % 16]]
  }

  function PercentBytes(bs: seq<Byte>): (r: string)
    ensures |r| == 3 * |bs|
  {
    if |bs| == 0 then "" else PercentByte(bs[0]) + PercentBytes(bs[1..])
  }

  function EncodeChar(c: char): (r: string)
    ensures |r| >= 1
  {
    if Unreserved(c) then [c] else PercentBytes(Utf8(c))
  }

  /** `encodeURIComponent(s)` for a string of Unicode scalar values. */
  function EncodeUriComponent(s: string): (r: string)
    ensures forall i :: 0 <= i < |r| ==> Unreserved(r[i]) || r[i] == '%'
    ensures (forall i :: 0 <= i < |s| ==> Unreserved(s[i])) ==> r == s
  {
    if |s| == 0 then ""
    else
      var head := EncodeChar(s[0]);
      assert forall i :: 0 <= i < |head| ==> Unreserved(head[i]) || head[i] == '%' by {
        PercentBytesAlphabet(if Unreserved(s[0]) then [] else Utf8(s[0]));
      }
      head + EncodeUriComponent(s[1..])
  }

  lemma {:induction false} PercentBytesAlphabet(bs: seq<Byte>)
    ensures forall i :: 0 <= i < |PercentBytes(bs)| ==>
      Unreserved(PercentBytes(bs)[i]) || PercentBytes(bs)[i] == '%'
  {
    if |bs| > 0 {
      PercentBytesAlphabet(bs[1..]);
    }
  }

  // Decoding, the inverse used to show that no two inputs share an encoding.

  function HexValue(c: char): Option<nat> {
    if '0' <= c <= '9' then Some(c as int - '0' as int)
    else if 'A' <= c <= 'F' then Some(c as int - 'A' as int + 10)
    else None
  }

  lemma HexDigitsValue(d: nat)
    requires d < 16
    ensures HexValue(HexDigits[d]) == Some(d)
  {
  }

  /** The bytes of the first `n` `%XX` triples of `s`, if `s` starts with that many. */
  function ReadBytes(s: string, n: nat): (r: Option<seq<Byte>>)
    ensures r.Some? ==> |r.value| == n && 3 * n <= |s|
  {
    if n == 0 then Some([])
    else if |s| >= 3 && s[0] == '%' && HexValue(s[1]).Some? && HexValue(s[2]).Some?
         && HexValue(s[1]).value < 16 && HexValue(s[2]).value < 16 then
      var b: Byte := HexValue(s[1]).value * 16 + HexValue(s[2]).value;
      match ReadBytes(s[3..], n - 1)
      case None => None
      case Some(rest) => Some([b] + rest)
    else None
  }

  /** The scalar value spelled by a complete UTF-8 sequence of 1 to 4 bytes. */
  function Utf8Value(bs: seq<Byte>): int
    requires 1 <= |bs| <= 4
  {
    if |bs| == 1 then bs[0]
    else if |bs| == 2 then (bs[0] as int - 0xC0) * 64 + (bs[1] as int - 0x80)
    else if |bs| == 3 then
      (bs[0] as int - 0xE0) * 4096 + (bs[1] as int - 0x80) * 64 + (bs[2] as int - 0x80)
    else
      (bs[0] as int - 0xF0) * 262144 + (bs[1] as int - 0x80) * 4096
      + (bs[2] as int - 0x80) * 64 + (bs[3] as int - 0x80)
  }

  /** Number of bytes in the UTF-8 sequence that starts with `lead`. */
  function Utf8Length(lead: Byte): nat {
    if lead < 0x80 then 1 else if lead < 0xE0 then 2 else if lead < 0xF0 then 3 else 4
  }

  lemma Utf8RoundTrip(c: char)
    ensures Utf8Length(Utf8(c)[0]) == |Utf8(c)|
    ensures Utf8Value(Utf8(c)) == c as int
  {
    var v := c as int;
    if v < 0x80 {
    } else if v < 0x800 {
      Utf8TwoBytes(c);
    } else if v < 0x1_0000 {
      Utf8ThreeBytes(c);
    } else {
      Utf8FourBytes(c);
    }
  }

  lemma Utf8TwoBytes(c: char)
    requires 0x80 <= c as int < 0x800
    ensures Utf8Length(Utf8(c)[0]) == 2 && Utf8Value(Utf8(c)) == c as int
  {
    var v := c as int;
    assert Utf8(c) == [0xC0 + v / 64, 0x80 + v % 64];
    assert v == v / 64 * 64 + v % 64;
  }

  lemma Utf8ThreeBytes(c: char)
    requires 0x800 <= c as int < 0x1_0000
    ensures Utf8Length(Utf8(c)[0]) == 3 && Utf8Value(Utf8(c)) == c as int
  {
    var v := c as int;
    assert Utf8(c) == [0xE0 + v / 4096, 0x80 + v / 64 % 64, 0x80 + v % 64];
    assert v / 64 == v / 4096 * 64 + v / 64 % 64;
    assert v == v / 64 * 64 + v % 64;
  }

  lemma Utf8FourBytes(c: char)
    requires 0x1_0000 <= c as int
    ensures Utf8Length(Utf8(c)[0]) == 4 && Utf8Value(Utf8(c)) == c as int
  {
    var v := c as int;
    assert Utf8(c) == [0xF0 + v / 262144, 0x80 + v / 4096 % 64, 0x80 + v / 64 % 64, 0x80 + v % 64];
    assert v / 4096 == v / 262144 * 64 + v / 4096 % 64;
    assert v / 64 == v / 4096 * 64 + v / 64 % 64;
    assert v == v / 64 * 64 + v % 64;
    assert v / 262144 < 8 by {
      assert v < 0x11_0000;
    }
  }

  /** `decodeURIComponent` on the strings `encodeURIComponent` can produce. */
  function DecodeUriComponent(s: string): (r: Option<string>)
    decreases |s|
  {
    if |s| == 0 then Some("")
    else if s[0] != '%' then
      match DecodeUriComponent(s[1..])
      case None => None
      case Some(t) => Some([s[0]] + t)
    else
      match ReadBytes(s, 1)
      case None => None
      case Some(lead) =>
        var n := Utf8Length(lead[0]);
        match ReadBytes(s, n)
        case None => None
        case Some(bs) =>
          var v := Utf8Value(bs);
          if 0 <= v < 0xD800 || 0xE000 <= v < 0x11_0000 then
            match DecodeUriComponent(s[3 * n..])
            case None => None
            case Some(t) => Some([v as char] + t)
          else None
  }

  lemma {:induction false} ReadBytesOfPercent(bs: seq<Byte>, tail: string, k: nat)
    requires k <= |bs|
    ensures ReadBytes(PercentBytes(bs) + tail, k) == Some(bs[..k])
    decreases k
  {
    if k > 0 {
      var rest := PercentBytes(bs[1..]) + tail;
      assert PercentBytes(bs) + tail == PercentByte(bs[0]) + rest;
      ReadBytesStep(bs[0], rest, k);
      ReadBytesOfPercent(bs[1..], tail, k - 1);
      assert bs[..k] == [bs[0]] + bs[1..][..k - 1];
    }
  }

  /** Reading `n` bytes past one `%XX` triple: its byte, then `n - 1` more from the rest. */
  lemma ReadBytesStep(b: Byte, rest: string, n: nat)
    requires n > 0
    ensures ReadBytes(PercentByte(b) + rest, n)
      == (match ReadBytes(rest, n - 1) case None => None case Some(r) => Some([b] + r))
  {
    ReadPercentByte(b, rest);
    assert b / 16 * 16 + b % 16 == b;
  }

  /** One `%XX` triple ahead of any text reads back as its byte. */
  lemma ReadPercentByte(b: Byte, rest: string)
    ensures var s := PercentByte(b) + rest;
      |s| >= 3 && s[0] == '%' && HexValue(s[1]) == Some(b / 16) && HexValue(s[2]) == Some(b % 16) && s[3..] == rest
  {
    HexDigitsValue(b / 16);
    HexDigitsValue(b % 16);
    var s := PercentByte(b) + rest;
    assert s[1] == HexDigits[b / 16] && s[2] == HexDigits[b % 16];
  }

  /** Decoding undoes one encoded character in front of an encoded remainder. */
  lemma {:induction false} DecodeEncodedChar(c: char, rest: string)
    ensures DecodeUriComponent(EncodeUriComponent(rest)) == Some(rest) ==>
      DecodeUriComponent(EncodeChar(c) + EncodeUriComponent(rest)) == Some([c] + rest)
  {
    if DecodeUriComponent(EncodeUriComponent(rest)) != Some(rest) { return; }
    var tail := EncodeUriComponent(rest);
    var s := EncodeChar(c) + tail;
    if Unreserved(c) {
      assert s[1..] == tail;
    } else {
      var bs := Utf8(c);
      Utf8RoundTrip(c);
      ReadBytesOfPercent(bs, tail, 1);
      ReadBytesOfPercent(bs, tail, |bs|);
      assert bs[..|bs|] == bs;
      assert s[3 * |bs|..] == tail;
    }
  }

  /** Every encoded string decodes back to the original, so no two strings share an encoding. */
  lemma {:induction false} EncodeDecodeRoundTrip(s: string)
    ensures DecodeUriComponent(EncodeUriComponent(s)) == Some(s)
    decreases |s|
  {
    if |s| > 0 {
      EncodeDecodeRoundTrip(s[1..]);
      DecodeEncodedChar(s[0], s[1..]);
      assert [s[0]] + s[1..] == s;
    }
  }

  lemma EncodeInjective(a: string, b: string)
    ensures EncodeUriComponent(a) == EncodeUriComponent(b) ==> a == b
  {
    EncodeDecodeRoundTrip(a);
    EncodeDecodeRoundTrip(b);
  }

  // ---------------------------------------------------------------------------
  // dexUrlFor

  const DexSite := "https://dexscreener.com/"

  /**
    `dexUrlFor(chain, ca)`: the token page `<site><slug>/<ca>` (address as given) for a known
    chain, otherwise the search page with the percent-encoded address.
   */
  function DexUrlFor(chain: Option<string>, ca: string): (r: string)
    ensures DexChainIdFor(chain).Some? ==> r == DexSite + DexChainIdFor(chain).value + "/" + ca
    ensures DexChainIdFor(chain).None? ==> r == DexSite + "search?q=" + EncodeUriComponent(ca)
  {
    match DexChainIdFor(chain)
    case Some(slug) => DexSite + slug + "/" + ca
    case None => DexSite + "search?q=" + EncodeUriComponent(ca)
  }

  /** The address can be read back from either form of link. */
  lemma DexUrlRecoversAddress(chain: Option<string>, ca: string)
    ensures DexChainIdFor(chain).Some? ==>
      var r := DexUrlFor(chain, ca); |ca| <= |r| && r[|r| - |ca|..] == ca
    ensures DexChainIdFor(chain).None? ==>
      var r := DexUrlFor(chain, ca); |DexSite| + 9 <= |r| && DecodeUriComponent(r[|DexSite| + 9..]) == Some(ca)
  {
    var r := DexUrlFor(chain, ca);
    if DexChainIdFor(chain).Some? {
      SuffixAfter(DexSite + DexChainIdFor(chain).value + "/", ca);
    } else {
      SuffixAfter(DexSite + "search?q=", EncodeUriComponent(ca));
      EncodeDecodeRoundTrip(ca);
    }
  }

  lemma SuffixAfter(p: string, x: string)
    ensures |p + x| - |x| == |p| && (p + x)[|p|..] == x
  {
  }
}

=== FILE: dex_lookup.dfy ===
/**
  The frontend's DexScreener logo lookup (`fetchDexLogo`): one request for a known chain, then
  the choice of a response entry and the extraction of its image URL.

  The HTTP client is a parameter: it maps the request URL to what `fetch` produced.
 */
module DexLookup {
  import opened Wrappers
  import opened Text
  import opened DexChain

  /** One element of the token response, reduced to the two fields the lookup reads. */
  datatype Entry = Entry(
    baseAddress: Option<string>,  // `baseToken.address`, absent when the entry or a field is missing
    imageUrl: Option<string>      // `info.imageUrl` when it is a string
  )

  /** The parsed response body. */
  datatype Body = BadJson | NotArray | Array(entries: seq<Entry>)

  /** What the HTTP client produced for one request. */
  datatype Fetched = NetworkError | Response(ok: bool, body: Body)

  /** The outcome of one lookup as its caller sees it: it threw, or it returned a URL or null. */
  datatype Lookup = Threw | Returned(url: Option<string>)

  const DexApi := "https://api.dexscreener.com/tokens/v1/"

  /** The request URL for a slug and an address; the address keeps its case. */
  function TokenUrl(slug: string, address: string): string {
    DexApi + slug + "/" + address
  }

  /** The address an entry matches against: its base address lower-cased, "" when absent. */
  function EntryKey(e: Entry): string {
    Lower(e.baseAddress.GetOr(""))
  }

  /** Index of the first entry whose key is `want`, or 0 when none is. */
  function PickIndex(entries: seq<Entry>, want: string): (i: nat)
    requires |entries| > 0
    ensures i < |entries|
    ensures forall j :: 0 <= j < i ==> EntryKey(entries[j]) != want
    ensures EntryKey(entries[i]) == want || (i == 0 && forall j :: 0 <= j < |entries| ==> EntryKey(entries[j]) != want)
    decreases |entries|
  {
    if EntryKey(entries[0]) == want || |entries| == 1 then 0
    else
      var k := PickIndex(entries[1..], want);
      if EntryKey(entries[1..][k]) == want then k + 1 else 0
  }

  /** The trimmed image URL of an entry, or null when it is missing or only whitespace. */
  function ImageOf(e: Entry): (r: Option<string>)
    ensures r.Some? <==> e.imageUrl.Some? && Trim(e.imageUrl.value) != ""
    ensures r.Some? ==> r.value != "" && Trim(r.value) == r.value && r.value == Trim(e.imageUrl.value)
  {
    match e.imageUrl
    case Some(img) =>
      var t := Trim(img);
      TrimNoop(Trim(img));
      if t != "" then Some(t) else None
    case None => None
  }

  /**
    `fetchDexLogo(chain, address)` with the client `fetch`: the outcome and the URLs requested.
    An unknown chain gives null with no request. Otherwise exactly one request is made; a
    network error or a body that is not JSON throws, a non-2xx status, a non-array or an empty
    array gives null, and otherwise the picked entry's trimmed image URL (or null) is returned.
   */
  function FetchDexLogo(chain: Option<string>, address: string, fetch: string -> Fetched): (r: (Lookup, seq<string>))
    ensures DexChainIdFor(chain).None? ==> r == (Returned(None), [])
    ensures DexChainIdFor(chain).Some? ==> r.1 == [TokenUrl(DexChainIdFor(chain).value, address)]
    ensures r.0.Returned? && r.0.url.Some? ==> r.0.url.value != "" && Trim(r.0.url.value) == r.0.url.value
    ensures r.0 == Threw <==>
      DexChainIdFor(chain).Some? &&
      (var f := fetch(TokenUrl(DexChainIdFor(chain).value, address));
       f.NetworkError? || (f.ok && f.body.BadJson?))
    ensures DexChainIdFor(chain).Some? ==>
      var f := fetch(TokenUrl(DexChainIdFor(chain).value, address));
      f.Response? && (!f.ok || f.body.NotArray? || (f.body.Array? && |f.body.entries| == 0)) ==>
      r.0 == Returned(None)
    ensures DexChainIdFor(chain).Some? ==>
      var f := fetch(TokenUrl(DexChainIdFor(chain).value, address));
      f.Response? && f.ok && f.body.Array? && |f.body.entries| > 0 ==>
      r.0 == Returned(ImageOf(f.body.entries[PickIndex(f.body.entries, Lower(address))]))
  {
    match DexChainIdFor(chain)
    case None => (Returned(None), [])
    case Some(slug) => FetchSlug(slug, address, fetch)
  }

  /** The lookup once the chain has a slug: one request, then the choice of an entry. */
  function FetchSlug(slug: string, address: string, fetch: string -> Fetched): (r: (Lookup, seq<string>))
    ensures r.1 == [TokenUrl(slug, address)]
    ensures r.0.Returned? && r.0.url.Some? ==> r.0.url.value != "" && Trim(r.0.url.value) == r.0.url.value
    ensures r.0 == Threw <==>
      (var f := fetch(TokenUrl(slug, address)); f.NetworkError? || (f.ok && f.body.BadJson?))
    ensures var f := fetch(TokenUrl(slug, address));
      f.Response? && (!f.ok || f.body.NotArray? || (f.body.Array? && |f.body.entries| == 0)) ==>
      r.0 == Returned(None)
    ensures var f := fetch(TokenUrl(slug, address));
      f.Response? && f.ok && f.body.Array? && |f.body.entries| > 0 ==>
      r.0 == Returned(ImageOf(f.body.entries[PickIndex(f.body.entries, Lower(address))]))
  {
    var url := TokenUrl(slug, address);
    (Outcome(fetch(url), address), [url])
  }

  /** What one response makes of the lookup. */
  function Outcome(f: Fetched, address: string): (r: Lookup)
    ensures r.Returned? && r.url.Some? ==> r.url.value != "" && Trim(r.url.value) == r.url.value
    ensures r == Threw <==> f.NetworkError? || (f.ok && f.body.BadJson?)
    ensures f.Response? && (!f.ok || f.body.NotArray? || (f.body.Array? && |f.body.entries| == 0)) ==>
      r == Returned(None)
    ensures f.Response? && f.ok && f.body.Array? && |f.body.entries| > 0 ==>
      r == Returned(ImageOf(f.body.entries[PickIndex(f.body.entries, Lower(address))]))
  {
    match f
    case NetworkError => Threw
    case Response(ok, body) =>
      if !ok then Returned(None)
      else
        match body
        case BadJson => Threw
        case NotArray => Returned(None)
        case Array(entries) =>
          if |entries| == 0 then Returned(None)
          else Returned(ImageOf(entries[PickIndex(entries, Lower(address))]))
  }

  /** When some entry matches the address, the URL comes from the first matching entry. */
  lemma MatchingEntryWins(slug: string, address: string, fetch: string -> Fetched, entries: seq<Entry>, k: nat)
    requires fetch(TokenUrl(slug, address)) == Response(true, Array(entries))
    requires k < |entries| && EntryKey(entries[k]) == Lower(address)
    requires forall j :: 0 <= j < k ==> EntryKey(entries[j]) != Lower(address)
    ensures FetchSlug(slug, address, fetch).0 == Returned(ImageOf(entries[k]))
  {
    PickFirstMatch(entries, Lower(address), k);
  }

  /** When no entry matches, the first entry is used even though its address differs. */
  lemma FirstEntryFallback(slug: string, address: string, fetch: string -> Fetched, entries: seq<Entry>)
    requires fetch(TokenUrl(slug, address)) == Response(true, Array(entries))
    requires |entries| > 0
    requires forall j :: 0 <= j < |entries| ==> EntryKey(entries[j]) != Lower(address)
    ensures FetchSlug(slug, address, fetch).0 == Returned(ImageOf(entries[0]))
  {
    assert PickIndex(entries, Lower(address)) == 0;
  }

  /** A chain with a slug is looked up exactly as its slug is. */
  lemma ViaSlug(chain: Option<string>, address: string, fetch: string -> Fetched)
    ensures DexChainIdFor(chain).Some? ==>
      FetchDexLogo(chain, address, fetch) == FetchSlug(DexChainIdFor(chain).value, address, fetch)
  {
  }

  lemma PickFirstMatch(entries: seq<Entry>, want: string, k: nat)
    requires k < |entries| && EntryKey(entries[k]) == want
    requires forall j :: 0 <= j < k ==> EntryKey(entries[j]) != want
    ensures PickIndex(entries, want) == k
  {
  }

  /** Matching ignores the case of both addresses. */
  lemma MatchIgnoresCase(e: Entry, address: string)
    requires e.baseAddress.Some? && Lower(e.baseAddress.value) == Lower(address)
    ensures EntryKey(e) == Lower(address)
  {
  }
}

=== FILE: dex_pairs.dfy ===
/**
  What both `/dexscreener/token_meta` endpoints do with the pairs found on a chain: keep the
  object entries of the answer, pick the pair to describe the token, and take the launch time
  from the earliest positive pair creation time.
 */
module DexPairs {
  import opened Wrappers
  import opened Text

  /** The chains scanned, in the order their results are read. */
  const SupportedChains: seq<string> :=
    ["solana", "ethereum", "bsc", "base", "arbitrum", "polygon", "avalanche", "fantom", "optimism"]

  /** A pair's `baseToken` object; `address` is the `str()` of the member when present. */
  datatype BaseToken = BaseToken(address: Option<string>, name: Option<string>, symbol: Option<string>)

  /** A `pairCreatedAt` member: Python int, float, bool (an int), or anything else or absent. */
  datatype CreatedAt = CInt(i: int) | CFloat(x: real) | CBool(b: bool) | COther

  /**
    A pair's `baseToken` member: missing (read as `{}`), an object, or any other JSON value
    (`null` included), on which `.get` raises `AttributeError`.
   */
  datatype BaseField = NoBase | BaseObject(token: BaseToken) | BaseNonObject

  datatype Pair = Pair(baseToken: BaseField, pairCreatedAt: CreatedAt)

  /** An element of the JSON list the API answers with. */
  datatype JsonItem = Dict(pair: Pair) | NotDict

  /** `[x for x in data if isinstance(x, dict)]`. */
  function DictPairs(items: seq<JsonItem>): (r: seq<Pair>)
    ensures |r| <= |items|
    ensures forall i :: 0 <= i < |items| && items[i].Dict? ==> items[i].pair in r
    ensures forall k :: 0 <= k < |r| ==> Dict(r[k]) in items
    ensures |r| == 0 <==> forall i :: 0 <= i < |items| ==> items[i].NotDict?
  {
    if |items| == 0 then []
    else
      var rest := DictPairs(items[1..]);
      assert items == [items[0]] + items[1..];
      if items[0].Dict? then [items[0].pair] + rest else rest
  }

  /** `str(p.get("baseToken", {}).get("address", ""))`, where it does not raise. */
  function AddressText(p: Pair): string {
    if p.baseToken.BaseObject? then p.baseToken.token.address.GetOr("") else ""
  }

  predicate Matches(p: Pair, caL: string) {
    !p.baseToken.BaseNonObject? && Lower(AddressText(p)) == caL
  }

  /** The scan for a matching pair raises at pair `j`: no earlier pair matched, and `j`'s base token is no object. */
  predicate RaisesAt(pairs: seq<Pair>, caL: string, j: int) {
    && 0 <= j < |pairs|
    && pairs[j].baseToken.BaseNonObject?
    && forall i :: 0 <= i < j ==> !Matches(pairs[i], caL)
  }

  /**
    The pair described: the first whose base address equals the address case-insensitively,
    else the first; `None` when the scan raises before it gets there.
   */
  function ChoosePair(pairs: seq<Pair>, caL: string): (r: Option<nat>)
    requires |pairs| > 0
    ensures r.None? <==> exists j :: RaisesAt(pairs, caL, j)
    ensures r.Some? ==> && r.value < |pairs|
                        && !pairs[r.value].baseToken.BaseNonObject?
                        && (forall j :: 0 <= j < r.value ==> !Matches(pairs[j], caL))
                        && (Matches(pairs[r.value], caL)
                            || (r.value == 0 && forall j :: 0 <= j < |pairs| ==> !Matches(pairs[j], caL)))
  {
    FirstMatch(pairs, caL, 0)
  }

  function FirstMatch(pairs: seq<Pair>, caL: string, from: nat): (r: Option<nat>)
    requires from <= |pairs| && |pairs| > 0
    requires forall j :: 0 <= j < from ==> !Matches(pairs[j], caL) && !pairs[j].baseToken.BaseNonObject?
    ensures r.None? <==> exists j :: RaisesAt(pairs, caL, j)
    ensures r.Some? ==> && r.value < |pairs|
                        && !pairs[r.value].baseToken.BaseNonObject?
                        && (forall j :: 0 <= j < r.value ==> !Matches(pairs[j], caL))
                        && (Matches(pairs[r.value], caL)
                            || (r.value == 0 && forall j :: 0 <= j < |pairs| ==> !Matches(pairs[j], caL)))
    decreases |pairs| - from
  {
    if from == |pairs| then
      assert forall j :: !RaisesAt(pairs, caL, j);
      Some(0)
    else if pairs[from].baseToken.BaseNonObject? then
      assert RaisesAt(pairs, caL, from);
      None
    else if Matches(pairs[from], caL) then
      Some(from)
    else FirstMatch(pairs, caL, from + 1)
  }

  /** `int(ts)` of a creation time that counts (a positive int, float or bool); `None` otherwise. */
  function CreatedMs(c: CreatedAt): (r: Option<int>)
    ensures r.Some? ==> r.value >= 0
    ensures r.Some? && c.CInt? ==> r.value == c.i
  {
    match c
    case CInt(i) => if i > 0 then Some(i) else None
    case CFloat(x) => if x > 0.0 then Some(x.Floor) else None
    case CBool(b) => if b then Some(1) else None
    case COther => None
  }

  /** The creation times that count, in pair order. */
  function CreatedList(pairs: seq<Pair>): (r: seq<int>)
    ensures |r| <= |pairs|
    ensures forall k :: 0 <= k < |r| ==> exists i :: 0 <= i < |pairs| && CreatedMs(pairs[i].pairCreatedAt) == Some(r[k])
    ensures forall i :: 0 <= i < |pairs| && CreatedMs(pairs[i].pairCreatedAt).Some? ==>
      CreatedMs(pairs[i].pairCreatedAt).value in r
  {
    if |pairs| == 0 then []
    else
      var rest := CreatedList(pairs[1..]);
      assert forall i :: 1 <= i < |pairs| ==> pairs[i] == pairs[1..][i - 1];
      match CreatedMs(pairs[0].pairCreatedAt)
      case Some(t) => [t] + rest
      case None => rest
  }

  function MinOf(s: seq<int>): (m: int)
    requires |s| > 0
    ensures m in s && forall k :: 0 <= k < |s| ==> m <= s[k]
  {
    if |s| == 1 then s[0]
    else
      var m := MinOf(s[1..]);
      assert forall k :: 1 <= k < |s| ==> s[k] == s[1..][k - 1];
      if s[0] <= m then s[0] else m
  }

  /**
    The launch time in milliseconds: the least counted creation time, or `None` when no pair
    has one.
   */
  function LaunchMs(pairs: seq<Pair>): (r: Option<int>)
    ensures r.None? <==> forall i :: 0 <= i < |pairs| ==> CreatedMs(pairs[i].pairCreatedAt).None?
    ensures r.Some? ==> exists i :: 0 <= i < |pairs| && CreatedMs(pairs[i].pairCreatedAt) == r
    ensures r.Some? ==> forall i :: 0 <= i < |pairs| && CreatedMs(pairs[i].pairCreatedAt).Some? ==>
      r.value <= CreatedMs(pairs[i].pairCreatedAt).value
  {
    var created := CreatedList(pairs);
    if |created| == 0 then None
    else
      var m := MinOf(created);
      assert m in created;
      Some(m)
  }

  /** The token metadata reply; `launchTs` is the ISO text of the launch time. */
  datatype Meta = Meta(name: Option<string>, symbol: Option<string>, launchTs: Option<string>,
                       pairsFound: nat, chain: string)

  /** `base.get(key)` for the chosen pair's base token, a missing one reading as `{}`. */
  function BaseName(f: BaseField): Option<string> {
    if f.BaseObject? then f.token.name else None
  }

  function BaseSymbol(f: BaseField): Option<string> {
    if f.BaseObject? then f.token.symbol else None
  }

  /**
    The reply for the pairs found on `chain`: name and symbol of the chosen pair, launch time,
    and how many pairs there were; `None` is the `AttributeError` of a base token that is no
    object. `iso` prints a millisecond time as ISO-8601 UTC.
   */
  function MetaFrom(chain: string, pairs: seq<Pair>, caL: string, iso: int -> string): (r: Option<Meta>)
    requires |pairs| > 0
    ensures r.None? <==> exists j :: RaisesAt(pairs, caL, j)
    ensures r.Some? ==> r.value.chain == chain && r.value.pairsFound == |pairs|
    ensures r.Some? ==> var p := pairs[ChoosePair(pairs, caL).value];
      r.value.name == BaseName(p.baseToken) && r.value.symbol == BaseSymbol(p.baseToken)
    ensures r.Some? ==> (r.value.launchTs.Some? <==> LaunchMs(pairs).Some?)
    ensures r.Some? && r.value.launchTs.Some? ==> r.value.launchTs.value == iso(LaunchMs(pairs).value)
  {
    match ChoosePair(pairs, caL)
    case None => None
    case Some(k) =>
      var base := pairs[k].baseToken;
      var launch := match LaunchMs(pairs) case Some(ms) => Some(iso(ms)) case None => None;
      Some(Meta(BaseName(base), BaseSymbol(base), launch, |pairs|, chain))
  }

  /** A matching pair in front is the one described, whatever follows it. */
  lemma MatchingPairWins(p: Pair, rest: seq<Pair>, caL: string)
    requires Matches(p, caL)
    ensures ChoosePair([p] + rest, caL) == Some(0)
  {
  }

  /** A `"baseToken": null` in front raises, whatever follows it. */
  lemma NonObjectHeadRaises(p: Pair, rest: seq<Pair>, caL: string, chain: string, iso: int -> string)
    requires p.baseToken.BaseNonObject?
    ensures ChoosePair([p] + rest, caL).None?
    ensures MetaFrom(chain, [p] + rest, caL, iso).None?
  {
    assert RaisesAt([p] + rest, caL, 0);
  }
}

=== FILE: keyset.dfy ===
/**
  Keyset pagination shared by the paged trade and tip listings: the `"<iso-ts>,<id>"` cursor,
  its parser, the `q` search, and the page a cursor selects, newest first by (timestamp, id).

  Timestamps are abstract instants (`int`); `datetime.fromisoformat` and `isoformat` are the
  caller-supplied `parseIso` and `printIso`.
 */
module Keyset {
  import opened Wrappers
  import opened Text
  import opened Http
  import opened Lists
  import opened Sorting

  /** A row's position in the listing order: its timestamp, then its serial id. */
  datatype Key = Key(ts: int, id: int)

  /** Row-value comparison `(ts, id) < (cursor_ts, cursor_id)`. */
  predicate Below(a: Key, b: Key) {
    a.ts < b.ts || (a.ts == b.ts && a.id < b.id)
  }

  const InvalidCursor := HttpError(422, "Invalid cursor")

  // ---------------------------------------------------------------------------
  // The cursor text

  /**
    `_parse_cursor`: split at the first comma, strip both halves, read a "Z" as "+00:00",
    then parse the timestamp and the id; any failure is the same 422.
   */
  function ParseCursor(cursor: string, parseIso: string -> Option<int>): (r: Result<Key, HttpError>)
    ensures ',' !in cursor ==> r == Err(InvalidCursor)
    ensures r.Err? ==> r.error == InvalidCursor
  {
    match SplitFirst(cursor, ',')
    case None => Err(InvalidCursor)
    case Some((a, b)) => ParseHalves(a, b, parseIso)
  }

  /** The two halves of a cursor, after the split. */
  function ParseHalves(a: string, b: string, parseIso: string -> Option<int>): (r: Result<Key, HttpError>)
    ensures r.Err? ==> r.error == InvalidCursor
  {
    match (parseIso(ReplaceChar(Strip(a), 'Z', "+00:00")), ParsePyInt(Strip(b)))
    case (Some(ts), Some(id)) => Ok(Key(ts, id))
    case _ => Err(InvalidCursor)
  }

  /** Only the first comma splits: the timestamp half is everything before it. */
  lemma ParseAtFirstComma(a: string, b: string, parseIso: string -> Option<int>)
    requires ',' !in a
    ensures ParseCursor(a + [','] + b, parseIso) == ParseHalves(a, b, parseIso)
  {
    SplitFirstAt(a, ',', b);
  }

  /** The `cursor` query parameter: absent or empty means the first page. */
  function CursorParam(cursor: Option<string>, parseIso: string -> Option<int>): (r: Result<Option<Key>, HttpError>)
    ensures cursor.None? || cursor.value == "" ==> r == Ok(None)
    ensures cursor.Some? && cursor.value != "" ==>
      (r.Ok? <==> ParseCursor(cursor.value, parseIso).Ok?)
      && (r.Ok? ==> r.value == Some(ParseCursor(cursor.value, parseIso).value))
      && (r.Err? ==> r.error == InvalidCursor)
  {
    if cursor.None? || cursor.value == "" then Ok(None)
    else
      match ParseCursor(cursor.value, parseIso)
      case Ok(k) => Ok(Some(k))
      case Err(e) => Err(e)
  }

  /** `f"{last_ts},{last_id}"`, where a missing timestamp prints as "". */
  function FormatCursor(ts: Option<int>, id: int, printIso: int -> string): string {
    (if ts.Some? then printIso(ts.value) else "") + "," + IntToString(id)
  }

  /**
    What the printer must do for a cursor to come back: its text parses to the same instant,
    has no comma and no "Z", and no surrounding whitespace (as `isoformat` output has).
   */
  predicate IsoRoundTrips(parseIso: string -> Option<int>, printIso: int -> string, t: int) {
    var p := printIso(t);
    parseIso(p) == Some(t) && ',' !in p && 'Z' !in p && Stripped(p)
  }

  /** A cursor printed from a key parses back to that key. */
  lemma CursorRoundTrip(k: Key, parseIso: string -> Option<int>, printIso: int -> string)
    requires IsoRoundTrips(parseIso, printIso, k.ts)
    ensures ParseCursor(FormatCursor(Some(k.ts), k.id, printIso), parseIso) == Ok(k)
  {
    var p := printIso(k.ts);
    var n := IntToString(k.id);
    assert FormatCursor(Some(k.ts), k.id, printIso) == p + [','] + n;
    ParseAtFirstComma(p, n, parseIso);
    PrintedHalvesParse(k, parseIso, printIso);
  }

  lemma PrintedHalvesParse(k: Key, parseIso: string -> Option<int>, printIso: int -> string)
    requires IsoRoundTrips(parseIso, printIso, k.ts)
    ensures ParseHalves(printIso(k.ts), IntToString(k.id), parseIso) == Ok(k)
  {
    var p := printIso(k.ts);
    var n := IntToString(k.id);
    StripNoop(p);
    assert ReplaceChar(p, 'Z', "+00:00") == p;
    IntToStringTrimmed(StrSpaces, k.id);
    assert Strip(n) == n;
    IntRoundTrip(k.id);
  }

  /** Sent back as the `cursor` parameter, a printed cursor asks for the rows below its key. */
  lemma FormattedCursorParam(k: Key, parseIso: string -> Option<int>, printIso: int -> string)
    requires IsoRoundTrips(parseIso, printIso, k.ts)
    ensures CursorParam(Some(FormatCursor(Some(k.ts), k.id, printIso)), parseIso) == Ok(Some(k))
  {
    var c := FormatCursor(Some(k.ts), k.id, printIso);
    CursorRoundTrip(k, parseIso, printIso);
    assert c != "" by {
      assert c[|printIso(k.ts)|] == ',';
    }
    ParsedCursorParam(c, k, parseIso);
  }

  lemma ParsedCursorParam(c: string, k: Key, parseIso: string -> Option<int>)
    requires c != "" && ParseCursor(c, parseIso) == Ok(k)
    ensures CursorParam(Some(c), parseIso) == Ok(Some(k))
  {
  }

  /** A cursor printed from a row without a timestamp starts with the comma, and is refused. */
  lemma MissingTimestampCursorRefused(id: int, parseIso: string -> Option<int>, printIso: int -> string)
    requires parseIso("") == None
    ensures ParseCursor(FormatCursor(None, id, printIso), parseIso) == Err(InvalidCursor)
  {
    assert FormatCursor(None, id, printIso) == [] + [','] + IntToString(id);
    ParseAtFirstComma([], IntToString(id), parseIso);
  }

  lemma {:induction false} ReplaceCharConcat(a: string, b: string, c: char, rep: string)
    ensures ReplaceChar(a + b, c, rep) == ReplaceChar(a, c, rep) + ReplaceChar(b, c, rep)
    decreases |a|
  {
    if |a| == 0 {
      assert a + b == b;
    } else {
      assert (a + b)[0] == a[0] && (a + b)[1..] == a[1..] + b;
      ReplaceCharConcat(a[1..], b, c, rep);
    }
  }

  /** "+00:00" has no "Z" to replace. */
  lemma OffsetHasNoZulu()
    ensures ReplaceChar("+00:00", 'Z', "+00:00") == "+00:00"
  {
    assert 'Z' !in "+00:00";
  }

  /** The timestamp half with "Z" reaches the ISO parser as `p` + "+00:00". */
  lemma ZuluSpelling(p: string)
    requires p != [] && !IsPySpace(p[0]) && 'Z' !in p
    ensures ReplaceChar(Strip(p + "Z"), 'Z', "+00:00") == p + "+00:00"
  {
    var z := p + "Z";
    assert z[0] == p[0] && z[|z| - 1] == 'Z';
    StripNoop(z);
    ReplaceCharConcat(p, "Z", 'Z', "+00:00");
    assert ReplaceChar(p, 'Z', "+00:00") == p;
  }

  /** The timestamp half with "+00:00" reaches the ISO parser unchanged. */
  lemma OffsetSpelling(p: string)
    requires p != [] && !IsPySpace(p[0]) && 'Z' !in p
    ensures ReplaceChar(Strip(p + "+00:00"), 'Z', "+00:00") == p + "+00:00"
  {
    var u := p + "+00:00";
    assert u[0] == p[0] && u[|u| - 1] == '0';
    StripNoop(u);
    ReplaceCharConcat(p, "+00:00", 'Z', "+00:00");
    assert ReplaceChar(p, 'Z', "+00:00") == p;
    OffsetHasNoZulu();
  }

  /** A timestamp written with a trailing "Z" reads the same as one written with "+00:00". */
  lemma ZuluSuffix(p: string, id: string, parseIso: string -> Option<int>)
    requires p != [] && !IsPySpace(p[0]) && ',' !in p && 'Z' !in p
    ensures ParseCursor(p + "Z" + "," + id, parseIso) == ParseCursor(p + "+00:00" + "," + id, parseIso)
  {
    var z, u := p + "Z", p + "+00:00";
    assert ',' !in z && ',' !in u by {
      forall i | 0 <= i < |z| ensures z[i] != ',' {
        if i < |p| { assert z[i] == p[i]; }
      }
      forall i | 0 <= i < |u| ensures u[i] != ',' {
        if i < |p| { assert u[i] == p[i]; } else { assert u[i] == "+00:00"[i - |p|]; }
      }
    }
    ParseAtFirstComma(z, id, parseIso);
    ParseAtFirstComma(u, id, parseIso);
    ZuluSpelling(p);
    OffsetSpelling(p);
    assert ParseHalves(z, id, parseIso) == ParseHalves(u, id, parseIso);
  }

  /**
    `next_cursor`: only a full page (as many rows as the limit) gets one, naming its last row.
    `keyOf` reads a row's timestamp and id.
   */
  function NextCursor<T>(rows: seq<T>, limit: nat, keyOf: T -> Key, printIso: int -> string): (r: Option<string>)
    requires limit >= 1
    ensures r.Some? <==> |rows| == limit
  {
    if |rows| == limit then
      var last := keyOf(rows[|rows| - 1]);
      Some(FormatCursor(Some(last.ts), last.id, printIso))
    else None
  }

  /** Sent back as the `cursor` parameter, a full page's cursor asks for the rows after its last. */
  lemma NextCursorParam<T>(rows: seq<T>, limit: nat, keyOf: T -> Key, parseIso: string -> Option<int>,
                           printIso: int -> string)
    requires limit >= 1 && |rows| == limit
    requires IsoRoundTrips(parseIso, printIso, keyOf(rows[|rows| - 1]).ts)
    ensures CursorParam(NextCursor(rows, limit, keyOf, printIso), parseIso) == Ok(Some(keyOf(rows[|rows| - 1])))
  {
    var last := keyOf(rows[|rows| - 1]);
    var c := FormatCursor(Some(last.ts), last.id, printIso);
    assert NextCursor(rows, limit, keyOf, printIso) == Some(c);
    assert c[|printIso(last.ts)|] == ',';
    CursorRoundTrip(last, parseIso, printIso);
    assert ParseCursor(c, parseIso) == Ok(last);
  }

  // ---------------------------------------------------------------------------
  // The search parameter

  /** `f"%{q.strip()}%"` under ILIKE: the trimmed, lower-cased search text, when `q` is non-empty. */
  function Needle(q: Option<string>): (r: Option<string>)
    ensures r.Some? <==> q.Some? && q.value != ""
  {
    if q.Some? && q.value != "" then Some(Lower(Strip(q.value))) else None
  }

  /** `field ILIKE '%needle%'`: a null field never matches. */
  predicate ILike(field: Option<string>, needle: string) {
    field.Some? && Contains(Lower(field.value), needle)
  }

  // ---------------------------------------------------------------------------
  // The page a cursor selects

  /** `ORDER BY ts DESC, id DESC`: `a` may be listed before `b`. */
  function Newer<T>(keyOf: T -> Key): (T, T) -> bool {
    (a: T, b: T) => !Below(keyOf(a), keyOf(b))
  }

  lemma NewerIsTotal<T(!new)>(keyOf: T -> Key)
    ensures TotalPreorder(Newer(keyOf))
  {
  }

  /** The keyset condition: with a cursor, only rows strictly below it. */
  predicate After(k: Key, cursor: Option<Key>) {
    cursor.None? || Below(k, cursor.value)
  }

  /** A row the query can return: it meets the listing's filters and lies past the cursor. */
  predicate Eligible<T>(x: T, keyOf: T -> Key, matches: T -> bool, cursor: Option<Key>) {
    matches(x) && After(keyOf(x), cursor)
  }

  /** `r` holds exactly the eligible rows of `rows`, newest first. */
  ghost predicate OrderedOf<T>(r: seq<T>, rows: seq<T>, keyOf: T -> Key, matches: T -> bool, cursor: Option<Key>) {
    && (forall i :: 0 <= i < |r| ==> r[i] in rows && Eligible(r[i], keyOf, matches, cursor))
    && (forall x :: x in rows && Eligible(x, keyOf, matches, cursor) ==> x in r)
    && (forall i, j :: 0 <= i < j < |r| ==> !Below(keyOf(r[i]), keyOf(r[j])))
  }

  /**
    Every eligible row, newest first: the query before its `LIMIT`. It is the stable sort of
    the eligible rows, built by inserting each row in front of the sorted rest.
   */
  function Ordered<T(!new)>(rows: seq<T>, keyOf: T -> Key, matches: T -> bool, cursor: Option<Key>): (r: seq<T>)
    ensures forall i :: 0 <= i < |r| ==> r[i] in rows && Eligible(r[i], keyOf, matches, cursor)
    ensures forall x :: x in rows && Eligible(x, keyOf, matches, cursor) ==> x in r
    ensures forall i, j :: 0 <= i < j < |r| ==> !Below(keyOf(r[i]), keyOf(r[j]))
    decreases |rows|
  {
    if |rows| == 0 then []
    else
      var rest := Ordered(rows[1..], keyOf, matches, cursor);
      var r := if Eligible(rows[0], keyOf, matches, cursor) then Insert(rows[0], rest, Newer(keyOf)) else rest;
      OrderedCons(rows, rest, keyOf, matches, cursor);
      assert OrderedOf(r, rows, keyOf, matches, cursor);
      r
  }

  /** One step of `Ordered`: the head, when eligible, inserted into the ordered rest. */
  lemma OrderedCons<T(!new)>(rows: seq<T>, rest: seq<T>, keyOf: T -> Key, matches: T -> bool, cursor: Option<Key>)
    requires |rows| > 0 && OrderedOf(rest, rows[1..], keyOf, matches, cursor)
    ensures Eligible(rows[0], keyOf, matches, cursor) ==> OrderedOf(Insert(rows[0], rest, Newer(keyOf)), rows, keyOf, matches, cursor)
    ensures !Eligible(rows[0], keyOf, matches, cursor) ==> OrderedOf(rest, rows, keyOf, matches, cursor)
  {
    assert forall x :: x in rows ==> x == rows[0] || x in rows[1..];
    if Eligible(rows[0], keyOf, matches, cursor) {
      var r := Insert(rows[0], rest, Newer(keyOf));
      NewerIsTotal(keyOf);
      InsertSorted(rows[0], rest, Newer(keyOf));
      InsertedMembers(rows[0], rest, Newer(keyOf));
      forall i | 0 <= i < |r|
        ensures r[i] in rows && Eligible(r[i], keyOf, matches, cursor)
      {
        assert r[i] in r;
        if r[i] != rows[0] {
          var k :| 0 <= k < |rest| && rest[k] == r[i];
        }
      }
      forall x | x in rows && Eligible(x, keyOf, matches, cursor)
        ensures x in r
      {
      }
      assert forall i, j :: 0 <= i < j < |r| ==> Newer(keyOf)(r[i], r[j]);
    }
  }

  /** What an insertion holds: the inserted element and the rest, nothing else. */
  lemma InsertedMembers<T>(x: T, ys: seq<T>, le: (T, T) -> bool)
    ensures forall y :: y in Insert(x, ys, le) <==> y == x || y in ys
  {
    var r := Insert(x, ys, le);
    forall y
      ensures y in r <==> y == x || y in ys
    {
      assert y in r <==> y in multiset(r);
      assert y in ys <==> y in multiset(ys);
    }
  }

  /**
    `SELECT ... WHERE <filters> AND (ts, id) < cursor ORDER BY ts DESC, id DESC LIMIT limit`.
    `matches` holds the listing's other conditions.
   */
  function PageOf<T(!new)>(rows: seq<T>, keyOf: T -> Key, matches: T -> bool, cursor: Option<Key>, limit: nat): (r: seq<T>)
    ensures |r| <= limit
    ensures forall i :: 0 <= i < |r| ==> r[i] in rows && Eligible(r[i], keyOf, matches, cursor)
    ensures forall i, j :: 0 <= i < j < |r| ==> !Below(keyOf(r[i]), keyOf(r[j]))
  {
    var sorted := Ordered(rows, keyOf, matches, cursor);
    if limit < |sorted| then sorted[..limit] else sorted
  }

  /**
    Nothing eligible is passed over: a row the page leaves out means the page is full and the
    row sorts no earlier than the page's last one.
   */
  lemma {:induction false} PageOfComplete<T(!new)>(rows: seq<T>, keyOf: T -> Key, matches: T -> bool,
                                                   cursor: Option<Key>, limit: nat, x: T)
    requires x in rows && Eligible(x, keyOf, matches, cursor)
    ensures var r := PageOf(rows, keyOf, matches, cursor, limit);
      x !in r ==> |r| == limit && (limit > 0 ==> !Below(keyOf(r[|r| - 1]), keyOf(x)))
  {
    if x in PageOf(rows, keyOf, matches, cursor, limit) { return; }
    var sorted := Ordered(rows, keyOf, matches, cursor);
    var m :| 0 <= m < |sorted| && sorted[m] == x;
    assert m >= limit;
    if limit > 0 {
      assert limit - 1 < m;
    }
  }

  /**
    The page after a full one (its cursor naming the last row) lists only rows strictly older
    than every row already shown, so no row appears on both.
   */
  lemma NextPageOlder<T(!new)>(rows: seq<T>, keyOf: T -> Key, matches: T -> bool, cursor: Option<Key>, limit: nat)
    requires limit >= 1
    ensures var p1 := PageOf(rows, keyOf, matches, cursor, limit);
      |p1| == limit ==>
      var p2 := PageOf(rows, keyOf, matches, Some(keyOf(p1[|p1| - 1])), limit);
      forall i, j :: 0 <= i < |p1| && 0 <= j < |p2| ==> Below(keyOf(p2[j]), keyOf(p1[i]))
  {
  }

  /**
    With ids unique, no row is skipped between pages: an eligible row not on a full page is
    eligible for the page its cursor asks for next.
   */
  lemma NothingSkipped<T(!new)>(rows: seq<T>, keyOf: T -> Key, matches: T -> bool, cursor: Option<Key>, limit: nat, x: T)
    requires limit >= 1
    requires forall i, j :: 0 <= i < |rows| && 0 <= j < |rows| && keyOf(rows[i]) == keyOf(rows[j]) ==> rows[i] == rows[j]
    requires x in rows && Eligible(x, keyOf, matches, cursor)
    ensures var p1 := PageOf(rows, keyOf, matches, cursor, limit);
      x !in p1 ==> |p1| == limit && Eligible(x, keyOf, matches, Some(keyOf(p1[|p1| - 1])))
  {
    var p1 := PageOf(rows, keyOf, matches, cursor, limit);
    if x in p1 { return; }
    PageOfComplete(rows, keyOf, matches, cursor, limit, x);
    var last := p1[|p1| - 1];
    assert last in rows && last != x;
    var i :| 0 <= i < |rows| && rows[i] == x;
    var j :| 0 <= j < |rows| && rows[j] == last;
    assert keyOf(x) != keyOf(last);
  }
}

=== FILE: legacy_bubbles.dfy ===
/**
  The older `/bubbles` endpoints: the same replace-and-read, keyed by the address alone and
  with the address used exactly as sent.
 */
module LegacyBubbles {
  import opened Wrappers
  import opened Http
  import opened Store
  import Schemas
  import Text

  /** The coins table and the two bubble tables, keyed by address. */
  datatype Db = Db(coins: seq<CoinRow>, clusters: seq<Owned<string, BubbleRow>>,
                   others: seq<Owned<string, BubbleRow>>)

  datatype BubblesSet = BubblesSet(ca: Option<string>, clusters: seq<BubbleRow>, others: seq<BubbleRow>)

  /** Every row of the body meets `BubbleRow`'s bounds (rank > 0, pct >= 0); otherwise the body is a 422. */
  predicate ValidRows(p: BubblesSet) {
    Schemas.ValidBubbles(Schemas.BubblesData(p.clusters, p.others))
  }

  /** `SELECT 1 FROM coins WHERE ca = %s`: some row, on any chain, has exactly this address. */
  predicate CoinExists(coins: seq<CoinRow>, ca: string) {
    exists i :: 0 <= i < |coins| && coins[i].ca == ca
  }

  /**
    `set_bubbles` (legacy): a row out of bounds is refused by the body's validation, then
    repeated ranks, then a missing address (all 422), then an unknown one (404); otherwise the
    address's rows become exactly the payload's.
   */
  function SetBubbles(db: Db, p: BubblesSet): (r: Result<(Db, (nat, nat)), HttpError>)
    ensures !ValidRows(p) ==> r == Err(HttpError(422, "validation failed"))
    ensures ValidRows(p) && HasDuplicateRank(p.clusters) ==> r == Err(HttpError(422, "Duplicate cluster ranks in input"))
    ensures ValidRows(p) && !HasDuplicateRank(p.clusters) && HasDuplicateRank(p.others) ==>
      r == Err(HttpError(422, "Duplicate other ranks in input"))
    ensures ValidRows(p) && DistinctRanks(p.clusters) && DistinctRanks(p.others) && (p.ca.None? || p.ca.value == "") ==>
      r == Err(HttpError(422, "ca is required"))
    ensures ValidRows(p) && DistinctRanks(p.clusters) && DistinctRanks(p.others) && p.ca.Some? && p.ca.value != "" ==>
      (r.Ok? <==> CoinExists(db.coins, p.ca.value))
      && (r.Err? ==> r.error == HttpError(404, "Coin not found"))
    ensures r.Ok? ==> var d := r.value.0; var ca := p.ca.value;
      r.value.1 == (|p.clusters|, |p.others|) && d.coins == db.coins
      && RowsOf(d.clusters, ca) == p.clusters && RowsOf(d.others, ca) == p.others
      && (forall k :: k != ca ==> RowsOf(d.clusters, k) == RowsOf(db.clusters, k))
      && (forall k :: k != ca ==> RowsOf(d.others, k) == RowsOf(db.others, k))
  {
    if !ValidRows(p) then Err(HttpError(422, "validation failed"))
    else if HasDuplicateRank(p.clusters) then Err(HttpError(422, "Duplicate cluster ranks in input"))
    else if HasDuplicateRank(p.others) then Err(HttpError(422, "Duplicate other ranks in input"))
    else if p.ca.None? || p.ca.value == "" then Err(HttpError(422, "ca is required"))
    else if !CoinExists(db.coins, p.ca.value) then Err(HttpError(404, "Coin not found"))
    else Ok(Replace(db, p.ca.value, p.clusters, p.others))
  }

  /** Both tables' rows for `ca` replaced; the counts written. */
  function Replace(db: Db, ca: string, clusters: seq<BubbleRow>, others: seq<BubbleRow>): (r: (Db, (nat, nat)))
    ensures var d := r.0;
      r.1 == (|clusters|, |others|) && d.coins == db.coins
      && RowsOf(d.clusters, ca) == clusters && RowsOf(d.others, ca) == others
      && (forall k :: k != ca ==> RowsOf(d.clusters, k) == RowsOf(db.clusters, k))
      && (forall k :: k != ca ==> RowsOf(d.others, k) == RowsOf(db.others, k))
  {
    (Db(db.coins, ReplaceRows(db.clusters, ca, clusters), ReplaceRows(db.others, ca, others)), (|clusters|, |others|))
  }

  /** `get_bubbles` (legacy): 404 for an unknown address, else its rows of each table by rank. */
  function GetBubbles(db: Db, ca: string): (r: Result<(seq<BubbleRow>, seq<BubbleRow>), HttpError>)
    ensures |ca| < 3 ==> r.Err? && r.error.status == 422
    ensures |ca| >= 3 ==> (r.Ok? <==> CoinExists(db.coins, ca))
    ensures |ca| >= 3 && r.Err? ==> r.error == HttpError(404, "Coin not found")
    ensures r.Ok? ==>
      multiset(r.value.0) == multiset(RowsOf(db.clusters, ca)) && multiset(r.value.1) == multiset(RowsOf(db.others, ca))
      && (forall i, j :: 0 <= i < j < |r.value.0| ==> r.value.0[i].rank <= r.value.0[j].rank)
      && (forall i, j :: 0 <= i < j < |r.value.1| ==> r.value.1[i].rank <= r.value.1[j].rank)
  {
    if |ca| < 3 then Err(HttpError(422, "validation failed"))
    else if !CoinExists(db.coins, ca) then Err(HttpError(404, "Coin not found"))
    else Ok((ByRank(RowsOf(db.clusters, ca)), ByRank(RowsOf(db.others, ca))))
  }

  /**
    The address is matched exactly: where the table holds only lower-case addresses, sending
    one with an upper-case letter finds no coin.
   */
  lemma AddressIsCaseSensitive(db: Db, ca: string)
    requires |ca| >= 3
    requires forall i :: 0 <= i < |db.coins| ==> db.coins[i].ca == Text.Lower(db.coins[i].ca)
    requires ca != Text.Lower(ca)
    ensures GetBubbles(db, ca) == Err(HttpError(404, "Coin not found"))
  {
  }
}

=== FILE: legacy_token_meta.dfy ===
/**
  The older `/dexscreener/token_meta`: one request per chain, no retries and no cache; every
  failure reads as "not on this chain", so the only error is a 404.
 */
module LegacyTokenMeta {
  import opened Wrappers
  import opened Text
  import opened DexPairs
  import TokenMeta
  import Http

  type Attempt = TokenMeta.Attempt

  /** `check_chain`: pairs only for a 200 with a non-empty list holding an object; anything else, including a raise, is `None`. */
  function CheckChain(a: Attempt): (r: Option<seq<Pair>>)
    ensures r.Some? <==> a.Status? && a.code == 200 && a.body.JList? && |DictPairs(a.body.items)| > 0
    ensures r.Some? ==> r.value == DictPairs(a.body.items) && |r.value| > 0
  {
    if a.Status? && a.code == 200 && a.body.JList? && |a.body.items| > 0 && |DictPairs(a.body.items)| > 0
    then Some(DictPairs(a.body.items))
    else None
  }

  /** The index of the first chain with pairs. */
  function FirstSome(results: seq<Option<seq<Pair>>>): (r: Option<nat>)
    ensures r.None? <==> forall i :: 0 <= i < |results| ==> results[i].None?
    ensures r.Some? ==> (r.value < |results| && results[r.value].Some?
      && forall i :: 0 <= i < r.value ==> results[i].None?)
  {
    if |results| == 0 then None
    else if results[0].Some? then Some(0)
    else match FirstSome(results[1..])
      case None => None
      case Some(i) => Some(i + 1)
  }

  const NotFoundDetail := "Token herhangi bir desteklenen ağda bulunamadı."

  /** The per-chain results, in `SupportedChains` order; `respond(chain)` is that chain's one answer. */
  function LegacyScan(respond: string -> Attempt): (r: seq<Option<seq<Pair>>>)
    ensures |r| == |SupportedChains|
    ensures forall i :: 0 <= i < |r| ==> r[i] == CheckChain(respond(SupportedChains[i]))
    ensures forall i :: 0 <= i < |r| && r[i].Some? ==> |r[i].value| > 0
  {
    seq(|SupportedChains|, i requires 0 <= i < |SupportedChains| => CheckChain(respond(SupportedChains[i])))
  }

  /**
    An exception no handler maps; with no catch-all of its own, the legacy router's app answers
    Starlette's plain 500.
   */
  const Unhandled := Http.HttpError(500, "Internal Server Error")

  /**
    `token_meta` (legacy): an address shorter than 3 characters is refused; otherwise the first
    chain with pairs is described, and with none the answer is a 404 (never a 502). A base token
    that is no object raises while the pairs are read.
   */
  function LegacyTokenMeta(ca: string, respond: string -> Attempt, iso: int -> string): (r: Result<Meta, Http.HttpError>)
    ensures |ca| < 3 ==> r.Err? && r.error.status == 422
    ensures r.Err? ==> r.error.status in {404, 422, 500}
    ensures |ca| >= 3 ==> (r.Ok? ==> FirstSome(LegacyScan(respond)).Some?)
    ensures |ca| >= 3 && FirstSome(LegacyScan(respond)).None? ==> r == Err(Http.HttpError(404, NotFoundDetail))
    ensures |ca| >= 3 && FirstSome(LegacyScan(respond)).Some? ==> var i := FirstSome(LegacyScan(respond)).value;
      var m := MetaFrom(SupportedChains[i], LegacyScan(respond)[i].value, Lower(ca), iso);
      && (m.Some? ==> r == Ok(m.value))
      && (m.None? ==> r == Err(Unhandled))
  {
    if |ca| < 3 then Err(Http.HttpError(422, "ca too short"))
    else LegacyReply(LegacyScan(respond), Lower(ca), iso)
  }

  /** The reply once the chains have been checked, chain `i` of `results` being `SupportedChains[i]`. */
  function LegacyReply(results: seq<Option<seq<Pair>>>, caL: string, iso: int -> string): (r: Result<Meta, Http.HttpError>)
    requires |results| <= |SupportedChains|
    requires forall i :: 0 <= i < |results| && results[i].Some? ==> |results[i].value| > 0
    ensures FirstSome(results).None? ==> r == Err(Http.HttpError(404, NotFoundDetail))
    ensures FirstSome(results).Some? ==> var i := FirstSome(results).value;
      var m := MetaFrom(SupportedChains[i], results[i].value, caL, iso);
      && (m.Some? ==> r == Ok(m.value))
      && (m.None? ==> r == Err(Unhandled))
  {
    match FirstSome(results)
    case None => Err(Http.HttpError(404, NotFoundDetail))
    case Some(i) =>
      match MetaFrom(SupportedChains[i], results[i].value, caL, iso)
      case None => Err(Unhandled)
      case Some(meta) => Ok(meta)
  }

  /** A first answer that the retrying check does not retry: a 200 carrying a JSON list, or a 404. */
  predicate Clean(a: Attempt) {
    a.Status? && (a.code == 404 || (a.code == 200 && a.body.JList?))
  }

  /** On a clean first answer both checks find the same pairs, or both find none. */
  lemma CleanChainAgrees(chain: string, respond: nat -> Attempt)
    requires Clean(respond(0))
    ensures var current := TokenMeta.CheckChain(chain, respond).result;
      (current.Found? <==> CheckChain(respond(0)).Some?)
      && (current.Found? ==> current.pairs == CheckChain(respond(0)).value)
  {
    var r := TokenMeta.CheckChain(chain, respond);
    assert !TokenMeta.Retryable(respond(0));
    assert r.attempts == 1;
  }

  /** Two scans whose finds sit at the same places pick the same first chain. */
  lemma {:induction false} FirstAgrees(results: seq<TokenMeta.ChainResult>, legacy: seq<Option<seq<Pair>>>)
    requires |results| == |legacy|
    requires forall i :: 0 <= i < |results| ==> (results[i].Found? <==> legacy[i].Some?)
    ensures TokenMeta.FirstFound(results) == FirstSome(legacy)
    decreases |results|
  {
    if |results| > 0 && !results[0].Found? {
      FirstAgrees(results[1..], legacy[1..]);
    }
  }

  /**
    Where every chain answers its first request cleanly, the retrying endpoint (without a cache
    entry) and the legacy one describe the same token the same way, fail together, and raise
    on the same base token.
   */
  lemma AgreesOnCleanAnswers(ca: string, respond: (string, nat) -> Attempt, iso: int -> string)
    requires |ca| >= 3
    requires forall c :: Clean(respond(c, 0))
    ensures var legacy := LegacyTokenMeta(ca, c => respond(c, 0), iso);
      var current := TokenMeta.AfterScan(TokenMeta.ScanChains(respond), Lower(ca), map[], 0.0, iso).result;
      && (legacy.Ok? <==> current.Ok?) && (legacy.Ok? ==> legacy.value == current.value)
      && (legacy == Err(Unhandled) <==> current == Err(TokenMeta.Crashed))
  {
    var results := TokenMeta.ScanChains(respond);
    var legacy := LegacyScan(c => respond(c, 0));
    forall i | 0 <= i < |results|
      ensures (results[i].Found? <==> legacy[i].Some?)
      ensures results[i].Found? ==> results[i].pairs == legacy[i].value && results[i].chain == SupportedChains[i]
    {
      CleanChainAgrees(SupportedChains[i], (n: nat) => respond(SupportedChains[i], n));
    }
    AgreesOnFinds(results, legacy, Lower(ca), iso);
  }

  /** Chain results that agree place by place give the same reply from both endpoints. */
  lemma AgreesOnFinds(results: seq<TokenMeta.ChainResult>, legacy: seq<Option<seq<Pair>>>, caL: string,
                      iso: int -> string)
    requires |results| == |legacy| <= |SupportedChains|
    requires forall i :: 0 <= i < |legacy| && legacy[i].Some? ==> |legacy[i].value| > 0
    requires forall i :: 0 <= i < |results| ==> (results[i].Found? <==> legacy[i].Some?)
    requires forall i :: 0 <= i < |results| && results[i].Found? ==>
      results[i].pairs == legacy[i].value && results[i].chain == SupportedChains[i]
    ensures var l := LegacyReply(legacy, caL, iso);
      var current := TokenMeta.AfterScan(results, caL, map[], 0.0, iso).result;
      && (l.Ok? <==> current.Ok?) && (l.Ok? ==> l.value == current.value)
      && (l == Err(Unhandled) <==> current == Err(TokenMeta.Crashed))
  {
    FirstAgrees(results, legacy);
  }
}

=== FILE: lists.dfy ===
/** Order-preserving filtering and counting, as `Array.prototype.filter` does it. */
module Lists {
  function Filter<T>(s: seq<T>, p: T -> bool): (r: seq<T>)
    ensures |r| <= |s|
    ensures forall i :: 0 <= i < |r| ==> p(r[i])
    ensures forall i :: 0 <= i < |r| ==> r[i] in s
    ensures forall i :: 0 <= i < |s| && p(s[i]) ==> s[i] in r
    decreases |s|
  {
    if |s| == 0 then []
    else
      var rest := Filter(s[1..], p);
      assert s == [s[0]] + s[1..];
      if p(s[0]) then [s[0]] + rest else rest
  }

  /** Filtering distributes over concatenation, so it keeps the relative order of what passes. */
  lemma {:induction false} FilterConcat<T>(a: seq<T>, b: seq<T>, p: T -> bool)
    ensures Filter(a + b, p) == Filter(a, p) + Filter(b, p)
    decreases |a|
  {
    if |a| == 0 {
      assert a + b == b;
    } else {
      assert (a + b)[1..] == a[1..] + b;
      FilterConcat(a[1..], b, p);
    }
  }

  /** When everything passes, nothing is dropped. */
  lemma {:induction false} FilterAll<T>(s: seq<T>, p: T -> bool)
    requires forall i :: 0 <= i < |s| ==> p(s[i])
    ensures Filter(s, p) == s
    decreases |s|
  {
    if |s| > 0 {
      FilterAll(s[1..], p);
    }
  }

  /** What passes and what fails together account for every element. */
  lemma {:induction false} FilterSplit<T>(s: seq<T>, p: T -> bool, q: T -> bool)
    requires forall i :: 0 <= i < |s| ==> q(s[i]) == !p(s[i])
    ensures |Filter(s, p)| + |Filter(s, q)| == |s|
    decreases |s|
  {
    if |s| > 0 {
      FilterSplit(s[1..], p, q);
    }
  }

  /** Filtering with the same predicate twice is filtering once. */
  lemma {:induction false} FilterIdempotent<T>(s: seq<T>, p: T -> bool)
    ensures Filter(Filter(s, p), p) == Filter(s, p)
  {
    FilterAll(Filter(s, p), p);
  }

  ghost predicate Distinct<T>(s: seq<T>) {
    forall i, j :: 0 <= i < j < |s| ==> s[i] != s[j]
  }

  /** An element at two positions is counted at least twice. */
  lemma {:induction false} CountTwo<T>(s: seq<T>, i: nat, j: nat)
    requires i < j < |s| && s[i] == s[j]
    ensures multiset(s)[s[i]] >= 2
  {
    var x := s[i];
    assert s == s[..i] + [x] + s[i + 1..j] + [x] + s[j + 1..];
    assert multiset(s) == multiset(s[..i]) + multiset{x} + multiset(s[i + 1..j]) + multiset{x} + multiset(s[j + 1..]);
  }

  /** In a sequence without repeats every element is counted once. */
  lemma {:induction false} CountDistinct<T>(s: seq<T>, x: T)
    requires Distinct(s)
    ensures multiset(s)[x] <= 1
    decreases |s|
  {
    if |s| > 0 {
      var rest := s[1..];
      assert s == [s[0]] + rest;
      assert Distinct(rest) by {
        forall i, j | 0 <= i < j < |rest|
          ensures rest[i] != rest[j]
        {
          assert rest[i] == s[i + 1] && rest[j] == s[j + 1];
        }
      }
      CountDistinct(rest, x);
      if s[0] == x {
        assert forall k :: 0 <= k < |rest| ==> rest[k] != x by {
          forall k | 0 <= k < |rest|
            ensures rest[k] != x
          {
            assert rest[k] == s[k + 1];
          }
        }
        assert x !in multiset(rest);
      }
    }
  }

  /** A permutation of a sequence without repeats has none either. */
  lemma DistinctPerm<T>(a: seq<T>, b: seq<T>)
    requires Distinct(a) && multiset(a) == multiset(b)
    ensures Distinct(b)
  {
    forall i, j | 0 <= i < j < |b|
      ensures b[i] != b[j]
    {
      if b[i] == b[j] {
        CountTwo(b, i, j);
        CountDistinct(a, b[i]);
      }
    }
  }

  /** The first occurrence of each element, in order. */
  function Dedup<T(==)>(s: seq<T>): (r: seq<T>)
    ensures Distinct(r)
    ensures forall i :: 0 <= i < |r| ==> r[i] in s
    ensures forall i :: 0 <= i < |s| ==> s[i] in r
    decreases |s|
  {
    if |s| == 0 then []
    else
      var rest := Dedup(s[..|s| - 1]);
      var x := s[|s| - 1];
      assert forall i :: 0 <= i < |s| - 1 ==> s[i] == s[..|s| - 1][i];
      if x in rest then rest else rest + [x]
  }
}


=== FILE: logo_cache.dfy ===
/**
  `useLogoCache`: the logo pass over `{ca, chain}` rows with a fixed cap of 40 and the
  keep-existing merge. Its lookup service is not part of this model, so the lookup is a
  parameter.
 */
module LogoCache {
  import opened Wrappers
  import opened Text
  import opened DexLookup
  import opened LogoPass

  datatype Row = Row(ca: string, chain: Option<string>)

  const Limit := 40

  /** Each row is scanned with its address and its own chain. */
  function RowItems(rows: seq<Row>): (r: seq<Item>)
    ensures |r| == |rows|
    ensures forall i :: 0 <= i < |rows| ==> r[i] == Item(Some(rows[i].ca), rows[i].chain)
  {
    ScanItems(rows, (x: Row) => Some(x.ca), (x: Row) => x.chain)
  }

  /**
    One pass of the hook: at most 40 lookups, in-flight set restored, truthy entries kept,
    and every lookup for a row whose lower-cased address and trimmed chain are non-empty.
   */
  function UseLogoCachePass(rows: seq<Row>, cache: LogoMap, inflight: set<string>,
                            lookup: Candidate -> Lookup, cancelAt: nat): (r: PassResult)
    ensures |r.steps| <= 40
    ensures r.inflight == inflight
    ensures forall k :: Has(cache, k) ==> k in r.cache && r.cache[k] == cache[k]
    ensures forall j :: 0 <= j < |r.steps| ==>
      var c := r.steps[j].query;
      KeyOf(c) != "" && c.chain != "" && Trimmed(c.chain) && !Has(cache, KeyOf(c)) && KeyOf(c) !in inflight
  {
    var cands := Collect(RowItems(rows), cache, inflight, Limit, []);
    var r := Pass(RowItems(rows), cache, inflight, Limit, lookup, cancelAt, KeepExisting);
    forall k | Has(cache, k)
      ensures k in r.cache && r.cache[k] == cache[k]
    {
      ResolveKeepsEntries(cands, 0, cache, inflight, lookup, cancelAt, k);
    }
    forall j | 0 <= j < |r.steps|
      ensures Trimmed(r.steps[j].query.chain)
    {
      CandidateChainTrimmed(RowItems(rows), cache, inflight, Limit, j);
    }
    r
  }
}

=== FILE: logo_pass.dfy ===
/**
  The logo-resolution pass of `useDexLogos`, which every page-level copy repeats.

  A pass has two phases. It first scans the items and collects up to `limit` candidates:
  items whose lower-cased address is non-empty, whose trimmed chain is non-empty, and whose
  key is not cached, not in flight and not already collected. It then looks the candidates up
  one at a time. Each key is in flight while its lookup is pending, and a returned URL is
  merged into the cache unless the pass was cancelled meanwhile.

  Cancellation is the index of the first lookup that completes after the effect's cleanup
  ran; every later lookup also sees the flag set. Lookups are supplied as a function of the
  candidate, since a pass never looks up the same key twice.
 */
module LogoPass {
  import opened Wrappers
  import opened Text
  import opened DexLookup

  /** The logo cache: lower-cased address to image URL. */
  type LogoMap = map<string, string>

  /** `m[key]` is truthy: present and not the empty string. */
  predicate Has(m: LogoMap, k: string) {
    k in m && m[k] != ""
  }

  /** What a pass reads from one item: its address and chain as the caller derives them. */
  datatype Item = Item(ca: Option<string>, chain: Option<string>)

  /** The items a page scans: one per row, in row order, with the address and chain the page derives. */
  function ScanItems<T>(rows: seq<T>, ca: T -> Option<string>, chain: T -> Option<string>): (r: seq<Item>)
    ensures |r| == |rows|
    ensures forall i :: 0 <= i < |rows| ==> r[i] == Item(ca(rows[i]), chain(rows[i]))
  {
    seq(|rows|, i requires 0 <= i < |rows| => Item(ca(rows[i]), chain(rows[i])))
  }

  /** A collected lookup: the address as given and the trimmed chain. */
  datatype Candidate = Candidate(ca: string, chain: string)

  function KeyOf(c: Candidate): string {
    Lower(c.ca)
  }

  function Keys(cs: seq<Candidate>): set<string> {
    set i | 0 <= i < |cs| :: KeyOf(cs[i])
  }

  predicate DistinctKeys(cs: seq<Candidate>) {
    forall i, j :: 0 <= i < j < |cs| ==> KeyOf(cs[i]) != KeyOf(cs[j])
  }

  lemma KeysAppend(cs: seq<Candidate>, c: Candidate)
    ensures Keys(cs + [c]) == Keys(cs) + {KeyOf(c)}
  {
    var both := cs + [c];
    forall k | k in Keys(both)
      ensures k in Keys(cs) + {KeyOf(c)}
    {
      var i :| 0 <= i < |both| && KeyOf(both[i]) == k;
      if i < |cs| {
        assert both[i] == cs[i];
      }
    }
    forall k | k in Keys(cs)
      ensures k in Keys(both)
    {
      var i :| 0 <= i < |cs| && KeyOf(cs[i]) == k;
      assert both[i] == cs[i];
    }
    assert both[|cs|] == c;
  }

  lemma KeysCons(cs: seq<Candidate>)
    requires |cs| > 0
    ensures Keys(cs) == {KeyOf(cs[0])} + Keys(cs[1..])
  {
    forall k | k in Keys(cs)
      ensures k in {KeyOf(cs[0])} + Keys(cs[1..])
    {
      var i :| 0 <= i < |cs| && KeyOf(cs[i]) == k;
      if i > 0 {
        assert cs[1..][i - 1] == cs[i];
      }
    }
    forall k | k in Keys(cs[1..])
      ensures k in Keys(cs)
    {
      var i :| 0 <= i < |cs[1..]| && KeyOf(cs[1..][i]) == k;
      assert cs[i + 1] == cs[1..][i];
    }
  }

  // ---------------------------------------------------------------------------
  // Collecting candidates

  /** The checks made on one item before the "already collected" check. */
  function Candidacy(it: Item, cache: LogoMap, inflight: set<string>): (r: Option<Candidate>)
    ensures r.Some? ==>
      && KeyOf(r.value) == Lower(it.ca.GetOr("")) && KeyOf(r.value) != ""
      && r.value.chain == Trim(it.chain.GetOr("")) && r.value.chain != ""
      && !Has(cache, KeyOf(r.value)) && KeyOf(r.value) !in inflight
    ensures r.None? ==>
      || Lower(it.ca.GetOr("")) == "" || Trim(it.chain.GetOr("")) == ""
      || Has(cache, Lower(it.ca.GetOr(""))) || Lower(it.ca.GetOr("")) in inflight
  {
    var key := Lower(it.ca.GetOr(""));
    var chain := Trim(it.chain.GetOr(""));
    if key == "" || chain == "" || Has(cache, key) || key in inflight then None
    else Some(Candidate(it.ca.value, chain))
  }

  /** A limit below 1 still admits one candidate: the size check follows the push. */
  function Cap(limit: int): (n: nat)
    ensures n >= 1 && (limit >= 1 ==> n == limit)
  {
    if limit < 1 then 1 else limit
  }

  /**
    The candidate scan, continuing after the candidates `acc` already collected (whose keys
    form the pass's `seen` set). It stops right after the push that brings the count to `limit`.
   */
  function Collect(items: seq<Item>, cache: LogoMap, inflight: set<string>, limit: int, acc: seq<Candidate>): (r: seq<Candidate>)
    ensures |acc| <= |r| && r[..|acc|] == acc
    ensures DistinctKeys(acc) ==> DistinctKeys(r)
    ensures forall i :: |acc| <= i < |r| ==>
      KeyOf(r[i]) != "" && r[i].chain != "" && !Has(cache, KeyOf(r[i])) && KeyOf(r[i]) !in inflight
      && KeyOf(r[i]) !in Keys(acc)
    ensures |acc| < Cap(limit) ==> |r| <= Cap(limit)
    ensures |r| <= |acc| + |items|
    decreases |items|, 1
  {
    if |items| == 0 then acc
    else
      match Candidacy(items[0], cache, inflight)
      case None => Collect(items[1..], cache, inflight, limit, acc)
      case Some(c) =>
        if KeyOf(c) in Keys(acc) then Collect(items[1..], cache, inflight, limit, acc)
        else Push(items[1..], cache, inflight, limit, acc, c)
  }

  /** The scan after the new candidate `c` joined: stop at `limit`, else go on over `rest`. */
  function Push(rest: seq<Item>, cache: LogoMap, inflight: set<string>, limit: int, acc: seq<Candidate>,
                c: Candidate): (r: seq<Candidate>)
    requires KeyOf(c) != "" && c.chain != "" && !Has(cache, KeyOf(c)) && KeyOf(c) !in inflight && KeyOf(c) !in Keys(acc)
    ensures |acc| <= |r| && r[..|acc|] == acc
    ensures DistinctKeys(acc) ==> DistinctKeys(r)
    ensures forall i :: |acc| <= i < |r| ==>
      KeyOf(r[i]) != "" && r[i].chain != "" && !Has(cache, KeyOf(r[i])) && KeyOf(r[i]) !in inflight
      && KeyOf(r[i]) !in Keys(acc)
    ensures |acc| < Cap(limit) ==> |r| <= Cap(limit)
    ensures |r| <= |acc| + 1 + |rest|
    decreases |rest| + 1, 0
  {
    var next := acc + [c];
    var r := if |next| >= limit then next else Collect(rest, cache, inflight, limit, next);
    CollectedAfterPush(acc, c, r, cache, inflight);
    r
  }

  /** What `Collect` promises, for its result `r` after the new candidate `c` joined `acc`. */
  lemma CollectedAfterPush(acc: seq<Candidate>, c: Candidate, r: seq<Candidate>, cache: LogoMap, inflight: set<string>)
    requires KeyOf(c) != "" && c.chain != "" && !Has(cache, KeyOf(c)) && KeyOf(c) !in inflight && KeyOf(c) !in Keys(acc)
    requires |acc| + 1 <= |r| && r[..|acc| + 1] == acc + [c]
    requires DistinctKeys(acc + [c]) ==> DistinctKeys(r)
    requires forall i :: |acc| + 1 <= i < |r| ==>
      KeyOf(r[i]) != "" && r[i].chain != "" && !Has(cache, KeyOf(r[i])) && KeyOf(r[i]) !in inflight
      && KeyOf(r[i]) !in Keys(acc + [c])
    ensures |acc| <= |r| && r[..|acc|] == acc
    ensures DistinctKeys(acc) ==> DistinctKeys(r)
    ensures forall i :: |acc| <= i < |r| ==>
      KeyOf(r[i]) != "" && r[i].chain != "" && !Has(cache, KeyOf(r[i])) && KeyOf(r[i]) !in inflight
      && KeyOf(r[i]) !in Keys(acc)
  {
    KeysAppend(acc, c);
    assert r[..|acc|] == (acc + [c])[..|acc|];
    assert r[|acc|] == (acc + [c])[|acc|];
    if DistinctKeys(acc) {
      forall i, j | 0 <= i < j < |acc + [c]|
        ensures KeyOf((acc + [c])[i]) != KeyOf((acc + [c])[j])
      {
        if j == |acc| {
          assert KeyOf(acc[i]) in Keys(acc);
        }
      }
    }
  }

  // A reference definition of the scan: eligible items, first occurrence of each key, truncated.

  function Eligibles(items: seq<Item>, cache: LogoMap, inflight: set<string>): seq<Candidate>
    decreases |items|
  {
    if |items| == 0 then []
    else
      match Candidacy(items[0], cache, inflight)
      case None => Eligibles(items[1..], cache, inflight)
      case Some(c) => [c] + Eligibles(items[1..], cache, inflight)
  }

  /** The first candidate for each key, skipping keys in `seen`, in input order. */
  function Dedup(cs: seq<Candidate>, seen: set<string>): seq<Candidate>
    decreases |cs|
  {
    if |cs| == 0 then []
    else if KeyOf(cs[0]) in seen then Dedup(cs[1..], seen)
    else [cs[0]] + Dedup(cs[1..], seen + {KeyOf(cs[0])})
  }

  function Take<T>(s: seq<T>, n: nat): seq<T> {
    if |s| <= n then s else s[..n]
  }

  /**
    The scan collects exactly the first `Cap(limit)` distinct keys among the eligible items,
    each with its first eligible occurrence, in item order.
   */
  lemma {:induction false} CollectIsFirstDistinct(items: seq<Item>, cache: LogoMap, inflight: set<string>, limit: int, acc: seq<Candidate>)
    requires |acc| < Cap(limit)
    ensures Collect(items, cache, inflight, limit, acc)
         == acc + Take(Dedup(Eligibles(items, cache, inflight), Keys(acc)), Cap(limit) - |acc|)
    decreases |items|
  {
    var n := Cap(limit) - |acc|;
    if |items| == 0 {
      assert acc + Take([], n) == acc;
    } else {
      var e := Eligibles(items[1..], cache, inflight);
      var cand := Candidacy(items[0], cache, inflight);
      if cand.None? {
        assert Collect(items, cache, inflight, limit, acc) == Collect(items[1..], cache, inflight, limit, acc);
        assert Eligibles(items, cache, inflight) == e;
        CollectIsFirstDistinct(items[1..], cache, inflight, limit, acc);
      } else if KeyOf(cand.value) in Keys(acc) {
        assert Collect(items, cache, inflight, limit, acc) == Collect(items[1..], cache, inflight, limit, acc);
        DedupSkipsSeen(cand.value, e, Keys(acc));
        CollectIsFirstDistinct(items[1..], cache, inflight, limit, acc);
      } else {
        CollectPush(items, cache, inflight, limit, acc, cand.value);
      }
    }
  }

  lemma DedupSkipsSeen(c: Candidate, e: seq<Candidate>, seen: set<string>)
    requires KeyOf(c) in seen
    ensures Dedup([c] + e, seen) == Dedup(e, seen)
  {
    assert ([c] + e)[1..] == e;
  }

  lemma DedupKeepsNew(c: Candidate, e: seq<Candidate>, seen: set<string>)
    requires KeyOf(c) !in seen
    ensures Dedup([c] + e, seen) == [c] + Dedup(e, seen + {KeyOf(c)})
  {
    assert ([c] + e)[1..] == e;
  }

  lemma CollectUnfoldPush(items: seq<Item>, cache: LogoMap, inflight: set<string>, limit: int, acc: seq<Candidate>, c: Candidate)
    requires |items| > 0 && KeyOf(c) !in Keys(acc)
    ensures Candidacy(items[0], cache, inflight) == Some(c) ==>
      Collect(items, cache, inflight, limit, acc)
      == if |acc| + 1 >= limit then acc + [c] else Collect(items[1..], cache, inflight, limit, acc + [c])
  {
  }

  lemma EligiblesUnfold(items: seq<Item>, cache: LogoMap, inflight: set<string>, c: Candidate)
    requires |items| > 0
    ensures Candidacy(items[0], cache, inflight) == Some(c) ==>
      Eligibles(items, cache, inflight) == [c] + Eligibles(items[1..], cache, inflight)
  {
  }

  lemma TakeCons<T>(x: T, s: seq<T>, n: nat)
    requires n >= 1
    ensures Take([x] + s, n) == [x] + Take(s, n - 1)
  {
    if |s| + 1 > n {
      assert ([x] + s)[..n] == [x] + s[..n - 1];
    }
  }

  /** The case of `CollectIsFirstDistinct` where the first item yields a new key. */
  lemma {:induction false} CollectPush(items: seq<Item>, cache: LogoMap, inflight: set<string>, limit: int, acc: seq<Candidate>,
                                         c: Candidate)
    requires |acc| < Cap(limit) && |items| > 0 && KeyOf(c) !in Keys(acc)
    ensures Candidacy(items[0], cache, inflight) == Some(c) ==>
      Collect(items, cache, inflight, limit, acc)
      == acc + Take(Dedup(Eligibles(items, cache, inflight), Keys(acc)), Cap(limit) - |acc|)
    decreases |items|, 0
  {
    if Candidacy(items[0], cache, inflight) != Some(c) { return; }
    var e := Eligibles(items[1..], cache, inflight);
    var d := Dedup(e, Keys(acc + [c]));
    var n := Cap(limit) - |acc|;
    DedupEligiblesPush(items, cache, inflight, acc, c);
    TakeCons(c, d, n);
    if |acc| + 1 < limit {
      assert Collect(items, cache, inflight, limit, acc) == Collect(items[1..], cache, inflight, limit, acc + [c]) by {
        CollectUnfoldPush(items, cache, inflight, limit, acc, c);
      }
      assert Collect(items[1..], cache, inflight, limit, acc + [c]) == (acc + [c]) + Take(d, n - 1) by {
        CollectIsFirstDistinct(items[1..], cache, inflight, limit, acc + [c]);
      }
      AppendTake(acc, c, Take(d, n - 1));
    } else {
      assert Collect(items, cache, inflight, limit, acc) == acc + [c] by {
        CollectUnfoldPush(items, cache, inflight, limit, acc, c);
      }
      assert Take(d, n - 1) == [];
    }
  }

  /** The reference scan, from an item that yields a new key `c`: `c`, then the rest with `c` seen. */
  lemma DedupEligiblesPush(items: seq<Item>, cache: LogoMap, inflight: set<string>, acc: seq<Candidate>, c: Candidate)
    requires |items| > 0 && KeyOf(c) !in Keys(acc)
    ensures Candidacy(items[0], cache, inflight) == Some(c) ==>
      Dedup(Eligibles(items, cache, inflight), Keys(acc))
      == [c] + Dedup(Eligibles(items[1..], cache, inflight), Keys(acc + [c]))
  {
    if Candidacy(items[0], cache, inflight) != Some(c) { return; }
    KeysAppend(acc, c);
    EligiblesUnfold(items, cache, inflight, c);
    DedupKeepsNew(c, Eligibles(items[1..], cache, inflight), Keys(acc));
  }

  lemma AppendTake(acc: seq<Candidate>, c: Candidate, t: seq<Candidate>)
    ensures (acc + [c]) + t == acc + ([c] + t)
  {
  }

  /** Each collected chain is the trim of some item's chain, and so is its own trim. */
  lemma CandidateChainTrimmed(items: seq<Item>, cache: LogoMap, inflight: set<string>, limit: int, j: nat)
    ensures j < |Collect(items, cache, inflight, limit, [])| ==>
      Trimmed(Collect(items, cache, inflight, limit, [])[j].chain)
  {
    var cands := Collect(items, cache, inflight, limit, []);
    if j < |cands| {
      var c := cands[j];
      CollectedFromItem(items, cache, inflight, limit, c);
      var i :| 0 <= i < |items| && Candidacy(items[i], cache, inflight) == Some(c);
      assert c.chain == Trim(items[i].chain.GetOr(""));
    }
  }

  /** Every collected candidate is some item's candidacy. */
  lemma CollectedFromItem(items: seq<Item>, cache: LogoMap, inflight: set<string>, limit: int, c: Candidate)
    requires c in Collect(items, cache, inflight, limit, [])
    ensures exists i :: 0 <= i < |items| && Candidacy(items[i], cache, inflight) == Some(c)
  {
    CollectIsFirstDistinct(items, cache, inflight, limit, []);
    var d := Dedup(Eligibles(items, cache, inflight), Keys([]));
    var t := Take(d, Cap(limit));
    assert [] + t == t;
    TakeKeeps(d, Cap(limit), c);
    DedupFromEligibles(items, cache, inflight, Keys([]));
  }

  lemma TakeKeeps<T>(s: seq<T>, n: nat, x: T)
    requires x in Take(s, n)
    ensures x in s
  {
    if |s| > n {
      var k :| 0 <= k < n && s[..n][k] == x;
      assert s[k] == x;
    }
  }

  /** Every candidate the reference scan keeps comes from one of the items. */
  lemma {:induction false} DedupFromEligibles(items: seq<Item>, cache: LogoMap, inflight: set<string>, seen: set<string>)
    ensures forall c :: c in Dedup(Eligibles(items, cache, inflight), seen) ==>
      exists i :: 0 <= i < |items| && Candidacy(items[i], cache, inflight) == Some(c)
  {
    EligiblesFromItems(items, cache, inflight);
    DedupSubset(Eligibles(items, cache, inflight), seen);
  }

  lemma {:induction false} EligiblesFromItems(items: seq<Item>, cache: LogoMap, inflight: set<string>)
    ensures forall c :: c in Eligibles(items, cache, inflight) ==>
      exists i :: 0 <= i < |items| && Candidacy(items[i], cache, inflight) == Some(c)
    decreases |items|
  {
    if |items| > 0 {
      var rest := Eligibles(items[1..], cache, inflight);
      EligiblesFromItems(items[1..], cache, inflight);
      forall c | c in Eligibles(items, cache, inflight)
        ensures exists i :: 0 <= i < |items| && Candidacy(items[i], cache, inflight) == Some(c)
      {
        if Candidacy(items[0], cache, inflight) == Some(c) {
          assert Candidacy(items[0], cache, inflight) == Some(c);
        } else {
          assert c in rest;
          var i :| 0 <= i < |items[1..]| && Candidacy(items[1..][i], cache, inflight) == Some(c);
          assert items[i + 1] == items[1..][i];
        }
      }
    }
  }

  lemma {:induction false} DedupSubset(cs: seq<Candidate>, seen: set<string>)
    ensures forall c :: c in Dedup(cs, seen) ==> c in cs
    decreases |cs|
  {
    if |cs| > 0 {
      DedupSubset(cs[1..], seen);
      DedupSubset(cs[1..], seen + {KeyOf(cs[0])});
    }
  }

  // ---------------------------------------------------------------------------
  // Resolving candidates

  /** Whether the merge keeps an existing truthy entry (`m[key] ? m : {...}`) or always writes. */
  datatype Policy = KeepExisting | Overwrite

  /** One lookup as performed: the candidate, the in-flight set while pending, the outcome. */
  datatype Step = Step(query: Candidate, inflight: set<string>, outcome: Lookup)

  /** The cache and in-flight set after the pass, with the lookups in the order made. */
  datatype PassResult = PassResult(cache: LogoMap, inflight: set<string>, steps: seq<Step>)

  /** The lookup returned a truthy URL. */
  predicate Found(o: Lookup) {
    o.Returned? && o.url.Some? && o.url.value != ""
  }

  /** The cache update after one lookup. */
  function Merge(cache: LogoMap, key: string, o: Lookup, cancelled: bool, policy: Policy): (r: LogoMap)
    ensures cache.Keys <= r.Keys && r.Keys <= cache.Keys + {key}
    ensures forall k :: k in cache && k != key ==> r[k] == cache[k]
    ensures key in r && (key !in cache || r[key] != cache[key]) ==> !cancelled && Found(o) && r[key] == o.url.value
    ensures !cancelled && Found(o) && (policy == Overwrite || !Has(cache, key)) ==> key in r && r[key] == o.url.value
    ensures policy == KeepExisting && Has(cache, key) ==> r == cache
  {
    if cancelled || !Found(o) then cache
    else
      match policy
      case KeepExisting => if Has(cache, key) then cache else cache[key := o.url.value]
      case Overwrite => cache[key := o.url.value]
  }

  /**
    The sequential lookup loop over `cands`, of which `start` lookups were made before.
    Each key joins the in-flight set before its lookup and leaves it afterwards, whatever the
    outcome.
   */
  function Resolve(cands: seq<Candidate>, start: nat, cache: LogoMap, inflight: set<string>,
                   lookup: Candidate -> Lookup, cancelAt: nat, policy: Policy): (r: PassResult)
    ensures |r.steps| == |cands|
    ensures forall j :: 0 <= j < |cands| ==> r.steps[j].query == cands[j] && r.steps[j].outcome == lookup(cands[j])
    ensures r.inflight == inflight - Keys(cands)
    ensures cache.Keys <= r.cache.Keys
    decreases |cands|
  {
    if |cands| == 0 then PassResult(cache, inflight, [])
    else
      var c := cands[0];
      var k := KeyOf(c);
      var during := inflight + {k};
      var o := lookup(c);
      var next := Merge(cache, k, o, start >= cancelAt, policy);
      var rest := Resolve(cands[1..], start + 1, next, during - {k}, lookup, cancelAt, policy);
      KeysCons(cands);
      PassResult(rest.cache, rest.inflight, [Step(c, during, o)] + rest.steps)
  }

  /** While lookup `j` is pending, the in-flight set holds its key on top of what was there before. */
  lemma {:induction false} ResolveInflight(cands: seq<Candidate>, start: nat, cache: LogoMap, inflight: set<string>,
                                           lookup: Candidate -> Lookup, cancelAt: nat, policy: Policy, j: nat)
    requires j < |cands|
    requires forall i :: 0 <= i < |cands| ==> KeyOf(cands[i]) !in inflight
    ensures Resolve(cands, start, cache, inflight, lookup, cancelAt, policy).steps[j].inflight == inflight + {KeyOf(cands[j])}
    decreases |cands|
  {
    if j > 0 {
      var k := KeyOf(cands[0]);
      var next := Merge(cache, k, lookup(cands[0]), start >= cancelAt, policy);
      assert (inflight + {k}) - {k} == inflight;
      ResolveInflight(cands[1..], start + 1, next, inflight, lookup, cancelAt, policy, j - 1);
    }
  }

  /** Under `KeepExisting`, an entry that was truthy before the pass keeps its value. */
  lemma {:induction false} ResolveKeepsEntries(cands: seq<Candidate>, start: nat, cache: LogoMap, inflight: set<string>,
                                               lookup: Candidate -> Lookup, cancelAt: nat, k: string)
    requires Has(cache, k)
    ensures var r := Resolve(cands, start, cache, inflight, lookup, cancelAt, KeepExisting);
      k in r.cache && r.cache[k] == cache[k]
    decreases |cands|
  {
    if |cands| > 0 {
      var key := KeyOf(cands[0]);
      var next := Merge(cache, key, lookup(cands[0]), start >= cancelAt, KeepExisting);
      ResolveKeepsEntries(cands[1..], start + 1, next, (inflight + {key}) - {key}, lookup, cancelAt, k);
    }
  }

  /**
    An entry that is new or changed after the pass comes from a lookup made before the
    cancellation, for that key, that returned exactly that URL.
   */
  lemma {:induction false} ResolveWritesOnlyFound(cands: seq<Candidate>, start: nat, cache: LogoMap, inflight: set<string>,
                                                  lookup: Candidate -> Lookup, cancelAt: nat, policy: Policy, k: string)
    ensures var r := Resolve(cands, start, cache, inflight, lookup, cancelAt, policy);
      k in r.cache && (k !in cache || r.cache[k] != cache[k]) ==>
      exists j :: 0 <= j < |cands| && start + j < cancelAt && KeyOf(cands[j]) == k
        && Found(lookup(cands[j])) && lookup(cands[j]).url.value == r.cache[k]
    decreases |cands|
  {
    var r := Resolve(cands, start, cache, inflight, lookup, cancelAt, policy);
    if |cands| > 0 && k in r.cache && (k !in cache || r.cache[k] != cache[k]) {
      var key := KeyOf(cands[0]);
      var next := Merge(cache, key, lookup(cands[0]), start >= cancelAt, policy);
      var inner := Resolve(cands[1..], start + 1, next, (inflight + {key}) - {key}, lookup, cancelAt, policy);
      assert r.cache == inner.cache;
      if k in inner.cache && (k !in next || inner.cache[k] != next[k]) {
        ResolveWritesOnlyFound(cands[1..], start + 1, next, (inflight + {key}) - {key}, lookup, cancelAt, policy, k);
        var j :| 0 <= j < |cands[1..]| && start + 1 + j < cancelAt && KeyOf(cands[1..][j]) == k
          && Found(lookup(cands[1..][j])) && lookup(cands[1..][j]).url.value == inner.cache[k];
        assert cands[j + 1] == cands[1..][j];
      } else {
        assert k in next && inner.cache[k] == next[k];
        assert k == key;
        assert start + 0 < cancelAt && Found(lookup(cands[0])) && next[k] == lookup(cands[0]).url.value;
      }
    }
  }

  /** A key that no lookup of this pass touches keeps its cache state. */
  lemma {:induction false} ResolveUntouched(cands: seq<Candidate>, start: nat, cache: LogoMap, inflight: set<string>,
                                            lookup: Candidate -> Lookup, cancelAt: nat, policy: Policy, k: string)
    requires k !in Keys(cands)
    ensures var r := Resolve(cands, start, cache, inflight, lookup, cancelAt, policy);
      (k in r.cache <==> k in cache) && (k in cache ==> r.cache[k] == cache[k])
    decreases |cands|
  {
    if |cands| > 0 {
      KeysCons(cands);
      var key := KeyOf(cands[0]);
      var next := Merge(cache, key, lookup(cands[0]), start >= cancelAt, policy);
      ResolveUntouched(cands[1..], start + 1, next, (inflight + {key}) - {key}, lookup, cancelAt, policy, k);
    }
  }

  /**
    With distinct keys, candidate `j` ends up written exactly when its lookup found a URL
    before the cancellation, and the entry is then that URL. A thrown or null lookup leaves the
    entry as it was, so the key stays eligible for a later pass.
   */
  lemma {:induction false} ResolveOutcome(cands: seq<Candidate>, start: nat, cache: LogoMap, inflight: set<string>,
                                          lookup: Candidate -> Lookup, cancelAt: nat, policy: Policy, j: nat)
    requires j < |cands| && DistinctKeys(cands)
    requires !Has(cache, KeyOf(cands[j]))
    ensures var r := Resolve(cands, start, cache, inflight, lookup, cancelAt, policy);
      var k := KeyOf(cands[j]);
      if start + j < cancelAt && Found(lookup(cands[j])) then k in r.cache && r.cache[k] == lookup(cands[j]).url.value
      else (k in r.cache <==> k in cache) && (k in cache ==> r.cache[k] == cache[k])
    decreases |cands|
  {
    var key := KeyOf(cands[0]);
    var next := Merge(cache, key, lookup(cands[0]), start >= cancelAt, policy);
    var rest := cands[1..];
    var during := (inflight + {key}) - {key};
    ResolveCacheStep(cands, start, cache, inflight, lookup, cancelAt, policy);
    if j == 0 {
      assert KeyOf(cands[0]) !in Keys(rest);
      ResolveUntouched(rest, start + 1, next, during, lookup, cancelAt, policy, key);
    } else {
      assert rest[j - 1] == cands[j];
      assert !Has(next, KeyOf(cands[j])) by {
        assert key != KeyOf(cands[j]);
      }
      DistinctKeysTail(cands);
      ResolveOutcome(rest, start + 1, next, during, lookup, cancelAt, policy, j - 1);
    }
  }

  /** The cache after the whole loop is the cache after the rest, started from the first merge. */
  lemma ResolveCacheStep(cands: seq<Candidate>, start: nat, cache: LogoMap, inflight: set<string>,
                         lookup: Candidate -> Lookup, cancelAt: nat, policy: Policy)
    requires |cands| > 0
    ensures var key := KeyOf(cands[0]);
      Resolve(cands, start, cache, inflight, lookup, cancelAt, policy).cache
      == Resolve(cands[1..], start + 1, Merge(cache, key, lookup(cands[0]), start >= cancelAt, policy),
                 (inflight + {key}) - {key}, lookup, cancelAt, policy).cache
  {
  }

  lemma DistinctKeysTail(cands: seq<Candidate>)
    requires |cands| > 0 && DistinctKeys(cands)
    ensures DistinctKeys(cands[1..])
  {
    var rest := cands[1..];
    forall a, b | 0 <= a < b < |rest|
      ensures KeyOf(rest[a]) != KeyOf(rest[b])
    {
      assert rest[a] == cands[a + 1] && rest[b] == cands[b + 1];
    }
  }

  /** Once the pass is cancelled, no lookup writes: the cache is as it was. */
  lemma {:induction false} CancelledResolveWritesNothing(cands: seq<Candidate>, start: nat, cache: LogoMap, inflight: set<string>,
                                                         lookup: Candidate -> Lookup, cancelAt: nat, policy: Policy)
    requires cancelAt <= start
    ensures Resolve(cands, start, cache, inflight, lookup, cancelAt, policy).cache == cache
    decreases |cands|
  {
    if |cands| > 0 {
      var key := KeyOf(cands[0]);
      CancelledResolveWritesNothing(cands[1..], start + 1, cache, (inflight + {key}) - {key}, lookup, cancelAt, policy);
    }
  }

  /**
    When no candidate key is truthy in the cache at the start and the keys are distinct, the
    two merge policies give the same pass: dropping the guard changes nothing within one pass.
   */
  lemma {:induction false} PoliciesAgreeOnFreshKeys(cands: seq<Candidate>, start: nat, cache: LogoMap, inflight: set<string>,
                                                    lookup: Candidate -> Lookup, cancelAt: nat)
    requires DistinctKeys(cands)
    requires forall i :: 0 <= i < |cands| ==> !Has(cache, KeyOf(cands[i]))
    ensures Resolve(cands, start, cache, inflight, lookup, cancelAt, KeepExisting)
         == Resolve(cands, start, cache, inflight, lookup, cancelAt, Overwrite)
    decreases |cands|
  {
    if |cands| > 0 {
      var key := KeyOf(cands[0]);
      var o := lookup(cands[0]);
      var next := Merge(cache, key, o, start >= cancelAt, KeepExisting);
      assert next == Merge(cache, key, o, start >= cancelAt, Overwrite);
      var rest := cands[1..];
      forall i | 0 <= i < |rest|
        ensures !Has(next, KeyOf(rest[i]))
      {
        assert rest[i] == cands[i + 1];
      }
      assert DistinctKeys(rest) by {
        forall a, b | 0 <= a < b < |rest|
          ensures KeyOf(rest[a]) != KeyOf(rest[b])
        {
          assert rest[a] == cands[a + 1] && rest[b] == cands[b + 1];
        }
      }
      PoliciesAgreeOnFreshKeys(rest, start + 1, next, (inflight + {key}) - {key}, lookup, cancelAt);
    }
  }

  /** The guard matters only when another writer filled the key first: then `Overwrite` replaces it. */
  lemma OverwriteReplacesEntry()
    ensures var m := map["0xab" := "old"];
      Merge(m, "0xab", Returned(Some("new")), false, Overwrite)["0xab"] == "new"
      && Merge(m, "0xab", Returned(Some("new")), false, KeepExisting)["0xab"] == "old"
  {
  }

  // ---------------------------------------------------------------------------
  // A whole pass

  /** Collect, then resolve, starting from an empty `seen` set. */
  function Pass(items: seq<Item>, cache: LogoMap, inflight: set<string>, limit: int,
                lookup: Candidate -> Lookup, cancelAt: nat, policy: Policy): (r: PassResult)
    ensures |r.steps| <= Cap(limit)
    ensures cache.Keys <= r.cache.Keys
    ensures r.inflight == inflight
  {
    var cands := Collect(items, cache, inflight, limit, []);
    var r := Resolve(cands, 0, cache, inflight, lookup, cancelAt, policy);
    assert inflight - Keys(cands) == inflight;
    r
  }

  /** The candidates of a pass are its first `Cap(limit)` distinct eligible keys, in item order. */
  lemma PassLookups(items: seq<Item>, cache: LogoMap, inflight: set<string>, limit: int,
                    lookup: Candidate -> Lookup, cancelAt: nat, policy: Policy)
    ensures var r := Pass(items, cache, inflight, limit, lookup, cancelAt, policy);
      var expected := Take(Dedup(Eligibles(items, cache, inflight), {}), Cap(limit));
      |r.steps| == |expected| && forall j :: 0 <= j < |expected| ==> r.steps[j].query == expected[j]
  {
    CollectFromNothing(items, cache, inflight, limit);
  }

  lemma CollectFromNothing(items: seq<Item>, cache: LogoMap, inflight: set<string>, limit: int)
    ensures Collect(items, cache, inflight, limit, []) == Take(Dedup(Eligibles(items, cache, inflight), {}), Cap(limit))
  {
    CollectIsFirstDistinct(items, cache, inflight, limit, []);
    assert Keys([]) == {};
  }

  /**
    A pass never loses a truthy entry, under either merge policy: such keys are never
    candidates, so even the unguarded merge does not reach them.
   */
  lemma PassKeepsEntries(items: seq<Item>, cache: LogoMap, inflight: set<string>, limit: int,
                         lookup: Candidate -> Lookup, cancelAt: nat, policy: Policy, k: string)
    requires Has(cache, k)
    ensures var r := Pass(items, cache, inflight, limit, lookup, cancelAt, policy);
      k in r.cache && r.cache[k] == cache[k]
  {
    var cands := Collect(items, cache, inflight, limit, []);
    assert DistinctKeys(cands) && forall i :: 0 <= i < |cands| ==> !Has(cache, KeyOf(cands[i]));
    PoliciesAgreeOnFreshKeys(cands, 0, cache, inflight, lookup, cancelAt);
    ResolveKeepsEntries(cands, 0, cache, inflight, lookup, cancelAt, k);
  }

  /** Every lookup of a pass is for a fresh, non-empty key with a non-empty trimmed chain. */
  lemma PassQueries(items: seq<Item>, cache: LogoMap, inflight: set<string>, limit: int,
                    lookup: Candidate -> Lookup, cancelAt: nat, policy: Policy)
    ensures var r := Pass(items, cache, inflight, limit, lookup, cancelAt, policy);
      && (forall i, j :: 0 <= i < j < |r.steps| ==> KeyOf(r.steps[i].query) != KeyOf(r.steps[j].query))
      && forall j :: 0 <= j < |r.steps| ==>
        var c := r.steps[j].query;
        KeyOf(c) != "" && c.chain != "" && Trimmed(c.chain) && !Has(cache, KeyOf(c)) && KeyOf(c) !in inflight
  {
    var cands := Collect(items, cache, inflight, limit, []);
    forall j | 0 <= j < |cands|
      ensures Trimmed(cands[j].chain)
    {
      CandidateChainTrimmed(items, cache, inflight, limit, j);
    }
  }

  /** `useDexLogos` with its default limit of 40 and the DexScreener lookup over the client `fetch`. */
  const DefaultLimit := 40

  function DexLookupOf(fetch: string -> Fetched): Candidate -> Lookup {
    (c: Candidate) => FetchDexLogo(Some(c.chain), c.ca, fetch).0
  }

  function UseDexLogosPass(items: seq<Item>, limit: Option<int>, cache: LogoMap, inflight: set<string>,
                           fetch: string -> Fetched, cancelAt: nat): (r: PassResult)
    ensures |r.steps| <= Cap(limit.GetOr(DefaultLimit))
    ensures limit.None? ==> |r.steps| <= 40
    ensures forall k :: Has(cache, k) ==> k in r.cache && r.cache[k] == cache[k]
    ensures r.inflight == inflight
  {
    var r := Pass(items, cache, inflight, limit.GetOr(DefaultLimit), DexLookupOf(fetch), cancelAt, KeepExisting);
    forall k | Has(cache, k)
      ensures k in r.cache && r.cache[k] == cache[k]
    {
      ResolveKeepsEntries(Collect(items, cache, inflight, limit.GetOr(DefaultLimit), []), 0, cache, inflight,
                          DexLookupOf(fetch), cancelAt, k);
    }
    r
  }
}

=== FILE: paging.dfy ===
/**
  `loadMore` on the tips and trades pages: keyset pagination that appends each further page to
  the loaded list. `C` is whatever server counts the page carries.
 */
module Paging {
  import opened Wrappers

  /** One page from the server: its items, the next cursor (null or "" at the end) and counts. */
  datatype Page<T, C> = Page(items: seq<T>, nextCursor: Option<string>, counts: C)

  /** The list as loaded so far. */
  datatype Feed<T, C> = Feed(items: seq<T>, cursor: Option<string>, loadingMore: bool,
                             error: Option<string>, counts: C)

  /** `next_cursor || null`: an empty cursor ends the feed. */
  function CursorOf(c: Option<string>): (r: Option<string>)
    ensures r.Some? <==> c.Some? && c.value != ""
    ensures r.Some? ==> r == c
  {
    if c.Some? && c.value != "" then c else None
  }

  /** A further page can be requested: there is a cursor and no `loadMore` is pending. */
  predicate CanLoadMore<T, C>(f: Feed<T, C>) {
    f.cursor.Some? && f.cursor.value != "" && !f.loadingMore
  }

  /**
    The synchronous start of `loadMore`: without a cursor or while one is pending it does
    nothing; otherwise it marks the feed loading, clears the error and requests the cursor.
   */
  function StartLoadMore<T, C>(f: Feed<T, C>): (r: (Feed<T, C>, Option<string>))
    ensures !CanLoadMore(f) ==> r == (f, None)
    ensures CanLoadMore(f) ==> r.1 == f.cursor && r.0 == f.(loadingMore := true, error := None)
  {
    if !CanLoadMore(f) then (f, None) else (f.(loadingMore := true, error := None), f.cursor)
  }

  /**
    The completion of `loadMore`: a page is appended and its cursor and counts replace the
    old ones; a failure only shows its message. Either way the pending flag drops.
   */
  function FinishLoadMore<T, C>(f: Feed<T, C>, res: Result<Page<T, C>, string>): (r: Feed<T, C>)
    ensures !r.loadingMore
    ensures |f.items| <= |r.items| && r.items[..|f.items|] == f.items
    ensures res.Ok? ==> r.items[|f.items|..] == res.value.items && r.cursor == CursorOf(res.value.nextCursor)
                        && r.counts == res.value.counts
    ensures res.Err? ==> r == f.(loadingMore := false, error := Some(res.error))
  {
    match res
    case Ok(page) =>
      var items := f.items + page.items;
      assert items[..|f.items|] == f.items && items[|f.items|..] == page.items;
      f.(items := items, cursor := CursorOf(page.nextCursor), loadingMore := false, counts := page.counts)
    case Err(msg) => f.(loadingMore := false, error := Some(msg))
  }

  /** While a page is pending, a second `loadMore` issues nothing. */
  lemma NoOverlappingLoads<T, C>(f: Feed<T, C>)
    requires CanLoadMore(f)
    ensures StartLoadMore(StartLoadMore(f).0).1.None?
  {
  }

  /** Two pages loaded in turn: the list is the old one followed by both pages, in order. */
  lemma TwoPagesAppend<T, C>(f: Feed<T, C>, p1: Page<T, C>, p2: Page<T, C>)
    requires CanLoadMore(f) && p1.nextCursor.Some? && p1.nextCursor.value != ""
    ensures var (f1, q1) := StartLoadMore(f);
      var g1 := FinishLoadMore(f1, Ok(p1));
      var (f2, q2) := StartLoadMore(g1);
      var g2 := FinishLoadMore(f2, Ok(p2));
      q1 == f.cursor && q2 == p1.nextCursor && g2.items == f.items + p1.items + p2.items
  {
    var (f1, q1) := StartLoadMore(f);
    var g1 := FinishLoadMore(f1, Ok(p1));
    assert g1.items == f.items + p1.items;
  }
}

=== FILE: schemas.dfy ===
/**
  The request bodies of the trades, tips and wizard endpoints and the field bounds their
  models declare. A body that breaks a bound is refused with a 422 before the handler runs.
 */
module Schemas {
  import opened Wrappers
  import opened Http
  import opened Store

  /** `BubblesData`: the cluster and "other" rows sent together. */
  datatype BubblesData = BubblesData(clusters: seq<BubbleRow>, others: seq<BubbleRow>)

  /** `BubbleRow`: rank > 0, pct >= 0. */
  predicate ValidBubbleRow(r: BubbleRow) {
    r.rank > 0 && r.pct >= 0.0
  }

  predicate ValidBubbles(b: BubblesData) {
    (forall i :: 0 <= i < |b.clusters| ==> ValidBubbleRow(b.clusters[i]))
    && (forall i :: 0 <= i < |b.others| ==> ValidBubbleRow(b.others[i]))
  }

  /** `ScoringData.intuition_score`: 1 to 10. */
  predicate ValidScore(s: int) {
    1 <= s <= 10
  }

  predicate Positive(x: Option<real>) {
    x.None? || x.value > 0.0
  }

  // ---------------------------------------------------------------------------
  // Trades

  datatype TradeOpen = TradeOpen(ca: string, chain: Option<string>, entryMcap: real, size: Option<real>,
                                 bubbles: Option<BubblesData>, scoring: Option<int>)

  predicate ValidTradeOpen(p: TradeOpen) {
    |p.ca| >= 3 && p.entryMcap > 0.0 && Positive(p.size)
    && (p.bubbles.Some? ==> ValidBubbles(p.bubbles.value))
    && (p.scoring.Some? ==> ValidScore(p.scoring.value))
  }

  datatype TradeClose = TradeClose(tradeId: Option<string>, exitMcap: real, exitReason: Option<string>)

  predicate ValidTradeClose(p: TradeClose) {
    (p.tradeId.Some? ==> |p.tradeId.value| >= 3) && p.exitMcap > 0.0
  }

  datatype TradeUpdate = TradeUpdate(entryMcap: Option<real>, size: Option<real>, exitMcap: Option<real>,
                                     exitReason: Option<string>)

  predicate ValidTradeUpdate(p: TradeUpdate) {
    Positive(p.entryMcap) && Positive(p.size) && Positive(p.exitMcap)
  }

  // ---------------------------------------------------------------------------
  // Accounts and tips

  datatype AccountCreate = AccountCreate(platform: string, handle: string)

  predicate ValidAccountCreate(p: AccountCreate) {
    |p.platform| >= 1 && |p.handle| >= 1
  }

  /** `TipCreate` has no `chain` member: a `chain` sent with it is dropped. */
  datatype TipCreate = TipCreate(ca: string, accountId: int, postTs: int, postMcap: real,
                                 bubbles: Option<BubblesData>, scoring: Option<int>)

  predicate ValidTipCreate(p: TipCreate) {
    |p.ca| >= 3 && p.postMcap > 0.0
    && (p.bubbles.Some? ==> ValidBubbles(p.bubbles.value))
    && (p.scoring.Some? ==> ValidScore(p.scoring.value))
  }

  datatype TipUpdate = TipUpdate(peakMcap: Option<real>, troughMcap: Option<real>, rugFlag: Option<int>)

  /** `TipUpdate` as declared: positive peak and trough; `rug_flag` carries no bound at all. */
  predicate ValidTipUpdateAsWritten(p: TipUpdate) {
    Positive(p.peakMcap) && Positive(p.troughMcap)
  }

  /** `TipUpdate` as its comment and tests mean it: `rug_flag` is 0 or 1 when present. */
  predicate ValidTipUpdate(p: TipUpdate) {
    ValidTipUpdateAsWritten(p) && (p.rugFlag.Some? ==> p.rugFlag.value in {0, 1})
  }

  /** The declared model lets through the two flags the tests expect to be refused. */
  lemma RugFlagAsWrittenAcceptsOutOfRange()
    ensures ValidTipUpdateAsWritten(TipUpdate(None, None, Some(-1)))
    ensures ValidTipUpdateAsWritten(TipUpdate(None, None, Some(2)))
    ensures !ValidTipUpdate(TipUpdate(None, None, Some(-1))) && !ValidTipUpdate(TipUpdate(None, None, Some(2)))
  {
  }

  /** The intended bound: of the flags, exactly 0 and 1 pass; otherwise it agrees with the declared one. */
  lemma RugFlagBound(p: TipUpdate)
    ensures p.rugFlag.None? ==> (ValidTipUpdate(p) <==> ValidTipUpdateAsWritten(p))
    ensures p.rugFlag.Some? ==> (ValidTipUpdate(p) <==> ValidTipUpdateAsWritten(p) && 0 <= p.rugFlag.value <= 1)
  {
  }

  // ---------------------------------------------------------------------------
  // Validation outcome

  /** The 422 the framework answers with when a body breaks a bound. */
  function Rejected(valid: bool): (r: Option<HttpError>)
    ensures r.None? <==> valid
    ensures r.Some? ==> r.value.status == 422
  {
    if valid then None else Some(HttpError(422, "validation failed"))
  }

  // ---------------------------------------------------------------------------
  // Listing output

  /**
    The `bubbles` member of a listed trade or tip: its rows of each table in rank order, or
    null when it has none in either.
   */
  function ListedBubbles<K(==,!new)>(x: Extras<K>, k: K): (r: Option<BubblesData>)
    ensures r.None? <==> RowsOf(x.clusters, k) == [] && RowsOf(x.others, k) == []
    ensures r.Some? ==> multiset(r.value.clusters) == multiset(RowsOf(x.clusters, k))
                        && multiset(r.value.others) == multiset(RowsOf(x.others, k))
                        && (forall i, j :: 0 <= i < j < |r.value.clusters| ==> r.value.clusters[i].rank <= r.value.clusters[j].rank)
                        && (forall i, j :: 0 <= i < j < |r.value.others| ==> r.value.others[i].rank <= r.value.others[j].rank)
  {
    var clusters := ByRank(RowsOf(x.clusters, k));
    var others := ByRank(RowsOf(x.others, k));
    if |clusters| > 0 || |others| > 0 then Some(BubblesData(clusters, others)) else None
  }

  /** The `scoring` member: the most recently stored score, or null when there is none. */
  function LatestScore<K(==,!new)>(x: Extras<K>, k: K): (r: Option<int>)
    ensures r.None? <==> RowsOf(x.scores, k) == []
    ensures r.Some? ==> r.value == RowsOf(x.scores, k)[|RowsOf(x.scores, k)| - 1]
  {
    var scores := RowsOf(x.scores, k);
    if |scores| == 0 then None else Some(scores[|scores| - 1])
  }

  // ---------------------------------------------------------------------------
  // The cases the schema tests exercise

  lemma TradeCloseTradeIdOptional()
    ensures ValidTradeClose(TradeClose(None, 1.0, None))
    ensures !ValidTradeClose(TradeClose(Some("a"), 1.0, None))
  {
  }

  lemma TradeOpenChainOptional()
    ensures ValidTradeOpen(TradeOpen("abc", None, 1.0, None, None, None))
    ensures ValidTradeOpen(TradeOpen("abc", Some("solana"), 1.0, None, None, None))
  {
  }

  lemma TipUpdateRugFlagValid()
    ensures ValidTipUpdate(TipUpdate(None, None, Some(0))) && ValidTipUpdate(TipUpdate(None, None, Some(1)))
  {
  }
}

=== FILE: server_main.dfy ===
/**
  The API application's own logic: the refresh-interval setting and loop guard, the shared-key
  check on the maintenance endpoints, the request-id rule, and the error payloads.
 */
module ServerMain {
  import opened Wrappers
  import opened Text
  import opened Http

  // ---------------------------------------------------------------------------
  // Refresh interval and loop

  /** The default of `ACCOUNTS_MV_REFRESH_SECONDS`. */
  const DefaultRefreshSetting := "600"

  /** `_parse_refresh_interval`: `max(0, int(setting))`, or 600 when `int()` rejects it. */
  function ParseRefreshInterval(setting: string): (r: int)
    ensures r >= 0
    ensures ParsePyInt(setting).None? ==> r == 600
    ensures ParsePyInt(setting).Some? && ParsePyInt(setting).value >= 0 ==> r == ParsePyInt(setting).value
    ensures ParsePyInt(setting).Some? && ParsePyInt(setting).value < 0 ==> r == 0
  {
    match ParsePyInt(setting)
    case None => 600
    case Some(v) => if v < 0 then 0 else v
  }

  /** A setting written from a number reads back as that number, clamped at 0. */
  lemma RefreshIntervalRoundTrip(n: int)
    ensures ParseRefreshInterval(IntToString(n)) == if n < 0 then 0 else n
  {
    IntRoundTrip(n);
  }

  /**
    `int()` does not skip the ASCII separators 28 to 31, so a setting ending in one of them is
    rejected and the interval falls back to 600.
   */
  lemma SeparatorSettingFallsBack()
    ensures ParseRefreshInterval("5\U{1C}") == 600
  {
    SeparatorRefused();
  }

  /** A setting padded with a non-ASCII space such as U+0085 still reads as its number. */
  lemma NonAsciiSpaceSettingReads()
    ensures ParseRefreshInterval("5\U{85}") == 5
  {
    NonAsciiSpaceSkipped();
  }

  lemma DefaultIntervalIs600()
    ensures ParseRefreshInterval(DefaultRefreshSetting) == 600
  {
    assert NatToString(6) == "6";
    assert NatToString(60) == "60";
    assert NatToString(600) == "600";
    RefreshIntervalRoundTrip(600);
  }

  /**
    `_refresh_loop`: nothing for an interval of 0; otherwise one refresh per wait that times
    out, until the first wait that sees the stop event. `stopped[k]` is what wait `k` returns.
   */
  function RefreshRuns(interval: int, stopped: seq<bool>): (n: nat)
    ensures interval <= 0 ==> n == 0
    ensures interval > 0 ==> n <= |stopped| && (forall k :: 0 <= k < n ==> !stopped[k])
                              && (n < |stopped| ==> stopped[n])
  {
    if interval <= 0 || |stopped| == 0 || stopped[0] then 0
    else
      var n := RefreshRuns(interval, stopped[1..]);
      assert forall k :: 1 <= k < n + 1 ==> stopped[k] == stopped[1..][k - 1];
      n + 1
  }

  /** `startup`: the refresh thread starts exactly when the parsed interval is positive. */
  function StartsRefreshThread(setting: string): (started: bool)
    ensures started <==> ParseRefreshInterval(setting) != 0
    ensures !started ==> forall stopped: seq<bool> :: RefreshRuns(ParseRefreshInterval(setting), stopped) == 0
  {
    ParseRefreshInterval(setting) > 0
  }

  // ---------------------------------------------------------------------------
  // Shared key on /warmup and /admin/refresh-accounts-summary

  /** `if WARMUP_KEY and header != WARMUP_KEY`: 401 "unauthorized". */
  function KeyCheck(warmupKey: Option<string>, header: Option<string>): (r: Option<HttpError>)
    ensures r.Some? <==> warmupKey.Some? && warmupKey.value != "" && header != warmupKey
    ensures r.Some? ==> r.value == HttpError(401, "unauthorized")
  {
    if warmupKey.Some? && warmupKey.value != "" && header != warmupKey then Some(HttpError(401, "unauthorized"))
    else None
  }

  /** Sending the configured key always passes; without a key configured anything passes. */
  lemma KeyCheckAcceptsKey(warmupKey: Option<string>, header: Option<string>)
    ensures KeyCheck(warmupKey, warmupKey).None?
    ensures warmupKey.None? || warmupKey.value == "" ==> KeyCheck(warmupKey, header).None?
  {
  }

  /** `_refresh_accounts_summary`: the advisory lock, then the view check, then the refresh. */
  datatype Summary = Summary(ok: bool, detail: string, status: int)

  function RefreshAccountsSummary(lockAcquired: bool, viewExists: bool): (r: Summary)
    ensures r.ok <==> lockAcquired && viewExists
    ensures !lockAcquired ==> r == Summary(false, "refresh_in_progress", 409)
    ensures lockAcquired && !viewExists ==> r == Summary(false, "mv_accounts_summary not found", 404)
  {
    if !lockAcquired then Summary(false, "refresh_in_progress", 409)
    else if !viewExists then Summary(false, "mv_accounts_summary not found", 404)
    else Summary(true, "refreshed", 200)
  }

  /** The refresh endpoint: key check first, then a failed refresh re-raised with its status. */
  function RefreshEndpoint(warmupKey: Option<string>, header: Option<string>,
                           lockAcquired: bool, viewExists: bool): (r: Result<string, HttpError>)
    ensures KeyCheck(warmupKey, header).Some? ==> r == Err(HttpError(401, "unauthorized"))
    ensures KeyCheck(warmupKey, header).None? ==> (r.Ok? <==> lockAcquired && viewExists)
    ensures r.Err? && KeyCheck(warmupKey, header).None? ==> r.error.status in {404, 409}
  {
    match KeyCheck(warmupKey, header)
    case Some(e) => Err(e)
    case None =>
      var s := RefreshAccountsSummary(lockAcquired, viewExists);
      if s.ok then Ok(s.detail) else Err(HttpError(s.status, s.detail))
  }

  // ---------------------------------------------------------------------------
  // Request id and error payloads

  /** The middleware: an incoming non-empty `x-request-id` is kept, otherwise a generated one. */
  function RequestId(header: Option<string>, generated: string): (r: string)
    ensures header.Some? && header.value != "" ==> r == header.value
    ensures header.None? || header.value == "" ==> r == generated
    ensures generated != "" ==> r != ""
  {
    if header.Some? && header.value != "" then header.value else generated
  }

  /** The `detail` member: the HTTP error's detail, the validation errors, or absent. */
  datatype Detail = NoDetail | Text(text: string) | Errors(errors: seq<string>)

  /** `{error: {code, message, request_id}}` plus the optional `detail`. */
  datatype Payload = Payload(code: string, message: string, requestId: Option<string>, detail: Detail)

  datatype ErrorResponse = ErrorResponse(status: int, payload: Payload, echoedId: Option<string>)

  /** What a handler ended with. */
  datatype Failure = Raised(error: HttpError) | Invalid(errors: seq<string>) | Crashed

  /**
    The three exception handlers: an `HTTPException` keeps its status and repeats its detail;
    a validation error is 422; anything else is 500 with a fixed message. Each payload carries
    the request id, which is echoed in the header when set.
   */
  function ErrorResponseFor(f: Failure, requestId: Option<string>): (r: ErrorResponse)
    ensures f.Raised? ==>
      r.status == f.error.status && r.payload == Payload("http_error", f.error.detail, requestId, Text(f.error.detail))
    ensures f.Invalid? ==>
      r.status == 422 && r.payload == Payload("validation_error", "validation failed", requestId, Errors(f.errors))
    ensures f.Crashed? ==>
      r.status == 500 && r.payload == Payload("internal_error", "internal error", requestId, NoDetail)
    ensures r.payload.requestId == requestId
    ensures r.echoedId.Some? <==> requestId.Some? && requestId.value != ""
    ensures r.echoedId.Some? ==> r.echoedId == requestId
  {
    var echo := if requestId.Some? && requestId.value != "" then requestId else None;
    match f
    case Raised(e) => ErrorResponse(e.status, Payload("http_error", e.detail, requestId, Text(e.detail)), echo)
    case Invalid(errs) => ErrorResponse(422, Payload("validation_error", "validation failed", requestId, Errors(errs)), echo)
    case Crashed => ErrorResponse(500, Payload("internal_error", "internal error", requestId, NoDetail), echo)
  }

  /**
    A failing request, end to end: the id the middleware settles on is the one in the error
    payload and the one echoed back, whether or not the client sent one.
   */
  lemma ErrorCarriesRequestId(header: Option<string>, generated: string, f: Failure)
    requires generated != ""
    ensures var id := RequestId(header, generated);
      var r := ErrorResponseFor(f, Some(id));
      r.payload.requestId == Some(id) && r.echoedId == Some(id)
      && (header.Some? && header.value != "" ==> r.echoedId == header)
  {
  }
}

=== FILE: sorting.dfy ===
/**
  A stable insertion sort over a caller-supplied order. It stands in for JavaScript's
  `Array.prototype.sort` (stable, comparator-driven) and for SQL `ORDER BY` in the model.
 */
module Sorting {
  import opened Lists

  /** `le` is total and transitive: every pair is comparable and the order chains. */
  ghost predicate TotalPreorder<T(!new)>(le: (T, T) -> bool) {
    && (forall a, b :: le(a, b) || le(b, a))
    && (forall a, b, c :: le(a, b) && le(b, c) ==> le(a, c))
  }

  ghost predicate SortedBy<T>(s: seq<T>, le: (T, T) -> bool) {
    forall i, j :: 0 <= i < j < |s| ==> le(s[i], s[j])
  }

  /** Places `x` in front of the first element it is `le`; equal elements that follow stay behind it. */
  function Insert<T>(x: T, ys: seq<T>, le: (T, T) -> bool): (r: seq<T>)
    ensures |r| == |ys| + 1
    ensures multiset(r) == multiset(ys) + multiset{x}
    decreases |ys|
  {
    if |ys| == 0 then [x]
    else if le(x, ys[0]) then [x] + ys
    else
      var rest := Insert(x, ys[1..], le);
      assert ys == [ys[0]] + ys[1..];
      [ys[0]] + rest
  }

  lemma {:induction false} InsertSorted<T(!new)>(x: T, ys: seq<T>, le: (T, T) -> bool)
    requires TotalPreorder(le)
    requires SortedBy(ys, le)
    ensures SortedBy(Insert(x, ys, le), le)
    decreases |ys|
  {
    if |ys| == 0 || le(x, ys[0]) {
    } else {
      InsertSorted(x, ys[1..], le);
      var rest := Insert(x, ys[1..], le);
      var r := [ys[0]] + rest;
      assert r == Insert(x, ys, le);
      forall j | 1 <= j < |r|
        ensures le(r[0], r[j])
      {
        assert r[j] in multiset(rest);
        assert r[j] in multiset(ys[1..]) + multiset{x};
        if r[j] == x {
          assert le(ys[0], x);
        } else {
          assert r[j] in ys[1..];
          var k :| 0 <= k < |ys[1..]| && ys[1..][k] == r[j];
          assert ys[k + 1] == r[j];
        }
      }
    }
  }

  /** `xs` sorted by `le`, stably: elements that compare equal keep their input order. */
  function SortBy<T(!new)>(xs: seq<T>, le: (T, T) -> bool): (r: seq<T>)
    requires TotalPreorder(le)
    ensures |r| == |xs|
    ensures multiset(r) == multiset(xs)
    ensures SortedBy(r, le)
    decreases |xs|
  {
    if |xs| == 0 then []
    else
      var rest := SortBy(xs[1..], le);
      InsertSorted(xs[0], rest, le);
      assert xs == [xs[0]] + xs[1..];
      Insert(xs[0], rest, le)
  }

  /** Sorting a list that is already sorted leaves it as it is. */
  lemma {:induction false} SortBySortedNoop<T(!new)>(xs: seq<T>, le: (T, T) -> bool)
    requires TotalPreorder(le)
    requires forall i, j :: 0 <= i < j < |xs| ==> le(xs[i], xs[j])
    ensures SortBy(xs, le) == xs
    decreases |xs|
  {
    if |xs| > 0 {
      SortBySortedNoop(xs[1..], le);
      assert SortBy(xs[1..], le) == xs[1..];
      if |xs| > 1 {
        assert le(xs[0], xs[1]);
      }
    }
  }

  /** The elements that `le` ranks level with `k`. */
  function Equivalent<T(!new)>(le: (T, T) -> bool, k: T): (p: T -> bool)
    ensures forall y :: p(y) <==> le(y, k) && le(k, y)
  {
    (y: T) => le(y, k) && le(k, y)
  }

  /** The part of a one-element list that passes `p`. */
  lemma FilterOne<T>(x: T, p: T -> bool)
    ensures Filter([x], p) == if p(x) then [x] else []
  {
    assert [x][1..] == [];
  }

  /**
    Inserting `x` puts it ahead of every element level with it, so within any class of
    level elements it comes first.
   */
  lemma {:induction false} InsertClass<T(!new)>(x: T, ys: seq<T>, le: (T, T) -> bool, k: T)
    requires TotalPreorder(le)
    ensures var p := Equivalent(le, k);
      Filter(Insert(x, ys, le), p) == Filter([x], p) + Filter(ys, p)
    decreases |ys|
  {
    var p := Equivalent(le, k);
    if |ys| == 0 {
      assert Insert(x, ys, le) == [x] + ys;
      assert Filter(ys, p) == [];
    } else if le(x, ys[0]) {
      FilterConcat([x], ys, p);
    } else {
      var rest := Insert(x, ys[1..], le);
      InsertClass(x, ys[1..], le, k);
      FilterConcat([ys[0]], rest, p);
      FilterConcat([ys[0]], ys[1..], p);
      assert [ys[0]] + ys[1..] == ys;
      FilterOne(x, p);
      FilterOne(ys[0], p);
      // Two level elements are `le` each other, and `x` was not placed ahead of `ys[0]`.
      assert !(p(x) && p(ys[0]));
    }
  }

  /**
    The sort is stable: within every class of level elements the output keeps the input
    order, which together with sortedness and the same multiset pins the output down.
   */
  lemma {:induction false} SortByStable<T(!new)>(xs: seq<T>, le: (T, T) -> bool, k: T)
    requires TotalPreorder(le)
    ensures Filter(SortBy(xs, le), Equivalent(le, k)) == Filter(xs, Equivalent(le, k))
    decreases |xs|
  {
    if |xs| > 0 {
      var p := Equivalent(le, k);
      SortByStable(xs[1..], le, k);
      InsertClass(xs[0], SortBy(xs[1..], le), le, k);
      FilterConcat([xs[0]], xs[1..], p);
      assert [xs[0]] + xs[1..] == xs;
    }
  }

  /** Two sequences with the same multiset hold the same elements. */
  lemma SameElements<T>(a: seq<T>, b: seq<T>)
    requires multiset(a) == multiset(b)
    ensures forall x :: x in a <==> x in b
  {
    forall x
      ensures x in a <==> x in b
    {
      assert x in a <==> x in multiset(a);
      assert x in b <==> x in multiset(b);
    }
  }
}

=== FILE: store.dfy ===
/**
  The API's tables, as the routers see them: rows owned by a key (bubbles, scores), the
  coins table keyed by (address, chain), and the rule every router uses to settle which
  chain an address means.
 */
module Store {
  import opened Wrappers
  import opened Http
  import opened Sorting

  // ---------------------------------------------------------------------------
  // Owned rows: `trade_bubbles`, `tip_scoring`, `bubbles_clusters`, ...

  /** A row that belongs to `owner` (a trade id, a tip id, a coin key). */
  datatype Owned<K, V> = Owned(owner: K, value: V)

  /** `SELECT value FROM t WHERE owner = k`, in table order. */
  function RowsOf<K(==,!new), V>(t: seq<Owned<K, V>>, k: K): (r: seq<V>)
    ensures |r| <= |t|
  {
    if |t| == 0 then []
    else (if t[0].owner == k then [t[0].value] else []) + RowsOf(t[1..], k)
  }

  lemma {:induction false} RowsOfConcat<K(!new), V>(a: seq<Owned<K, V>>, b: seq<Owned<K, V>>, k: K)
    ensures RowsOf(a + b, k) == RowsOf(a, k) + RowsOf(b, k)
    decreases |a|
  {
    if |a| > 0 {
      assert (a + b)[1..] == a[1..] + b;
      RowsOfConcat(a[1..], b, k);
    } else {
      assert a + b == b;
    }
  }

  /** `DELETE FROM t WHERE owner = k`. */
  function DropOwner<K(==,!new), V>(t: seq<Owned<K, V>>, k: K): (r: seq<Owned<K, V>>)
    ensures RowsOf(r, k) == []
    ensures forall o :: o != k ==> RowsOf(r, o) == RowsOf(t, o)
    ensures forall i :: 0 <= i < |r| ==> r[i] in t && r[i].owner != k
  {
    if |t| == 0 then []
    else
      var rest := DropOwner(t[1..], k);
      if t[0].owner == k then rest
      else
        assert ([t[0]] + rest)[1..] == rest;
        [t[0]] + rest
  }

  /** One `INSERT` per value, all owned by `k`. */
  function Attach<K(==,!new), V>(k: K, values: seq<V>): (r: seq<Owned<K, V>>)
    ensures RowsOf(r, k) == values
    ensures forall o :: o != k ==> RowsOf(r, o) == []
    ensures |r| == |values|
  {
    if |values| == 0 then []
    else
      var rest := Attach(k, values[1..]);
      assert ([Owned(k, values[0])] + rest)[1..] == rest;
      assert values == [values[0]] + values[1..];
      [Owned(k, values[0])] + rest
  }

  /** The SET the endpoints perform: delete `k`'s rows, then insert `values` for it. */
  function ReplaceRows<K(==,!new), V>(t: seq<Owned<K, V>>, k: K, values: seq<V>): (r: seq<Owned<K, V>>)
    ensures RowsOf(r, k) == values
    ensures forall o :: o != k ==> RowsOf(r, o) == RowsOf(t, o)
  {
    var kept := DropOwner(t, k);
    var added := Attach(k, values);
    RowsOfConcat(kept, added, k);
    forall o | o != k
      ensures RowsOf(kept + added, o) == RowsOf(t, o)
    {
      RowsOfConcat(kept, added, o);
    }
    kept + added
  }

  /** Inserting rows for `k` without deleting first. */
  function AppendRows<K(==,!new), V>(t: seq<Owned<K, V>>, k: K, values: seq<V>): (r: seq<Owned<K, V>>)
    ensures RowsOf(r, k) == RowsOf(t, k) + values
    ensures forall o :: o != k ==> RowsOf(r, o) == RowsOf(t, o)
  {
    var added := Attach(k, values);
    RowsOfConcat(t, added, k);
    forall o | o != k
      ensures RowsOf(t + added, o) == RowsOf(t, o)
    {
      RowsOfConcat(t, added, o);
      assert RowsOf(t, o) + [] == RowsOf(t, o);
    }
    t + added
  }

  /** Replacing twice with the same rows is replacing once. */
  lemma ReplaceRowsIdempotent<K(!new), V>(t: seq<Owned<K, V>>, k: K, values: seq<V>)
    ensures forall o :: RowsOf(ReplaceRows(ReplaceRows(t, k, values), k, values), o) == RowsOf(ReplaceRows(t, k, values), o)
  {
  }

  // ---------------------------------------------------------------------------
  // Bubble rows

  /** A cluster or "other" bubble: its rank and its percentage. */
  datatype BubbleRow = BubbleRow(rank: int, pct: real)

  predicate DistinctRanks(rows: seq<BubbleRow>) {
    forall i, j :: 0 <= i < j < |rows| ==> rows[i].rank != rows[j].rank
  }

  /** `len(set(ranks)) != len(ranks)`: some rank occurs twice. */
  function HasDuplicateRank(rows: seq<BubbleRow>): (r: bool)
    ensures r <==> !DistinctRanks(rows)
  {
    if |rows| == 0 then false
    else
      var rest := HasDuplicateRank(rows[1..]);
      assert forall j :: 1 <= j < |rows| ==> rows[j] == rows[1..][j - 1];
      if exists j :: 1 <= j < |rows| && rows[j].rank == rows[0].rank then true
      else rest
  }

  function RankLe(): (BubbleRow, BubbleRow) -> bool {
    (a: BubbleRow, b: BubbleRow) => a.rank <= b.rank
  }

  /** `ORDER BY rank ASC`: the same rows, ascending by rank. */
  function ByRank(rows: seq<BubbleRow>): (r: seq<BubbleRow>)
    ensures multiset(r) == multiset(rows)
    ensures forall i, j :: 0 <= i < j < |r| ==> r[i].rank <= r[j].rank
  {
    assert TotalPreorder(RankLe());
    var s := SortBy(rows, RankLe());
    assert forall i, j :: 0 <= i < j < |s| ==> RankLe()(s[i], s[j]);
    s
  }

  // ---------------------------------------------------------------------------
  // Coins

  datatype CoinRow = CoinRow(ca: string, chain: string, name: Option<string>, symbol: Option<string>,
                             launchTs: Option<int>, sourceType: Option<string>)

  /** The table's key: no two rows share both address and chain. */
  predicate KeysUnique(coins: seq<CoinRow>) {
    forall i, j :: 0 <= i < j < |coins| ==> !(coins[i].ca == coins[j].ca && coins[i].chain == coins[j].chain)
  }

  predicate HasKey(coins: seq<CoinRow>, ca: string, chain: string) {
    exists i :: 0 <= i < |coins| && coins[i].ca == ca && coins[i].chain == chain
  }

  /** The positions, ascending, of the rows at or after `from` whose address is `ca`. */
  function RowsOnCa(coins: seq<CoinRow>, ca: string, from: nat): (r: seq<nat>)
    requires from <= |coins|
    ensures forall k :: 0 <= k < |r| ==> from <= r[k] < |coins| && coins[r[k]].ca == ca
    ensures forall k, l :: 0 <= k < l < |r| ==> r[k] < r[l]
    ensures forall i :: from <= i < |coins| && coins[i].ca == ca ==> i in r
    decreases |coins| - from
  {
    if from == |coins| then []
    else if coins[from].ca == ca then [from] + RowsOnCa(coins, ca, from + 1)
    else RowsOnCa(coins, ca, from + 1)
  }

  /**
    The rule for "which chain does this address mean": a given chain must have a row (else
    404); without one, no row is a 404, two or more rows a 409, and a single row gives its chain.
   */
  function ResolveChain(coins: seq<CoinRow>, ca: string, chain: Option<string>): (r: Result<string, HttpError>)
    ensures r.Ok? ==> HasKey(coins, ca, r.value)
    ensures r.Err? ==> r.error.status in {404, 409}
    ensures chain.Some? && chain.value != "" ==>
      (r.Ok? <==> HasKey(coins, ca, chain.value)) && (r.Ok? ==> r.value == chain.value)
    ensures chain.Some? && chain.value != "" && r.Err? ==> r.error == HttpError(404, "Coin not found")
    ensures (chain.None? || chain.value == "") && r.Ok? ==>
      forall i :: 0 <= i < |coins| && coins[i].ca == ca ==> coins[i].chain == r.value
    ensures (chain.None? || chain.value == "") && r == Err(HttpError(404, "Coin not found")) ==>
      forall i :: 0 <= i < |coins| ==> coins[i].ca != ca
    ensures (chain.None? || chain.value == "") && r.Err? && r.error.status == 409 ==>
      exists i, j :: 0 <= i < j < |coins| && coins[i].ca == ca && coins[j].ca == ca
  {
    if chain.Some? && chain.value != "" then
      if HasKey(coins, ca, chain.value) then Ok(chain.value) else Err(HttpError(404, "Coin not found"))
    else
      var idx := RowsOnCa(coins, ca, 0);
      if |idx| == 0 then Err(HttpError(404, "Coin not found"))
      else if |idx| > 1 then
        assert idx[0] < idx[1];
        Err(HttpError(409, "Multiple chains found for this CA"))
      else
        assert forall i :: 0 <= i < |coins| && coins[i].ca == ca ==> i == idx[0];
        Ok(coins[idx[0]].chain)
  }

  /** With keys unique, a 409 means the address really is listed on two different chains. */
  lemma ConflictMeansTwoChains(coins: seq<CoinRow>, ca: string)
    requires KeysUnique(coins)
    ensures var r := ResolveChain(coins, ca, None);
      r.Err? && r.error.status == 409 ==>
      exists i, j :: 0 <= i < |coins| && 0 <= j < |coins| && coins[i].ca == ca && coins[j].ca == ca
                     && coins[i].chain != coins[j].chain
  {
    var r := ResolveChain(coins, ca, None);
    if r.Err? && r.error.status == 409 {
      var i, j :| 0 <= i < j < |coins| && coins[i].ca == ca && coins[j].ca == ca;
    }
  }

  /** Naming the chain a bare lookup settles on gives the same answer. */
  lemma ResolvedChainResolves(coins: seq<CoinRow>, ca: string)
    ensures var r := ResolveChain(coins, ca, None);
      r.Ok? ==> ResolveChain(coins, ca, Some(r.value)) == r
  {
  }

  /** The position of the row keyed (`ca`, `chain`), if any. */
  function FindCoin(coins: seq<CoinRow>, ca: string, chain: string): (r: Option<nat>)
    ensures r.None? <==> !HasKey(coins, ca, chain)
    ensures r.Some? ==> r.value < |coins| && coins[r.value].ca == ca && coins[r.value].chain == chain
  {
    if |coins| == 0 then None
    else if coins[0].ca == ca && coins[0].chain == chain then Some(0)
    else
      assert forall i :: 1 <= i < |coins| ==> coins[i] == coins[1..][i - 1];
      match FindCoin(coins[1..], ca, chain)
      case None => None
      case Some(i) => Some(i + 1)
  }

  // ---------------------------------------------------------------------------
  // Trades, accounts and tips

  /** A `trades` row: `id` is the serial key, `tradeId` the public "trade_..." id; open while `exitTs` is absent. */
  datatype TradeRow = TradeRow(id: int, tradeId: string, ca: string, chain: string, entryMcap: real,
                               size: Option<real>, entryTs: int, exitTs: Option<int>,
                               exitMcap: Option<real>, exitReason: Option<string>)

  /** A social account, unique on (platform, handle). */
  datatype AccountRow = AccountRow(accountId: int, platform: string, handle: string)

  /** The position of the account with this platform and handle, if any. */
  function AccountAt(accounts: seq<AccountRow>, platform: string, handle: string): (r: Option<nat>)
    ensures r.None? <==> forall i :: 0 <= i < |accounts| ==> !(accounts[i].platform == platform && accounts[i].handle == handle)
    ensures r.Some? ==> r.value < |accounts| && accounts[r.value].platform == platform && accounts[r.value].handle == handle
  {
    if |accounts| == 0 then None
    else if accounts[0].platform == platform && accounts[0].handle == handle then Some(0)
    else
      assert forall i :: 1 <= i < |accounts| ==> accounts[i] == accounts[1..][i - 1];
      match AccountAt(accounts[1..], platform, handle)
      case None => None
      case Some(i) => Some(i + 1)
  }

  /** A `tips` row; the older tips router leaves `chain` unset. */
  datatype TipRow = TipRow(tipId: int, accountId: int, ca: string, chain: Option<string>, postTs: int,
                           postMcap: real, peakMcap: Option<real>, troughMcap: Option<real>,
                           rugFlag: Option<bool>)

  /** The bubble and score tables that hang off one kind of record (trades or tips). */
  datatype Extras<K> = Extras(clusters: seq<Owned<K, BubbleRow>>, others: seq<Owned<K, BubbleRow>>,
                              scores: seq<Owned<K, int>>)

  /** The coins, the trades and the bubble and score rows keyed by public trade id. */
  datatype TradeDb = TradeDb(coins: seq<CoinRow>, trades: seq<TradeRow>, extras: Extras<string>)

  /** The coins, the social accounts, the tips and the bubble and score rows keyed by tip id. */
  datatype TipDb = TipDb(coins: seq<CoinRow>, accounts: seq<AccountRow>, tips: seq<TipRow>, extras: Extras<int>)

  /**
    The INSERTs that follow a new record: its cluster and "other" rows when bubbles are sent,
    and one score row when a score is.
   */
  function AddExtras<K(==,!new)>(x: Extras<K>, k: K, bubbles: Option<(seq<BubbleRow>, seq<BubbleRow>)>,
                                 score: Option<int>): (r: Extras<K>)
    ensures bubbles.None? ==> r.clusters == x.clusters && r.others == x.others
    ensures bubbles.Some? ==> RowsOf(r.clusters, k) == RowsOf(x.clusters, k) + bubbles.value.0
                              && RowsOf(r.others, k) == RowsOf(x.others, k) + bubbles.value.1
    ensures score.None? ==> r.scores == x.scores
    ensures score.Some? ==> RowsOf(r.scores, k) == RowsOf(x.scores, k) + [score.value]
    ensures forall o :: o != k ==> RowsOf(r.clusters, o) == RowsOf(x.clusters, o)
    ensures forall o :: o != k ==> RowsOf(r.others, o) == RowsOf(x.others, o)
    ensures forall o :: o != k ==> RowsOf(r.scores, o) == RowsOf(x.scores, o)
  {
    var clusters := if bubbles.Some? then AppendRows(x.clusters, k, bubbles.value.0) else x.clusters;
    var others := if bubbles.Some? then AppendRows(x.others, k, bubbles.value.1) else x.others;
    var scores := if score.Some? then AppendRows(x.scores, k, [score.value]) else x.scores;
    Extras(clusters, others, scores)
  }

  /** Drops every bubble and score row of `k`, as a cascading delete does. */
  function DropExtras<K(==,!new)>(x: Extras<K>, k: K): (r: Extras<K>)
    ensures RowsOf(r.clusters, k) == [] && RowsOf(r.others, k) == [] && RowsOf(r.scores, k) == []
    ensures forall o :: o != k ==> RowsOf(r.clusters, o) == RowsOf(x.clusters, o)
    ensures forall o :: o != k ==> RowsOf(r.others, o) == RowsOf(x.others, o)
    ensures forall o :: o != k ==> RowsOf(r.scores, o) == RowsOf(x.scores, o)
  {
    Extras(DropOwner(x.clusters, k), DropOwner(x.others, k), DropOwner(x.scores, k))
  }
}

=== FILE: text.dfy ===
/**
  String helpers shared by the frontend and backend models: ASCII lower-casing, whitespace
  trimming, substring search, first-occurrence splitting, decimal printing and Python's
  `int()` parsing of decimal text.

  Case mapping is the ASCII subset of what JavaScript and Python apply. Whitespace follows
  each language's own table, since JavaScript's `trim`, Python's `strip()` and Python's
  `int()` each skip a different set of characters.
 */
module Text {
  import opened Wrappers

  // ---------------------------------------------------------------------------
  // Case

  predicate IsUpper(c: char) {
    'A' <= c <= 'Z'
  }

  function LowerChar(c: char): char {
    if IsUpper(c) then (c as int + 32) as char else c
  }

  /** `s.toLowerCase()` / `s.lower()` restricted to ASCII letters. */
  function Lower(s: string): (r: string)
    ensures |r| == |s|
    ensures forall i :: 0 <= i < |s| ==> r[i] == LowerChar(s[i])
  {
    seq(|s|, i requires 0 <= i < |s| => LowerChar(s[i]))
  }

  lemma LowerIdempotent(s: string)
    ensures Lower(Lower(s)) == Lower(s)
  {
  }

  lemma LowerEmpty(s: string)
    ensures Lower(s) == "" <==> s == ""
  {
  }

  lemma LowerConcat(a: string, b: string)
    ensures Lower(a + b) == Lower(a) + Lower(b)
  {
  }

  /** `s.lower() if s else None`: an absent or empty parameter is no parameter. */
  function LowerOpt(s: Option<string>): (r: Option<string>)
    ensures r.Some? <==> s.Some? && s.value != ""
    ensures r.Some? ==> r.value == Lower(s.value)
  {
    if s.Some? && s.value != "" then Some(Lower(s.value)) else None
  }

  // ---------------------------------------------------------------------------
  // Whitespace

  /**
    The whitespace JavaScript's `trim` removes: the WhiteSpace and LineTerminator characters
    of ECMA-262 (tab, line feed, vertical tab, form feed, carriage return, space, the
    no-break spaces, the Unicode space separators, the line and paragraph separators and
    the byte order mark).
   */
  predicate IsSpace(c: char) {
    var n := c as int;
    || (9 <= n <= 13) || n == 32 || n == 0xA0 || n == 0x1680 || (0x2000 <= n <= 0x200A)
    || n == 0x2028 || n == 0x2029 || n == 0x202F || n == 0x205F || n == 0x3000 || n == 0xFEFF
  }

  /**
    Python's `str.isspace`, the whitespace `str.strip()` removes: unlike JavaScript it
    includes the ASCII separators 28 to 31 and U+0085, and excludes the byte order mark.
   */
  predicate IsPySpace(c: char) {
    var n := c as int;
    || (9 <= n <= 13) || (28 <= n <= 32) || n == 0x85 || n == 0xA0 || n == 0x1680
    || (0x2000 <= n <= 0x200A) || n == 0x2028 || n == 0x2029 || n == 0x202F || n == 0x205F
    || n == 0x3000
  }

  /**
    The whitespace Python's `int()` skips around the number: every non-ASCII `isspace`
    character, but of ASCII only tab, line feed, vertical tab, form feed, carriage return and
    space, so the separators 28 to 31 make the text invalid.
   */
  predicate IsIntSpace(c: char) {
    IsPySpace(c) && !(28 <= c as int <= 31)
  }

  /** Which of Python's two notions of whitespace a strip uses. */
  datatype PySpaces = StrSpaces | IntSpaces

  predicate PySpaceIn(w: PySpaces, c: char) {
    if w == StrSpaces then IsPySpace(c) else IsIntSpace(c)
  }

  function TrimStart(s: string): (r: string)
    ensures |r| <= |s|
    ensures r == s[|s| - |r|..]
    ensures r == [] || !IsSpace(r[0])
    ensures forall i :: 0 <= i < |s| - |r| ==> IsSpace(s[i])
    decreases |s|
  {
    if |s| > 0 && IsSpace(s[0]) then TrimStart(s[1..]) else s
  }

  function TrimEnd(s: string): (r: string)
    ensures |r| <= |s|
    ensures r == s[..|r|]
    ensures r == [] || !IsSpace(r[|r| - 1])
    ensures forall i :: |r| <= i < |s| ==> IsSpace(s[i])
    decreases |s|
  {
    if |s| > 0 && IsSpace(s[|s| - 1]) then TrimEnd(s[..|s| - 1]) else s
  }

  /** `s.trim()` in JavaScript. */
  function Trim(s: string): (r: string)
    ensures |r| <= |s|
    ensures r == [] || (!IsSpace(r[0]) && !IsSpace(r[|r| - 1]))
    ensures r == [] <==> forall i :: 0 <= i < |s| ==> IsSpace(s[i])
  {
    TrimEnd(TrimStart(s))
  }

  function StripStart(w: PySpaces, s: string): (r: string)
    ensures |r| <= |s|
    ensures r == s[|s| - |r|..]
    ensures r == [] || !PySpaceIn(w, r[0])
    ensures forall i :: 0 <= i < |s| - |r| ==> PySpaceIn(w, s[i])
    decreases |s|
  {
    if |s| > 0 && PySpaceIn(w, s[0]) then StripStart(w, s[1..]) else s
  }

  function StripEnd(w: PySpaces, s: string): (r: string)
    ensures |r| <= |s|
    ensures r == s[..|r|]
    ensures r == [] || !PySpaceIn(w, r[|r| - 1])
    ensures forall i :: |r| <= i < |s| ==> PySpaceIn(w, s[i])
    decreases |s|
  {
    if |s| > 0 && PySpaceIn(w, s[|s| - 1]) then StripEnd(w, s[..|s| - 1]) else s
  }

  /** How many characters of Python whitespace of kind `w` open `s`. */
  function LeadingSpaces(w: PySpaces, s: string): (k: nat)
    ensures k <= |s| && s[k..] == StripStart(w, s)
    ensures forall i :: 0 <= i < k ==> PySpaceIn(w, s[i])
  {
    |s| - |StripStart(w, s)|
  }

  /** Drops the leading and trailing Python whitespace of kind `w` and keeps the middle. */
  function StripIn(w: PySpaces, s: string): (r: string)
    ensures |r| <= |s|
    ensures r == [] || (!PySpaceIn(w, r[0]) && !PySpaceIn(w, r[|r| - 1]))
    ensures r == [] <==> forall i :: 0 <= i < |s| ==> PySpaceIn(w, s[i])
  {
    StripEnd(w, StripStart(w, s))
  }

  /** What a strip keeps is the run of `s` after the leading spaces; only spaces follow it. */
  lemma StripInSlice(w: PySpaces, s: string)
    ensures LeadingSpaces(w, s) + |StripIn(w, s)| <= |s|
    ensures StripIn(w, s) == s[LeadingSpaces(w, s)..LeadingSpaces(w, s) + |StripIn(w, s)|]
    ensures forall i :: LeadingSpaces(w, s) + |StripIn(w, s)| <= i < |s| ==> PySpaceIn(w, s[i])
  {
  }

  /** `s.strip()` in Python. */
  function Strip(s: string): (r: string)
    ensures |r| <= |s|
    ensures r == [] || (!IsPySpace(r[0]) && !IsPySpace(r[|r| - 1]))
    ensures r == [] <==> forall i :: 0 <= i < |s| ==> IsPySpace(s[i])
  {
    StripIn(StrSpaces, s)
  }

  /** No JavaScript whitespace at either end: what `trim` leaves. */
  predicate Trimmed(s: string) {
    s == [] || (!IsSpace(s[0]) && !IsSpace(s[|s| - 1]))
  }

  /** No Python whitespace at either end: what `strip()` leaves. */
  predicate Stripped(s: string) {
    s == [] || (!IsPySpace(s[0]) && !IsPySpace(s[|s| - 1]))
  }

  /** Nothing but JavaScript whitespace: what `trim` empties. */
  predicate Blank(s: string) {
    forall i :: 0 <= i < |s| ==> IsSpace(s[i])
  }

  lemma TrimEmpty()
    ensures Trim("") == ""
  {
  }

  /** A string whose ends are not whitespace is its own trim. */
  lemma TrimNoop(s: string)
    requires Trimmed(s)
    ensures Trim(s) == s
  {
  }

  lemma StripInNoop(w: PySpaces, s: string)
    requires s == [] || (!PySpaceIn(w, s[0]) && !PySpaceIn(w, s[|s| - 1]))
    ensures StripIn(w, s) == s
  {
  }

  /** A string whose ends are not Python whitespace is its own strip. */
  lemma StripNoop(s: string)
    requires Stripped(s)
    ensures Strip(s) == s
  {
    StripInNoop(StrSpaces, s);
  }

  /** `strip()` removes the separator 31 ... */
  lemma StripRemovesSeparator()
    ensures Strip("a\U{1F}") == "a"
  {
    var s := "a\U{1F}";
    assert IsPySpace(s[1]);
    assert !IsPySpace(s[0]);
    assert StripStart(StrSpaces, s) == s;
    assert s[..1] == "a";
    assert StripEnd(StrSpaces, "a") == "a";
    assert StripEnd(StrSpaces, s) == "a";
  }

  /** ... which JavaScript's `trim` keeps. */
  lemma TrimKeepsSeparator()
    ensures Trim("a\U{1F}") == "a\U{1F}"
  {
    var s := "a\U{1F}";
    assert !IsSpace(s[1]);
    assert !IsSpace(s[0]);
    TrimNoop(s);
  }

  // ---------------------------------------------------------------------------
  // Substrings

  predicate IsPrefix(p: string, s: string) {
    |p| <= |s| && s[..|p|] == p
  }

  /** `needle` occurs in `hay` starting at position `i`. */
  predicate OccursAt(hay: string, needle: string, i: int) {
    0 <= i && i + |needle| <= |hay| && hay[i..i + |needle|] == needle
  }

  /** `hay.includes(needle)` / `needle in hay`. */
  predicate Contains(hay: string, needle: string)
    decreases |hay|
  {
    IsPrefix(needle, hay) || (|hay| > 0 && Contains(hay[1..], needle))
  }

  lemma {:induction false} ContainsAt(hay: string, needle: string)
    ensures Contains(hay, needle) <==> exists i :: OccursAt(hay, needle, i)
    decreases |hay|
  {
    if IsPrefix(needle, hay) {
      assert OccursAt(hay, needle, 0);
    } else if |hay| > 0 {
      ContainsAt(hay[1..], needle);
      if Contains(hay[1..], needle) {
        var i :| OccursAt(hay[1..], needle, i);
        assert hay[i + 1..i + 1 + |needle|] == hay[1..][i..i + |needle|];
        assert OccursAt(hay, needle, i + 1);
      }
      if exists i :: OccursAt(hay, needle, i) {
        var i :| OccursAt(hay, needle, i);
        assert hay[0..|needle|] == hay[..|needle|];
        if i > 0 {
          assert hay[1..][i - 1..i - 1 + |needle|] == hay[i..i + |needle|];
          assert OccursAt(hay[1..], needle, i - 1);
        }
      }
    }
  }

  /** A needle placed between any two texts is found. */
  lemma ContainsInfix(pre: string, needle: string, post: string)
    ensures Contains(pre + needle + post, needle)
  {
    var hay := pre + needle + post;
    assert hay[|pre|..|pre| + |needle|] == needle;
    assert OccursAt(hay, needle, |pre|);
    ContainsAt(hay, needle);
  }

  lemma ContainsEmpty(hay: string)
    ensures Contains(hay, "")
  {
  }

  // ---------------------------------------------------------------------------
  // Splitting and replacing

  /** Position of the first `c` in `s`, if any. */
  function IndexOf(s: string, c: char): (r: Option<nat>)
    ensures r.None? <==> c !in s
    ensures r.Some? ==> r.value < |s| && s[r.value] == c && c !in s[..r.value]
  {
    if |s| == 0 then None
    else if s[0] == c then Some(0)
    else
      match IndexOf(s[1..], c)
      case None => None
      case Some(k) =>
        assert s[..k + 1] == [s[0]] + s[1..][..k];
        Some(k + 1)
  }

  /** Python's `s.split(c, 1)` when it yields two parts: the text before and after the first `c`. */
  function SplitFirst(s: string, c: char): (r: Option<(string, string)>)
    ensures r.None? <==> c !in s
    ensures r.Some? ==> s == r.value.0 + [c] + r.value.1 && c !in r.value.0
  {
    match IndexOf(s, c)
    case None => None
    case Some(k) =>
      assert s == s[..k] + [c] + s[k + 1..];
      Some((s[..k], s[k + 1..]))
  }

  /** Splitting text built as `a`, `c`, `b` with no `c` in `a` gives back exactly `a` and `b`. */
  lemma SplitFirstAt(a: string, c: char, b: string)
    requires c !in a
    ensures SplitFirst(a + [c] + b, c) == Some((a, b))
  {
    var s := a + [c] + b;
    var (x, y) := SplitFirst(s, c).value;
    assert s[|a|] == c && s[|x|] == c;
    assert x == s[..|a|] == a;
    assert y == s[|a| + 1..] == b;
  }

  /** `s.replace(c, rep)` for every occurrence of the character `c`. */
  function ReplaceChar(s: string, c: char, rep: string): (r: string)
    ensures c !in s ==> r == s
  {
    if |s| == 0 then ""
    else (if s[0] == c then rep else [s[0]]) + ReplaceChar(s[1..], c, rep)
  }

  // ---------------------------------------------------------------------------
  // Decimal numbers

  predicate IsDigit(c: char) {
    '0' <= c <= '9'
  }

  predicate AllDigits(s: string) {
    forall i :: 0 <= i < |s| ==> IsDigit(s[i])
  }

  function DigitValue(c: char): nat
    requires IsDigit(c)
  {
    c as int - '0' as int
  }

  function DigitChar(d: nat): (c: char)
    requires d < 10
    ensures IsDigit(c) && DigitValue(c) == d
  {
    ('0' as int + d) as char
  }

  /** The value of a decimal digit string (0 for the empty string). */
  function DigitsValue(s: string): nat
    requires AllDigits(s)
  {
    if |s| == 0 then 0 else DigitsValue(s[..|s| - 1]) * 10 + DigitValue(s[|s| - 1])
  }

  /** `str(n)` for a natural number: shortest decimal form. */
  function NatToString(n: nat): (r: string)
    ensures |r| >= 1 && AllDigits(r)
    ensures |r| > 1 ==> r[0] != '0'
  {
    if n < 10 then [DigitChar(n)]
    else
      var p := NatToString(n / 10);
      p + [DigitChar(n % 10)]
  }

  /** The decimal text of `n` reads back as `n`. */
  lemma {:induction false} NatToStringValue(n: nat)
    ensures DigitsValue(NatToString(n)) == n
  {
    if n >= 10 {
      NatToStringValue(n / 10);
      var p := NatToString(n / 10);
      var r := NatToString(n);
      assert r == p + [DigitChar(n % 10)];
      assert r[..|r| - 1] == p;
    }
  }

  /** `str(i)` / `String(i)` for an integer. */
  function IntToString(i: int): (r: string)
    ensures |r| >= 1
    ensures i >= 0 ==> AllDigits(r)
    ensures i < 0 ==> r[0] == '-' && AllDigits(r[1..])
  {
    if i < 0 then "-" + NatToString(-i) else NatToString(i)
  }

  /** The body of Python's `int()` after the sign: digits, optionally separated by single underscores. */
  predicate IsDigitGroups(s: string) {
    && |s| > 0
    && IsDigit(s[0])
    && IsDigit(s[|s| - 1])
    && (forall i :: 0 <= i < |s| ==> IsDigit(s[i]) || s[i] == '_')
    && (forall i :: 0 <= i < |s| - 1 ==> !(s[i] == '_' && s[i + 1] == '_'))
  }

  function DropUnderscores(s: string): (r: string)
    requires forall i :: 0 <= i < |s| ==> IsDigit(s[i]) || s[i] == '_'
    ensures AllDigits(r)
    ensures AllDigits(s) ==> r == s
  {
    if |s| == 0 then ""
    else (if s[0] == '_' then "" else [s[0]]) + DropUnderscores(s[1..])
  }

  /**
    Python's `int(s)` on decimal text: surrounding whitespace (of the kind `int()` skips) is
    ignored, then an optional sign, then digit groups. `None` is the `ValueError` case.
   */
  function ParsePyInt(s: string): (r: Option<int>)
  {
    ParseSignedGroups(StripIn(IntSpaces, s))
  }

  /** What `int()` makes of the text once its whitespace is gone: a sign, then digit groups. */
  function ParseSignedGroups(t: string): (r: Option<int>)
    ensures r.Some? ==> |t| > 0 && IsDigit(t[|t| - 1])
  {
    if |t| > 0 && (t[0] == '-' || t[0] == '+') then
      var body := t[1..];
      if IsDigitGroups(body) then
        var v := DigitsValue(DropUnderscores(body)) as int;
        Some(if t[0] == '-' then -v else v)
      else None
    else if IsDigitGroups(t) then Some(DigitsValue(DropUnderscores(t)) as int)
    else None
  }

  lemma DigitsAreGroups(s: string)
    requires |s| > 0 && AllDigits(s)
    ensures IsDigitGroups(s)
  {
  }

  /** Python's `int()` on a plain digit string. */
  lemma ParseDigits(s: string)
    requires |s| > 0 && AllDigits(s)
    ensures ParsePyInt(s) == Some(DigitsValue(s) as int)
  {
    DigitsAreGroups(s);
    StripInNoop(IntSpaces, s);
    assert DropUnderscores(s) == s;
    assert !(s[0] == '-' || s[0] == '+');
  }

  /** A minus sign followed by digits has no whitespace of any kind at its ends. */
  lemma TrimNoopSigned(w: PySpaces, m: string)
    requires |m| > 1 && m[0] == '-' && AllDigits(m[1..])
    ensures StripIn(w, m) == m
  {
    assert m[|m| - 1] == m[1..][|m| - 2];
    StripInNoop(w, m);
  }

  lemma SignedParse(m: string)
    requires StripIn(IntSpaces, m) == m && |m| > 0 && m[0] == '-' && IsDigitGroups(m[1..])
    ensures ParsePyInt(m) == Some(-(DigitsValue(DropUnderscores(m[1..])) as int))
  {
  }

  /** Printing an integer and parsing it back with Python's `int()` gives the integer back. */
  lemma IntRoundTrip(i: int)
    ensures ParsePyInt(IntToString(i)) == Some(i)
  {
    if i < 0 {
      NegativeRoundTrip(i);
    } else {
      NatToStringValue(i);
      ParseDigits(NatToString(i));
    }
  }

  lemma NegativeRoundTrip(i: int)
    requires i < 0
    ensures ParsePyInt(IntToString(i)) == Some(i)
  {
    var n: nat := -i;
    var digits := NatToString(n);
    var m := IntToString(i);
    assert m == "-" + digits;
    assert m[1..] == digits;
    DigitsAreGroups(digits);
    assert DropUnderscores(digits) == digits;
    NatToStringValue(n);
    assert DigitsValue(DropUnderscores(m[1..])) == n;
    TrimNoopSigned(IntSpaces, m);
    SignedParse(m);
  }

  /** The decimal text of an integer has no surrounding whitespace of any kind. */
  lemma IntToStringTrimmed(w: PySpaces, i: int)
    ensures StripIn(w, IntToString(i)) == IntToString(i)
  {
    var m := IntToString(i);
    if i < 0 {
      assert m[1..] == NatToString(-i);
      TrimNoopSigned(w, m);
    } else {
      assert IsDigit(m[0]) && IsDigit(m[|m| - 1]);
      StripInNoop(w, m);
    }
  }

  /** `int()` succeeds only on text holding a digit. */
  lemma ParsedHasDigit(s: string)
    ensures ParsePyInt(s).Some? ==> exists i :: 0 <= i < |s| && IsDigit(s[i])
  {
    var t := StripIn(IntSpaces, s);
    var k := LeadingSpaces(IntSpaces, s);
    StripInSlice(IntSpaces, s);
    if ParsePyInt(s).Some? {
      assert IsDigit(t[|t| - 1]);
      assert s[k + |t| - 1] == t[|t| - 1];
    }
  }

  /** `int()` fails on text holding one of the separators 28 to 31, wherever it stands. */
  lemma SeparatorRefusesInt(s: string, i: nat)
    requires i < |s| && 28 <= s[i] as int <= 31
    ensures ParsePyInt(s).None?
  {
    var t := StripIn(IntSpaces, s);
    var k := LeadingSpaces(IntSpaces, s);
    StripInSlice(IntSpaces, s);
    assert !IsIntSpace(s[i]);
    assert k <= i < k + |t|;
    var j := i - k;
    assert t[j] == s[i];
    assert !IsDigit(t[j]) && t[j] != '_' && t[j] != '-' && t[j] != '+';
    if j > 0 {
      assert t[1..][j - 1] == t[j];
    }
  }

  /** `int()` skips a non-ASCII space such as U+0085. */
  lemma NonAsciiSpaceSkipped()
    ensures ParsePyInt("5\U{85}") == Some(5)
  {
    assert IsIntSpace('\U{85}');
    TrailingIntSpaceSkipped("5", '\U{85}');
    ParseDigits("5");
    assert DigitsValue("5") == 5 by {
      assert "5"[..0] == "";
    }
  }

  /** Whitespace that `int()` skips after the digits changes nothing. */
  lemma TrailingIntSpaceSkipped(d: string, c: char)
    requires |d| > 0 && AllDigits(d) && IsIntSpace(c)
    ensures ParsePyInt(d + [c]) == ParsePyInt(d)
  {
    var s := d + [c];
    assert !IsIntSpace(d[0]) && !IsIntSpace(d[|d| - 1]);
    assert StripStart(IntSpaces, s) == s;
    assert s[..|s| - 1] == d;
    StripInNoop(IntSpaces, d);
    assert StripIn(IntSpaces, s) == d;
    SameStripSameInt(s, d);
  }

  /** `int()` reads only what is left once its whitespace is stripped. */
  lemma SameStripSameInt(a: string, b: string)
    requires StripIn(IntSpaces, a) == StripIn(IntSpaces, b)
    ensures ParsePyInt(a) == ParsePyInt(b)
  {
  }

  /** `int()` refuses text ending in the separator 28, which `strip()` would have removed. */
  lemma SeparatorRefused()
    ensures ParsePyInt("5\U{1C}") == None
  {
    var s := "5\U{1C}";
    SeparatorRefusesInt(s, 1);
  }
}

=== FILE: tips_api.dfy ===
/**
  The older tips router: create or find a social account, add a tip on a known coin, patch a
  tip's peak, trough and rug flag, delete a tip with its bubble and score rows, and list tips
  a keyset page at a time. `newId` and `newTipId` stand for the serial ids the database hands out.
 */
module TipsApi {
  import opened Wrappers
  import opened Text
  import opened Http
  import opened Lists
  import opened Store
  import opened Schemas
  import opened Keyset

  // ---------------------------------------------------------------------------
  // Accounts

  /**
    `add_account`: `INSERT ... ON CONFLICT (platform, handle)`. An existing account is kept
    and its id returned; otherwise one is added under `newId`.
   */
  function AddAccount(accounts: seq<AccountRow>, p: AccountCreate, newId: int): (r: Result<(seq<AccountRow>, AccountRow), HttpError>)
    ensures !ValidAccountCreate(p) ==> r.Err? && r.error.status == 422
    ensures ValidAccountCreate(p) ==> r.Ok?
    ensures r.Ok? ==> var (table, acc) := r.value;
      acc.platform == p.platform && acc.handle == p.handle && acc in table
      && |accounts| <= |table| <= |accounts| + 1 && table[..|accounts|] == accounts
    ensures r.Ok? && AccountAt(accounts, p.platform, p.handle).Some? ==>
      r.value.0 == accounts && r.value.1 == accounts[AccountAt(accounts, p.platform, p.handle).value]
    ensures r.Ok? && AccountAt(accounts, p.platform, p.handle).None? ==> r.value.1.accountId == newId
  {
    if !ValidAccountCreate(p) then Err(Rejected(false).value)
    else
      match AccountAt(accounts, p.platform, p.handle)
      case Some(i) => Ok((accounts, accounts[i]))
      case None =>
        var acc := AccountRow(newId, p.platform, p.handle);
        assert (accounts + [acc])[|accounts|] == acc && (accounts + [acc])[..|accounts|] == accounts;
        Ok((accounts + [acc], acc))
  }

  /** Adding the same account twice finds the first: the table and the id stay put. */
  lemma AddAccountIdempotent(accounts: seq<AccountRow>, p: AccountCreate, newId: int, laterId: int)
    ensures var r := AddAccount(accounts, p, newId);
      r.Ok? ==> AddAccount(r.value.0, p, laterId) == r
  {
    if AddAccount(accounts, p, newId).Err? { return; }
    var (table, acc) := AddAccount(accounts, p, newId).value;
    var i := AccountAt(table, p.platform, p.handle);
    if AccountAt(accounts, p.platform, p.handle).None? {
      assert table[|accounts|] == acc;
      assert i.Some? && i.value == |accounts|;
    }
  }

  // ---------------------------------------------------------------------------
  // Add

  predicate CoinOnAnyChain(coins: seq<CoinRow>, ca: string) {
    exists i :: 0 <= i < |coins| && coins[i].ca == ca
  }

  predicate AccountExists(accounts: seq<AccountRow>, accountId: int) {
    exists i :: 0 <= i < |accounts| && accounts[i].accountId == accountId
  }

  /**
    `add_tip`: the address is used as sent and must be some coin's (on any chain), then the
    account must exist; the tip is inserted without chain or outcome, and its bubble and score
    rows follow only when sent.
   */
  function AddTip(db: TipDb, p: TipCreate, newTipId: int): (r: Result<TipDb, HttpError>)
    ensures !ValidTipCreate(p) ==> r.Err? && r.error.status == 422
    ensures ValidTipCreate(p) && !CoinOnAnyChain(db.coins, p.ca) ==> r == Err(HttpError(404, "Coin not found"))
    ensures ValidTipCreate(p) && CoinOnAnyChain(db.coins, p.ca) && !AccountExists(db.accounts, p.accountId) ==>
      r == Err(HttpError(404, "Account not found"))
    ensures r.Ok? <==> ValidTipCreate(p) && CoinOnAnyChain(db.coins, p.ca) && AccountExists(db.accounts, p.accountId)
    ensures r.Ok? ==> var d := r.value;
      d.coins == db.coins && d.accounts == db.accounts
      && d.tips == db.tips + [TipRow(newTipId, p.accountId, p.ca, None, p.postTs, p.postMcap, None, None, None)]
      && (p.bubbles.None? ==> d.extras.clusters == db.extras.clusters && d.extras.others == db.extras.others)
      && (p.bubbles.Some? ==>
            RowsOf(d.extras.clusters, newTipId) == RowsOf(db.extras.clusters, newTipId) + p.bubbles.value.clusters
            && RowsOf(d.extras.others, newTipId) == RowsOf(db.extras.others, newTipId) + p.bubbles.value.others)
      && (p.scoring.None? ==> d.extras.scores == db.extras.scores)
      && (p.scoring.Some? ==> RowsOf(d.extras.scores, newTipId) == RowsOf(db.extras.scores, newTipId) + [p.scoring.value])
  {
    if !ValidTipCreate(p) then Err(Rejected(false).value)
    else if !CoinOnAnyChain(db.coins, p.ca) then Err(HttpError(404, "Coin not found"))
    else if !AccountExists(db.accounts, p.accountId) then Err(HttpError(404, "Account not found"))
    else
      var tip := TipRow(newTipId, p.accountId, p.ca, None, p.postTs, p.postMcap, None, None, None);
      var bubbles := if p.bubbles.Some? then Some((p.bubbles.value.clusters, p.bubbles.value.others)) else None;
      Ok(TipDb(db.coins, db.accounts, db.tips + [tip], AddExtras(db.extras, newTipId, bubbles, p.scoring)))
  }

  // ---------------------------------------------------------------------------
  // Update

  predicate TipExists(tips: seq<TipRow>, tipId: int) {
    exists i :: 0 <= i < |tips| && tips[i].tipId == tipId
  }

  predicate HasFields(p: TipUpdate) {
    p.peakMcap.Some? || p.troughMcap.Some? || p.rugFlag.Some?
  }

  /** The sent fields written onto one row; the flag is stored as `bool(rug_flag)`. */
  function Patched(t: TipRow, p: TipUpdate): TipRow {
    t.(peakMcap := if p.peakMcap.Some? then p.peakMcap else t.peakMcap,
       troughMcap := if p.troughMcap.Some? then p.troughMcap else t.troughMcap,
       rugFlag := if p.rugFlag.Some? then Some(p.rugFlag.value != 0) else t.rugFlag)
  }

  /** The position of the first tip with this id. */
  function TipAt(tips: seq<TipRow>, tipId: int): (r: Option<nat>)
    ensures r.None? <==> !TipExists(tips, tipId)
    ensures r.Some? ==> r.value < |tips| && tips[r.value].tipId == tipId
                        && forall i :: 0 <= i < r.value ==> tips[i].tipId != tipId
  {
    if |tips| == 0 then None
    else if tips[0].tipId == tipId then Some(0)
    else
      assert forall i :: 1 <= i < |tips| ==> tips[i] == tips[1..][i - 1];
      match TipAt(tips[1..], tipId)
      case None => None
      case Some(i) => Some(i + 1)
  }

  /**
    `update_tip` as written: the fields (peak and trough positive, any flag) are checked, the
    tip's address is looked up, and then every tip on that address is patched. The reply
    names the first of them.
   */
  function UpdateTipAsWritten(db: TipDb, tipId: int, p: TipUpdate): (r: Result<(TipDb, int), HttpError>)
    ensures !ValidTipUpdateAsWritten(p) ==> r.Err? && r.error.status == 422
    ensures ValidTipUpdateAsWritten(p) && !HasFields(p) ==> r == Err(HttpError(422, "No fields to update"))
    ensures ValidTipUpdateAsWritten(p) && HasFields(p) ==>
      (r.Ok? <==> TipExists(db.tips, tipId)) && (r.Err? ==> r.error == HttpError(404, "Tip not found"))
    ensures r.Ok? ==> var ca := db.tips[TipAt(db.tips, tipId).value].ca;
      r.value.0.coins == db.coins && r.value.0.accounts == db.accounts && r.value.0.extras == db.extras
      && |r.value.0.tips| == |db.tips|
      && (forall i :: 0 <= i < |db.tips| ==>
            r.value.0.tips[i] == (if db.tips[i].ca == ca then Patched(db.tips[i], p) else db.tips[i]))
  {
    if !ValidTipUpdateAsWritten(p) then Err(Rejected(false).value)
    else if !HasFields(p) then Err(HttpError(422, "No fields to update"))
    else
      match TipAt(db.tips, tipId)
      case None => Err(HttpError(404, "Tip not found"))
      case Some(k) =>
        var ca := db.tips[k].ca;
        var tips := seq(|db.tips|, i requires 0 <= i < |db.tips| => if db.tips[i].ca == ca then Patched(db.tips[i], p) else db.tips[i]);
        var first := RowsOnAddress(db.tips, ca, 0);
        Ok((TipDb(db.coins, db.accounts, tips, db.extras), db.tips[first[0]].tipId))
  }

  /** The positions, ascending, of the tips at or after `from` on address `ca`. */
  function RowsOnAddress(tips: seq<TipRow>, ca: string, from: nat): (r: seq<nat>)
    requires from <= |tips|
    ensures forall k :: 0 <= k < |r| ==> from <= r[k] < |tips| && tips[r[k]].ca == ca
    ensures forall i :: from <= i < |tips| && tips[i].ca == ca ==> i in r
    decreases |tips| - from
  {
    if from == |tips| then []
    else if tips[from].ca == ca then [from] + RowsOnAddress(tips, ca, from + 1)
    else RowsOnAddress(tips, ca, from + 1)
  }

  /**
    The fault in the code as written: patching one tip also patches another tip on the same
    address, and the reply can name a different tip than the one asked for.
   */
  lemma UpdateTipAsWrittenTouchesSiblings()
    ensures var mine := TipRow(2, 1, "abc", None, 0, 1.0, None, None, None);
      var other := TipRow(1, 1, "abc", None, 0, 1.0, None, None, None);
      var db := TipDb([], [], [other, mine], Extras([], [], []));
      var r := UpdateTipAsWritten(db, 2, TipUpdate(Some(5.0), None, None));
      r.Ok? && r.value.0.tips[0].peakMcap == Some(5.0) && r.value.1 == 1
  {
    var mine := TipRow(2, 1, "abc", None, 0, 1.0, None, None, None);
    var other := TipRow(1, 1, "abc", None, 0, 1.0, None, None, None);
    var db := TipDb([], [], [other, mine], Extras([], [], []));
    assert db.tips[1].tipId == 2;
    assert TipAt(db.tips, 2) == Some(1);
    assert RowsOnAddress(db.tips, "abc", 0)[0] == 0;
  }

  /**
    `update_tip` as intended: the flag must be 0 or 1, and only the tip with the requested id
    is patched; the reply names it.
   */
  function UpdateTip(db: TipDb, tipId: int, p: TipUpdate): (r: Result<(TipDb, int), HttpError>)
    ensures !ValidTipUpdate(p) ==> r.Err? && r.error.status == 422
    ensures ValidTipUpdate(p) && !HasFields(p) ==> r == Err(HttpError(422, "No fields to update"))
    ensures ValidTipUpdate(p) && HasFields(p) ==>
      (r.Ok? <==> TipExists(db.tips, tipId)) && (r.Err? ==> r.error == HttpError(404, "Tip not found"))
    ensures r.Ok? ==> (r.value.1 == tipId
      && r.value.0.coins == db.coins && r.value.0.accounts == db.accounts && r.value.0.extras == db.extras
      && |r.value.0.tips| == |db.tips|
      && (forall i :: 0 <= i < |db.tips| && db.tips[i].tipId != tipId ==> r.value.0.tips[i] == db.tips[i])
      && (forall i :: 0 <= i < |db.tips| && db.tips[i].tipId == tipId ==>
            var t, u := db.tips[i], r.value.0.tips[i];
            && u.tipId == t.tipId && u.accountId == t.accountId && u.ca == t.ca && u.chain == t.chain
            && u.postTs == t.postTs && u.postMcap == t.postMcap
            && (p.peakMcap.Some? ==> u.peakMcap == p.peakMcap) && (p.peakMcap.None? ==> u.peakMcap == t.peakMcap)
            && (p.troughMcap.Some? ==> u.troughMcap == p.troughMcap) && (p.troughMcap.None? ==> u.troughMcap == t.troughMcap)
            && (p.rugFlag.Some? ==> u.rugFlag == Some(p.rugFlag.value == 1)) && (p.rugFlag.None? ==> u.rugFlag == t.rugFlag)))
  {
    if !ValidTipUpdate(p) then Err(Rejected(false).value)
    else if !HasFields(p) then Err(HttpError(422, "No fields to update"))
    else if !TipExists(db.tips, tipId) then Err(HttpError(404, "Tip not found"))
    else
      var tips := seq(|db.tips|, i requires 0 <= i < |db.tips| =>
        if db.tips[i].tipId == tipId then Patched(db.tips[i], p) else db.tips[i]);
      Ok((TipDb(db.coins, db.accounts, tips, db.extras), tipId))
  }

  /**
    With tip ids unique, the two agree when no other tip shares the address: the written
    update goes wrong only through the address filter.
   */
  lemma UpdateTipAgreesWhenAlone(db: TipDb, tipId: int, p: TipUpdate)
    requires ValidTipUpdate(p)
    requires forall i, j :: 0 <= i < j < |db.tips| ==> db.tips[i].tipId != db.tips[j].tipId
    requires forall i, j :: 0 <= i < |db.tips| && 0 <= j < |db.tips| && db.tips[i].tipId == tipId && db.tips[j].ca == db.tips[i].ca ==>
               db.tips[j].tipId == tipId
    ensures UpdateTip(db, tipId, p).Ok? ==> UpdateTipAsWritten(db, tipId, p) == UpdateTip(db, tipId, p)
  {
    if UpdateTip(db, tipId, p).Ok? {
      var k := TipAt(db.tips, tipId).value;
      var w := UpdateTipAsWritten(db, tipId, p).value;
      var u := UpdateTip(db, tipId, p).value;
      forall i | 0 <= i < |db.tips|
        ensures w.0.tips[i] == u.0.tips[i]
      {
        if db.tips[i].tipId == tipId {
          assert i == k;
        }
      }
      assert w.0.tips == u.0.tips;
      var first := RowsOnAddress(db.tips, db.tips[k].ca, 0);
      assert db.tips[first[0]].tipId == tipId;
    }
  }

  // ---------------------------------------------------------------------------
  // Delete

  /** `delete_tip`: an unknown id is a 404; otherwise the tip goes with its bubble and score rows. */
  function DeleteTip(db: TipDb, tipId: int): (r: Result<TipDb, HttpError>)
    ensures r.Ok? <==> TipExists(db.tips, tipId)
    ensures r.Err? ==> r.error == HttpError(404, "Tip not found")
    ensures r.Ok? ==> var d := r.value;
      d.coins == db.coins && d.accounts == db.accounts
      && !TipExists(d.tips, tipId)
      && (forall i :: 0 <= i < |db.tips| && db.tips[i].tipId != tipId ==> db.tips[i] in d.tips)
      && (forall i :: 0 <= i < |d.tips| ==> d.tips[i] in db.tips)
      && RowsOf(d.extras.clusters, tipId) == [] && RowsOf(d.extras.others, tipId) == [] && RowsOf(d.extras.scores, tipId) == []
      && (forall o :: o != tipId ==> RowsOf(d.extras.clusters, o) == RowsOf(db.extras.clusters, o))
      && (forall o :: o != tipId ==> RowsOf(d.extras.others, o) == RowsOf(db.extras.others, o))
      && (forall o :: o != tipId ==> RowsOf(d.extras.scores, o) == RowsOf(db.extras.scores, o))
  {
    if !TipExists(db.tips, tipId) then Err(HttpError(404, "Tip not found"))
    else Ok(TipDb(db.coins, db.accounts, Filter(db.tips, (t: TipRow) => t.tipId != tipId), DropExtras(db.extras, tipId)))
  }

  /** A tip just added (under a fresh id) and then deleted leaves the tips and their rows as they were. */
  lemma {:induction false} DeleteUndoesAdd(db: TipDb, p: TipCreate, newTipId: int)
    requires !TipExists(db.tips, newTipId)
    ensures var r := AddTip(db, p, newTipId);
      r.Ok? ==> DeleteTip(r.value, newTipId).Ok? && DeleteTip(r.value, newTipId).value.tips == db.tips
  {
    if AddTip(db, p, newTipId).Err? { return; }
    var d := AddTip(db, p, newTipId).value;
    var keep := (t: TipRow) => t.tipId != newTipId;
    var added := d.tips[|db.tips|];
    assert d.tips == db.tips + [added];
    assert added.tipId == newTipId;
    FilterConcat(db.tips, [added], keep);
    FilterAll(db.tips, keep);
    assert Filter([added], keep) == [];
  }

  // ---------------------------------------------------------------------------
  // Paged listing

  /** The query parameters of `/tips/paged`. */
  datatype PageQuery = PageQuery(limit: int, ca: Option<string>, q: Option<string>, cursor: Option<string>)

  datatype TipItem = TipItem(row: TipRow, coinName: Option<string>, account: Option<AccountRow>,
                             bubbles: Option<BubblesData>, scoring: Option<int>)

  datatype TipsPage = TipsPage(items: seq<TipItem>, totalCount: nat, nextCursor: Option<string>)

  /** The first coin row on this address, whichever its chain. */
  function CoinOn(coins: seq<CoinRow>, ca: string): (r: Option<CoinRow>)
    ensures r.Some? <==> CoinOnAnyChain(coins, ca)
    ensures r.Some? ==> r.value in coins && r.value.ca == ca
  {
    if |coins| == 0 then None
    else if coins[0].ca == ca then Some(coins[0])
    else
      assert forall i :: 1 <= i < |coins| ==> coins[i] == coins[1..][i - 1];
      CoinOn(coins[1..], ca)
  }

  function AccountOf(accounts: seq<AccountRow>, accountId: int): (r: Option<AccountRow>)
    ensures r.Some? <==> AccountExists(accounts, accountId)
    ensures r.Some? ==> r.value in accounts && r.value.accountId == accountId
  {
    if |accounts| == 0 then None
    else if accounts[0].accountId == accountId then Some(accounts[0])
    else
      assert forall i :: 1 <= i < |accounts| ==> accounts[i] == accounts[1..][i - 1];
      AccountOf(accounts[1..], accountId)
  }

  function NameOf(c: Option<CoinRow>): Option<string> {
    if c.Some? then c.value.name else None
  }

  function SymbolOf(c: Option<CoinRow>): Option<string> {
    if c.Some? then c.value.symbol else None
  }

  function PlatformOf(a: Option<AccountRow>): Option<string> {
    if a.Some? then Some(a.value.platform) else None
  }

  function HandleOf(a: Option<AccountRow>): Option<string> {
    if a.Some? then Some(a.value.handle) else None
  }

  /** The search: coin name, handle, platform, address, tip id or coin symbol contains the needle. */
  predicate Searched(db: TipDb, t: TipRow, needle: string) {
    var coin := CoinOn(db.coins, t.ca);
    var account := AccountOf(db.accounts, t.accountId);
    ILike(NameOf(coin), needle) || ILike(HandleOf(account), needle) || ILike(PlatformOf(account), needle)
    || ILike(Some(t.ca), needle) || ILike(Some(IntToString(t.tipId)), needle) || ILike(SymbolOf(coin), needle)
  }

  /** The address (as sent, not lower-cased) and search conditions the page and the count share. */
  predicate InFilters(db: TipDb, t: TipRow, ca: Option<string>, needle: Option<string>) {
    (ca.None? || ca.value == "" || t.ca == ca.value) && (needle.None? || Searched(db, t, needle.value))
  }

  function TipKey(t: TipRow): Key {
    Key(t.postTs, t.tipId)
  }

  function Matcher(db: TipDb, query: PageQuery): TipRow -> bool {
    (t: TipRow) => InFilters(db, t, query.ca, Needle(query.q))
  }

  function ItemOf(db: TipDb, t: TipRow): (r: TipItem)
    ensures r.row == t
    ensures r.bubbles.None? <==> RowsOf(db.extras.clusters, t.tipId) == [] && RowsOf(db.extras.others, t.tipId) == []
  {
    TipItem(t, NameOf(CoinOn(db.coins, t.ca)), AccountOf(db.accounts, t.accountId), ListedBubbles(db.extras, t.tipId),
            LatestScore(db.extras, t.tipId))
  }

  /** The page's rows, each with its coin name, account, bubbles and latest score. */
  function ItemsOf(db: TipDb, page: seq<TipRow>): (r: seq<TipItem>)
    ensures |r| == |page|
    ensures forall i :: 0 <= i < |page| ==> r[i].row == page[i]
    ensures forall i :: 0 <= i < |page| ==>
      (r[i].bubbles.None? <==> RowsOf(db.extras.clusters, page[i].tipId) == [] && RowsOf(db.extras.others, page[i].tipId) == [])
  {
    seq(|page|, i requires 0 <= i < |page| => ItemOf(db, page[i]))
  }

  /**
    `list_tips_paged`: the limit must be 1 to 500 and the cursor must parse; a valid query
    gets the listing below its cursor.
   */
  function ListTipsPaged(db: TipDb, query: PageQuery, parseIso: string -> Option<int>, printIso: int -> string): (r: Result<TipsPage, HttpError>)
    ensures !(1 <= query.limit <= 500) ==> r.Err? && r.error.status == 422
    ensures 1 <= query.limit <= 500 ==>
      (r.Ok? <==> CursorParam(query.cursor, parseIso).Ok?) && (r.Err? ==> r.error == InvalidCursor)
    ensures r.Ok? ==> r.value == Listing(db, query, CursorParam(query.cursor, parseIso).value, printIso)
  {
    if !(1 <= query.limit <= 500) then Err(Rejected(false).value)
    else
      match CursorParam(query.cursor, parseIso)
      case Err(e) => Err(e)
      case Ok(c) => Ok(Listing(db, query, c, printIso))
  }

  /**
    The response once the query is valid: the newest matching tips below cursor `c`, at most
    `limit` of them, each with its bubbles when it has any; a full page carries the cursor of
    its last row.
   */
  function Listing(db: TipDb, query: PageQuery, c: Option<Key>, printIso: int -> string): (r: TipsPage)
    requires 1 <= query.limit
    ensures |r.items| <= query.limit
    ensures forall i :: 0 <= i < |r.items| ==>
      r.items[i].row in db.tips && Matcher(db, query)(r.items[i].row) && After(TipKey(r.items[i].row), c)
    ensures forall i, j :: 0 <= i < j < |r.items| ==> !Below(TipKey(r.items[i].row), TipKey(r.items[j].row))
    ensures forall i :: 0 <= i < |r.items| ==>
      (r.items[i].bubbles.None? <==> RowsOf(db.extras.clusters, r.items[i].row.tipId) == []
                                     && RowsOf(db.extras.others, r.items[i].row.tipId) == [])
    ensures r.nextCursor.Some? <==> |r.items| == query.limit
    ensures r.nextCursor.Some? ==>
      var last := TipKey(r.items[|r.items| - 1].row);
      r.nextCursor.value == FormatCursor(Some(last.ts), last.id, printIso)
    ensures r.totalCount <= |db.tips|
  {
    var page := PageOf(db.tips, TipKey, Matcher(db, query), c, query.limit);
    TipsPage(ItemsOf(db, page), |Filter(db.tips, Matcher(db, query))|, NextCursor(page, query.limit, TipKey, printIso))
  }

  /** The rows of a listed page are the keyset page of the matching tips, and its cursor that page's. */
  lemma ListedRowsArePage(db: TipDb, query: PageQuery, parseIso: string -> Option<int>, printIso: int -> string)
    ensures var r := ListTipsPaged(db, query, parseIso, printIso);
      r.Ok? ==>
      var res := r.value;
      var page := PageOf(db.tips, TipKey, Matcher(db, query), CursorParam(query.cursor, parseIso).value, query.limit);
      |res.items| == |page| && (forall i :: 0 <= i < |res.items| ==> res.items[i].row == page[i])
      && res.nextCursor == NextCursor(page, query.limit, TipKey, printIso)
  {
  }
}

=== FILE: tips_page.dfy ===
/**
  The tips page: sort toggling, the platform and text filter, the column sort, the platform
  list, the update dialog's request body, `loadMore`, and a logo pass whose merge has no
  keep-existing guard.
 */
module TipsPage {
  import opened Wrappers
  import opened Text
  import opened Lists
  import opened Sorting
  import opened Paging
  import opened DexChain
  import opened DexLookup
  import opened LogoPass

  /** A tip row with the fields the page reads. */
  datatype TipRow = TipRow(tipId: int, ca: string, coinName: string, coinSymbol: Option<string>,
                           chain: Option<string>, platform: string, handle: string,
                           postMcap: Option<real>, peakMcap: Option<real>, troughMcap: Option<real>,
                           rugFlag: Option<int>, effectPct: Option<real>)

  datatype SortKey = Coin | Post | Peak | Trough | Effect | Rug
  datatype SortDir = Asc | Desc

  /** A new column sorts descending; the current column flips direction. */
  function ToggleSort(key: SortKey, dir: SortDir, k: SortKey): (r: (SortKey, SortDir))
    ensures r.0 == k
    ensures k != key ==> r.1 == Desc
    ensures k == key ==> r.1 != dir
  {
    if k != key then (k, Desc) else (key, if dir == Desc then Asc else Desc)
  }

  /** Clicking the same column twice restores the original order. */
  lemma ToggleTwice(key: SortKey, dir: SortDir)
    ensures var (k1, d1) := ToggleSort(key, dir, key); ToggleSort(k1, d1, key) == (key, dir)
  {
  }

  // ---------------------------------------------------------------------------
  // Filter

  /** `(t.coin_symbol ?? symbolsByCa[ca lower] ?? "").trim()`. */
  function SymbolOf(t: TipRow, symbols: map<string, string>): string {
    Trim(if t.coinSymbol.Some? then t.coinSymbol.value else MapGet(symbols, Lower(t.ca)).GetOr(""))
  }

  /** Name, symbol, handle, platform, tip id and address, space-separated and lower-cased. */
  function Haystack(t: TipRow, symbols: map<string, string>): string {
    Lower(t.coinName + " " + SymbolOf(t, symbols) + " " + t.handle + " " + t.platform + " "
          + IntToString(t.tipId) + " " + t.ca)
  }

  /** `platformFilter`: "all" or one platform name. */
  predicate PlatformOk(t: TipRow, platformFilter: string) {
    platformFilter == "all" || t.platform == platformFilter
  }

  predicate Passes(t: TipRow, platformFilter: string, needle: string, symbols: map<string, string>) {
    PlatformOk(t, platformFilter) && (needle == "" || Contains(Haystack(t, symbols), needle))
  }

  // ---------------------------------------------------------------------------
  // Sort

  /** A sort value: `-Infinity` for null, else the number. */
  datatype Ext = NegInf | Fin(v: real)

  function GetNum(n: Option<real>): (e: Ext)
    ensures e.NegInf? <==> n.None?
  {
    if n.None? then NegInf else Fin(n.value)
  }

  /**
    `getNum(a) - getNum(b) <= 0`. Two nulls give `-Infinity - -Infinity`, which is NaN and is
    taken as equal, so null sits below every number and nulls tie.
   */
  predicate ExtLe(a: Ext, b: Ext) {
    a.NegInf? || (b.Fin? && a.v <= b.v)
  }

  function NumKey(t: TipRow, k: SortKey): Ext {
    match k
    case Post => GetNum(t.postMcap)
    case Peak => GetNum(t.peakMcap)
    case Trough => GetNum(t.troughMcap)
    case Effect => GetNum(t.effectPct)
    case Rug => GetNum(if t.rugFlag.Some? then Some(t.rugFlag.value as real) else None)
    case Coin => NegInf
  }

  /**
    "`a` may precede `b`" for the current column and direction. Names are compared lower-cased
    by `collateLe`, the locale's collation; descending order negates the comparator.
   */
  predicate TipBefore(key: SortKey, dir: SortDir, collateLe: (string, string) -> bool, a: TipRow, b: TipRow) {
    if key == Coin then
      (if dir == Asc then collateLe(Lower(a.coinName), Lower(b.coinName)) else collateLe(Lower(b.coinName), Lower(a.coinName)))
    else
      (if dir == Asc then ExtLe(NumKey(a, key), NumKey(b, key)) else ExtLe(NumKey(b, key), NumKey(a, key)))
  }

  function TipLe(key: SortKey, dir: SortDir, collateLe: (string, string) -> bool): (le: (TipRow, TipRow) -> bool)
    ensures forall a, b :: le(a, b) == TipBefore(key, dir, collateLe, a, b)
  {
    (a: TipRow, b: TipRow) => TipBefore(key, dir, collateLe, a, b)
  }

  lemma TipLeTotal(key: SortKey, dir: SortDir, collateLe: (string, string) -> bool)
    requires TotalPreorder(collateLe)
    ensures TotalPreorder(TipLe(key, dir, collateLe))
  {
    var le := TipLe(key, dir, collateLe);
    forall a: TipRow, b: TipRow
      ensures le(a, b) || le(b, a)
    {
      if key == Coin {
        assert collateLe(Lower(a.coinName), Lower(b.coinName)) || collateLe(Lower(b.coinName), Lower(a.coinName));
      }
    }
    forall a: TipRow, b: TipRow, c: TipRow | le(a, b) && le(b, c)
      ensures le(a, c)
    {
      if key == Coin {
        var x, y, z := Lower(a.coinName), Lower(b.coinName), Lower(c.coinName);
        if dir == Asc {
          assert collateLe(x, y) && collateLe(y, z) ==> collateLe(x, z);
        } else {
          assert collateLe(z, y) && collateLe(y, x) ==> collateLe(z, x);
        }
      }
    }
  }

  /**
    `filtered`: the passing tips, reordered by the current column. The result is a permutation
    of the passing tips, sorted, and ties keep their loaded order (the sort is stable): the
    tips level with any given tip appear in the order they were loaded in.
   */
  function Filtered(tips: seq<TipRow>, platformFilter: string, q: string, symbols: map<string, string>,
                    key: SortKey, dir: SortDir, collateLe: (string, string) -> bool): (r: seq<TipRow>)
    requires TotalPreorder(collateLe)
    ensures multiset(r) == multiset(Filter(tips, (t: TipRow) => Passes(t, platformFilter, Lower(Trim(q)), symbols)))
    ensures SortedBy(r, TipLe(key, dir, collateLe))
    ensures forall i :: 0 <= i < |r| ==> PlatformOk(r[i], platformFilter)
    ensures forall k ::
      Filter(r, Equivalent(TipLe(key, dir, collateLe), k))
        == Filter(Filter(tips, (t: TipRow) => Passes(t, platformFilter, Lower(Trim(q)), symbols)),
                  Equivalent(TipLe(key, dir, collateLe), k))
  {
    var base := Filter(tips, (t: TipRow) => Passes(t, platformFilter, Lower(Trim(q)), symbols));
    TipLeTotal(key, dir, collateLe);
    var r := SortBy(base, TipLe(key, dir, collateLe));
    assert forall k ::
      Filter(r, Equivalent(TipLe(key, dir, collateLe), k))
        == Filter(base, Equivalent(TipLe(key, dir, collateLe), k)) by {
      forall k {
        SortByStable(base, TipLe(key, dir, collateLe), k);
      }
    }
    assert forall i :: 0 <= i < |r| ==> PlatformOk(r[i], platformFilter) by {
      forall i | 0 <= i < |r|
        ensures PlatformOk(r[i], platformFilter)
      {
        assert r[i] in multiset(r);
        var j :| 0 <= j < |base| && base[j] == r[i];
      }
    }
    r
  }

  /** On a numeric column, a tip without the value sorts after every tip with one when descending. */
  lemma NullsLastDescending(tips: seq<TipRow>, platformFilter: string, q: string, symbols: map<string, string>,
                            collateLe: (string, string) -> bool)
    requires TotalPreorder(collateLe)
    ensures var r := Filtered(tips, platformFilter, q, symbols, Peak, Desc, collateLe);
      forall i, j :: 0 <= i < |r| && 0 <= j < |r| && r[i].peakMcap.None? && r[j].peakMcap.Some? ==> j < i
  {
    NullsLastWhenSorted(Filtered(tips, platformFilter, q, symbols, Peak, Desc, collateLe), collateLe);
  }

  /** The same for any list sorted descending by peak. */
  lemma NullsLastWhenSorted(r: seq<TipRow>, collateLe: (string, string) -> bool)
    requires SortedBy(r, TipLe(Peak, Desc, collateLe))
    ensures forall i, j :: 0 <= i < |r| && 0 <= j < |r| && r[i].peakMcap.None? && r[j].peakMcap.Some? ==> j < i
  {
    var le := TipLe(Peak, Desc, collateLe);
    forall i, j | 0 <= i < |r| && 0 <= j < |r| && r[i].peakMcap.None? && r[j].peakMcap.Some?
      ensures j < i
    {
      assert !TipBefore(Peak, Desc, collateLe, r[i], r[j]);
      NotBeforeMeansLater(r, le, i, j);
    }
  }

  /** In a sorted list, an element that may not precede another comes after it. */
  lemma NotBeforeMeansLater<T>(r: seq<T>, le: (T, T) -> bool, i: nat, j: nat)
    requires SortedBy(r, le) && i < |r| && j < |r| && !le(r[i], r[j]) && r[i] != r[j]
    ensures j < i
  {
  }

  // ---------------------------------------------------------------------------
  // Platforms

  /** `a <= b` compared character by character, the stand-in for the default order of `Array.prototype.sort` on strings. */
  predicate StrLe(a: string, b: string) {
    !LexLess(b, a)
  }

  lemma {:induction false} LexTotal(a: string, b: string)
    ensures a == b || LexLess(a, b) || LexLess(b, a)
    decreases |a|
  {
    if |a| > 0 && |b| > 0 && a[0] == b[0] {
      LexTotal(a[1..], b[1..]);
      if a[1..] == b[1..] {
        assert a == [a[0]] + a[1..] && b == [b[0]] + b[1..];
      }
    }
  }

  lemma LexAsym(a: string, b: string)
    requires LexLess(a, b)
    ensures !LexLess(b, a)
  {
    if LexLess(b, a) {
      LexLessTrans(a, b, a);
      LexLessIrreflexive(a);
    }
  }

  lemma StrLeTotal()
    ensures TotalPreorder((a: string, b: string) => StrLe(a, b))
  {
    forall a: string, b: string
      ensures StrLe(a, b) || StrLe(b, a)
    {
      if LexLess(b, a) {
        LexAsym(b, a);
      }
    }
    forall a: string, b: string, c: string | StrLe(a, b) && StrLe(b, c)
      ensures StrLe(a, c)
    {
      LexTotal(a, b);
      LexTotal(b, c);
      if LexLess(c, a) {
        if a == b {
        } else if b == c {
        } else {
          LexLessTrans(a, b, c);
          LexAsym(a, c);
        }
      }
    }
  }

  /** The character order on strings as a comparator. */
  function StrOrder(): (le: (string, string) -> bool)
    ensures forall a, b :: le(a, b) <==> StrLe(a, b)
    ensures TotalPreorder(le)
  {
    StrLeTotal();
    (a: string, b: string) => StrLe(a, b)
  }

  /** Distinct strings sorted by character are strictly ascending. */
  lemma DistinctSortedAscending(r: seq<string>)
    requires Distinct(r) && SortedBy(r, StrOrder())
    ensures StrictlyAscending(r)
  {
    forall i | 0 <= i < |r| - 1
      ensures LexLess(r[i], r[i + 1])
    {
      assert StrLe(r[i], r[i + 1]);
      LexTotal(r[i], r[i + 1]);
    }
  }

  /** Each tip's platform, in tip order. */
  function PlatformNames(tips: seq<TipRow>): (r: seq<string>)
    ensures |r| == |tips| && forall i :: 0 <= i < |tips| ==> r[i] == tips[i].platform
  {
    seq(|tips|, i requires 0 <= i < |tips| => tips[i].platform)
  }

  /** Holding the same strings as the platform names is holding every tip's platform and nothing else. */
  lemma PlatformsOfTips(tips: seq<TipRow>, r: seq<string>)
    requires forall x :: x in r <==> x in PlatformNames(tips)
    ensures forall i :: 0 <= i < |tips| ==> tips[i].platform in r
    ensures forall i :: 0 <= i < |r| ==> exists j :: 0 <= j < |tips| && tips[j].platform == r[i]
  {
    var names := PlatformNames(tips);
    forall i | 0 <= i < |tips|
      ensures tips[i].platform in r
    {
      assert names[i] in names;
    }
    forall i | 0 <= i < |r|
      ensures exists j :: 0 <= j < |tips| && tips[j].platform == r[i]
    {
      assert r[i] in r;
      var j :| 0 <= j < |names| && names[j] == r[i];
      assert tips[j].platform == r[i];
    }
  }

  /** `platforms`: every platform that occurs, once each, in ascending order. */
  function Platforms(tips: seq<TipRow>): (r: seq<string>)
    ensures forall i :: 0 <= i < |tips| ==> tips[i].platform in r
    ensures forall i :: 0 <= i < |r| ==> exists j :: 0 <= j < |tips| && tips[j].platform == r[i]
    ensures StrictlyAscending(r)
  {
    var names := PlatformNames(tips);
    var d := Lists.Dedup(names);
    var r := SortBy(d, StrOrder());
    DistinctPerm(d, r);
    DistinctSortedAscending(r);
    SameElements(d, r);
    DedupSame(names);
    PlatformsOfTips(tips, r);
    r
  }

  lemma DedupSame<T>(s: seq<T>)
    ensures forall x :: x in Lists.Dedup(s) <==> x in s
  {
    var d := Lists.Dedup(s);
    forall x
      ensures x in d <==> x in s
    {
      if x in d {
        var i :| 0 <= i < |d| && d[i] == x;
      }
      if x in s {
        var i :| 0 <= i < |s| && s[i] == x;
      }
    }
  }

  // ---------------------------------------------------------------------------
  // Update dialog

  /** The PATCH body: only the fields the dialog filled in. */
  datatype UpdateBody = UpdateBody(peakMcap: Option<real>, troughMcap: Option<real>, rugFlag: Option<int>)

  /** A dialog field the update accepts: left blank, or a finite number >= 0. */
  predicate McapFieldOk(field: string, number: string -> Option<real>) {
    Trim(field) == "" || (number(field).Some? && number(field).value >= 0.0)
  }

  /**
    `submitUpdate`'s body. `number` is JavaScript's `Number`, None when not finite. A non-blank
    peak or trough must be a finite number >= 0, or the dialog reports it and sends nothing;
    the rug flag is sent only as "0" or "1"; a body with no field is refused.
   */
  function UpdateBodyOf(peak: string, trough: string, rug: string, number: string -> Option<real>): (r: Result<UpdateBody, string>)
    ensures Trim(peak) != "" && (number(peak).None? || number(peak).value < 0.0) ==> r == Err("Peak MCAP geçersiz.")
    ensures r.Ok? ==>
      && (r.value.peakMcap.Some? <==> Trim(peak) != "")
      && (r.value.peakMcap.Some? ==> r.value.peakMcap == number(peak) && r.value.peakMcap.value >= 0.0)
      && (r.value.troughMcap.Some? <==> Trim(trough) != "")
      && (r.value.troughMcap.Some? ==> r.value.troughMcap == number(trough) && r.value.troughMcap.value >= 0.0)
      && (r.value.rugFlag.Some? <==> rug == "0" || rug == "1")
      && (r.value.rugFlag.Some? ==> r.value.rugFlag.value == (if rug == "1" then 1 else 0))
      && r.value != UpdateBody(None, None, None)
    ensures Trim(peak) == "" && Trim(trough) == "" && rug != "0" && rug != "1" ==> r == Err("En az 1 alan gir.")
    ensures McapFieldOk(peak, number) && !McapFieldOk(trough, number) ==> r == Err("Trough MCAP geçersiz.")
    ensures (&& McapFieldOk(peak, number) && McapFieldOk(trough, number)
             && (Trim(peak) != "" || Trim(trough) != "" || rug == "0" || rug == "1")) ==> r.Ok?
  {
    var p := if Trim(peak) == "" then Ok(None)
             else if number(peak).None? || number(peak).value < 0.0 then Err("Peak MCAP geçersiz.")
             else Ok(number(peak));
    if p.Err? then Err(p.error)
    else
      var t := if Trim(trough) == "" then Ok(None)
               else if number(trough).None? || number(trough).value < 0.0 then Err("Trough MCAP geçersiz.")
               else Ok(number(trough));
      if t.Err? then Err(t.error)
      else
        var rf: Option<int> := if rug == "0" then Some(0) else if rug == "1" then Some(1) else None;
        var body := UpdateBody(p.value, t.value, rf);
        if body == UpdateBody(None, None, None) then Err("En az 1 alan gir.") else Ok(body)
  }

  // ---------------------------------------------------------------------------
  // Paging and logos

  const PageSize := 30

  function LoadMorePath(cursor: string, q: string): (r: string)
    ensures Trim(q) == "" ==> r == "/tips/paged?limit=30&cursor=" + EncodeUriComponent(cursor)
    ensures Trim(q) != "" ==> r == "/tips/paged?limit=30&cursor=" + EncodeUriComponent(cursor) + "&q=" + EncodeUriComponent(Trim(q))
  {
    "/tips/paged?limit=30&cursor=" + EncodeUriComponent(cursor) + (if Trim(q) != "" then "&q=" + EncodeUriComponent(Trim(q)) else "")
  }

  function LogoItems(rows: seq<TipRow>, chains: map<string, string>): (r: seq<Item>)
    ensures |r| == |rows|
    ensures forall i :: 0 <= i < |rows| ==>
      r[i] == Item(Some(rows[i].ca), if rows[i].chain.Some? then rows[i].chain else MapGet(chains, Lower(rows[i].ca)))
  {
    ScanItems(rows, (t: TipRow) => Some(t.ca),
              (t: TipRow) => if t.chain.Some? then t.chain else MapGet(chains, Lower(t.ca)))
  }

  /**
    The page's logo pass with the unguarded merge. Within one pass it still keeps every truthy
    entry and gives the same cache as the guarded merge, since its candidates are never cached
    when the pass starts.
   */
  function TipsLogoPass(filtered: seq<TipRow>, chains: map<string, string>, cache: LogoMap,
                        inflight: set<string>, lookup: Candidate -> Lookup, cancelAt: nat): (r: PassResult)
    ensures |r.steps| <= 40 && r.inflight == inflight
    ensures forall k :: Has(cache, k) ==> k in r.cache && r.cache[k] == cache[k]
    ensures r == Pass(LogoItems(filtered, chains), cache, inflight, 40, lookup, cancelAt, KeepExisting)
  {
    var items := LogoItems(filtered, chains);
    var cands := Collect(items, cache, inflight, 40, []);
    PoliciesAgreeOnFreshKeys(cands, 0, cache, inflight, lookup, cancelAt);
    forall k | Has(cache, k)
      ensures var r := Pass(items, cache, inflight, 40, lookup, cancelAt, Overwrite);
        k in r.cache && r.cache[k] == cache[k]
    {
      PassKeepsEntries(items, cache, inflight, 40, lookup, cancelAt, Overwrite, k);
    }
    Pass(items, cache, inflight, 40, lookup, cancelAt, Overwrite)
  }
}

=== FILE: token_meta.dfy ===
/**
  The API's `/dexscreener/token_meta`: a time-limited cache keyed by the lower-cased address,
  a per-chain lookup with bounded retries, and the choice of the first chain that knows the
  token. The clock, the HTTP answers and the ISO printer are parameters.
 */
module TokenMeta {
  import opened Wrappers
  import opened Text
  import opened Lists
  import opened DexPairs

  const CacheTtl: real := 300.0
  const MaxRetries: nat := 3
  const RetryStatus: set<int> := {429, 500, 502, 503, 504}

  // ---------------------------------------------------------------------------
  // Cache

  datatype Entry = Entry(expiresAt: real, value: Meta)

  type Cache = map<string, Entry>

  /**
    `_cache_get`: a live entry is returned; an entry whose expiry is not after `now` is
    dropped and reads as a miss.
   */
  function CacheGet(c: Cache, key: string, now: real): (r: (Option<Meta>, Cache))
    ensures r.0.Some? <==> key in c && now < c[key].expiresAt
    ensures r.0.Some? ==> r.0.value == c[key].value && r.1 == c
    ensures r.0.None? ==> key !in r.1
    ensures forall k :: k != key ==> (k in r.1 <==> k in c) && (k in r.1 ==> r.1[k] == c[k])
  {
    if key !in c then (None, c)
    else if c[key].expiresAt <= now then (None, c - {key})
    else (Some(c[key].value), c)
  }

  /** `_cache_set_async`: the entry lives for `CacheTtl` seconds from `now`. */
  function CacheSet(c: Cache, key: string, value: Meta, now: real): (r: Cache)
    ensures key in r && r[key] == Entry(now + CacheTtl, value)
    ensures forall k :: k != key ==> (k in r <==> k in c) && (k in r ==> r[k] == c[k])
  {
    c[key := Entry(now + CacheTtl, value)]
  }

  /** A stored value is read back exactly while less than `CacheTtl` seconds have passed. */
  lemma CacheWindow(c: Cache, key: string, value: Meta, setAt: real, getAt: real)
    ensures CacheGet(CacheSet(c, key, value, setAt), key, getAt).0
            == (if getAt < setAt + CacheTtl then Some(value) else None)
  {
  }

  /** Storing under one key leaves what the other keys read unchanged. */
  lemma CacheSetIsolated(c: Cache, key: string, other: string, value: Meta, setAt: real, getAt: real)
    requires other != key
    ensures CacheGet(CacheSet(c, key, value, setAt), other, getAt).0 == CacheGet(c, other, getAt).0
  {
  }

  /** The two timings the cache tests use: a read at the time of writing hits; TTL + 1 later misses. */
  lemma CacheTestTimings(c: Cache, value: Meta)
    ensures CacheGet(CacheSet(c, "token", value, 100.0), "token", 100.0).0 == Some(value)
    ensures CacheGet(CacheSet(c, "token", value, 100.0), "token", 100.0 + CacheTtl + 1.0).0 == None
  {
    CacheWindow(c, "token", value, 100.0, 100.0);
    CacheWindow(c, "token", value, 100.0, 100.0 + CacheTtl + 1.0);
  }

  // ---------------------------------------------------------------------------
  // check_chain

  /** A 200 answer's body: not JSON, a JSON list, or other JSON. */
  datatype JsonBody = BadJson | JList(items: seq<JsonItem>) | OtherJson

  /** One request: it raised, or an answer with a status arrived. */
  datatype Attempt = Raised | Status(code: int, body: JsonBody)

  /**
    Why a chain check failed. The reply carries the error as text: "invalid_json",
    "request_failed", "http_" and the status code, or "unknown" when no attempt recorded one.
   */
  datatype ChainError = InvalidJson | RequestFailed | HttpStatus(code: int) | Unknown

  function ErrorText(e: ChainError): string {
    match e
    case InvalidJson => "invalid_json"
    case RequestFailed => "request_failed"
    case HttpStatus(code) => "http_" + IntToString(code)
    case Unknown => "unknown"
  }

  /** Only the fallback reads "unknown": every other error text differs from it. */
  lemma UnknownTextIsFallback(e: ChainError)
    ensures ErrorText(e) == "unknown" <==> e == Unknown
  {
    if e.HttpStatus? {
      assert ErrorText(e)[..5] == "http_";
    }
  }

  datatype ChainResult = Found(chain: string, pairs: seq<Pair>) | NotFound(chain: string)
                       | Failed(chain: string, error: ChainError)

  /** An attempt after which the loop goes on: a raised request or a status worth retrying. */
  predicate Retryable(a: Attempt) {
    a.Raised? || a.code in RetryStatus
  }

  /** The answer of a 200: bad JSON is an error; a non-empty list with objects is a find. */
  function OnOk(chain: string, body: JsonBody): (r: ChainResult)
    ensures r.chain == chain
    ensures r.Found? <==> body.JList? && |DictPairs(body.items)| > 0
    ensures r.Found? ==> r.pairs == DictPairs(body.items)
    ensures r.Failed? <==> body.BadJson?
  {
    match body
    case BadJson => Failed(chain, InvalidJson)
    case JList(items) => if |items| > 0 && |DictPairs(items)| > 0 then Found(chain, DictPairs(items)) else NotFound(chain)
    case OtherJson => NotFound(chain)
  }

  /** How an attempt that ends the loop decides the chain's result. */
  function Final(chain: string, a: Attempt): (r: ChainResult)
    requires !Retryable(a)
    ensures r.chain == chain
    ensures a.code == 404 ==> r == NotFound(chain)
    ensures a.code != 200 && a.code != 404 ==> r == Failed(chain, HttpStatus(a.code))
  {
    if a.code == 200 then OnOk(chain, a.body)
    else if a.code == 404 then NotFound(chain)
    else Failed(chain, HttpStatus(a.code))
  }

  /** The error a retryable attempt leaves in `last_error`. */
  function ErrorOf(a: Attempt): ChainError
    requires Retryable(a)
  {
    if a.Raised? then RequestFailed else HttpStatus(a.code)
  }

  function Pow2(k: nat): (r: real)
    ensures r >= 1.0
  {
    if k == 0 then 1.0 else 2.0 * Pow2(k - 1)
  }

  /** The pause after attempt `k` (counted from 0): 0.3 s doubled per attempt. */
  function Backoff(k: nat): real {
    0.3 * Pow2(k)
  }

  datatype CheckTrace = CheckTrace(result: ChainResult, attempts: nat, sleeps: seq<real>)

  /** How the retry loop ended: the chain's result and the number of attempts made. */
  datatype LoopEnd = LoopEnd(result: ChainResult, attempts: nat)

  /** The retry loop from attempt `k` on; `respond(k)` is what attempt `k` gets. */
  function CheckFrom(chain: string, respond: nat -> Attempt, k: nat, lastError: Option<ChainError>): (r: LoopEnd)
    requires k <= MaxRetries
    ensures r.result.chain == chain
    ensures k + r.attempts <= MaxRetries
    ensures k < MaxRetries ==> r.attempts >= 1
    decreases MaxRetries - k
  {
    if k == MaxRetries then LoopEnd(Failed(chain, lastError.GetOr(Unknown)), 0)
    else
      var a := respond(k);
      if !Retryable(a) then LoopEnd(Final(chain, a), 1)
      else
        var rest := CheckFrom(chain, respond, k + 1, Some(ErrorOf(a)));
        LoopEnd(rest.result, 1 + rest.attempts)
  }

  /** The pauses of a loop that made `attempts` attempts: one after each attempt but the last. */
  function Sleeps(attempts: nat): (s: seq<real>)
    ensures |s| == if attempts == 0 then 0 else attempts - 1
    ensures forall j :: 0 <= j < |s| ==> s[j] == Backoff(j)
  {
    if attempts <= 1 then [] else seq(attempts - 1, j requires 0 <= j < attempts - 1 => Backoff(j))
  }

  /**
    How the loop from attempt `k` ends: every attempt but its last was retryable; a last
    attempt that is not retryable decides the result, and a retryable one can only be the
    third, whose error is reported.
   */
  lemma CheckFromOutcome(chain: string, respond: nat -> Attempt, k: nat, lastError: Option<ChainError>)
    requires k < MaxRetries
    ensures var r := CheckFrom(chain, respond, k, lastError);
      var last := respond(k + r.attempts - 1);
      (forall j :: k <= j < k + r.attempts - 1 ==> Retryable(respond(j)))
      && (!Retryable(last) ==> r.result == Final(chain, last))
      && (Retryable(last) ==> k + r.attempts == MaxRetries && r.result == Failed(chain, ErrorOf(last)))
  {
    CheckFromRetried(chain, respond, k, lastError);
    CheckFromLast(chain, respond, k, lastError);
  }

  /** Every attempt from `k` but the last was retryable. */
  lemma {:induction false} CheckFromRetried(chain: string, respond: nat -> Attempt, k: nat, lastError: Option<ChainError>)
    requires k < MaxRetries
    ensures var r := CheckFrom(chain, respond, k, lastError);
      forall j :: k <= j < k + r.attempts - 1 ==> Retryable(respond(j))
    decreases MaxRetries - k
  {
    var a := respond(k);
    var r := CheckFrom(chain, respond, k, lastError);
    if !Retryable(a) {
      assert r.attempts == 1;
    } else if k + 1 < MaxRetries {
      var rest := CheckFrom(chain, respond, k + 1, Some(ErrorOf(a)));
      assert r.attempts == 1 + rest.attempts;
      CheckFromRetried(chain, respond, k + 1, Some(ErrorOf(a)));
      forall j | k <= j < k + r.attempts - 1
        ensures Retryable(respond(j))
      {
        if j > k {
          assert k + 1 <= j < (k + 1) + rest.attempts - 1;
        }
      }
    } else {
      assert r.attempts == 1;
    }
  }

  /** The last attempt from `k` decides the result, or reports its error when it is the third. */
  lemma {:induction false} CheckFromLast(chain: string, respond: nat -> Attempt, k: nat, lastError: Option<ChainError>)
    requires k < MaxRetries
    ensures var r := CheckFrom(chain, respond, k, lastError);
      var last := respond(k + r.attempts - 1);
      (!Retryable(last) ==> r.result == Final(chain, last))
      && (Retryable(last) ==> k + r.attempts == MaxRetries && r.result == Failed(chain, ErrorOf(last)))
    decreases MaxRetries - k
  {
    var a := respond(k);
    if Retryable(a) && k + 1 < MaxRetries {
      CheckFromLast(chain, respond, k + 1, Some(ErrorOf(a)));
    }
  }

  /**
    `check_chain`: up to three attempts. A 200, a 404 or a status outside the retry set ends
    the loop with its own result; a raised request or a retryable status pauses (only between
    attempts) and tries again; after the third such attempt the last error is reported.
   */
  function CheckChain(chain: string, respond: nat -> Attempt): (r: CheckTrace)
    ensures r.result.chain == chain
    ensures 1 <= r.attempts <= MaxRetries && |r.sleeps| == r.attempts - 1
    ensures forall j :: 0 <= j < |r.sleeps| ==> r.sleeps[j] == Backoff(j)
    ensures forall j :: 0 <= j < r.attempts - 1 ==> Retryable(respond(j))
    ensures !Retryable(respond(r.attempts - 1)) ==> r.result == Final(chain, respond(r.attempts - 1))
    ensures Retryable(respond(r.attempts - 1)) ==>
      r.attempts == MaxRetries && r.result == Failed(chain, ErrorOf(respond(MaxRetries - 1)))
  {
    CheckFromOutcome(chain, respond, 0, None);
    var e := CheckFrom(chain, respond, 0, None);
    CheckTrace(e.result, e.attempts, Sleeps(e.attempts))
  }

  /** The "unknown" fallback is never reported: every attempt that retries records its error. */
  lemma NeverUnknown(chain: string, respond: nat -> Attempt)
    ensures var r := CheckChain(chain, respond).result; r.Failed? ==> ErrorText(r.error) != "unknown"
  {
    var r := CheckChain(chain, respond).result;
    if r.Failed? {
      UnknownTextIsFallback(r.error);
    }
  }


  // ---------------------------------------------------------------------------
  // token_meta

  /** The index of the first chain result that found pairs. */
  function FirstFound(results: seq<ChainResult>): (r: Option<nat>)
    ensures r.None? <==> forall i :: 0 <= i < |results| ==> !results[i].Found?
    ensures r.Some? ==> (r.value < |results| && results[r.value].Found?
      && forall i :: 0 <= i < r.value ==> !results[i].Found?)
  {
    if |results| == 0 then None
    else if results[0].Found? then Some(0)
    else match FirstFound(results[1..])
      case None => None
      case Some(i) => Some(i + 1)
  }

  /**
    Why the endpoint gives no metadata; `Crashed` is the `AttributeError` of a base token that
    is no object, which the server's catch-all turns into a 500.
   */
  datatype MetaError = TooShort | Unavailable(errors: seq<ChainResult>) | NotFoundAnywhere | Crashed

  predicate IsFailed(x: ChainResult) {
    x.Failed?
  }

  /** The failed checks, in chain order. */
  function Failures(results: seq<ChainResult>): seq<ChainResult>
    decreases |results|
  {
    if |results| == 0 then []
    else (if results[0].Failed? then [results[0]] else []) + Failures(results[1..])
  }

  /** Keeping the failed results of a scan gives exactly its failures, in order. */
  lemma {:induction false} FailedFilter(results: seq<ChainResult>)
    ensures Filter(results, IsFailed) == Failures(results)
    decreases |results|
  {
    if |results| > 0 {
      FailedFilter(results[1..]);
    }
  }

  /** The endpoint's reply, the cache afterwards, and whether the chains were queried. */
  datatype MetaCall = MetaCall(result: Result<Meta, MetaError>, cache: Cache, scanned: bool)

  /** The per-chain results, in `SupportedChains` order. */
  function ScanChains(respond: (string, nat) -> Attempt): (r: seq<ChainResult>)
    ensures |r| == |SupportedChains|
    ensures forall i :: 0 <= i < |r| ==> r[i] == CheckChain(SupportedChains[i], (n: nat) => respond(SupportedChains[i], n)).result
    ensures forall i :: 0 <= i < |r| && r[i].Found? ==> |r[i].pairs| > 0
  {
    forall i | 0 <= i < |SupportedChains|
      ensures var c := CheckChain(SupportedChains[i], (n: nat) => respond(SupportedChains[i], n)).result;
        c.Found? ==> |c.pairs| > 0
    {
      CheckChainFoundNonEmpty(SupportedChains[i], (n: nat) => respond(SupportedChains[i], n));
    }
    seq(|SupportedChains|, i requires 0 <= i < |SupportedChains| =>
      CheckChain(SupportedChains[i], (n: nat) => respond(SupportedChains[i], n)).result)
  }

  /**
    The reply once every chain has been checked: the first find is described and cached at
    `doneAt`; with no find, any chain error makes it a 502 with the errors, otherwise a 404.
   */
  function AfterScan(results: seq<ChainResult>, caL: string, cache: Cache, doneAt: real,
                     iso: int -> string): (r: MetaCall)
    requires forall i :: 0 <= i < |results| && results[i].Found? ==> |results[i].pairs| > 0
    ensures r.scanned
    ensures r.result.Ok? ==> FirstFound(results).Some?
    ensures FirstFound(results).Some? ==> var i := FirstFound(results).value;
      var m := MetaFrom(results[i].chain, results[i].pairs, caL, iso);
      && (m.Some? ==> r.result == Ok(m.value) && r.cache == CacheSet(cache, caL, m.value, doneAt))
      && (m.None? ==> r.result == Err(Crashed))
    ensures FirstFound(results).None? ==> r.result.Err? && (r.result.error.Unavailable? || r.result.error.NotFoundAnywhere?)
    ensures r.result.Err? ==> r.cache == cache && !r.result.error.TooShort?
    ensures r.result == Err(NotFoundAnywhere) ==> forall i :: 0 <= i < |results| ==> results[i].NotFound?
    ensures r.result.Err? && r.result.error.Unavailable? ==> (|r.result.error.errors| > 0
      && forall k :: 0 <= k < |r.result.error.errors| ==>
           (r.result.error.errors[k].Failed? && r.result.error.errors[k] in results))
    ensures r.result.Err? && r.result.error.Unavailable? ==> r.result.error.errors == Failures(results)
  {
    match FirstFound(results)
    case None =>
      var errors := Filter(results, IsFailed);
      FailedFilter(results);
      if |errors| > 0 then MetaCall(Err(Unavailable(errors)), cache, true)
      else MetaCall(Err(NotFoundAnywhere), cache, true)
    case Some(i) =>
      match MetaFrom(results[i].chain, results[i].pairs, caL, iso)
      case None => MetaCall(Err(Crashed), cache, true)
      case Some(meta) => MetaCall(Ok(meta), CacheSet(cache, caL, meta, doneAt), true)
  }

  /**
    `token_meta`: an address shorter than 3 characters is refused; a live cache entry for the
    lower-cased address answers without any request; otherwise every chain is checked.
   */
  function TokenMetaCall(ca: string, cache: Cache, now: real, doneAt: real,
                         respond: (string, nat) -> Attempt, iso: int -> string): (r: MetaCall)
    ensures |ca| < 3 ==> r == MetaCall(Err(TooShort), cache, false)
    ensures |ca| >= 3 && CacheGet(cache, Lower(ca), now).0.Some? ==>
      r == MetaCall(Ok(CacheGet(cache, Lower(ca), now).0.value), cache, false)
    ensures |ca| >= 3 && CacheGet(cache, Lower(ca), now).0.None? ==>
      r == AfterScan(ScanChains(respond), Lower(ca), CacheGet(cache, Lower(ca), now).1, doneAt, iso)
  {
    if |ca| < 3 then MetaCall(Err(TooShort), cache, false)
    else
      var caL := Lower(ca);
      var (hit, c1) := CacheGet(cache, caL, now);
      if hit.Some? then MetaCall(Ok(hit.value), cache, false)
      else
        AfterScan(ScanChains(respond), caL, c1, doneAt, iso)
  }

  /** The chain described is the first supported chain, in order, whose check found pairs. */
  lemma FirstChainInOrderWins(ca: string, cache: Cache, now: real, doneAt: real,
                              respond: (string, nat) -> Attempt, iso: int -> string)
    ensures var r := TokenMetaCall(ca, cache, now, doneAt, respond, iso);
      r.result.Ok? && r.scanned ==> (FirstFound(ScanChains(respond)).Some?
        && r.result.value.chain == SupportedChains[FirstFound(ScanChains(respond)).value])
  {
  }

  /** A find always carries at least one pair. */
  lemma CheckChainFoundNonEmpty(chain: string, respond: nat -> Attempt)
    ensures CheckChain(chain, respond).result.Found? ==> |CheckChain(chain, respond).result.pairs| > 0
  {
  }

  /** Right after a successful scan, the same address is answered from the cache for `CacheTtl` seconds. */
  lemma ScanResultServedFromCache(ca: string, cache: Cache, now: real, doneAt: real, later: real,
                                  respond: (string, nat) -> Attempt, iso: int -> string,
                                  other: (string, nat) -> Attempt)
    requires |ca| >= 3
    requires doneAt <= later < doneAt + CacheTtl
    ensures var r := TokenMetaCall(ca, cache, now, doneAt, respond, iso);
      r.result.Ok? && r.scanned ==>
        TokenMetaCall(ca, r.cache, later, later, other, iso) == MetaCall(r.result, r.cache, false)
  {
  }
}

=== FILE: trades_api.dfy ===
/**
  The API's `/trades` endpoints: open a trade on a known coin, close it once, patch its
  numbers, delete it with its bubble and score rows, and list trades a keyset page at a time.

  A trade is open while it has no exit time. `newId`, `hex8` and `now` stand for the serial
  id, the first eight hex digits of a fresh uuid and the database clock.
 */
module TradesApi {
  import opened Wrappers
  import opened Text
  import opened Http
  import opened Lists
  import opened Store
  import opened Schemas
  import opened Keyset

  predicate IsOpen(t: TradeRow) {
    t.exitTs.None?
  }

  predicate TradeExists(trades: seq<TradeRow>, id: string) {
    exists i :: 0 <= i < |trades| && trades[i].tradeId == id
  }

  predicate OpenTradeExists(trades: seq<TradeRow>, id: string) {
    exists i :: 0 <= i < |trades| && trades[i].tradeId == id && IsOpen(trades[i])
  }

  // ---------------------------------------------------------------------------
  // Open

  datatype OpenReply = OpenReply(id: int, tradeId: string, entryTs: int, ca: string, chain: string,
                                 coinName: Option<string>)

  /** The name of the coin keyed (`ca`, `chain`), when there is such a row and it has one. */
  function CoinName(coins: seq<CoinRow>, ca: string, chain: string): Option<string> {
    match FindCoin(coins, ca, chain)
    case Some(i) => coins[i].name
    case None => None
  }

  /**
    `open_trade`: the address is lower-cased and its chain settled by the 404/409 rule; the
    trade is inserted open, and its bubbles and score rows follow only when sent.
   */
  function OpenTrade(db: TradeDb, p: TradeOpen, newId: int, hex8: string, now: int): (r: Result<(TradeDb, OpenReply), HttpError>)
    ensures !ValidTradeOpen(p) ==> r.Err? && r.error.status == 422
    ensures ValidTradeOpen(p) ==> var res := ResolveChain(db.coins, Lower(p.ca), LowerOpt(p.chain));
      (res.Err? ==> r == Err(res.error)) && (res.Ok? ==> r.Ok? && r.value.1.chain == res.value)
    ensures r.Ok? ==> var (d, rep) := r.value; var tid := "trade_" + hex8;
      rep.ca == Lower(p.ca) && rep.tradeId == tid && rep.id == newId && rep.entryTs == now
      && HasKey(db.coins, rep.ca, rep.chain)
      && d.coins == db.coins
      && d.trades == db.trades + [TradeRow(newId, tid, rep.ca, rep.chain, p.entryMcap, p.size, now, None, None, None)]
      && (p.bubbles.None? ==> d.extras.clusters == db.extras.clusters && d.extras.others == db.extras.others)
      && (p.bubbles.Some? ==>
            RowsOf(d.extras.clusters, tid) == RowsOf(db.extras.clusters, tid) + p.bubbles.value.clusters
            && RowsOf(d.extras.others, tid) == RowsOf(db.extras.others, tid) + p.bubbles.value.others)
      && (p.scoring.None? ==> d.extras.scores == db.extras.scores)
      && (p.scoring.Some? ==> RowsOf(d.extras.scores, tid) == RowsOf(db.extras.scores, tid) + [p.scoring.value])
  {
    if !ValidTradeOpen(p) then Err(Rejected(false).value)
    else
      var ca := Lower(p.ca);
      match ResolveChain(db.coins, ca, LowerOpt(p.chain))
      case Err(e) => Err(e)
      case Ok(chain) =>
        var tid := "trade_" + hex8;
        var trade := TradeRow(newId, tid, ca, chain, p.entryMcap, p.size, now, None, None, None);
        var bubbles := if p.bubbles.Some? then Some((p.bubbles.value.clusters, p.bubbles.value.others)) else None;
        var extras := AddExtras(db.extras, tid, bubbles, p.scoring);
        Ok((TradeDb(db.coins, db.trades + [trade], extras), OpenReply(newId, tid, now, ca, chain, CoinName(db.coins, ca, chain))))
  }

  // ---------------------------------------------------------------------------
  // Close

  /** The exit a close writes onto one row. */
  function Closed(t: TradeRow, p: TradeClose, now: int): TradeRow {
    t.(exitTs := Some(now), exitMcap := Some(p.exitMcap), exitReason := p.exitReason)
  }

  /**
    `close_trade`: a body id, when sent, must be the path's; then only a trade that is still
    open is closed, and a closed or unknown one is a 404 that changes nothing.
   */
  function CloseTrade(db: TradeDb, id: string, p: TradeClose, now: int): (r: Result<TradeDb, HttpError>)
    ensures !ValidTradeClose(p) ==> r.Err? && r.error.status == 422
    ensures ValidTradeClose(p) && p.tradeId.Some? && p.tradeId.value != "" && p.tradeId.value != id ==>
      r == Err(HttpError(422, "Trade ID mismatch"))
    ensures ValidTradeClose(p) && (p.tradeId.None? || p.tradeId.value == "" || p.tradeId.value == id) ==>
      (r.Ok? <==> OpenTradeExists(db.trades, id)) && (r.Err? ==> r.error == HttpError(404, "Open trade not found"))
    ensures r.Ok? ==> r.value.coins == db.coins && r.value.extras == db.extras && |r.value.trades| == |db.trades|
    ensures r.Ok? ==> forall i :: 0 <= i < |db.trades| ==>
      (if db.trades[i].tradeId == id && IsOpen(db.trades[i]) then r.value.trades[i] == Closed(db.trades[i], p, now)
       else r.value.trades[i] == db.trades[i])
    ensures r.Ok? ==> !OpenTradeExists(r.value.trades, id)
  {
    if !ValidTradeClose(p) then Err(Rejected(false).value)
    else if p.tradeId.Some? && p.tradeId.value != "" && p.tradeId.value != id then Err(HttpError(422, "Trade ID mismatch"))
    else if !OpenTradeExists(db.trades, id) then Err(HttpError(404, "Open trade not found"))
    else
      var trades := seq(|db.trades|, i requires 0 <= i < |db.trades| =>
        if db.trades[i].tradeId == id && IsOpen(db.trades[i]) then Closed(db.trades[i], p, now) else db.trades[i]);
      Ok(TradeDb(db.coins, trades, db.extras))
  }

  /** A trade closes once: closing it again is the 404, with nothing changed. */
  lemma CloseOnce(db: TradeDb, id: string, p: TradeClose, now: int, q: TradeClose, later: int)
    requires ValidTradeClose(p) && (p.tradeId.None? || p.tradeId.value == "" || p.tradeId.value == id)
    requires OpenTradeExists(db.trades, id)
    requires ValidTradeClose(q) && (q.tradeId.None? || q.tradeId.value == id)
    ensures CloseTrade(CloseTrade(db, id, p, now).value, id, q, later) == Err(HttpError(404, "Open trade not found"))
  {
  }

  /** The trade `open_trade` inserts can be closed under the id it was given. */
  lemma OpenedTradeCloses(db: TradeDb, p: TradeOpen, newId: int, hex8: string, now: int, q: TradeClose, later: int)
    requires ValidTradeClose(q) && q.tradeId.None?
    ensures var r := OpenTrade(db, p, newId, hex8, now);
      r.Ok? ==> CloseTrade(r.value.0, "trade_" + hex8, q, later).Ok?
  {
    if OpenTrade(db, p, newId, hex8, now).Ok? {
      var d := OpenTrade(db, p, newId, hex8, now).value.0;
      assert d.trades[|db.trades|].tradeId == "trade_" + hex8 && IsOpen(d.trades[|db.trades|]);
    }
  }

  // ---------------------------------------------------------------------------
  // Update

  predicate HasFields(p: TradeUpdate) {
    p.entryMcap.Some? || p.size.Some? || p.exitMcap.Some? || p.exitReason.Some?
  }

  function Patched(t: TradeRow, p: TradeUpdate): TradeRow {
    t.(entryMcap := if p.entryMcap.Some? then p.entryMcap.value else t.entryMcap,
       size := if p.size.Some? then p.size else t.size,
       exitMcap := if p.exitMcap.Some? then p.exitMcap else t.exitMcap,
       exitReason := if p.exitReason.Some? then p.exitReason else t.exitReason)
  }

  /**
    `update_trade`: at least one field must be sent; every trade with the id gets exactly the
    sent fields, and its identity, timestamps and every other trade stay as they were.
   */
  function UpdateTrade(db: TradeDb, id: string, p: TradeUpdate): (r: Result<TradeDb, HttpError>)
    ensures !ValidTradeUpdate(p) ==> r.Err? && r.error.status == 422
    ensures ValidTradeUpdate(p) && !HasFields(p) ==> r == Err(HttpError(422, "No fields to update"))
    ensures ValidTradeUpdate(p) && HasFields(p) ==>
      (r.Ok? <==> TradeExists(db.trades, id)) && (r.Err? ==> r.error == HttpError(404, "Trade not found"))
    ensures r.Ok? ==> r.value.coins == db.coins && r.value.extras == db.extras && |r.value.trades| == |db.trades|
    ensures r.Ok? ==> forall i :: 0 <= i < |db.trades| && db.trades[i].tradeId != id ==> r.value.trades[i] == db.trades[i]
    ensures r.Ok? ==> forall i :: 0 <= i < |db.trades| && db.trades[i].tradeId == id ==>
      var t, u := db.trades[i], r.value.trades[i];
      && u.id == t.id && u.tradeId == t.tradeId && u.ca == t.ca && u.chain == t.chain
      && u.entryTs == t.entryTs && u.exitTs == t.exitTs
      && u.entryMcap == (if p.entryMcap.Some? then p.entryMcap.value else t.entryMcap)
      && (p.size.Some? ==> u.size == p.size) && (p.size.None? ==> u.size == t.size)
      && (p.exitMcap.Some? ==> u.exitMcap == p.exitMcap) && (p.exitMcap.None? ==> u.exitMcap == t.exitMcap)
      && (p.exitReason.Some? ==> u.exitReason == p.exitReason) && (p.exitReason.None? ==> u.exitReason == t.exitReason)
  {
    if !ValidTradeUpdate(p) then Err(Rejected(false).value)
    else if !HasFields(p) then Err(HttpError(422, "No fields to update"))
    else if !TradeExists(db.trades, id) then Err(HttpError(404, "Trade not found"))
    else
      var trades := seq(|db.trades|, i requires 0 <= i < |db.trades| =>
        if db.trades[i].tradeId == id then Patched(db.trades[i], p) else db.trades[i]);
      Ok(TradeDb(db.coins, trades, db.extras))
  }

  /** Sending the same patch twice leaves the trades as one patch did. */
  lemma UpdateIdempotent(db: TradeDb, id: string, p: TradeUpdate)
    requires ValidTradeUpdate(p) && HasFields(p) && TradeExists(db.trades, id)
    ensures UpdateTrade(UpdateTrade(db, id, p).value, id, p) == UpdateTrade(db, id, p)
  {
    var once := UpdateTrade(db, id, p).value;
    assert TradeExists(once.trades, id) by {
      var i :| 0 <= i < |db.trades| && db.trades[i].tradeId == id;
      assert once.trades[i].tradeId == id;
    }
    var twice := UpdateTrade(once, id, p).value;
    assert |twice.trades| == |once.trades|;
    forall i | 0 <= i < |once.trades|
      ensures twice.trades[i] == once.trades[i]
    {
      if once.trades[i].tradeId == id {
        assert twice.trades[i] == Patched(once.trades[i], p);
      }
    }
    assert twice.trades == once.trades;
  }

  // ---------------------------------------------------------------------------
  // Delete

  /**
    `delete_trade`: an unknown id is a 404; otherwise the trade goes, and so do its bubble and
    score rows, while the coin and every other trade stay.
   */
  function DeleteTrade(db: TradeDb, id: string): (r: Result<TradeDb, HttpError>)
    ensures r.Ok? <==> TradeExists(db.trades, id)
    ensures r.Err? ==> r.error == HttpError(404, "Trade not found")
    ensures r.Ok? ==> var d := r.value;
      d.coins == db.coins
      && !TradeExists(d.trades, id)
      && (forall i :: 0 <= i < |db.trades| && db.trades[i].tradeId != id ==> db.trades[i] in d.trades)
      && (forall i :: 0 <= i < |d.trades| ==> d.trades[i] in db.trades)
      && RowsOf(d.extras.clusters, id) == [] && RowsOf(d.extras.others, id) == [] && RowsOf(d.extras.scores, id) == []
      && (forall o :: o != id ==> RowsOf(d.extras.clusters, o) == RowsOf(db.extras.clusters, o))
      && (forall o :: o != id ==> RowsOf(d.extras.others, o) == RowsOf(db.extras.others, o))
      && (forall o :: o != id ==> RowsOf(d.extras.scores, o) == RowsOf(db.extras.scores, o))
  {
    if !TradeExists(db.trades, id) then Err(HttpError(404, "Trade not found"))
    else Ok(TradeDb(db.coins, Filter(db.trades, (t: TradeRow) => t.tradeId != id), DropExtras(db.extras, id)))
  }

  /** Deleting twice: the second is the 404. */
  lemma DeleteOnce(db: TradeDb, id: string)
    requires TradeExists(db.trades, id)
    ensures DeleteTrade(DeleteTrade(db, id).value, id) == Err(HttpError(404, "Trade not found"))
  {
  }

  /** Deleting a trade just opened (under an id no trade had) gives back the trades as they were. */
  lemma {:induction false} DeleteUndoesOpen(db: TradeDb, p: TradeOpen, newId: int, hex8: string, now: int)
    requires !TradeExists(db.trades, "trade_" + hex8)
    ensures var r := OpenTrade(db, p, newId, hex8, now);
      r.Ok? ==> DeleteTrade(r.value.0, "trade_" + hex8).Ok? && DeleteTrade(r.value.0, "trade_" + hex8).value.trades == db.trades
  {
    if OpenTrade(db, p, newId, hex8, now).Err? { return; }
    var tid := "trade_" + hex8;
    var d := OpenTrade(db, p, newId, hex8, now).value.0;
    var keep := (t: TradeRow) => t.tradeId != tid;
    var added := d.trades[|db.trades|];
    assert d.trades == db.trades + [added];
    assert d.trades[|db.trades|].tradeId == tid;
    FilterConcat(db.trades, [added], keep);
    FilterAll(db.trades, keep);
    assert Filter([added], keep) == [];
  }

  // ---------------------------------------------------------------------------
  // Paged listing

  /** The query parameters of `/trades/paged`. */
  datatype PageQuery = PageQuery(limit: int, ca: Option<string>, chain: Option<string>, scope: string,
                                 q: Option<string>, cursor: Option<string>)

  datatype TradeItem = TradeItem(row: TradeRow, coinName: Option<string>, bubbles: Option<BubblesData>,
                                 scoring: Option<int>)

  datatype TradesPage = TradesPage(items: seq<TradeItem>, totalCount: nat, openCount: nat, closedCount: nat,
                                   nextCursor: Option<string>)

  function CoinSymbol(coins: seq<CoinRow>, ca: string, chain: string): Option<string> {
    match FindCoin(coins, ca, chain)
    case Some(i) => coins[i].symbol
    case None => None
  }

  /** The search: coin name, address, trade id or coin symbol contains the needle. */
  predicate Searched(coins: seq<CoinRow>, t: TradeRow, needle: string) {
    ILike(CoinName(coins, t.ca, t.chain), needle) || ILike(Some(t.ca), needle) || ILike(Some(t.tradeId), needle)
    || ILike(CoinSymbol(coins, t.ca, t.chain), needle)
  }

  /** The address, chain and search conditions, which the page and the counts share. */
  predicate InFilters(coins: seq<CoinRow>, t: TradeRow, ca: Option<string>, chain: Option<string>, needle: Option<string>) {
    (ca.None? || t.ca == ca.value) && (chain.None? || t.chain == chain.value)
    && (needle.None? || Searched(coins, t, needle.value))
  }

  predicate ValidScope(scope: string) {
    scope == "all" || scope == "open" || scope == "closed"
  }

  predicate InScope(t: TradeRow, scope: string) {
    scope == "all" || (scope == "open" && IsOpen(t)) || (scope == "closed" && !IsOpen(t))
  }

  function TradeKey(t: TradeRow): Key {
    Key(t.entryTs, t.id)
  }

  /**
    The counts: trades whose coin row exists (an inner join) and that pass the address,
    chain and search conditions, whatever the scope and cursor; split into open and closed.
   */
  function Counts(db: TradeDb, ca: Option<string>, chain: Option<string>, needle: Option<string>): (r: (nat, nat, nat))
    ensures r.0 == r.1 + r.2
  {
    var counted := Filter(db.trades, (t: TradeRow) => HasKey(db.coins, t.ca, t.chain) && InFilters(db.coins, t, ca, chain, needle));
    FilterSplit(counted, IsOpen, (t: TradeRow) => !IsOpen(t));
    (|counted|, |Filter(counted, IsOpen)|, |Filter(counted, (t: TradeRow) => !IsOpen(t))|)
  }

  function ItemOf(db: TradeDb, t: TradeRow): (r: TradeItem)
    ensures r.row == t
    ensures r.bubbles.None? <==> RowsOf(db.extras.clusters, t.tradeId) == [] && RowsOf(db.extras.others, t.tradeId) == []
  {
    TradeItem(t, CoinName(db.coins, t.ca, t.chain), ListedBubbles(db.extras, t.tradeId), LatestScore(db.extras, t.tradeId))
  }

  /** The page's rows, each with its coin name, bubbles and latest score. */
  function ItemsOf(db: TradeDb, page: seq<TradeRow>): (r: seq<TradeItem>)
    ensures |r| == |page|
    ensures forall i :: 0 <= i < |page| ==> r[i].row == page[i]
    ensures forall i :: 0 <= i < |page| ==>
      (r[i].bubbles.None? <==> RowsOf(db.extras.clusters, page[i].tradeId) == [] && RowsOf(db.extras.others, page[i].tradeId) == [])
  {
    seq(|page|, i requires 0 <= i < |page| => ItemOf(db, page[i]))
  }

  /** The condition each listed row meets besides the cursor. */
  function Matcher(db: TradeDb, query: PageQuery): TradeRow -> bool {
    (t: TradeRow) => InFilters(db.coins, t, LowerOpt(query.ca), LowerOpt(query.chain), Needle(query.q))
                     && InScope(t, query.scope)
  }

  /**
    The response once the query is valid: the newest matching trades below cursor `c`, at most
    `limit` of them, each with its bubbles when it has any; a full page carries the cursor of
    its last row.
   */
  function Listing(db: TradeDb, query: PageQuery, c: Option<Key>, printIso: int -> string): (r: TradesPage)
    requires 1 <= query.limit
    ensures |r.items| <= query.limit
    ensures forall i :: 0 <= i < |r.items| ==>
      r.items[i].row in db.trades && Matcher(db, query)(r.items[i].row) && After(TradeKey(r.items[i].row), c)
    ensures forall i, j :: 0 <= i < j < |r.items| ==> !Below(TradeKey(r.items[i].row), TradeKey(r.items[j].row))
    ensures forall i :: 0 <= i < |r.items| ==>
      (r.items[i].bubbles.None? <==> RowsOf(db.extras.clusters, r.items[i].row.tradeId) == []
                                     && RowsOf(db.extras.others, r.items[i].row.tradeId) == [])
    ensures r.nextCursor.Some? <==> |r.items| == query.limit
    ensures r.nextCursor.Some? ==>
      var last := TradeKey(r.items[|r.items| - 1].row);
      r.nextCursor.value == FormatCursor(Some(last.ts), last.id, printIso)
    ensures r.totalCount == r.openCount + r.closedCount
  {
    var page := PageOf(db.trades, TradeKey, Matcher(db, query), c, query.limit);
    var counts := Counts(db, LowerOpt(query.ca), LowerOpt(query.chain), Needle(query.q));
    TradesPage(ItemsOf(db, page), counts.0, counts.1, counts.2, NextCursor(page, query.limit, TradeKey, printIso))
  }

  /**
    `list_trades_paged`: the limit must be 1 to 500 and the cursor must parse, then the scope
    must be one of all, open or closed; a valid query gets the listing below its cursor.
   */
  function ListTradesPaged(db: TradeDb, query: PageQuery, parseIso: string -> Option<int>, printIso: int -> string): (r: Result<TradesPage, HttpError>)
    ensures !(1 <= query.limit <= 500) ==> r.Err? && r.error.status == 422
    ensures 1 <= query.limit <= 500 && CursorParam(query.cursor, parseIso).Err? ==> r == Err(InvalidCursor)
    ensures 1 <= query.limit <= 500 && CursorParam(query.cursor, parseIso).Ok? ==>
      (r.Ok? <==> ValidScope(query.scope)) && (r.Err? ==> r.error == HttpError(422, "Invalid scope"))
    ensures r.Ok? ==> r.value == Listing(db, query, CursorParam(query.cursor, parseIso).value, printIso)
  {
    if !(1 <= query.limit <= 500) then Err(Rejected(false).value)
    else
      match CursorParam(query.cursor, parseIso)
      case Err(e) => Err(e)
      case Ok(c) =>
        if !ValidScope(query.scope) then Err(HttpError(422, "Invalid scope"))
        else Ok(Listing(db, query, c, printIso))
  }

  /** The rows of a listed page are the keyset page of the matching trades, and its cursor that page's. */
  lemma ListedRowsArePage(db: TradeDb, query: PageQuery, parseIso: string -> Option<int>, printIso: int -> string)
    ensures var r := ListTradesPaged(db, query, parseIso, printIso);
      r.Ok? ==>
      var res := r.value;
      var page := PageOf(db.trades, TradeKey, Matcher(db, query), CursorParam(query.cursor, parseIso).value, query.limit);
      |res.items| == |page| && (forall i :: 0 <= i < |res.items| ==> res.items[i].row == page[i])
      && res.nextCursor == NextCursor(page, query.limit, TradeKey, printIso)
  {
  }
}

=== FILE: trades_page.dfy ===
/**
  The trades page: scope and text filter, local counts with the server counts preferred,
  the close and edit dialogs, the logo pass over the filtered rows and `loadMore`.
 */
module TradesPage {
  import opened Wrappers
  import opened Text
  import opened Lists
  import opened Paging
  import opened DexChain
  import opened DexLookup
  import opened LogoPass

  /** A trade row with the fields the page reads. */
  datatype TradeRow = TradeRow(tradeId: string, ca: string, coinName: string, coinSymbol: Option<string>,
                               chain: Option<string>, exitTs: Option<string>, entryMcap: Option<real>)

  datatype Scope = All | OpenOnly | ClosedOnly

  function ScopeName(s: Scope): string {
    match s
    case All => "all"
    case OpenOnly => "open"
    case ClosedOnly => "closed"
  }

  /** `exit_ts == null`. */
  predicate IsOpen(t: TradeRow) {
    t.exitTs.None?
  }

  /** The search text: trimmed and lower-cased. */
  function Needle(q: string): string {
    Lower(Trim(q))
  }

  /** `(t.coin_symbol ?? symbolsByCa[ca lower] ?? "").trim()`: the row's own symbol wins, even "". */
  function SymbolOf(t: TradeRow, symbols: map<string, string>): string {
    Trim(if t.coinSymbol.Some? then t.coinSymbol.value else MapGet(symbols, Lower(t.ca)).GetOr(""))
  }

  function Haystack(t: TradeRow, symbols: map<string, string>): string {
    Lower(t.coinName + " " + SymbolOf(t, symbols) + " " + t.ca + " " + t.tradeId)
  }

  predicate InScope(t: TradeRow, scope: Scope) {
    match scope
    case All => true
    case OpenOnly => IsOpen(t)
    case ClosedOnly => !IsOpen(t)
  }

  predicate Passes(t: TradeRow, scope: Scope, needle: string, symbols: map<string, string>) {
    InScope(t, scope) && (needle == "" || Contains(Haystack(t, symbols), needle))
  }

  /**
    `filtered`: the trades in scope whose haystack contains the needle, in their loaded order.
    Scope "all" with a blank search shows everything.
   */
  function Filtered(trades: seq<TradeRow>, scope: Scope, q: string, symbols: map<string, string>): (r: seq<TradeRow>)
    ensures forall i :: 0 <= i < |r| ==> r[i] in trades && InScope(r[i], scope)
    ensures forall i :: 0 <= i < |r| ==> Needle(q) == "" || Contains(Haystack(r[i], symbols), Needle(q))
    ensures forall i :: 0 <= i < |trades| && Passes(trades[i], scope, Needle(q), symbols) ==> trades[i] in r
    ensures scope == All && Needle(q) == "" ==> r == trades
  {
    var p := (t: TradeRow) => Passes(t, scope, Needle(q), symbols);
    if scope == All && Needle(q) == "" then
      FilterAll(trades, p);
      Filter(trades, p)
    else Filter(trades, p)
  }

  /** The filter keeps the loaded order: filtering a concatenation concatenates the filtered parts. */
  lemma FilteredConcat(a: seq<TradeRow>, b: seq<TradeRow>, scope: Scope, q: string, symbols: map<string, string>)
    ensures Filtered(a + b, scope, q, symbols) == Filtered(a, scope, q, symbols) + Filtered(b, scope, q, symbols)
  {
    FilterConcat(a, b, (t: TradeRow) => Passes(t, scope, Needle(q), symbols));
  }

  /** A single trade is shown exactly when it passes, so with the above the filter is pinned down. */
  lemma FilteredOne(t: TradeRow, scope: Scope, q: string, symbols: map<string, string>)
    ensures Filtered([t], scope, q, symbols) == if Passes(t, scope, Needle(q), symbols) then [t] else []
  {
    assert [t][1..] == [];
  }

  /** A trade whose public id, lower-cased, contains the search needle passes the search. */
  lemma MatchesTradeId(t: TradeRow, symbols: map<string, string>, needle: string)
    requires Contains(Lower(t.tradeId), needle)
    ensures Passes(t, All, needle, symbols)
  {
    var prefix := t.coinName + " " + SymbolOf(t, symbols) + " " + t.ca + " ";
    LowerConcat(prefix, t.tradeId);
    ContainsSuffix(Lower(prefix), Lower(t.tradeId), needle);
  }

  lemma {:induction false} ContainsSuffix(a: string, b: string, n: string)
    requires Contains(b, n)
    ensures Contains(a + b, n)
    decreases |a|
  {
    ContainsAt(b, n);
    var i :| 0 <= i <= |b| - |n| && OccursAt(b, n, i);
    assert (a + b)[|a| + i..|a| + i + |n|] == b[i..i + |n|];
    assert OccursAt(a + b, n, |a| + i);
    ContainsAt(a + b, n);
  }

  // ---------------------------------------------------------------------------
  // Counts

  function OpenCountLocal(trades: seq<TradeRow>): nat {
    |Filter(trades, (t: TradeRow) => IsOpen(t))|
  }

  function ClosedCountLocal(trades: seq<TradeRow>): nat {
    |Filter(trades, (t: TradeRow) => !IsOpen(t))|
  }

  /** The local open and closed counts partition the loaded trades. */
  lemma LocalCountsAddUp(trades: seq<TradeRow>)
    ensures OpenCountLocal(trades) + ClosedCountLocal(trades) == |trades|
  {
    FilterSplit(trades, (t: TradeRow) => IsOpen(t), (t: TradeRow) => !IsOpen(t));
  }

  /** The counts of the last page response, each possibly not yet known. */
  datatype Counts = Counts(total: Option<int>, open: Option<int>, closed: Option<int>)

  /** `totalCount ?? trades.length` and the same for open and closed. */
  function DisplayCounts(trades: seq<TradeRow>, c: Counts): (r: (int, int, int))
    ensures r.0 == (if c.total.Some? then c.total.value else |trades|)
    ensures r.1 == (if c.open.Some? then c.open.value else OpenCountLocal(trades))
    ensures r.2 == (if c.closed.Some? then c.closed.value else ClosedCountLocal(trades))
    ensures c == Counts(None, None, None) ==> r.1 + r.2 == r.0
  {
    LocalCountsAddUp(trades);
    (c.total.GetOr(|trades|), c.open.GetOr(OpenCountLocal(trades)), c.closed.GetOr(ClosedCountLocal(trades)))
  }

  // ---------------------------------------------------------------------------
  // Closing and editing

  /** `Math.round`: the nearest integer, halves rounded up. */
  function RoundJs(x: real): (n: int)
    ensures n as real - 0.5 <= x < n as real + 0.5
  {
    (x + 0.5).Floor
  }

  /** The exit field a close dialog opens with: the rounded entry mcap, or "" when unknown. */
  function ExitPrefill(entry: Option<real>): (r: string)
    ensures r == "" <==> entry.None?
    ensures entry.Some? ==> ParsePyInt(r) == Some(RoundJs(entry.value))
  {
    if entry.None? then ""
    else
      IntRoundTrip(RoundJs(entry.value));
      IntToString(RoundJs(entry.value))
  }

  datatype CloseForm = CloseForm(tradeId: string, exitMcap: string, reason: string)

  function OpenCloseModal(t: TradeRow): (r: CloseForm)
    ensures r.tradeId == t.tradeId && r.reason == ""
    ensures r.exitMcap == ExitPrefill(t.entryMcap)
  {
    CloseForm(t.tradeId, ExitPrefill(t.entryMcap), "")
  }

  /** What a submit does before any request. */
  datatype Submit = Ignored | Rejected(message: string) | Send(path: string, exitMcap: real, reason: Option<string>)

  /** `x.trim() ? x.trim() : null`. */
  function TrimmedOrNull(x: string): (r: Option<string>)
    ensures r.None? <==> Trim(x) == ""
    ensures r.Some? ==> r.value == Trim(x)
  {
    if Trim(x) == "" then None else Some(Trim(x))
  }

  /**
    The shared check of `submitClose` and `submitEdit`. `number` is JavaScript's `Number` on a
    string, None when the result is not finite. No trade id: nothing happens. An exit that is
    not a finite positive number: an error and no request.
   */
  function SubmitExit(tradeId: string, exitText: string, reason: string, number: string -> Option<real>,
                      path: string, message: string): (r: Submit)
    ensures tradeId == "" ==> r == Ignored
    ensures r.Send? <==> tradeId != "" && number(exitText).Some? && number(exitText).value > 0.0
    ensures r.Rejected? ==> r.message == message
    ensures r.Send? ==> r.path == path && r.exitMcap == number(exitText).value && r.reason == TrimmedOrNull(reason)
  {
    if tradeId == "" then Ignored
    else
      var ex := number(exitText);
      if ex.None? || ex.value <= 0.0 then Rejected(message)
      else Send(path, ex.value, TrimmedOrNull(reason))
  }

  function SubmitClose(f: CloseForm, number: string -> Option<real>): (r: Submit)
    ensures r.Send? ==> r.path == "/trades/" + EncodeUriComponent(f.tradeId) + "/close"
    ensures r.Send? <==> f.tradeId != "" && number(f.exitMcap).Some? && number(f.exitMcap).value > 0.0
  {
    SubmitExit(f.tradeId, f.exitMcap, f.reason, number, "/trades/" + EncodeUriComponent(f.tradeId) + "/close",
               "Exit MCAP zorunlu (pozitif sayı).")
  }

  function SubmitEdit(tradeId: string, exitMcap: string, reason: string, number: string -> Option<real>): (r: Submit)
    ensures r.Send? ==> r.path == "/trades/" + EncodeUriComponent(tradeId)
    ensures r.Send? <==> tradeId != "" && number(exitMcap).Some? && number(exitMcap).value > 0.0
  {
    SubmitExit(tradeId, exitMcap, reason, number, "/trades/" + EncodeUriComponent(tradeId),
               "Exit MCAP zorunlu (pozitif sayi).")
  }

  /**
    Opening the dialog on a trade and submitting it unchanged closes the trade at its rounded
    entry mcap, provided that rounds to a positive number and `Number` reads decimal integers.
   */
  lemma PrefillCloses(t: TradeRow, number: string -> Option<real>)
    requires t.tradeId != "" && t.entryMcap.Some? && t.entryMcap.value >= 0.5
    requires forall n: int :: number(IntToString(n)) == Some(n as real)
    ensures SubmitClose(OpenCloseModal(t), number) ==
      Send("/trades/" + EncodeUriComponent(t.tradeId) + "/close", RoundJs(t.entryMcap.value) as real, None)
  {
    var n := RoundJs(t.entryMcap.value);
    assert OpenCloseModal(t) == CloseForm(t.tradeId, IntToString(n), "");
    TrimEmpty();
  }

  // ---------------------------------------------------------------------------
  // Paging and logos

  const PageSize := 30

  /** The `loadMore` request path; the search part is present only for a non-blank search. */
  function LoadMorePath(scope: Scope, cursor: string, q: string): (r: string)
    ensures Trim(q) == "" ==> r == "/trades/paged?limit=30&scope=" + ScopeName(scope) + "&cursor=" + EncodeUriComponent(cursor)
    ensures Trim(q) != "" ==>
      r == "/trades/paged?limit=30&scope=" + ScopeName(scope) + "&cursor=" + EncodeUriComponent(cursor)
           + "&q=" + EncodeUriComponent(Trim(q))
  {
    EncodeUnreservedId(ScopeName(scope));
    var head := "/trades/paged?limit=30&scope=" + EncodeUriComponent(ScopeName(scope)) + "&cursor=" + EncodeUriComponent(cursor);
    if Trim(q) != "" then head + "&q=" + EncodeUriComponent(Trim(q)) else head
  }

  lemma EncodeUnreservedId(s: string)
    requires s == "all" || s == "open" || s == "closed"
    ensures EncodeUriComponent(s) == s
  {
    assert forall i :: 0 <= i < |s| ==> Unreserved(s[i]);
  }

  /** An encoded value cannot end its query parameter early: it holds no `&`, `=` or `#`. */
  lemma EncodedParamClosed(v: string)
    ensures forall i :: 0 <= i < |EncodeUriComponent(v)| ==>
      EncodeUriComponent(v)[i] != '&' && EncodeUriComponent(v)[i] != '=' && EncodeUriComponent(v)[i] != '#'
  {
    var e := EncodeUriComponent(v);
    forall i | 0 <= i < |e|
      ensures e[i] != '&' && e[i] != '=' && e[i] != '#'
    {
      assert Unreserved(e[i]) || e[i] == '%';
    }
  }

  /** The rows the logo pass scans: the row's chain when present, else the summary map's. */
  function LogoItems(rows: seq<TradeRow>, chains: map<string, string>): (r: seq<Item>)
    ensures |r| == |rows|
    ensures forall i :: 0 <= i < |rows| ==>
      r[i] == Item(Some(rows[i].ca), if rows[i].chain.Some? then rows[i].chain else MapGet(chains, Lower(rows[i].ca)))
  {
    ScanItems(rows, (t: TradeRow) => Some(t.ca),
              (t: TradeRow) => if t.chain.Some? then t.chain else MapGet(chains, Lower(t.ca)))
  }

  /** The page's logo pass over the filtered rows: cap 40, keep-existing merge. */
  function TradesLogoPass(filtered: seq<TradeRow>, chains: map<string, string>, cache: LogoMap,
                          inflight: set<string>, lookup: Candidate -> Lookup, cancelAt: nat): (r: PassResult)
    ensures |r.steps| <= 40 && r.inflight == inflight
    ensures forall k :: Has(cache, k) ==> k in r.cache && r.cache[k] == cache[k]
    ensures forall j :: 0 <= j < |r.steps| ==>
      KeyOf(r.steps[j].query) != "" && !Has(cache, KeyOf(r.steps[j].query)) && KeyOf(r.steps[j].query) !in inflight
  {
    var items := LogoItems(filtered, chains);
    PassQueries(items, cache, inflight, 40, lookup, cancelAt, KeepExisting);
    forall k | Has(cache, k)
      ensures var r := Pass(items, cache, inflight, 40, lookup, cancelAt, KeepExisting);
        k in r.cache && r.cache[k] == cache[k]
    {
      PassKeepsEntries(items, cache, inflight, 40, lookup, cancelAt, KeepExisting, k);
    }
    Pass(items, cache, inflight, 40, lookup, cancelAt, KeepExisting)
  }

  /** A row with its own chain ignores the summary map's chain. */
  lemma RowChainWins(t: TradeRow, chains: map<string, string>)
    requires t.chain.Some?
    ensures LogoItems([t], chains)[0].chain == t.chain
  {
  }
}

=== FILE: warmup_route.dfy ===
/**
  The frontend's `/api/warmup` route: a single relayed GET to the backend's `/warmup`, with a
  configuration check, the shared key header, and timeout / failure mapping.
 */
module WarmupRoute {
  import opened Wrappers

  predicate AllSlashes(s: string) {
    forall i :: 0 <= i < |s| ==> s[i] == '/'
  }

  /** `base.replace(/\/+$/, "")`: every trailing `/` removed, nothing else. */
  function StripTrailingSlashes(s: string): (r: string)
    ensures |r| <= |s| && s[..|r|] == r
    ensures AllSlashes(s[|r|..])
    ensures r == "" || r[|r| - 1] != '/'
  {
    if |s| > 0 && s[|s| - 1] == '/' then
      var r := StripTrailingSlashes(s[..|s| - 1]);
      assert s[..|s| - 1][..|r|] == s[..|r|];
      assert s[|r|..] == s[..|s| - 1][|r|..] + ['/'];
      r
    else s
  }

  /**
    The stripped URL is the one way of writing the base as a text that does not end in `/`
    followed by slashes only.
   */
  lemma {:induction false} StripTrailingSlashesUnique(p: string, q: string)
    requires AllSlashes(q)
    requires p == "" || p[|p| - 1] != '/'
    ensures StripTrailingSlashes(p + q) == p
    decreases |q|
  {
    if |q| == 0 {
      assert p + q == p;
    } else {
      assert (p + q)[..|p + q| - 1] == p + q[..|q| - 1];
      StripTrailingSlashesUnique(p, q[..|q| - 1]);
    }
  }

  lemma StripTrailingSlashesIdempotent(s: string)
    ensures StripTrailingSlashes(StripTrailingSlashes(s)) == StripTrailingSlashes(s)
  {
    var r := StripTrailingSlashes(s);
    assert r + "" == r;
    StripTrailingSlashesUnique(r, "");
  }

  /** The route's environment: `NEXT_PUBLIC_API_URL` and `WARMUP_KEY`. */
  datatype Env = Env(base: Option<string>, key: Option<string>)

  /** The one backend request: URL and headers. */
  datatype BackendCall = BackendCall(url: string, headers: seq<(string, string)>)

  /**
    What the backend request did: an answer, or a thrown value. `isAbort` is an `Error` named
    "AbortError" (the 25-second abort fired); `text` is `String(e)`.
   */
  datatype Fetched = Answered(status: int, body: string, contentType: Option<string>)
                   | Threw(isAbort: bool, text: string)

  datatype Body = Relayed(text: string) | Failure(error: string)

  datatype Response = Response(status: int, body: Body, contentType: string)

  datatype Outcome = Outcome(call: Option<BackendCall>, response: Response)

  /**
    The statuses the `Response` constructor refuses to pair with a body (a "null body status"
    in the Fetch standard): relaying one of them throws a `TypeError`.
   */
  const NullBodyStatuses: set<int> := {204, 205, 304}

  /**
    `POST`: a missing base URL answers 500 and calls nothing; otherwise exactly one GET of the
    stripped base + `/warmup`, whose status and body are relayed as they are; an abort becomes
    502 "timeout" and any other exception 502 with its text. Relaying a 204, 205 or 304 throws
    inside the `try`, so it too ends as a 502; `ctorError` is that `TypeError`'s `String(e)`.
   */
  function Warmup(env: Env, fetched: Fetched, ctorError: string): (r: Outcome)
    ensures env.base.None? || env.base.value == "" ==>
      r == Outcome(None, Response(500, Failure("missing NEXT_PUBLIC_API_URL"), "application/json"))
    ensures env.base.Some? && env.base.value != "" ==>
      && r.call.Some?
      && r.call.value.url == StripTrailingSlashes(env.base.value) + "/warmup"
      && (("x-warmup-key", env.key.GetOr("")) in r.call.value.headers
          <==> env.key.Some? && env.key.value != "")
      && |r.call.value.headers| <= 1
    ensures env.base.Some? && env.base.value != "" && fetched.Answered? && fetched.status !in NullBodyStatuses ==>
      r.response == Response(fetched.status, Relayed(fetched.body), fetched.contentType.GetOr("application/json"))
    ensures env.base.Some? && env.base.value != "" && fetched.Answered? && fetched.status in NullBodyStatuses ==>
      r.response == Response(502, Failure(ctorError), "application/json")
    ensures env.base.Some? && env.base.value != "" && fetched.Threw? ==>
      r.response == Response(502, Failure(if fetched.isAbort then "timeout" else fetched.text), "application/json")
  {
    if env.base.None? || env.base.value == "" then
      Outcome(None, Response(500, Failure("missing NEXT_PUBLIC_API_URL"), "application/json"))
    else
      var headers := if env.key.Some? && env.key.value != "" then [("x-warmup-key", env.key.value)] else [];
      var call := BackendCall(StripTrailingSlashes(env.base.value) + "/warmup", headers);
      var response := match fetched
        case Answered(status, body, ct) =>
          if status in NullBodyStatuses then Response(502, Failure(ctorError), "application/json")
          else Response(status, Relayed(body), ct.GetOr("application/json"))
        case Threw(isAbort, text) => Response(502, Failure(if isAbort then "timeout" else text), "application/json");
      Outcome(Some(call), response)
  }

  /** Bases that differ only in trailing slashes reach the same backend URL. */
  lemma TrailingSlashesDoNotMatter(env: Env, fetched: Fetched, ctorError: string, extra: string)
    requires env.base.Some? && env.base.value != "" && AllSlashes(extra)
    ensures Warmup(env.(base := Some(env.base.value + extra)), fetched, ctorError).call.value.url
            == Warmup(env, fetched, ctorError).call.value.url
  {
    var b := env.base.value;
    var r := StripTrailingSlashes(b);
    var q := b[|r|..] + extra;
    assert b + extra == r + q;
    StripTrailingSlashesUnique(r, q);
  }
}

=== FILE: wizard.dfy ===
/**
  The one-shot "wizard" endpoints: register or refresh the coin, then record a trade (`dex_add`)
  or an account and tip (`influencer_add`) together with its bubbles and optional score.
 */
module Wizard {
  import opened Wrappers
  import opened Text
  import opened Http
  import opened Store
  import opened Schemas
  import AdminAuth

  // ---------------------------------------------------------------------------
  // Source type

  const Dex := "dex"
  const Influencer := "influencer"
  const Both := "both"

  /** Python truthiness of an optional string: present and non-empty. */
  predicate Truthy(s: Option<string>) {
    s.Some? && s.value != ""
  }

  /** `_merge_source_type`: no prior value takes the new one; the same value stays; different ones give "both". */
  function MergeSourceType(prior: Option<string>, add: string): (r: string)
    ensures !Truthy(prior) ==> r == add
    ensures Truthy(prior) && prior.value == add ==> r == add
    ensures Truthy(prior) && prior.value != add ==> r == Both
  {
    if !Truthy(prior) then add
    else if prior.value == add then prior.value
    else Both
  }

  /** Which kinds of activity a source type records; "both" records the two. */
  function Kinds(s: Option<string>): set<string> {
    if !Truthy(s) then {}
    else if s.value == Both then {Dex, Influencer}
    else {s.value}
  }

  predicate KnownSource(s: Option<string>) {
    !Truthy(s) || s.value in {Dex, Influencer, Both}
  }

  /** Merging adds the new kind to the kinds already recorded. */
  lemma MergeIsUnion(prior: Option<string>, add: string)
    requires KnownSource(prior) && add in {Dex, Influencer}
    ensures Kinds(Some(MergeSourceType(prior, add))) == Kinds(prior) + {add}
    ensures MergeSourceType(prior, add) in {Dex, Influencer, Both}
  {
  }

  lemma MergeIdempotent(prior: Option<string>, add: string)
    ensures MergeSourceType(Some(MergeSourceType(prior, add)), add) == MergeSourceType(prior, add)
  {
  }

  lemma BothAbsorbs(add: string)
    ensures MergeSourceType(Some(Both), add) == Both
  {
  }

  // ---------------------------------------------------------------------------
  // Chain

  /** `(chain or "").strip().lower()`, with "" and "unknown" read as "solana". */
  function NormalizeChain(chain: Option<string>): (r: string)
    ensures r != "" && r != "unknown"
    ensures var n := Lower(Strip(chain.GetOr("")));
      r == if n == "" || n == "unknown" then "solana" else n
  {
    var n := Lower(Strip(chain.GetOr("")));
    if n == "" || n == "unknown" then "solana" else n
  }

  lemma LowerKeepsEnds(s: string)
    requires s == [] || (!IsPySpace(s[0]) && !IsPySpace(s[|s| - 1]))
    ensures Lower(s) == [] || (!IsPySpace(Lower(s)[0]) && !IsPySpace(Lower(s)[|s| - 1]))
  {
  }

  /** A stripped, lower-cased text is left alone by stripping and lower-casing again. */
  lemma NormalFormFixed(t: string)
    requires t == [] || (!IsPySpace(t[0]) && !IsPySpace(t[|t| - 1]))
    ensures Lower(Strip(Lower(t))) == Lower(t)
  {
    LowerKeepsEnds(t);
    StripNoop(Lower(t));
    LowerIdempotent(t);
  }

  lemma SolanaIsNormal()
    ensures Lower(Strip("solana")) == "solana"
  {
    StripNoop("solana");
    assert Lower("solana") == "solana";
  }

  /** A normalised chain normalises to itself. */
  lemma NormalizeChainIdempotent(chain: Option<string>)
    ensures NormalizeChain(Some(NormalizeChain(chain))) == NormalizeChain(chain)
  {
    var t := Strip(chain.GetOr(""));
    var n := Lower(t);
    var r := NormalizeChain(chain);
    assert Some(r).GetOr("") == r;
    if n == "" || n == "unknown" {
      assert r == "solana";
      SolanaIsNormal();
    } else {
      assert r == n;
      NormalFormFixed(t);
    }
  }

  // ---------------------------------------------------------------------------
  // Coin upsert

  /** `_upsert_coin`'s result: the table afterwards and the row it returns. */
  datatype Upserted = Upserted(coins: seq<CoinRow>, row: CoinRow)

  /**
    `_upsert_coin`: the coin keyed by the lower-cased address and the normalised chain is
    created (name defaulting to "Unknown", source type `add`) or refreshed: name, symbol and
    launch time change only to a truthy new value, and the source type is always merged.
   */
  function UpsertCoin(coins: seq<CoinRow>, ca: string, name: Option<string>, symbol: Option<string>,
                      launchTs: Option<int>, chain: Option<string>, add: string): (r: Upserted)
    requires KeysUnique(coins)
    ensures KeysUnique(r.coins)
    ensures r.row.ca == Lower(ca) && r.row.chain == NormalizeChain(chain)
    ensures r.row in r.coins
    ensures HasKey(coins, Lower(ca), NormalizeChain(chain)) ==> |r.coins| == |coins|
    ensures !HasKey(coins, Lower(ca), NormalizeChain(chain)) ==> (r.coins == coins + [r.row]
      && r.row.name == Some(if Truthy(name) then name.value else "Unknown")
      && r.row.symbol == symbol && r.row.launchTs == launchTs && r.row.sourceType == Some(add))
    ensures forall i :: 0 <= i < |coins| && !(coins[i].ca == Lower(ca) && coins[i].chain == NormalizeChain(chain)) ==>
      r.coins[i] == coins[i]
    ensures forall i :: 0 <= i < |coins| && coins[i].ca == Lower(ca) && coins[i].chain == NormalizeChain(chain) ==>
      (r.coins[i] == r.row
      && r.row.name == (if Truthy(name) then name else coins[i].name)
      && r.row.symbol == (if Truthy(symbol) then symbol else coins[i].symbol)
      && r.row.launchTs == (if launchTs.Some? then launchTs else coins[i].launchTs)
      && r.row.sourceType == Some(MergeSourceType(coins[i].sourceType, add)))
  {
    UpsertKey(coins, Lower(ca), NormalizeChain(chain), name, symbol, launchTs, add)
  }

  /** The upsert once the key is normalised: `caL` and `chainNorm` are stored as given. */
  function UpsertKey(coins: seq<CoinRow>, caL: string, chainNorm: string, name: Option<string>, symbol: Option<string>,
                     launchTs: Option<int>, add: string): (r: Upserted)
    requires KeysUnique(coins)
    ensures KeysUnique(r.coins)
    ensures r.row.ca == caL && r.row.chain == chainNorm
    ensures r.row in r.coins
    ensures HasKey(coins, caL, chainNorm) ==> |r.coins| == |coins|
    ensures !HasKey(coins, caL, chainNorm) ==> (r.coins == coins + [r.row]
      && r.row.name == Some(if Truthy(name) then name.value else "Unknown")
      && r.row.symbol == symbol && r.row.launchTs == launchTs && r.row.sourceType == Some(add))
    ensures forall i :: 0 <= i < |coins| && !(coins[i].ca == caL && coins[i].chain == chainNorm) ==>
      r.coins[i] == coins[i]
    ensures forall i :: 0 <= i < |coins| && coins[i].ca == caL && coins[i].chain == chainNorm ==>
      (r.coins[i] == r.row
      && r.row.name == (if Truthy(name) then name else coins[i].name)
      && r.row.symbol == (if Truthy(symbol) then symbol else coins[i].symbol)
      && r.row.launchTs == (if launchTs.Some? then launchTs else coins[i].launchTs)
      && r.row.sourceType == Some(MergeSourceType(coins[i].sourceType, add)))
  {
    match FindCoin(coins, caL, chainNorm)
    case Some(i) =>
      var row := Refreshed(coins[i], name, symbol, launchTs, add);
      assert coins[i := row][i] == row;
      Upserted(coins[i := row], row)
    case None =>
      var row := CoinRow(caL, chainNorm, Some(if Truthy(name) then name.value else "Unknown"), symbol, launchTs, Some(add));
      Upserted(coins + [row], row)
  }

  /** An existing row refreshed: name, symbol and launch time move only to a truthy new value. */
  function Refreshed(prior: CoinRow, name: Option<string>, symbol: Option<string>, launchTs: Option<int>, add: string): (row: CoinRow)
    ensures row.ca == prior.ca && row.chain == prior.chain
    ensures Truthy(name) ==> row.name == name
    ensures !Truthy(name) ==> row.name == prior.name
    ensures Truthy(symbol) ==> row.symbol == symbol
    ensures !Truthy(symbol) ==> row.symbol == prior.symbol
    ensures row.launchTs == (if launchTs.Some? then launchTs else prior.launchTs)
    ensures row.sourceType == Some(MergeSourceType(prior.sourceType, add))
  {
    CoinRow(prior.ca, prior.chain,
            if Truthy(name) then name else prior.name,
            if Truthy(symbol) then symbol else prior.symbol,
            if launchTs.Some? then launchTs else prior.launchTs,
            Some(MergeSourceType(prior.sourceType, add)))
  }

  /** Refreshing a row twice with the same values is refreshing it once. */
  lemma RefreshedTwice(prior: CoinRow, name: Option<string>, symbol: Option<string>, launchTs: Option<int>, add: string)
    ensures var once := Refreshed(prior, name, symbol, launchTs, add);
      Refreshed(once, name, symbol, launchTs, add) == once
  {
    MergeIdempotent(prior.sourceType, add);
  }

  /** The row found at `at` is the only row with its key. */
  lemma FindsOnlyRow(coins: seq<CoinRow>, at: nat)
    requires KeysUnique(coins) && at < |coins|
    ensures FindCoin(coins, coins[at].ca, coins[at].chain) == Some(at)
  {
    var j := FindCoin(coins, coins[at].ca, coins[at].chain).value;
    assert coins[j].ca == coins[at].ca && coins[j].chain == coins[at].chain;
  }

  /** Sending the same coin twice leaves the table as sending it once. */
  lemma UpsertIdempotent(coins: seq<CoinRow>, ca: string, name: Option<string>, symbol: Option<string>,
                         launchTs: Option<int>, chain: Option<string>, add: string)
    requires KeysUnique(coins)
    ensures var once := UpsertCoin(coins, ca, name, symbol, launchTs, chain, add);
      UpsertCoin(once.coins, ca, name, symbol, launchTs, chain, add) == once
  {
    var caL, chainNorm := Lower(ca), NormalizeChain(chain);
    if HasKey(coins, caL, chainNorm) {
      UpsertExistingIdempotent(coins, caL, chainNorm, name, symbol, launchTs, add);
    } else {
      UpsertNewIdempotent(coins, caL, chainNorm, name, symbol, launchTs, add);
    }
  }

  lemma UpsertExistingIdempotent(coins: seq<CoinRow>, caL: string, chainNorm: string, name: Option<string>,
                                 symbol: Option<string>, launchTs: Option<int>, add: string)
    requires KeysUnique(coins) && HasKey(coins, caL, chainNorm)
    ensures var once := UpsertKey(coins, caL, chainNorm, name, symbol, launchTs, add);
      UpsertKey(once.coins, caL, chainNorm, name, symbol, launchTs, add) == once
  {
    var once := UpsertKey(coins, caL, chainNorm, name, symbol, launchTs, add);
    var at := FindCoin(coins, caL, chainNorm).value;
    assert once.row == Refreshed(coins[at], name, symbol, launchTs, add);
    assert once.coins == coins[at := once.row];
    FindsOnlyRow(once.coins, at);
    RefreshedTwice(coins[at], name, symbol, launchTs, add);
    assert once.coins[at := once.row] == once.coins;
  }

  lemma UpsertNewIdempotent(coins: seq<CoinRow>, caL: string, chainNorm: string, name: Option<string>,
                            symbol: Option<string>, launchTs: Option<int>, add: string)
    requires KeysUnique(coins) && !HasKey(coins, caL, chainNorm)
    ensures var once := UpsertKey(coins, caL, chainNorm, name, symbol, launchTs, add);
      UpsertKey(once.coins, caL, chainNorm, name, symbol, launchTs, add) == once
  {
    var once := UpsertKey(coins, caL, chainNorm, name, symbol, launchTs, add);
    assert once.coins == coins + [once.row];
    FindsOnlyRow(once.coins, |coins|);
    MergeIdempotent(None, add);
    assert Refreshed(once.row, name, symbol, launchTs, add) == once.row;
    assert once.coins[|coins| := once.row] == once.coins;
  }

  // ---------------------------------------------------------------------------
  // Bubbles and score of one record

  /** `_set_trade_bubbles` / `_set_tip_bubbles`: the record's rows become exactly the payload's. */
  function SetBubbles<K(==,!new)>(x: Extras<K>, k: K, b: BubblesData): (r: Extras<K>)
    ensures RowsOf(r.clusters, k) == b.clusters && RowsOf(r.others, k) == b.others
    ensures r.scores == x.scores
    ensures forall o :: o != k ==> RowsOf(r.clusters, o) == RowsOf(x.clusters, o)
    ensures forall o :: o != k ==> RowsOf(r.others, o) == RowsOf(x.others, o)
  {
    Extras(ReplaceRows(x.clusters, k, b.clusters), ReplaceRows(x.others, k, b.others), x.scores)
  }

  /** `_insert_trade_score` / `_insert_tip_score`: one score row exactly when a score is given. */
  function InsertScore<K(==,!new)>(x: Extras<K>, k: K, score: Option<int>): (r: Extras<K>)
    ensures r.clusters == x.clusters && r.others == x.others
    ensures score.None? ==> r == x
    ensures score.Some? ==> RowsOf(r.scores, k) == RowsOf(x.scores, k) + [score.value]
    ensures forall o :: o != k ==> RowsOf(r.scores, o) == RowsOf(x.scores, o)
  {
    if score.None? then x else x.(scores := AppendRows(x.scores, k, [score.value]))
  }

  // ---------------------------------------------------------------------------
  // Endpoints

  /**
    A `require_admin` that fails other than by `HTTPException` (a non-ASCII token, or a payload
    that is JSON but not an object) ends in the server's catch-all 500.
   */
  const AuthCrash := HttpError(500, "internal_error")

  datatype DexAdd = DexAdd(ca: string, name: Option<string>, symbol: Option<string>, launchTs: Option<int>,
                           chain: Option<string>, entryMcap: real, size: Option<real>,
                           bubbles: BubblesData, intuitionScore: Option<int>)

  predicate ValidDexAdd(p: DexAdd) {
    |p.ca| >= 3 && p.entryMcap > 0.0 && Positive(p.size) && ValidBubbles(p.bubbles)
    && (p.intuitionScore.Some? ==> ValidScore(p.intuitionScore.value))
  }

  /**
    `dex_add` (admin only): upsert the coin as a "dex" source, insert an open trade on the
    coin's chain, then set its bubbles and add its score. `auth` is what `require_admin` gave
    the request; `newId`, `hex8` and `now` stand for the serial id, the uuid prefix and the
    database clock.
   */
  function DexAddCall(db: TradeDb, auth: AdminAuth.Verdict, p: DexAdd, newId: int, hex8: string, now: int): (r: Result<TradeDb, HttpError>)
    requires KeysUnique(db.coins)
    ensures auth.Refused? ==> r == Err(auth.error)
    ensures auth.Crashed? ==> r == Err(AuthCrash)
    ensures auth.Admitted? && !ValidDexAdd(p) ==> r.Err? && r.error.status == 422
    ensures r.Ok? ==> auth.Admitted? && ValidDexAdd(p)
    ensures r.Ok? ==> var up := UpsertCoin(db.coins, Lower(p.ca), p.name, p.symbol, p.launchTs, p.chain, Dex);
      var tid := "trade_" + hex8;
      r.value.coins == up.coins
      && r.value.trades == db.trades + [TradeRow(newId, tid, Lower(p.ca), up.row.chain, p.entryMcap, p.size, now,
                                                 None, None, None)]
      && RowsOf(r.value.extras.clusters, tid) == p.bubbles.clusters
      && RowsOf(r.value.extras.others, tid) == p.bubbles.others
      && (p.intuitionScore.None? ==> r.value.extras.scores == db.extras.scores)
      && (p.intuitionScore.Some? ==>
            RowsOf(r.value.extras.scores, tid) == RowsOf(db.extras.scores, tid) + [p.intuitionScore.value])
  {
    if auth.Refused? then Err(auth.error)
    else if auth.Crashed? then Err(AuthCrash)
    else if !ValidDexAdd(p) then Err(Rejected(false).value)
    else
      var ca := Lower(p.ca);
      var up := UpsertCoin(db.coins, ca, p.name, p.symbol, p.launchTs, p.chain, Dex);
      var tid := "trade_" + hex8;
      var trade := TradeRow(newId, tid, ca, up.row.chain, p.entryMcap, p.size, now, None, None, None);
      var extras := InsertScore(SetBubbles(db.extras, tid, p.bubbles), tid, p.intuitionScore);
      Ok(TradeDb(up.coins, db.trades + [trade], extras))
  }

  datatype InfluencerAdd = InfluencerAdd(ca: string, name: Option<string>, symbol: Option<string>,
                                         launchTs: Option<int>, chain: Option<string>, platform: string,
                                         handle: string, postTs: int, postMcap: real,
                                         bubbles: BubblesData, intuitionScore: Option<int>)

  predicate ValidInfluencerAdd(p: InfluencerAdd) {
    |p.ca| >= 3 && |p.platform| >= 1 && |p.handle| >= 1 && p.postMcap > 0.0 && ValidBubbles(p.bubbles)
    && (p.intuitionScore.Some? ==> ValidScore(p.intuitionScore.value))
  }

  /** `INSERT ... ON CONFLICT (platform, handle)`: the existing account's id, or a new account with `newId`. */
  function UpsertAccount(accounts: seq<AccountRow>, platform: string, handle: string, newId: int): (r: (seq<AccountRow>, int))
    ensures exists i :: 0 <= i < |r.0| && r.0[i] == AccountRow(r.1, platform, handle)
    ensures AccountAt(accounts, platform, handle).Some? ==>
      r.0 == accounts && r.1 == accounts[AccountAt(accounts, platform, handle).value].accountId
    ensures AccountAt(accounts, platform, handle).None? ==>
      r.0 == accounts + [AccountRow(newId, platform, handle)] && r.1 == newId
  {
    match AccountAt(accounts, platform, handle)
    case Some(i) => (accounts, accounts[i].accountId)
    case None =>
      var acc := AccountRow(newId, platform, handle);
      assert (accounts + [acc])[|accounts|] == acc;
      (accounts + [acc], newId)
  }

  /**
    `influencer_add` (admin only): upsert the coin as an "influencer" source, upsert the
    account, insert the tip on the coin's chain, then set its bubbles and add its score.
   */
  function InfluencerAddCall(db: TipDb, auth: AdminAuth.Verdict, p: InfluencerAdd, newAccountId: int, newTipId: int): (r: Result<TipDb, HttpError>)
    requires KeysUnique(db.coins)
    ensures auth.Refused? ==> r == Err(auth.error)
    ensures auth.Crashed? ==> r == Err(AuthCrash)
    ensures auth.Admitted? && !ValidInfluencerAdd(p) ==> r.Err? && r.error.status == 422
    ensures r.Ok? ==> auth.Admitted? && ValidInfluencerAdd(p)
    ensures r.Ok? ==> var up := UpsertCoin(db.coins, Lower(p.ca), p.name, p.symbol, p.launchTs, p.chain, Influencer);
      var acc := UpsertAccount(db.accounts, p.platform, p.handle, newAccountId);
      r.value.coins == up.coins && r.value.accounts == acc.0
      && r.value.tips == db.tips + [TipRow(newTipId, acc.1, Lower(p.ca), Some(up.row.chain), p.postTs, p.postMcap,
                                           None, None, None)]
      && RowsOf(r.value.extras.clusters, newTipId) == p.bubbles.clusters
      && RowsOf(r.value.extras.others, newTipId) == p.bubbles.others
      && (p.intuitionScore.Some? <==> |RowsOf(r.value.extras.scores, newTipId)| == |RowsOf(db.extras.scores, newTipId)| + 1)
      && (p.intuitionScore.None? ==> r.value.extras.scores == db.extras.scores)
      && (p.intuitionScore.Some? ==>
            RowsOf(r.value.extras.scores, newTipId) == RowsOf(db.extras.scores, newTipId) + [p.intuitionScore.value])
  {
    if auth.Refused? then Err(auth.error)
    else if auth.Crashed? then Err(AuthCrash)
    else if !ValidInfluencerAdd(p) then Err(Rejected(false).value)
    else
      var ca := Lower(p.ca);
      var up := UpsertCoin(db.coins, ca, p.name, p.symbol, p.launchTs, p.chain, Influencer);
      var acc := UpsertAccount(db.accounts, p.platform, p.handle, newAccountId);
      var tip := TipRow(newTipId, acc.1, ca, Some(up.row.chain), p.postTs, p.postMcap, None, None, None);
      var extras := InsertScore(SetBubbles(db.extras, newTipId, p.bubbles), newTipId, p.intuitionScore);
      Ok(TipDb(up.coins, acc.0, db.tips + [tip], extras))
  }
}

=== FILE: wrappers.dfy ===
/** Option and Result values used across the model in place of null/None and raised errors. */
module Wrappers {

  /** A value that may be absent (JavaScript `null`/`undefined`, Python `None`). */
  datatype Option<+T> = None | Some(value: T) {
    function GetOr(default: T): T {
      match this
      case Some(v) => v
      case None => default
    }
  }

  /** The outcome of an operation that can fail with an error of type `E`. */
  datatype Result<+T, +E> = Ok(value: T) | Err(error: E)

  /** A JavaScript object used as a map: `m[k]`, absent when the key is not in it. */
  function MapGet(m: map<string, string>, k: string): (r: Option<string>)
    ensures r.Some? <==> k in m
    ensures r.Some? ==> r.value == m[k]
  {
    if k in m then Some(m[k]) else None
  }
}

/** HTTP-level values shared by the backend model: a raised `HTTPException` is an `HttpError`. */
module Http {

  /** FastAPI's `HTTPException(status_code, detail)`. */
  datatype HttpError = HttpError(status: int, detail: string)

  const BadRequestValidation := 422
  const NotFound := 404
  const Conflict := 409
  const Unauthorized := 401
  const InternalError := 500
  const BadGateway := 502
}
